=== FILE: README.md ===
# Ukrainian literature app — a Dafny model of its core

This project models the core of a learning app for the Ukrainian literature exam
programme (ЗНО/НМТ). The app has an Express server and a React client.

- **Server.** An in-memory store of users, authors, books, tests, reading
  progress and test results. Each table is a `Map` with a counter that hands out
  ids from 1. On top of the store sit the request handlers: listing and lookup
  with 404s, the reading-progress upsert and patch, and the mapping of a finished
  game onto a test-result row with test id 0.
- **Data hooks.** These are the client's reductions of server data:
  - deduplicating progress rows to the most recently read row per book;
  - exam-programme statistics;
  - the "recently read" list;
  - enriching test results with titles and maximum scores.
- **Reader.** Splitting a text into paragraphs, and greedy page packing by
  paragraph height with at most three paragraphs a page. Also page turning, the
  font and line-height buttons, restoring the saved page, and saving progress
  (patch the latest row or create one).
- **Games.** The quote puzzle (phrase fragments, shuffling, selection, swapping,
  hints, scoring), "guess the author" (question building, answering, the
  one-time result post) and the literary crossword (grid, typing, cursor
  movement, completion check).
- **Pages.** The theory page, which groups books by author. The profile, with
  per-category test statistics, sections, and progress and score bars. The
  library search and the assistant's book pick. The route table and bottom
  navigation. The sign-in and registration forms.

Everything is pure functions over immutable datatypes. Browser APIs, timers,
randomness and the network become parameters:
- element heights and the container height;
- the current time;
- a permutation standing for each shuffle;
- a hint pick;
- the outcome of each fetch (`Loaded`, `HttpError`, `NetworkError`);
- an e-mail predicate and a date parser.

The modules follow the program's structure:

| file | models |
|---|---|
| wrappers.dfy, numbers.dfy, text.dfy, seqs.dfy, grouping.dfy | `Option`/`Result`, JavaScript rounding on quotients, string helpers (trim, case maps, split/join, decimal rendering), sequence helpers, group-by in first-appearance order |
| schema.dfy | shared/schema.ts |
| storage.dfy | server/storage.ts (`MemStorage`) |
| routes.dfy | server/routes.ts |
| recency.dfy, progress_hooks.dfy | client/src/lib/hooks.ts |
| pagination.dfy, reader.dfy | client/src/pages/reader.tsx |
| quote_puzzle.dfy | client/src/pages/quote-puzzle.tsx |
| guess_author.dfy | client/src/pages/guess-author-game.tsx |
| crossword.dfy | client/src/pages/literary-crossword.tsx |
| profile.dfy | client/src/pages/profile.tsx |
| progress_card.dfy, progress_bar.dfy | client/src/components/reading-progress-card.tsx, progress-bar.tsx |
| library.dfy | client/src/pages/library.tsx |
| theory.dfy | client/src/pages/theory.tsx |
| app_nav.dfy | client/src/App.tsx |
| auth_forms.dfy | client/src/pages/auth-page.tsx |

## Model

| member | source | states |
|---|---|---|
| Schema.ParseProgressInsert | shared/schema.ts:88-94 | the body is refused exactly when `lastReadAt` is a non-empty string naming no instant (the route has made it an Invalid Date, server/routes.ts:102-106); otherwise a missing or empty `lastReadAt` becomes the current time, a given date value is kept, and every other field is copied unchanged |
| Schema.ParseResultInsert | shared/schema.ts:95-99 | `completedAt` is absent when none (or an empty one) was given; a given date is kept; a non-empty date string gives what the date parser gives, absent for an Invalid Date; every other field is copied unchanged |
| Schema.ProgressInsertReparse | shared/schema.ts:88-94 | validating an already validated progress insert again gives it back, whatever the clock says |
| Schema.ProgressInsertText | shared/schema.ts:91-93 | a non-empty date string resolves to the instant the parser gives, and is refused when the parser gives none |
| Storage.EmptyValid | server/storage.ts:74-92 | the fresh store satisfies the store invariant, with every counter at 1 |
| Storage.AppendListsLast | server/storage.ts:321-325 | a row stored under the counter's id is listed after every earlier row (Map insertion order) |
| Storage.OverwriteKeepsPlace | server/storage.ts:524-531 | overwriting a stored row keeps its place in the listing |
| Storage.InOrderMember | server/storage.ts:330-332 | every stored row appears in the listing, at the position of its id |
| Storage.FilterInOrderSorted | server/storage.ts:497-500 | a filtered listing of a valid store is in strictly ascending id order |
| Storage.GetUser | server/storage.ts:305-307 | found exactly when the id is a key; the stored row |
| Storage.GetUserByUsername | server/storage.ts:309-313 | a found user has that username and is stored; absence means no stored user has it |
| Storage.GetUserByEmail | server/storage.ts:315-319 | a found user has that e-mail and is stored; absence means no stored user has it |
| Storage.CreateUser | server/storage.ts:321-327 | the new user gets the counter's id and the insert's fields, the counter advances, nothing else changes, the invariant is kept |
| Storage.CreateUserKeepsUnique | server/storage.ts:321-327 | creating a user whose name the lookup does not find keeps usernames unique |
| Storage.CreatedUserFound | server/storage.ts:309-327 | after creation the username lookup returns exactly the new user |
| Storage.GetAuthors | server/storage.ts:330-332 | every stored author is listed, nothing else, in ascending id order |
| Storage.GetAuthor | server/storage.ts:334-336 | found exactly when the id is a key |
| Storage.CreateAuthor | server/storage.ts:338-343 | the new author is listed last, under the counter's id, and the invariant is kept |
| Storage.JoinAuthor | server/storage.ts:347-350 | a book is joined with the author its `authorId` names, or with none when that author is missing |
| Storage.GetBooks | server/storage.ts:346-351 | entry i is the i-th stored book in insertion order joined with its author, the author present exactly when the referenced author exists |
| Storage.GetBooksByCategory | server/storage.ts:353-360 | exactly the books of that category: every listed book is a stored book of the category, every stored book of the category is listed, each joined with its author |
| Storage.BooksByCategoryIsFilter | server/storage.ts:346-360 | the category listing is the full listing restricted to the category |
| Storage.GetBook | server/storage.ts:362-370 | found exactly when both the book and its author exist |
| Storage.CreateBook | server/storage.ts:372-393 | the new book is listed last under the counter's id, and the invariant is kept |
| Storage.AttachBook | server/storage.ts:397-415 | a test gets its book only for a non-zero book id whose book and author both exist |
| Storage.GetTests | server/storage.ts:396-418 | one entry per stored test, in order, each with its attached book |
| Storage.GetTestsByType | server/storage.ts:420-444 | only tests of that type, each with its attached book |
| Storage.TestsByTypeIsFilter | server/storage.ts:396-444 | the per-type listing is the full listing restricted to the type |
| Storage.GetTestsByBookId | server/storage.ts:446-462 | empty when the book or its author is missing; otherwise only that book's tests, each joined with it |
| Storage.TestsByBookIsFilter | server/storage.ts:396-462 | in a valid store, the per-book listing is the full listing restricted to the book |
| Storage.GetTest | server/storage.ts:464-479 | found exactly when the id is a key, with its attached book |
| Storage.CreateTest | server/storage.ts:481-494 | the new test is listed last under the counter's id, and the invariant is kept |
| Storage.GetUserProgress | server/storage.ts:497-500 | exactly the user's progress rows, in ascending id order |
| Storage.GetUserBookProgress | server/storage.ts:502-506 | a row of the user for the book, the lowest-id one; absent exactly when there is none |
| Storage.CreateUserProgress | server/storage.ts:508-522 | absent numbers become 0 and absent completion false; the row is listed last and the invariant is kept |
| Storage.PatchProgressLaws | server/storage.ts:528 | the spread merge: an empty patch changes nothing, and applying a patch twice is applying it once |
| Storage.UpdateUserProgress | server/storage.ts:524-531 | an unknown id is an error; otherwise the merged row replaces the stored one and the listing keeps its length |
| Storage.GetUserTestResults | server/storage.ts:534-537 | exactly the user's results, in ascending id order |
| Storage.GetTestResult | server/storage.ts:539-543 | a result of the user for the test, the lowest-id one (game results all share test id 0); absent exactly when there is none |
| Storage.NewResult | server/storage.ts:547-552 | absent completion is false; the completion time and every other field are copied |
| Storage.CreateTestResult | server/storage.ts:545-555 | the new result is listed last under the counter's id, and the invariant is kept |
| Storage.PatchResultLaws | server/storage.ts:562 | an empty patch changes nothing, and applying a patch twice is applying it once |
| Storage.UpdateTestResult | server/storage.ts:558-565 | an unknown id is an error; otherwise the merged row replaces the stored one |
| Routes.ListBooks | server/routes.ts:14-30 | with a non-empty category, the full listing restricted to it; otherwise every book |
| Routes.ShowBook | server/routes.ts:32-46 | 404 exactly when the id does not parse or the book or its author is missing |
| Routes.ListTests | server/routes.ts:48-68 | a non-empty type wins over a non-zero book id, which wins over the full listing |
| Routes.ListTestsIsFilter | server/routes.ts:48-68 | whichever branch runs, the answer is the full listing restricted to the type or book (empty for a missing book) |
| Routes.ShowTest | server/routes.ts:70-84 | 404 exactly when the id does not parse or is not stored |
| Routes.UpsertPatch | server/routes.ts:119-125 | the update copies the five progress columns and leaves user and book alone |
| Routes.UpsertProgress | server/routes.ts:98-137 | in a valid store, an existing row for the user and book is updated in place (no new id); otherwise a row is created |
| Routes.PostProgressRoute | server/routes.ts:98-137 | in a valid store the request fails exactly when `lastReadAt` is a date string naming no instant; otherwise the upsert leaves a valid store and a row for the user and book, stamped now or with the given instant |
| Routes.UpsertKeepsOneRowPerBook | server/routes.ts:108-130 | one upsert never gives a user a second row for the same book |
| Routes.UpsertsKeepOneRowPerBook | server/routes.ts:108-130 | any run of upserts keeps one row per user and book |
| Routes.PatchProgressRoute | server/routes.ts:139-166 | the request fails exactly when `lastReadAt` is a date string naming no instant or the id is unknown; `lastReadAt` always ends up set, to now when missing and to the parsed instant when given; user and book are untouched |
| Routes.PostTestResult | server/routes.ts:180-189 | the stored result has no completion time exactly when none was sent or the string sent names no instant, and completion defaults to false |
| Routes.GameTitle | server/routes.ts:213-217 | every game title starts with "Гра: "; the author game gets its Ukrainian name |
| Routes.GameTitlePrefixed | server/routes.ts:213-217 | every game type except the author game is stored as "Гра: " followed by the type, the quote puzzle included |
| Routes.GameResultInsert | server/routes.ts:195-219 | a game result has test id 0, maximum 100, completion time now, and is completed unless told otherwise |
| Routes.PostGameResult | server/routes.ts:192-227 | the stored game row carries those values and the store stays valid |
| Recency.Insert | client/src/lib/hooks.ts:85-89 | one insertion step of the stable sort keeps the elements and puts the new one after equal keys |
| Recency.InsertKeepsOrder | client/src/lib/hooks.ts:85-89 | inserting into a newest-first list keeps it newest first |
| Recency.SortNewest | client/src/lib/hooks.ts:85-89 | the sort is a permutation and newest first; rows without a date count as time 0 |
| Recency.SortHeadIsFirstMax | client/src/lib/hooks.ts:142-147 | the head of the stable sort is the first of the newest rows |
| Recency.Latest | client/src/lib/hooks.ts:140-147 | absent exactly when the book has no row; otherwise a row of the book read no earlier than any other |
| Recency.FirstPerIdMembers | client/src/lib/hooks.ts:92-98 | the dedup pass keeps only input rows with ids not seen before |
| Recency.FirstPerIdDistinct | client/src/lib/hooks.ts:92-98 | no book id is kept twice |
| Recency.FirstPerIdKeepsFirst | client/src/lib/hooks.ts:92-98 | each kept row is the first row of its id in the input |
| Recency.FirstPerIdCovers | client/src/lib/hooks.ts:92-98 | every unseen id of the input is kept |
| Recency.FirstPerIdKeepsNewest | client/src/lib/hooks.ts:85-98 | on a newest-first input, the row kept for a book is a newest one |
| Recency.FirstPerIdKeepsOrder | client/src/lib/hooks.ts:85-98 | the pass keeps a newest-first list newest first |
| ProgressHooks.BookById | client/src/lib/hooks.ts:82 | the `Map` built from the books finds a book with that id exactly when one is listed |
| ProgressHooks.DeduplicatedSpec | client/src/lib/hooks.ts:80-98 | one row per book; every book of the input covered, by a most recently read row; newest first |
| ProgressHooks.UserProgressView | client/src/lib/hooks.ts:59-120 | nothing without a user or on a failed fetch; raw rows while books are unknown; deduplicated rows with their titles otherwise |
| ProgressHooks.UserBookProgress | client/src/lib/hooks.ts:123-165 | nothing without user, book or data; otherwise the most recently read row of the book, absent exactly when it has none |
| Recency.LatestOfNewest | client/src/lib/hooks.ts:140-147 | a row read no earlier than any other row of its book is, up to ties in read time, the row the single-book lookup picks |
| ProgressHooks.ViewAgreesWithBookProgress | client/src/lib/hooks.ts:59-165 | the listing hook and the single-book hook agree on each listed book, up to ties |
| ProgressHooks.IdSet | client/src/lib/hooks.ts:192 | the set holds exactly the listed ids and is no larger than the list |
| ProgressHooks.ReadingProgress | client/src/lib/hooks.ts:168-216 | zeros while either list is missing; otherwise `read` is the number of completed rows whose book is a listed exam-programme book, the total is the number of exam-programme books, and the percentage read/total·100, or 0 when there are none |
| ProgressHooks.Percentage | client/src/lib/hooks.ts:200 | read/total·100 without rounding, 0 for no books, at most 100 when read ≤ total |
| ProgressHooks.ReadingProgressAtMost100 | client/src/lib/hooks.ts:189-200 | with distinct rows per book, completed exam books never exceed the total |
| ProgressHooks.ReadingProgressOfViewAtMost100 | client/src/lib/hooks.ts:59-200 | fed the deduplicated listing, the exam percentage is at most 100 |
| ProgressHooks.Collect | client/src/lib/hooks.ts:242-258 | the loop keeps catalogue books not yet taken, one entry per book, stopping at the limit (at least one entry); what it leaves out is stated by `CollectCovers` |
| ProgressHooks.CollectKeepsOrder | client/src/lib/hooks.ts:232-258 | collecting from a newest-first list keeps it newest first |
| ProgressHooks.CollectCovers | client/src/lib/hooks.ts:242-258 | on a newest-first list the loop leaves out an eligible book only once the list is full, and the left-out row is no newer than any entry taken |
| ProgressHooks.RecentlyRead | client/src/lib/hooks.ts:219-277 | unfinished catalogue books only, newest first, one per book, at most the limit; an unfinished catalogue book is left out only when the list is full, and then it was read no later than every listed entry |
| ProgressHooks.TestById | client/src/lib/hooks.ts:300 | the test `Map` finds a test exactly when one with that id is listed |
| ProgressHooks.DefaultMaxScore | client/src/lib/hooks.ts:325-329 | the test's question count when non-zero, else 20 |
| ProgressHooks.Enrich | client/src/lib/hooks.ts:309-336 | a game row with title and maximum is kept; otherwise a given title or maximum is kept and a missing one is filled from the test; only those two fields change |
| ProgressHooks.EnrichIdempotent | client/src/lib/hooks.ts:309-336 | enriching twice is enriching once |
| ProgressHooks.EnrichedNewest | client/src/lib/hooks.ts:302-336 | the results newest first by completion time, each with a non-zero maximum |
| ProgressHooks.EnrichedNewestIsPermutation | client/src/lib/hooks.ts:302-336 | the enriched list holds exactly the enriched input results |
| ProgressHooks.TestResultsView | client/src/lib/hooks.ts:286-343 | a failed fetch is an error; without tests the raw rows; with tests the sorted, enriched rows |
| ProgressHooks.TestsUrl | client/src/lib/hooks.ts:31-38 | the URL names the type when given, else a non-zero book id, else nothing |
| ProgressHooks.TestsUrlBookIdRoundTrip | client/src/lib/hooks.ts:36-37 | the book id written into the URL is the one read back from it |
| Pagination.Paragraphs | client/src/pages/reader.tsx:88 | the paragraphs are the non-blank lines of the text |
| Pagination.ParagraphsOfJoin | client/src/pages/reader.tsx:88 | non-blank lines joined by newlines split back into the same paragraphs |
| Pagination.ParagraphsSkipBlankLine | client/src/pages/reader.tsx:88 | a blank line between paragraphs is dropped |
| Pagination.ScaledHeight | client/src/pages/reader.tsx:97-102 | a paragraph's measured height, or a fifth of the container when it measures 0 (in fifths of a pixel) |
| Pagination.Place | client/src/pages/reader.tsx:106-114 | a paragraph opens a new page when it would overflow or the page holds three, else joins the last page; closed pages are untouched |
| Pagination.PlaceKeepsShape | client/src/pages/reader.tsx:99-115 | each packing step keeps the layout well packed |
| Pagination.PackFrom | client/src/pages/reader.tsx:99-115 | the loop places every remaining paragraph, in order |
| Pagination.PackFromKeepsClosedPages | client/src/pages/reader.tsx:99-115 | the loop only extends the last page or opens new ones |
| Pagination.Pack | client/src/pages/reader.tsx:90-115 | packing loses and reorders no paragraph and yields at least one page |
| Pagination.PackShape | client/src/pages/reader.tsx:99-115 | at most three paragraphs a page; no empty page after the first; pages of two or more fit; a page closes only when full or when the next paragraph would overflow it |
| Pagination.PackFirstPage | client/src/pages/reader.tsx:90-109 | the first page stays empty exactly when the first paragraph alone is taller than the page |
| Pagination.OnePerPage | client/src/pages/reader.tsx:116-125 | a short text gets one paragraph per page, or one empty page |
| Pagination.OnePerPageFlatten | client/src/pages/reader.tsx:116-125 | the short-text layout reads back as the paragraphs |
| Pagination.LayOut | client/src/pages/reader.tsx:87-130 | the pages read back as the text's paragraphs, and there is at least one page |
| Pagination.CalculatedTotal | client/src/pages/reader.tsx:95-133 | the two-page lower bound never binds: the calculated total is the number of laid-out pages, which is at least 2 for texts of more than five paragraphs |
| Pagination.LongTextNeedsTwoPages | client/src/pages/reader.tsx:99-115 | packing more than five paragraphs, at most three a page, gives at least two pages |
| Pagination.FinalTotal | client/src/pages/reader.tsx:141-143 | the stored count when set and not smaller than the calculated one, else the calculated one |
| Reader.ListedRow | client/src/pages/reader.tsx:52 | the first listed row for the book; absent exactly when none is listed |
| Reader.Load | client/src/pages/reader.tsx:38-81 | saved font settings always apply; until a row is loaded, a listed row with a positive page sets the page and, when it has a positive count, the page count; without such a row the locally saved page, if any, sets the page and the count is kept; once loaded, the page is never touched again |
| Reader.LoadOnce | client/src/pages/reader.tsx:47 | after a row is loaded, later loads change only the font settings |
| Reader.Paginate | client/src/pages/reader.tsx:84-177 | the pages are the layout; the page count is the count stored in the listed progress row when that is non-zero and not below the laid-out pages, otherwise the laid-out page count; a page beyond the count goes back to 1, any other is kept |
| Reader.Shown | client/src/pages/reader.tsx:415 | the current page's paragraphs, or nothing past the laid-out pages |
| Reader.ShownPagesCoverText | client/src/pages/reader.tsx:88-130 | paging through shows every paragraph once, in order |
| Reader.PreviousPage | client/src/pages/reader.tsx:287-291 | one page back, except on the first page |
| Reader.NextPage | client/src/pages/reader.tsx:293-297 | one page forward, except on the last page |
| Reader.PageTurnsStayInBook | client/src/pages/reader.tsx:287-297 | page turns stay within the book, and back undoes forward |
| Reader.NextPageRepeated | client/src/pages/reader.tsx:293-297 | k steps forward reach page min(start + k, last) |
| Reader.FontDown | client/src/pages/reader.tsx:370-371 | exactly two points smaller, or 14 when that would go below, and no change at 14 or less; every other setting kept |
| Reader.FontUp | client/src/pages/reader.tsx:379-380 | exactly two points larger, or 26 when that would go above, and no change at 26 or more; every other setting kept |
| Reader.LineHeightDown | client/src/pages/reader.tsx:388-389 | exactly 0.2 tighter, or 1.2 when that would go below, and no change at 1.2 or less; every other setting kept |
| Reader.LineHeightUp | client/src/pages/reader.tsx:397-398 | exactly 0.2 looser, or 2.4 when that would go above, and no change at 2.4 or more; every other setting kept |
| Reader.FontButtonsInverse | client/src/pages/reader.tsx:370-380 | A+ then A- returns to an even size within range |
| Reader.FontStaysInRange | client/src/pages/reader.tsx:370-380 | the buttons never leave 14..26 |
| Reader.PageBarWidth | client/src/pages/reader.tsx:448 | between 0 and 100 on a page of the book, and 100 on the last page |
| Reader.Apply | client/src/pages/reader.tsx:38-314 | no event makes the page count non-positive; only a load can move the reader off the book's pages |
| Reader.RunKeepsPagesKnown | client/src/pages/reader.tsx:133-153 | every reachable state has a positive page count, so the saving effect never divides by zero |
| Reader.RunStaysOnAPage | client/src/pages/reader.tsx:287-297 | without loads, the reader stays on a page of the book |
| Reader.WriteBody | client/src/pages/reader.tsx:222-250 | page, count and completion as shown; the percentage lies in 0..100 and is 100 on the last page |
| Reader.WriteAction | client/src/pages/reader.tsx:215-275 | no write without a book, a user or data; a patch of the latest row for the book when there is one, else a creation |
| Reader.WriteAlwaysSent | client/src/pages/reader.tsx:252-267 | with a positive page count, a signed-in reader always sends a write |
| Reader.PatchLands | client/src/pages/reader.tsx:252-258 | when the reader's write is a patch, it reaches a stored row, which then records the reader's state |
| Reader.CreateLands | client/src/pages/reader.tsx:259-267 | when the reader's write is a creation, no row existed before, and the new row records the reader's state |
| QuotePuzzle.PhraseGroups | client/src/pages/quote-puzzle.tsx:138-158 | the phrase loop loses no text: its phrases, before trimming, concatenate to the pending text followed by the remaining parts |
| QuotePuzzle.PhrasesCoverQuote | client/src/pages/quote-puzzle.tsx:138-158 | when the punctuation split keeps every character, the untrimmed phrases concatenate back to the quote |
| QuotePuzzle.ChunksJoin | client/src/pages/quote-puzzle.tsx:164-171 | the word chunks joined by spaces give back the words joined by spaces |
| QuotePuzzle.WordChunks | client/src/pages/quote-puzzle.tsx:161-172 | a short quote is cut into one to five chunks that join back into the quote |
| QuotePuzzle.Fragments | client/src/pages/quote-puzzle.tsx:135-172 | there is at least one fragment; fewer than three phrases fall back to word chunks that rebuild the quote |
| QuotePuzzle.InitialPieces | client/src/pages/quote-puzzle.tsx:175-180 | piece `i` is fragment `i` with id and original position `i`, not yet flagged as placed |
| QuotePuzzle.Start | client/src/pages/quote-puzzle.tsx:175-190 | the first deal (the selection starts empty, and "next" clears it before dealing): a board that is a rearrangement of the initial pieces, nothing flagged or selected, every counter at 0 |
| QuotePuzzle.Reshuffle | client/src/pages/quote-puzzle.tsx:129-190 | the "shuffle" and "try again" buttons re-deal the same quote as a rearrangement of its pieces, nothing flagged, every counter at 0, but keep a pending selection, which still names a position of the board; with nothing selected it is the first deal |
| QuotePuzzle.Swap | client/src/pages/quote-puzzle.tsx:214-217 | the two positions exchange their pieces, every other position keeps its piece, and the pieces are the same |
| QuotePuzzle.Marked | client/src/pages/quote-puzzle.tsx:220-223 | a piece is flagged exactly when it is at its original position; nothing else about it changes |
| QuotePuzzle.MarkedFlags | client/src/pages/quote-puzzle.tsx:228-231 | after marking, "every piece flagged" is "every piece at its original position" |
| QuotePuzzle.Score | client/src/pages/quote-puzzle.tsx:241-242 | the score lies between 10 and 100 and is 100 less 5 per swap and 10 per hint, at least 10 |
| QuotePuzzle.ScoreMonotone | client/src/pages/quote-puzzle.tsx:241-242 | more swaps or more hints never raise the score |
| QuotePuzzle.Complete | client/src/pages/quote-puzzle.tsx:237-264 | the puzzle completes with the score of the counters before the finishing move; a result is posted exactly for a signed-in player |
| QuotePuzzle.Select | client/src/pages/quote-puzzle.tsx:201-234 | nothing once complete; select, deselect on a second click, or swap with one more attempt, completing exactly when every piece is in place |
| QuotePuzzle.HintChoice | client/src/pages/quote-puzzle.tsx:280-284 | the hint picks a piece of the board not flagged as placed |
| QuotePuzzle.HintSwap | client/src/pages/quote-puzzle.tsx:285-298 | the picked piece lands on its original position and the board keeps the same pieces |
| QuotePuzzle.Hint | client/src/pages/quote-puzzle.tsx:275-314 | nothing once complete; otherwise the hint is counted, and with an unflagged piece the swap happens and may complete the puzzle |
| QuotePuzzle.HintMove | client/src/pages/quote-puzzle.tsx:289-313 | a counted hint's swap clears the selection and completes the puzzle exactly when every piece is in place |
| QuotePuzzle.HintPlacesPiece | client/src/pages/quote-puzzle.tsx:280-298 | a hint keeps the same pieces and puts the picked one at its original position, flagged |
| QuotePuzzle.SelectKeepsConsistent | client/src/pages/quote-puzzle.tsx:201-234 | swaps keep the pieces, and a completed puzzle has every piece in place with a score in 10..100 |
| QuotePuzzle.HintKeepsConsistent | client/src/pages/quote-puzzle.tsx:275-314 | a hint keeps the board a consistent puzzle: the same pieces, and a completed puzzle has every piece in place with a score in 10..100 |
| QuotePuzzle.NextQuoteIndex | client/src/pages/quote-puzzle.tsx:317-318 | the next quote in turn, back to the first after the last |
| QuotePuzzle.NextQuoteCycles | client/src/pages/quote-puzzle.tsx:317-318 | `k` presses of "next" show quote `k`, and `count` presses come back to the first |
| QuotePuzzle.NextQuote | client/src/pages/quote-puzzle.tsx:317-326 | the next quote in turn, back to the first after the last, dealt as a new board with score, counters, completion and selection reset |
| GuessAuthor.AllAuthorsSpec | client/src/pages/guess-author-game.tsx:59-65 | the option pool names each author once, at the first book naming them, and misses none |
| GuessAuthor.WithoutIsFilter | client/src/pages/guess-author-game.tsx:77 | leaving out the right author is the filter on a different id |
| GuessAuthor.OthersSpec | client/src/pages/guess-author-game.tsx:76-78 | up to three other authors, all from the pool, none the right one, distinct when the pool is |
| GuessAuthor.OptionsSpec | client/src/pages/guess-author-game.tsx:76-83 | the right author is among the options, with up to three others, each some other author of the pool |
| GuessAuthor.OptionsDistinct | client/src/pages/guess-author-game.tsx:76-83 | no author is offered twice, so exactly one option is right |
| GuessAuthor.PromptsSpec | client/src/pages/guess-author-game.tsx:68-93 | every question asks a quote of the catalogue with its true author, and every quote is asked |
| GuessAuthor.QuestionsFair | client/src/pages/guess-author-game.tsx:68-93 | drawn against distinct authors, every question is fair |
| GuessAuthor.PoolQuestion | client/src/pages/guess-author-game.tsx:68-93 | each question of the pool is fair and asks some quote of the catalogue with its true author |
| GuessAuthor.Setup | client/src/pages/guess-author-game.tsx:43-100 | no game exactly when no book has a quote; otherwise the author list breaks exactly when some book lacks its author; otherwise a fresh game of at most ten questions |
| GuessAuthor.SetupSpec | client/src/pages/guess-author-game.tsx:46-96 | a game is dealt only when every book carries its author, and every drawn question is fair and asks a quote of the catalogue with its true author |
| GuessAuthor.Answer | client/src/pages/guess-author-game.tsx:121-140 | answering stops the timer and adds a point exactly when the chosen option is the author; nothing else changes |
| GuessAuthor.Step | client/src/pages/guess-author-game.tsx:104-202 | every move keeps the game consistent; a result is posted only on the move that completes a signed-in game, with a score in 0..100 |
| GuessAuthor.CompletedPostsNothing | client/src/pages/guess-author-game.tsx:143-189 | a completed game posts nothing more until it restarts |
| GuessAuthor.PostsAtMostOnce | client/src/pages/guess-author-game.tsx:143-189 | between restarts the result is posted at most once |
| GuessAuthor.SubmissionEnds | client/src/pages/guess-author-game.tsx:147 | all answers right saves 100, none right saves 0 |
| GuessAuthor.VerdictMonotone | client/src/pages/guess-author-game.tsx:235-246 | more right answers never earn a lesser message |
| GuessAuthor.PercentAtLeast | client/src/pages/guess-author-game.tsx:147 | the saved rounded percentage is at least any bound the exact share reaches |
| GuessAuthor.PercentAtMost | client/src/pages/guess-author-game.tsx:147 | the saved rounded percentage is at most any bound the exact share stays below |
| GuessAuthor.VerdictAgreesWithSaved | client/src/pages/guess-author-game.tsx:235-246 | the message band, chosen on the exact share, contains the saved rounded percentage |
| Crossword.IndexAt | client/src/pages/literary-crossword.tsx:88-90 | the letter of a word at a square, if any, is the one whose position is that square |
| Crossword.MaxRow | client/src/pages/literary-crossword.tsx:65-69 | the largest last row of the words, reached by some word |
| Crossword.MaxCol | client/src/pages/literary-crossword.tsx:71-75 | the largest last column of the words, reached by some word |
| Crossword.LastWriter | client/src/pages/literary-crossword.tsx:87-104 | a square is written exactly when some word passes through it, with an unrevealed letter |
| Crossword.PaintFromCell | client/src/pages/literary-crossword.tsx:88-103 | writing a word rewrites exactly its own squares inside the grid |
| Crossword.FillAllCell | client/src/pages/literary-crossword.tsx:87-104 | each square holds what the last word through it wrote, or what it held before |
| Crossword.GridCoversWords | client/src/pages/literary-crossword.tsx:65-84 | the grid is (last row + 1) × (last column + 1) and holds every letter of every word |
| Crossword.GridCell | client/src/pages/literary-crossword.tsx:77-118 | a square holds the last letter written there, or is a revealed blank at its own position |
| Crossword.GridRevealed | client/src/pages/literary-crossword.tsx:106-118 | a square is revealed exactly when no word passes through it, and holds a letter otherwise |
| Crossword.GridShowsWords | client/src/pages/literary-crossword.tsx:87-104 | with agreeing crossings, every word can be read off the grid |
| Crossword.Normalize | client/src/pages/literary-crossword.tsx:136-138 | a typed value keeps only its last character, upper-cased |
| Crossword.NormalizeIdempotent | client/src/pages/literary-crossword.tsx:136-138 | normalizing a kept value changes nothing |
| Crossword.CellIndex | client/src/pages/literary-crossword.tsx:142-144 | the first entry at the square, or none when no entry is there |
| Crossword.UniqueValueAt | client/src/pages/literary-crossword.tsx:338-343 | without repeated squares, each entry is the value its square shows |
| Crossword.Upsert | client/src/pages/literary-crossword.tsx:141-155 | the square then shows the new value; the list grows only for a new square and keeps one entry per square |
| Crossword.UpsertElsewhere | client/src/pages/literary-crossword.tsx:141-155 | an update leaves every other square's value alone |
| Crossword.CheckFrom | client/src/pages/literary-crossword.tsx:199-212 | the per-word check passes exactly when every remaining square holds its letter |
| Crossword.CorrectNumbers | client/src/pages/literary-crossword.tsx:192-217 | the numbers of the correct words; all of them exactly when the puzzle is solved |
| Crossword.SolvedIsConsistent | client/src/pages/literary-crossword.tsx:192-221 | a solved puzzle has no two crossing letters that differ |
| Crossword.SolutionEntries | client/src/pages/literary-crossword.tsx:192-221 | the full answer sheet holds the entry of every letter and nothing else |
| Crossword.ConsistentIsSolvable | client/src/pages/literary-crossword.tsx:192-221 | with agreeing crossings, the full answer sheet solves the puzzle |
| Crossword.SolvableIffConsistent | client/src/pages/literary-crossword.tsx:192-221 | some input solves the puzzle exactly when its crossings agree |
| Crossword.DataClash | client/src/pages/literary-crossword.tsx:54-59 | square (0, 4) must hold the fifth letter of БАЛАДА and the first of РОМАН, which differ |
| Crossword.DataNeverSolved | client/src/pages/literary-crossword.tsx:53-62 | no input solves the shipped words |
| Crossword.DataNeverCompletes | client/src/pages/literary-crossword.tsx:53-62 | the shipped puzzle never reaches its success screen, whatever the player does |
| Crossword.NoClashWith | client/src/pages/literary-crossword.tsx:192-221 | words on distinct lines whose across–down crossings agree never clash |
| Crossword.CorrectedDataConsistent | client/src/pages/literary-crossword.tsx:53-62 | every crossing of the corrected layout agrees |
| Crossword.CorrectedDataSolvable | client/src/pages/literary-crossword.tsx:53-62 | the corrected layout can be completed |
| Crossword.MoveToNext | client/src/pages/literary-crossword.tsx:262-296 | the first open square after the selection in its direction, or the selection when there is none |
| Crossword.Initial | client/src/pages/literary-crossword.tsx:40-47 | a valid page with nothing entered, selected or completed |
| Crossword.Typed | client/src/pages/literary-crossword.tsx:134-189 | the handler as intended (the corrected half of the finding below, not what the page runs): the square shows the normalized value; a non-blank entry moves on and completes the puzzle exactly when it is then solved |
| Crossword.StaleView | client/src/pages/literary-crossword.tsx:141-155 | the delayed check sees an overwritten entry but not an appended one |
| Crossword.TypedAsWritten | client/src/pages/literary-crossword.tsx:134-189 | the handler the page runs: the entries are as intended, but completion is judged on the entries the delayed check sees |
| Crossword.SolvedKeepsNewSquare | client/src/pages/literary-crossword.tsx:141-155 | filling a square that had no entry leaves a solved puzzle solved |
| Crossword.TypedValid | client/src/pages/literary-crossword.tsx:134-189 | the intended handler keeps the page valid |
| Crossword.TypedAsWrittenValid | client/src/pages/literary-crossword.tsx:134-189 | the handler as written keeps the page valid: its stale check never shows the success screen for an unsolved puzzle |
| Crossword.StaleCheckAgreesOnEnteredSquares | client/src/pages/literary-crossword.tsx:141-187 | overwriting a square's entry completes the puzzle as written exactly when it does as intended |
| Crossword.StaleCheckMissesLastLetter | client/src/pages/literary-crossword.tsx:141-187 | as written, the keystroke that fills the last empty square does not complete a solved puzzle |
| Crossword.FreshCheckSeesLastLetter | client/src/pages/literary-crossword.tsx:192-221 | checked against the current entries, that keystroke completes it |
| Crossword.Clicked | client/src/pages/literary-crossword.tsx:231-259 | revealed squares ignore clicks; a second click flips the direction; otherwise the direction follows the neighbouring letters |
| Crossword.ClickTwice | client/src/pages/literary-crossword.tsx:235-236 | clicking the selected square twice restores the direction |
| Crossword.ArrowTarget | client/src/pages/literary-crossword.tsx:303-326 | an arrow moves one square in its direction when that square is inside the grid |
| Crossword.Pressed | client/src/pages/literary-crossword.tsx:299-328 | Tab moves to the next open square; arrows set the direction and step; entries and completion are untouched |
| Crossword.Cleared | client/src/pages/literary-crossword.tsx:331-335 | entries, completion and correct words reset; grid, words, selection and direction stay |
| Crossword.Step | client/src/pages/literary-crossword.tsx:134-335 | one event on the page as written (typing through the delayed check) keeps it valid; after completion only clearing changes anything |
| Crossword.Run | client/src/pages/literary-crossword.tsx:134-335 | any run of events keeps the page valid, with the same grid and words |
| ProgressBar.Normalized | client/src/components/progress-bar.tsx:8 | the width lies in 0..100 and equals the percentage when that is in range |
| ProgressBar.NormalizedIdempotent | client/src/components/progress-bar.tsx:8 | clamping twice is clamping once |
| ProgressBar.NormalizedMonotone | client/src/components/progress-bar.tsx:8 | a larger percentage never draws a shorter bar |
| ProgressCard.Percentage | client/src/components/reading-progress-card.tsx:35-37 | 0 without pages; within 0..100 for a page within the book; 100 on the last page, 0 on page 0 |
| ProgressCard.StatusOf | client/src/components/reading-progress-card.tsx:40-51 | finished exactly for a completed row; the page line exactly for an unfinished row past page 0 |
| ProgressCard.StatusTextReadsBack | client/src/components/reading-progress-card.tsx:40-51 | every status line reads back as its status |
| ProgressCard.StatusTextInjective | client/src/components/reading-progress-card.tsx:40-51 | distinct statuses show distinct lines |
| ProgressCard.CardAgreesWithReader | client/src/components/reading-progress-card.tsx:35-44 | for a row the reader wrote, the card shows the stored percentage and "finished" exactly on the last page |
| Profile.AverageScore | client/src/pages/profile.tsx:68-70 | 0 for no results, else the mean score rounded to the nearest integer |
| Profile.ScoreSumBounds | client/src/pages/profile.tsx:68-70 | the sum of scores lies between count × lowest and count × highest |
| Profile.AverageWithinScores | client/src/pages/profile.tsx:68-70 | the average lies between the lowest and the highest score |
| Profile.TypeOf | client/src/pages/profile.tsx:75-78 | quote titles are quotes, hero or character titles characters, everything else (a missing title too) works |
| Profile.QuoteTitleIsQuotes | client/src/pages/profile.tsx:75 | a title mentioning quotes is a quote test, whatever else it mentions |
| Profile.StatCountIsCount | client/src/pages/profile.tsx:88-92 | the statistics lines count every grouped result once |
| Profile.TestTypeStats | client/src/pages/profile.tsx:73-92 | at most three lines with distinct types; each counts and averages exactly its type's results; every result is counted |
| Profile.ListOf | client/src/pages/profile.tsx:173-203 | the first three entries and how many more, or the empty message |
| Profile.Matching | client/src/pages/profile.tsx:175-176 | a section's rows are exactly the rows of its kind |
| Profile.MatchingKeepsOrder | client/src/pages/profile.tsx:175-176 | a section keeps the rows in the order of the progress list |
| Profile.ProgressSection | client/src/pages/profile.tsx:173-274 | the "none yet" message exactly when no row is of the kind; otherwise the first three matching rows, in list order, and the count of the rest |
| Profile.SectionsPartition | client/src/pages/profile.tsx:173-274 | every progress row lies in exactly one of the two sections |
| Profile.ResultsSection | client/src/pages/profile.tsx:278-280 | nothing without results; otherwise the first three (or fewer) results and how many more |
| Profile.DisplayedTotal | client/src/pages/profile.tsx:231-234 | at least 2: a page count of one or less displays as 11, larger counts as they are |
| Profile.UnfinishedBar | client/src/pages/profile.tsx:245-252 | with a page count, at most 100 and not negative for a non-negative page; without one, the stored progress |
| Profile.UnfinishedBarAgreesWithReader | client/src/pages/profile.tsx:245-252 | for a row the reader wrote on an unfinished book, the bar shows the stored percentage |
| Profile.ShownMax | client/src/pages/profile.tsx:286 | a missing or zero maximum shows as 20 |
| Profile.TestBar | client/src/pages/profile.tsx:291 | at most 100, not negative for a non-negative score, and full at or above the shown maximum |
| Profile.TestBarMonotone | client/src/pages/profile.tsx:291 | a higher score never draws a shorter bar |
| Library.FilterBooks | client/src/pages/library.tsx:36-44 | no data gives nothing; a blank query the list; otherwise, unless some book throws, exactly the matching books in order |
| Library.FilterBooksIdempotent | client/src/pages/library.tsx:36-44 | searching the search result again changes nothing |
| Library.SuggestedTitle | client/src/pages/library.tsx:52-53 | no whitespace at either end; the whole trimmed name when it has no " - " |
| Library.SelectBook | client/src/pages/library.tsx:50-65 | the first book whose title contains the suggested title opens; when none does, the title becomes the query |
| Library.FallbackSearchFindsAuthorsOnly | client/src/pages/library.tsx:40-64 | after a fallback, the search can list only books whose author matches |
| Library.BlankTitleOpensFirstBook | client/src/pages/library.tsx:52-60 | a blank suggested title opens the first book |
| Theory.BooksByAuthor | client/src/pages/theory.tsx:13-20 | a crash exactly when some book has no author; otherwise one group per author name, holding every book |
| Theory.PageView | client/src/pages/theory.tsx:37-60 | a crash on a missing author whatever the loading flag; loading; no headings for an empty list; "nothing found" only without data |
| Theory.BadgeCount | client/src/pages/theory.tsx:33 | the number of books, or 0 without data |
| Theory.ListedUnderItsAuthor | client/src/pages/theory.tsx:13-20 | each book is listed under its author's name and under no other heading |
| Theory.HeadingKeepsOrder | client/src/pages/theory.tsx:13-20 | under each heading the books keep the server's order |
| AppNav.ActiveSection | client/src/App.tsx:32-39 | each section is highlighted for exactly its locations; anything else highlights home |
| AppNav.Param | client/src/App.tsx:62-66 | an `:id` is one non-empty path segment after the prefix |
| AppNav.Canonical | client/src/App.tsx:55-69 | the form wouter compares: the lower-cased location, less one trailing '/' when it is more than "/" |
| AppNav.FixedMatch | client/src/App.tsx:56-61 | a fixed pattern matches a location exactly when the location, lower-cased, is the pattern with or without one trailing '/' |
| AppNav.ParamMatch | client/src/App.tsx:62-63 | an `:id` pattern matches exactly when the lower-cased location is the prefix followed by one non-empty segment, with or without one trailing '/' |
| AppNav.Route | client/src/App.tsx:55-69 | the `<Switch>` shows a page exactly when the canonical form is in the route table, with that entry's section and kind |
| AppNav.BookFound | client/src/App.tsx:62 | a book's location shows that book, with the id in the case the location gives it |
| AppNav.ReaderFound | client/src/App.tsx:63 | a reader location shows the reader of that book, id case kept |
| AppNav.TestFound | client/src/App.tsx:66 | a test location shows that test, id case kept |
| AppNav.RouteFindsPage | client/src/App.tsx:55-69 | every page is shown at its own location |
| AppNav.RoutedSection | client/src/App.tsx:32-69 | on a location already in canonical form, the highlighted entry is the section of the page shown |
| AppNav.RoutedNavigation | client/src/App.tsx:28-72 | on a location already in canonical form, the bar is hidden exactly on the reader and the sign-in page |
| AppNav.SectionFollowsPage | client/src/App.tsx:32-69 | at each page's own location, the highlighted entry is that page's section |
| AppNav.NavigationFollowsPage | client/src/App.tsx:28-72 | at each page's own location, the bar is hidden exactly on the reader and the sign-in page |
| AppNav.LooseLocationsMisread | client/src/App.tsx:28-39 | "/theory/" and "/Theory" show the theory page but highlight home; "/Reader/5" shows the reader with the bar; "/auth/" shows sign-in with the bar |
| AppNav.CorrectedShellFollowsRoute | client/src/App.tsx:28-72 | comparing the canonical form, the highlight is the section of the page shown and the bar is hidden exactly on the reader and sign-in, at every routed location |
| AuthForms.MinLength | client/src/pages/auth-page.tsx:30-39 | a length rule fails exactly when the value is shorter than its bound |
| AuthForms.LoginIssues | client/src/pages/auth-page.tsx:29-32 | each empty field shows its "required" message, and only those |
| AuthForms.RegisterIssues | client/src/pages/auth-page.tsx:34-43 | each field shows exactly the messages of its failed rules, the mismatch after "required" under the confirmation |
| AuthForms.ConfirmationMessage | client/src/pages/auth-page.tsx:39-43 | an empty confirmation shows "required"; a filled one that differs shows the mismatch |
| AuthForms.SubmitLogin | client/src/pages/auth-page.tsx:71-73 | the credentials are sent as typed exactly when both are filled in |
| AuthForms.SubmitRegister | client/src/pages/auth-page.tsx:75-78 | the payload is sent exactly when every rule holds |
| AuthForms.PayloadRoundTrip | client/src/pages/auth-page.tsx:75-78 | refilling a sent payload gives back the accepted form |
| AuthForms.EveryValidPayloadIsSent | client/src/pages/auth-page.tsx:34-78 | every payload meeting the rules is sent unchanged |
| Crossword.Empty | client/src/pages/literary-crossword.tsx:77-84 | a grid of the given shape whose every square is blank |
| Crossword.NextAcross | client/src/pages/literary-crossword.tsx:268-280 | the first open square of the row at or after a column, and no open square is skipped |
| Crossword.NextDown | client/src/pages/literary-crossword.tsx:281-293 | the first open square of the column at or after a row, and no open square is skipped |
| Storage.IndexOfUsername | server/storage.ts:309-313 | the position of the first user with that name; absent exactly when no user has it |
| Text.Trim | client/src/pages/library.tsx:38 | the trimmed text has no whitespace at either end, is a slice of the input, and is empty exactly for a blank input |
| Text.Lower | client/src/pages/library.tsx:40-42 | a character-wise lower-casing of the same length |
| Profile.StatsOfGrouping | client/src/pages/profile.tsx:73-92 | grouping by test type and summarising gives at most three distinct types, each with its own results' count and average, covering every result |
| AuthForms.RegisterRulesInOrder | client/src/pages/auth-page.tsx:34-43 | the rules of the registration form, checked in order, give each field exactly its expected messages |
| AuthForms.Payload | client/src/pages/auth-page.tsx:75-78 | the confirmation is dropped and every other field is sent as entered |
| GuessAuthor.Run | client/src/pages/guess-author-game.tsx:104-202 | any run of moves keeps the game consistent |

## Left out

- Page layout measurement: the container height and each paragraph's measured height are inputs to `Pagination`. They are counted in fifths of a pixel, so the fallback height of a fifth of the container stays exact. The float product `0.2 * clientHeight` is not modelled.
- Line spacing is kept in tenths (12..24). The float steps of 0.2 in client/src/pages/reader.tsx, and their rounding error, are not modelled.
- `Math.round` is modelled on exact quotients (`Numbers.RoundQuotient`). A float quotient that lands just beside a .5 boundary can round differently in JavaScript.
- Randomness is an argument. A shuffle is a permutation argument (an argument that is not a permutation leaves the order unchanged). The hint's random pick is a number taken modulo the count of candidates. The question draw of "guess the author" is a draw function plus a chosen ordering.
- Time is an argument: timestamps are integer milliseconds, and "now" is passed in. Date parsing of strings (`new Date(text)`) is a parameter, `Schema.DateParser`, which gives no instant for a string JavaScript turns into an Invalid Date.
- Request bodies are typed records. zod's refusal of a field of the wrong type or a missing required field is not modelled; each validating route answers that with a 500. The one refusal a well-typed body can meet is modelled: a progress date string naming no instant (`Routes.PostProgressRoute`, `Routes.PatchProgressRoute`).
- Schema.ParseResultInsert: the schema accepts any `completedAt` string, so an unparsable one is stored as an Invalid Date, which the JSON response renders as `null`. The model stores an absent time instead. The database store's insert of such a date is not modelled.
- Timers are explicit steps. The one-second countdown of "guess the author" is a `Tick` move. The crossword's 50 ms `setTimeout` runs at once, against the entries and selection its closure captured (`Crossword.TypedAsWritten`, which `Crossword.Step` and `Crossword.Run` use). The reader's scroll reset and delayed effects are not modelled.
- Network and caching: every fetch is an input outcome (body, HTTP error, thrown error). React Query's caching, retries, invalidation, toasts and loading spinners are not modelled. Failed game-result POSTs are not modelled; a post is an output of the step that makes it.
- `localStorage` (the reader's saved font size, line spacing and page) is a `Saved` record passed in.
- Persistence: the progress and result routes in server/routes.ts call `dbStorage` (server/database-storage.ts, which is not part of this model). The model runs them against the in-memory store, with one difference in how a patch is applied. In the model, a `None` field of a patch keeps the stored value. The spread `{ ...existing, ...progress }` (server/storage.ts:528) does that for a key the patch does not have. Drizzle's `.set` (server/database-storage.ts:144-150) also does it for a key whose value is undefined. The upsert's update (server/routes.ts:119-125) always passes all five keys, and some may be undefined. `Routes.UpsertPatch` turns those into `None`, so this route follows `dbStorage`. Under the in-memory spread, an undefined value would overwrite the stored field; that behaviour is not modelled.
- The seed catalogue built in the store's constructor (server/storage.ts:108-302) and the file read behind `readFullText` are not modelled; the store starts empty.
- Requests run one at a time. The read-then-write of the progress upsert (server/routes.ts:109-130 and the reader's write effect) is not atomic in the source, and concurrent interleavings are not modelled.
- The language-model assistant (server/openai.ts, the recommendation page and the assistant widget) is not part of this model. Only the book pick that follows a suggestion is (`Library.SelectBook`).
- Sessions, password hashing and `ProtectedRoute` (lib/protected-route, which is not part of this model) are left out. The route table is modelled as if every page were reachable.
- Case mapping (`toLowerCase`, `toUpperCase`) covers ASCII and the Cyrillic letters used in Ukrainian. Other characters map to themselves, and Unicode special cases (multi-character results, locale rules) are not modelled.
- Strings are sequences of characters, which stands in for JavaScript's UTF-16 code units; characters outside the Basic Multilingual Plane are not modelled.
- zod's e-mail format check is the parameter `isEmail`, and the phrase splitter's regular expression in client/src/pages/quote-puzzle.tsx is the parameter `splitParts`.
- `Object.entries` on the statistics object lists keys in insertion order; the model keeps first-appearance order, which is what JavaScript gives for the non-numeric category keys used there.
- wouter's route matching is modelled for the patterns the app uses: a case-insensitive comparison (through `Text.Lower`) that allows one trailing '/', and an `:id` of one segment that keeps the location's case. Other pattern forms (optional, wildcard, nested) and the `base` option are not modelled.
- AppNav.SectionFollowsPage: states the highlight at each page's own canonical location only; the shell's exact comparisons misread other spellings of the same route, which is the finding below, and `AppNav.CorrectedShellFollowsRoute` states the corrected shell at every routed location.
- AppNav.NavigationFollowsPage: likewise for the bar, at each page's own canonical location.
- Presentational code is not modelled: icons, colours, badges' styling, the help dialog, the card and navigation components.
- The crossword's dead branch that picks an orientation when none is set (client/src/pages/literary-crossword.tsx:162-176) is left out: the orientation starts as across and is never cleared.
- Crossword.Upsert: the source overwrites the entry object in place, and the list before the update shares that object. The model returns a new list; what the delayed check sees of the overwrite is modelled separately by `Crossword.StaleView`.
- QuotePuzzle.Fragments: states the word fallback only. What the punctuation path yields depends on the regular expression, which is a parameter.
- Profile.UnfinishedBar: states the bounds and the fallback to the stored progress, not the exact rounded page share; `Profile.UnfinishedBarAgreesWithReader` ties it to the percentage the reader stores.
- Profile.TestBar: states the bounds, the full bar and monotonicity (`Profile.TestBarMonotone`), not the exact rounded share.
- ProgressCard.Percentage: states the bounds and the end points, not the exact rounded share; `ProgressCard.CardAgreesWithReader` ties it to the percentage the reader stores.
- ProgressHooks.Percentage: the unrounded percentage of client/src/lib/hooks.ts:200 is a JavaScript float; the model gives it as an exact `real`, so the float's rounding error is not modelled.
- Library.SuggestedTitle: states that the title is trimmed, and what it is when the name has no " - ". It does not state, for a name that has one, that the title is the trimmed text before the first occurrence.

## Findings

| source | as written | input that shows it | evidently intended | confidence | as-written member | corrected member |
|---|---|---|---|---|---|---|
| client/src/pages/literary-crossword.tsx:53-62 | the shipped words cross with different letters | square (0, 4) is the fifth letter "Д" of БАЛАДА (across from (0, 0)) and the first letter "Р" of РОМАН (down from (0, 4)) | a layout whose crossings agree, so the puzzle can be completed | not executed | Crossword.DataNeverCompletes | Crossword.CorrectedDataSolvable |
| client/src/pages/literary-crossword.tsx:141-187 | the completion check in the 50 ms `setTimeout` reads the entries of the render that received the keystroke, which lack a newly appended entry | a one-letter puzzle "Я" at (0, 0), nothing entered, type "я" into (0, 0): every letter is entered, but the check sees no entries and the puzzle does not complete | the check judges the entries after the keystroke, so the last letter completes the puzzle | not executed | Crossword.StaleCheckMissesLastLetter | Crossword.FreshCheckSeesLastLetter |
| client/src/App.tsx:28-39 | the shell compares the raw location exactly and case-sensitively (`===`, `startsWith`), while wouter's `<Switch>` ignores case and allows one trailing '/' | "/theory/" and "/Theory" show the theory page but highlight home; "/Reader/5" shows the reader with the navigation bar over it; "/auth/" shows the sign-in page with the bar | the highlight and the bar follow the page the `<Switch>` shows, by comparing the same canonical form | not executed | AppNav.LooseLocationsMisread | AppNav.CorrectedShellFollowsRoute |

=== FILE: app_nav.dfy ===
/**
 * The application shell (client/src/App.tsx): which page a location shows, which
 * section of the bottom navigation is highlighted, and when that bar is shown.
 */
module AppNav {
  import opened Wrappers
  import Text

  /** The five entries of the bottom navigation. */
  datatype Section = HomeSection | TheorySection | GamesSection | LibrarySection | ProfileSection

  /** `getActiveSection`: the highlighted entry; paths it does not know highlight home. */
  function ActiveSection(location: string): (s: Section)
    ensures s == TheorySection <==> location == "/theory"
    ensures s == GamesSection <==>
      location == "/games" || Text.StartsWith(location, "/games/") || Text.StartsWith(location, "/test/")
    ensures s == LibrarySection <==> location == "/library" || location == "/ai-recommendations"
    ensures s == ProfileSection <==> location == "/profile"
  {
    assert Text.StartsWith(location, "/games/") ==> location[1] == 'g' && |location| >= 7;
    assert Text.StartsWith(location, "/test/") ==> location[1] == 't' && location[2] == 'e' && |location| >= 6;
    if location == "/" || location == "/home" then HomeSection
    else if location == "/theory" then TheorySection
    else if location == "/games" || Text.StartsWith(location, "/games/") || Text.StartsWith(location, "/test/") then GamesSection
    else if location == "/library" || location == "/ai-recommendations" then LibrarySection
    else if location == "/profile" then ProfileSection
    else HomeSection
  }

  /** The bottom bar is hidden on the reader and on the sign-in page. */
  predicate NavigationShown(location: string)
  {
    !Text.StartsWith(location, "/reader/") && location != "/auth"
  }

  /** The pages of the route table. */
  datatype Page =
    | HomePage | TheoryPage | GamesPage | LibraryPage | ProfilePage
    | BookPage(id: string) | ReaderPage(id: string)
    | GuessAuthorPage | QuotePuzzlePage | TestPage(id: string)
    | AssistantPage | AuthPage | NotFoundPage

  /** The `:id` of a location `prefix + id`: one non-empty path segment. */
  function Param(location: string, prefix: string): (r: Option<string>)
    ensures r.Some? ==> location == prefix + r.value && |r.value| > 0 && '/' !in r.value
    ensures r.None? ==> !(prefix <= location && |location| > |prefix| && '/' !in location[|prefix|..])
  {
    if prefix <= location && |location| > |prefix| && '/' !in location[|prefix|..] then
      assert location == prefix + location[|prefix|..];
      Some(location[|prefix|..])
    else None
  }

  /**
   * The route table read exactly: the first pattern that `path` spells out, case and
   * all, with no trailing '/'. This is how the shell's own checks compare.
   */
  function ExactRoute(path: string): (p: Page)
  {
    if path == "/" || path == "/home" then HomePage
    else if path == "/theory" then TheoryPage
    else if path == "/games" then GamesPage
    else if path == "/library" then LibraryPage
    else if path == "/profile" then ProfilePage
    else if Param(path, "/books/").Some? then BookPage(Param(path, "/books/").value)
    else if Param(path, "/reader/").Some? then ReaderPage(Param(path, "/reader/").value)
    else if path == "/games/guess-author" then GuessAuthorPage
    else if path == "/games/quote-puzzle" then QuotePuzzlePage
    else if Param(path, "/test/").Some? then TestPage(Param(path, "/test/").value)
    else if path == "/ai-recommendations" then AssistantPage
    else if path == "/auth" then AuthPage
    else NotFoundPage
  }

  /**
   * What wouter's patterns compare a location against: they ignore case and allow one
   * trailing '/', so the location is lower-cased and one trailing '/' dropped (the root
   * keeps its '/').
   */
  function Canonical(location: string): (c: string)
    ensures |c| <= |location| && c <= Text.Lower(location)
    ensures var l := Text.Lower(location); c == l || (|l| > 1 && l[|l| - 1] == '/' && l == c + "/")
  {
    var l := Text.Lower(location);
    if |l| > 1 && l[|l| - 1] == '/' then
      assert l == l[..|l| - 1] + "/";
      l[..|l| - 1]
    else l
  }

  /** One non-empty path segment: what `[^\/]+` matches. */
  predicate Segment(s: string)
  {
    |s| > 0 && '/' !in s
  }

  /** A fixed route, `^pattern\/?$` with the `i` flag: the lower-cased location is the pattern, with or without one trailing '/'. */
  lemma FixedMatch(location: string, pattern: string)
    requires |pattern| > 0 && (|pattern| == 1 || pattern[|pattern| - 1] != '/')
    ensures Canonical(location) == pattern <==>
      Text.Lower(location) == pattern || Text.Lower(location) == pattern + "/"
  {
    var l := Text.Lower(location);
    if l == pattern && |l| > 1 {
      assert l[|l| - 1] == pattern[|pattern| - 1];
    }
    if l == pattern + "/" {
      assert l[..|l| - 1] == pattern;
    }
  }

  /** An `:id` route, `^prefix([^\/]+?)\/?$` with the `i` flag: one segment after the prefix, with or without one trailing '/'. */
  lemma ParamMatch(location: string, prefix: string)
    requires |prefix| > 0 && prefix[|prefix| - 1] == '/'
    ensures var l := Text.Lower(location);
      Param(Canonical(location), prefix).Some? <==>
        prefix <= l && |l| > |prefix| &&
        (Segment(l[|prefix|..]) || (l[|l| - 1] == '/' && Segment(l[|prefix|..|l| - 1])))
  {
    var l := Text.Lower(location);
    var c := Canonical(location);
    if prefix <= l && |l| > |prefix| && Segment(l[|prefix|..]) {
      assert l[|l| - 1] == l[|prefix|..][|l| - 1 - |prefix|];
      assert c == l;
    }
    if prefix <= l && |l| > |prefix| && l[|l| - 1] == '/' && Segment(l[|prefix|..|l| - 1]) {
      assert c == l[..|l| - 1];
      assert c[|prefix|..] == l[|prefix|..|l| - 1];
    }
    if Param(c, prefix).Some? && c != l {
      assert c[|prefix|..] == l[|prefix|..|l| - 1];
    }
  }

  /** Where the `:id` of a page starts in its location. */
  function IdStart(page: Page): nat
  {
    if page.BookPage? then 7 else if page.ReaderPage? then 8 else 6
  }

  /** `page` with its `:id` read from the same place in `location`, in the case the location gives it. */
  function KeepCase(page: Page, location: string): (p: Page)
    requires page.BookPage? || page.ReaderPage? || page.TestPage? ==> IdStart(page) + |page.id| <= |location|
    ensures p == NotFoundPage <==> page == NotFoundPage
    ensures SectionOf(p) == SectionOf(page)
    ensures (p.ReaderPage? <==> page.ReaderPage?) && (p == AuthPage <==> page == AuthPage)
    ensures page.BookPage? ==> p == BookPage(location[7..7 + |page.id|])
    ensures page.ReaderPage? ==> p == ReaderPage(location[8..8 + |page.id|])
    ensures page.TestPage? ==> p == TestPage(location[6..6 + |page.id|])
  {
    if page.BookPage? || page.ReaderPage? || page.TestPage? then
      page.(id := location[IdStart(page)..IdStart(page) + |page.id|])
    else page
  }

  /**
   * The `<Switch>`: the first route whose pattern matches the location, compared as
   * wouter compares it. An `:id` keeps the case the location gives it.
   */
  function Route(location: string): (p: Page)
    ensures p == NotFoundPage <==> ExactRoute(Canonical(location)) == NotFoundPage
    ensures SectionOf(p) == SectionOf(ExactRoute(Canonical(location)))
    ensures p.ReaderPage? <==> ExactRoute(Canonical(location)).ReaderPage?
    ensures p == AuthPage <==> ExactRoute(Canonical(location)) == AuthPage
  {
    var c := Canonical(location);
    var page := ExactRoute(c);
    if page == NotFoundPage then page
    else
      RoutedLocation(c);
      KeepCase(page, location)
  }

  /** The section each page belongs to; pages outside the five sections fall back to home. */
  function SectionOf(p: Page): Section
  {
    match p
    case TheoryPage => TheorySection
    case GamesPage | GuessAuthorPage | QuotePuzzlePage | TestPage(_) => GamesSection
    case LibraryPage | AssistantPage => LibrarySection
    case ProfilePage => ProfileSection
    case _ => HomeSection
  }

  /** The location a page is reached at. */
  function PathOf(p: Page): string
  {
    match p
    case HomePage => "/"
    case TheoryPage => "/theory"
    case GamesPage => "/games"
    case LibraryPage => "/library"
    case ProfilePage => "/profile"
    case BookPage(id) => "/books/" + id
    case ReaderPage(id) => "/reader/" + id
    case GuessAuthorPage => "/games/guess-author"
    case QuotePuzzlePage => "/games/quote-puzzle"
    case TestPage(id) => "/test/" + id
    case AssistantPage => "/ai-recommendations"
    case AuthPage => "/auth"
    case NotFoundPage => "/404"
  }

  /** A location's characters agree with any prefix it starts with. */
  lemma PrefixChars(location: string, prefix: string)
    requires Text.StartsWith(location, prefix)
    ensures forall k :: 0 <= k < |prefix| ==> location[k] == prefix[k]
  {
  }

  /** A location differing from a prefix at some position does not start with it. */
  lemma NotPrefix(location: string, prefix: string, k: nat)
    requires k < |prefix| && k < |location| && location[k] != prefix[k]
    ensures !Text.StartsWith(location, prefix)
  {
  }

  /** What the exact route table tells about a path from the page it names. */
  lemma RoutedLocation(location: string)
    requires ExactRoute(location) != NotFoundPage
    ensures match ExactRoute(location)
      case BookPage(id) => location == "/books/" + id && location[1] == 'b'
      case ReaderPage(id) => location == "/reader/" + id && location[1] == 'r' && location[..8] == "/reader/"
      case TestPage(id) => location == "/test/" + id && location[..6] == "/test/"
      case HomePage => location == "/" || location == "/home"
      case TheoryPage => location == "/theory"
      case GamesPage => location == "/games"
      case LibraryPage => location == "/library"
      case ProfilePage => location == "/profile"
      case GuessAuthorPage => location == "/games/guess-author"
      case QuotePuzzlePage => location == "/games/quote-puzzle"
      case AssistantPage => location == "/ai-recommendations"
      case AuthPage => location == "/auth"
      case NotFoundPage => false
  {
    var p := ExactRoute(location);
    if p.BookPage? {
      PrefixChars(location, "/books/");
    } else if p.ReaderPage? {
      PrefixChars(location, "/reader/");
    }
  }

  /** A book's location highlights home and shows the bar. */
  lemma BookPath(id: string)
    ensures ActiveSection("/books/" + id) == HomeSection && NavigationShown("/books/" + id)
  {
    var loc := "/books/" + id;
    assert loc[1] == 'b' && |loc| >= 7;
    NotPrefix(loc, "/games/", 1);
    NotPrefix(loc, "/test/", 1);
    NotPrefix(loc, "/reader/", 1);
  }

  /** The reader's location highlights home and hides the bar. */
  lemma ReaderPath(id: string)
    ensures ActiveSection("/reader/" + id) == HomeSection && !NavigationShown("/reader/" + id)
  {
    var loc := "/reader/" + id;
    assert loc[1] == 'r' && |loc| >= 8;
    NotPrefix(loc, "/games/", 1);
    NotPrefix(loc, "/test/", 1);
    assert loc[..8] == "/reader/";
  }

  /** A test's location highlights the games and shows the bar. */
  lemma TestPath(id: string)
    ensures ActiveSection("/test/" + id) == GamesSection && NavigationShown("/test/" + id)
  {
    var loc := "/test/" + id;
    assert loc[1] == 't' && loc[2] == 'e' && |loc| >= 6;
    assert loc[..6] == "/test/";
    NotPrefix(loc, "/reader/", 1);
  }

  /** On a path the exact route table knows, the highlighted entry is the section of the page it names. */
  lemma RoutedSection(location: string)
    requires ExactRoute(location) != NotFoundPage
    ensures ActiveSection(location) == SectionOf(ExactRoute(location))
  {
    RoutedLocation(location);
    match ExactRoute(location) {
      case BookPage(id) => BookPath(id);
      case ReaderPage(id) => ReaderPath(id);
      case TestPage(id) => TestPath(id);
      case _ => FixedSections();
    }
  }

  /** A book's location routes back to the book. */
  lemma BookRoutes(id: string)
    requires |id| > 0 && '/' !in id
    ensures ExactRoute("/books/" + id) == BookPage(id)
  {
    var loc := "/books/" + id;
    assert loc[1] == 'b' && loc[6] == '/' && loc[7..] == id;
  }

  /** The reader's location routes back to the reader of that book. */
  lemma ReaderRoutes(id: string)
    requires |id| > 0 && '/' !in id
    ensures ExactRoute("/reader/" + id) == ReaderPage(id)
  {
    var loc := "/reader/" + id;
    assert loc[1] == 'r' && loc[7] == '/' && loc[8..] == id;
    NotPrefix(loc, "/books/", 1);
  }

  /** A test's location routes back to that test. */
  lemma TestRoutes(id: string)
    requires |id| > 0 && '/' !in id
    ensures ExactRoute("/test/" + id) == TestPage(id)
  {
    var loc := "/test/" + id;
    assert loc[1] == 't' && loc[2] == 'e' && loc[5] == '/' && loc[6..] == id;
    assert loc != "/theory" by {
      assert "/theory"[2] == 'h';
    }
    NotPrefix(loc, "/books/", 1);
    NotPrefix(loc, "/reader/", 1);
    assert Param(loc, "/books/").None? && Param(loc, "/reader/").None?;
    assert Param(loc, "/test/") == Some(id);
  }

  /** The sections of the fixed locations. */
  lemma FixedSections()
    ensures ActiveSection("/") == HomeSection && ActiveSection("/home") == HomeSection
    ensures ActiveSection("/theory") == TheorySection && ActiveSection("/games") == GamesSection
    ensures ActiveSection("/library") == LibrarySection && ActiveSection("/profile") == ProfileSection
    ensures ActiveSection("/games/guess-author") == GamesSection && ActiveSection("/games/quote-puzzle") == GamesSection
    ensures ActiveSection("/ai-recommendations") == LibrarySection && ActiveSection("/auth") == HomeSection
  {
    assert Text.StartsWith("/games/guess-author", "/games/");
    assert Text.StartsWith("/games/quote-puzzle", "/games/");
  }

  /** The bar on the fixed locations: shown everywhere but on the sign-in page. */
  lemma FixedNavigation()
    ensures NavigationShown("/") && NavigationShown("/home") && NavigationShown("/theory")
    ensures NavigationShown("/games") && NavigationShown("/library") && NavigationShown("/profile")
    ensures NavigationShown("/games/guess-author") && NavigationShown("/games/quote-puzzle")
    ensures NavigationShown("/ai-recommendations") && !NavigationShown("/auth")
  {
    NotPrefix("/library", "/reader/", 1);
    NotPrefix("/profile", "/reader/", 1);
    NotPrefix("/games/guess-author", "/reader/", 1);
    NotPrefix("/games/quote-puzzle", "/reader/", 1);
    NotPrefix("/ai-recommendations", "/reader/", 1);
  }

  /** A fixed location below `/games/` or an assistant or sign-in page matches no `:id` route. */
  lemma FixedRoutes(p: Page)
    requires p.GuessAuthorPage? || p.QuotePuzzlePage? || p.AssistantPage? || p.AuthPage?
    ensures ExactRoute(PathOf(p)) == p
  {
    var loc := PathOf(p);
    NotPrefix(loc, "/books/", 1);
    NotPrefix(loc, "/reader/", 1);
    NotPrefix(loc, "/test/", 1);
  }

  /** A page's own location is its own canonical form, up to the case of its `:id`. */
  lemma CanonicalPath(prefix: string, id: string)
    requires Text.Lower(prefix) == prefix && Segment(id)
    ensures Canonical(prefix + id) == prefix + Text.Lower(id) && Segment(Text.Lower(id))
  {
    var l := Text.Lower(prefix + id);
    assert l == prefix + Text.Lower(id);
    assert l[|l| - 1] == Text.LowerChar(id[|id| - 1]);
    assert id[|id| - 1] in id;
    forall k | 0 <= k < |id|
      ensures Text.Lower(id)[k] != '/'
    {
      assert id[k] in id;
    }
  }

  /** On a routed location, the page shown is the exact table's page with the `:id` in the location's case. */
  lemma RouteOfRouted(location: string)
    requires ExactRoute(Canonical(location)) != NotFoundPage
    ensures var page := ExactRoute(Canonical(location));
      (page.BookPage? || page.ReaderPage? || page.TestPage? ==> IdStart(page) + |page.id| <= |location|)
      && Route(location) == KeepCase(page, location)
  {
    RoutedLocation(Canonical(location));
  }

  /** The text after a prefix is what was appended. */
  lemma AfterPrefix(prefix: string, id: string, n: nat)
    requires n == |prefix|
    ensures (prefix + id)[n..n + |id|] == id
  {
  }

  /** The canonical form of a /books/ location is routed to the lower-cased id. */
  lemma BookCanonical(id: string)
    requires Segment(id)
    ensures |Text.Lower(id)| == |id|
    ensures ExactRoute(Canonical("/books/" + id)) == BookPage(Text.Lower(id))
  {
    CanonicalPath("/books/", id);
    BookRoutes(Text.Lower(id));
  }

  /** A book is shown at its location, whatever the case of its id. */
  lemma BookFound(id: string)
    requires Segment(id)
    ensures Route("/books/" + id) == BookPage(id)
  {
    BookCanonical(id);
    RouteOfRouted("/books/" + id);
    AfterPrefix("/books/", id, 7);
  }

  /** The canonical form of a /reader/ location is routed to the lower-cased id. */
  lemma ReaderCanonical(id: string)
    requires Segment(id)
    ensures |Text.Lower(id)| == |id|
    ensures ExactRoute(Canonical("/reader/" + id)) == ReaderPage(Text.Lower(id))
  {
    CanonicalPath("/reader/", id);
    ReaderRoutes(Text.Lower(id));
  }

  /** The reader of a book is shown at its location. */
  lemma ReaderFound(id: string)
    requires Segment(id)
    ensures Route("/reader/" + id) == ReaderPage(id)
  {
    ReaderCanonical(id);
    RouteOfRouted("/reader/" + id);
    AfterPrefix("/reader/", id, 8);
  }

  /** The canonical form of a /test/ location is routed to the lower-cased id. */
  lemma TestCanonical(id: string)
    requires Segment(id)
    ensures |Text.Lower(id)| == |id|
    ensures ExactRoute(Canonical("/test/" + id)) == TestPage(Text.Lower(id))
  {
    CanonicalPath("/test/", id);
    TestRoutes(Text.Lower(id));
  }

  /** A test is shown at its location. */
  lemma TestFound(id: string)
    requires Segment(id)
    ensures Route("/test/" + id) == TestPage(id)
  {
    TestCanonical(id);
    RouteOfRouted("/test/" + id);
    AfterPrefix("/test/", id, 6);
  }

  /** A location already lower-case and without a trailing '/' is its own canonical form. */
  lemma CanonicalKeeps(s: string)
    requires Text.Lower(s) == s && (|s| <= 1 || s[|s| - 1] != '/')
    ensures Canonical(s) == s
  {
  }

  /** The fixed locations are already in the form the router compares. */
  lemma FixedCanonical(p: Page)
    requires !(p.BookPage? || p.ReaderPage? || p.TestPage? || p.NotFoundPage?)
    ensures Canonical(PathOf(p)) == PathOf(p)
  {
    if p.HomePage? || p.TheoryPage? || p.GamesPage? || p.LibraryPage? || p.ProfilePage? {
      TopCanonical(p);
    } else {
      InnerCanonical(p);
    }
  }

  lemma TopCanonical(p: Page)
    requires p.HomePage? || p.TheoryPage? || p.GamesPage? || p.LibraryPage? || p.ProfilePage?
    ensures Canonical(PathOf(p)) == PathOf(p)
  {
    var s := PathOf(p);
    if p.HomePage? {
      assert Text.Lower("/") == "/";
    } else if p.TheoryPage? {
      assert Text.Lower("/theory") == "/theory";
    } else if p.GamesPage? {
      assert Text.Lower("/games") == "/games";
    } else if p.LibraryPage? {
      assert Text.Lower("/library") == "/library";
    } else {
      assert Text.Lower("/profile") == "/profile";
    }
    CanonicalKeeps(s);
  }

  lemma InnerCanonical(p: Page)
    requires p.GuessAuthorPage? || p.QuotePuzzlePage? || p.AssistantPage? || p.AuthPage?
    ensures Canonical(PathOf(p)) == PathOf(p)
  {
    var s := PathOf(p);
    if p.GuessAuthorPage? {
      assert Text.Lower("/games/guess-author") == "/games/guess-author";
    } else if p.QuotePuzzlePage? {
      assert Text.Lower("/games/quote-puzzle") == "/games/quote-puzzle";
    } else if p.AssistantPage? {
      assert Text.Lower("/ai-recommendations") == "/ai-recommendations";
    } else {
      assert Text.Lower("/auth") == "/auth";
    }
    CanonicalKeeps(s);
  }

  /** Every page is shown at its own location. */
  lemma RouteFindsPage(p: Page)
    requires p != NotFoundPage
    requires p.BookPage? || p.ReaderPage? || p.TestPage? ==> Segment(p.id)
    ensures Route(PathOf(p)) == p
  {
    match p {
      case BookPage(id) => BookFound(id);
      case ReaderPage(id) => ReaderFound(id);
      case TestPage(id) => TestFound(id);
      case _ =>
        FixedCanonical(p);
        if p.GuessAuthorPage? || p.QuotePuzzlePage? || p.AssistantPage? || p.AuthPage? {
          FixedRoutes(p);
        }
    }
  }

  /** On a path the exact route table knows, the bar is hidden exactly on the reader and sign-in pages. */
  lemma RoutedNavigation(location: string)
    requires ExactRoute(location) != NotFoundPage
    ensures !NavigationShown(location) <==> ExactRoute(location).ReaderPage? || ExactRoute(location) == AuthPage
  {
    RoutedLocation(location);
    match ExactRoute(location) {
      case BookPage(id) => BookPath(id);
      case ReaderPage(id) => ReaderPath(id);
      case TestPage(id) => TestPath(id);
      case _ => FixedNavigation();
    }
  }

  /** At each page's own location the highlighted entry is the page's section. */
  lemma SectionFollowsPage(p: Page)
    requires p != NotFoundPage
    requires p.BookPage? || p.ReaderPage? || p.TestPage? ==> Segment(p.id)
    ensures ActiveSection(PathOf(p)) == SectionOf(p)
  {
    match p {
      case BookPage(id) => BookPath(id);
      case ReaderPage(id) => ReaderPath(id);
      case TestPage(id) => TestPath(id);
      case _ => FixedSections();
    }
  }

  /** At each page's own location the bar is hidden exactly on the reader and the sign-in page. */
  lemma NavigationFollowsPage(p: Page)
    requires p != NotFoundPage
    requires p.BookPage? || p.ReaderPage? || p.TestPage? ==> Segment(p.id)
    ensures !NavigationShown(PathOf(p)) <==> p.ReaderPage? || p == AuthPage
  {
    match p {
      case BookPage(id) => BookPath(id);
      case ReaderPage(id) => ReaderPath(id);
      case TestPage(id) => TestPath(id);
      case _ => FixedNavigation();
    }
  }

  // ---------------------------------------------------------------- the shell against the router

  /** "/theory/" shows the Theory page, which the shell does not recognise. */
  lemma TheorySlashMisread()
    ensures Route("/theory/") == TheoryPage && ActiveSection("/theory/") == HomeSection
  {
    assert Text.Lower("/theory/") == "/theory/";
    assert Canonical("/theory/") == "/theory";
    assert ExactRoute("/theory") == TheoryPage;
    NotPrefix("/theory/", "/games/", 1);
    NotPrefix("/theory/", "/test/", 2);
  }

  /** "/Theory" shows the Theory page, which the shell does not recognise. */
  lemma TheoryCaseMisread()
    ensures Route("/Theory") == TheoryPage && ActiveSection("/Theory") == HomeSection
  {
    assert Text.Lower("/Theory") == "/theory";
    CanonicalKeeps("/theory");
    assert ExactRoute("/theory") == TheoryPage;
    NotPrefix("/Theory", "/games/", 1);
    NotPrefix("/Theory", "/test/", 1);
  }

  /** "/Reader/5" shows the reader, under a bar the shell forgets to hide. */
  lemma ReaderCaseMisread()
    ensures Route("/Reader/5") == ReaderPage("5") && NavigationShown("/Reader/5")
  {
    var loc := "/Reader/5";
    assert Text.Lower(loc) == "/reader/5";
    assert Canonical(loc) == "/reader/5";
    ReaderRoutes("5");
    assert ExactRoute("/reader/5") == ReaderPage("5") by {
      assert "/reader/" + "5" == "/reader/5";
    }
    RouteOfRouted(loc);
    assert loc[8..9] == "5";
    NotPrefix(loc, "/reader/", 1);
  }

  /** "/auth/" shows the sign-in page, under a bar the shell forgets to hide. */
  lemma AuthSlashMisread()
    ensures Route("/auth/") == AuthPage && NavigationShown("/auth/")
  {
    assert Text.Lower("/auth/") == "/auth/";
    assert Canonical("/auth/") == "/auth";
    FixedRoutes(AuthPage);
    NotPrefix("/auth/", "/reader/", 1);
  }

  /**
   * The shell compares the location exactly, but wouter does not: at these locations the
   * page shown and the shell disagree.
   */
  lemma LooseLocationsMisread()
    ensures Route("/theory/") == TheoryPage && ActiveSection("/theory/") == HomeSection
    ensures Route("/Theory") == TheoryPage && ActiveSection("/Theory") == HomeSection
    ensures Route("/Reader/5") == ReaderPage("5") && NavigationShown("/Reader/5")
    ensures Route("/auth/") == AuthPage && NavigationShown("/auth/")
  {
    TheorySlashMisread();
    TheoryCaseMisread();
    ReaderCaseMisread();
    AuthSlashMisread();
  }

  /** The highlight as intended: `getActiveSection` on the location as wouter compares it. */
  function CorrectedSection(location: string): Section
  {
    ActiveSection(Canonical(location))
  }

  /** The bar as intended: hidden on the reader and sign-in pages as wouter finds them. */
  predicate CorrectedNavigationShown(location: string)
  {
    NavigationShown(Canonical(location))
  }

  /** Compared as the router compares, the highlight and the bar follow the page shown at every routed location. */
  lemma CorrectedShellFollowsRoute(location: string)
    requires Route(location) != NotFoundPage
    ensures CorrectedSection(location) == SectionOf(Route(location))
    ensures !CorrectedNavigationShown(location) <==> Route(location).ReaderPage? || Route(location) == AuthPage
  {
    RoutedSection(Canonical(location));
    RoutedNavigation(Canonical(location));
  }
}

=== FILE: auth_forms.dfy ===
/**
 * The sign-in and registration forms (client/src/pages/auth-page.tsx): the field
 * rules each form checks before anything is sent, the messages shown under the
 * fields, and the registration payload, which is the form without its confirmation.
 */
module AuthForms {
  import opened Wrappers
  import opened Schema

  datatype Field = Username | Password | Email | Name | ConfirmPassword

  /** The validation messages the forms show. */
  datatype Message =
    | UsernameRequired | PasswordRequired | NameRequired | EmailInvalid
    | UsernameTooShort | PasswordTooShort | ConfirmRequired | Mismatch

  function MessageText(m: Message): string
  {
    match m
    case UsernameRequired => "Ім'я користувача обов'язкове"
    case PasswordRequired => "Пароль обов'язковий"
    case NameRequired => "Ім'я обов'язкове"
    case EmailInvalid => "Введіть коректну електронну пошту"
    case UsernameTooShort => "Ім'я користувача має містити мінімум 3 символи"
    case PasswordTooShort => "Пароль має містити мінімум 6 символів"
    case ConfirmRequired => "Підтвердження паролю обов'язкове"
    case Mismatch => "Паролі не співпадають"
  }

  /** One failed rule: the field it is shown under and its message. */
  datatype Issue = Issue(field: Field, message: Message)

  datatype LoginForm = LoginForm(username: string, password: string)

  datatype RegisterForm = RegisterForm(name: string, email: string, username: string, password: string,
                                       confirmPassword: string)

  /** `z.string().min(n, message)` on one field. */
  function MinLength(field: Field, value: string, n: nat, message: Message): (issues: seq<Issue>)
    ensures |issues| == 0 <==> |value| >= n
    ensures forall i :: 0 <= i < |issues| ==> issues[i] == Issue(field, message)
  {
    if |value| < n then [Issue(field, message)] else []
  }

  /** The messages reported for one field, in the order they were reported. */
  function MessagesFor(issues: seq<Issue>, field: Field): seq<Message>
  {
    if |issues| == 0 then []
    else (if issues[0].field == field then [issues[0].message] else []) + MessagesFor(issues[1..], field)
  }

  lemma {:induction false} MessagesForAppend(a: seq<Issue>, b: seq<Issue>, field: Field)
    ensures MessagesFor(a + b, field) == MessagesFor(a, field) + MessagesFor(b, field)
  {
    if |a| > 0 {
      assert (a + b)[1..] == a[1..] + b;
      MessagesForAppend(a[1..], b, field);
    } else {
      assert a + b == b;
    }
  }

  lemma MessagesForOne(i: Issue, field: Field)
    ensures MessagesFor([i], field) == if i.field == field then [i.message] else []
  {
    assert [i][1..] == [];
  }

  /** A form with no issue at all has no message under any field, and conversely. */
  lemma {:induction false} NoMessagesNoIssues(issues: seq<Issue>)
    ensures |issues| == 0 <==> forall field: Field :: MessagesFor(issues, field) == []
  {
    if |issues| > 0 {
      assert MessagesFor(issues, issues[0].field) != [];
    }
  }

  /** `loginSchema`: both fields must be non-empty. */
  function LoginIssues(f: LoginForm): (issues: seq<Issue>)
    ensures MessagesFor(issues, Username) == (if |f.username| == 0 then [UsernameRequired] else [])
    ensures MessagesFor(issues, Password) == (if |f.password| == 0 then [PasswordRequired] else [])
    ensures |issues| == 0 <==> |f.username| > 0 && |f.password| > 0
  {
    var a, b := MinLength(Username, f.username, 1, UsernameRequired), MinLength(Password, f.password, 1, PasswordRequired);
    MessagesForAppend(a, b, Username);
    MessagesForAppend(a, b, Password);
    MessagesForOne(Issue(Username, UsernameRequired), Password);
    MessagesForOne(Issue(Password, PasswordRequired), Username);
    MessagesForOne(Issue(Username, UsernameRequired), Username);
    MessagesForOne(Issue(Password, PasswordRequired), Password);
    a + b
  }

  /** One rule's contribution: its issue when the rule fails, nothing otherwise. */
  function Rule(field: Field, fails: bool, message: Message): (issues: seq<Issue>)
    ensures forall g: Field :: MessagesFor(issues, g) == if fails && g == field then [message] else []
  {
    if fails then
      assert forall g: Field :: MessagesFor([Issue(field, message)], g) == (if g == field then [message] else []) by {
        forall g: Field {
          MessagesForOne(Issue(field, message), g);
        }
      }
      [Issue(field, message)]
    else []
  }

  /** The messages of six rules in a row are the rules' messages in that order. */
  lemma MessagesForSix(r1: seq<Issue>, r2: seq<Issue>, r3: seq<Issue>, r4: seq<Issue>, r5: seq<Issue>, r6: seq<Issue>, g: Field)
    ensures MessagesFor(r1 + r2 + r3 + r4 + r5 + r6, g) ==
      MessagesFor(r1, g) + MessagesFor(r2, g) + MessagesFor(r3, g) + MessagesFor(r4, g) + MessagesFor(r5, g) + MessagesFor(r6, g)
  {
    MessagesForAppend(r1, r2, g);
    MessagesForAppend(r1 + r2, r3, g);
    MessagesForAppend(r1 + r2 + r3, r4, g);
    MessagesForAppend(r1 + r2 + r3 + r4, r5, g);
    MessagesForAppend(r1 + r2 + r3 + r4 + r5, r6, g);
  }

  /** The messages each field of the registration form should show, rule by rule. */
  function Expected(f: RegisterForm, isEmail: string -> bool, g: Field): seq<Message>
  {
    match g
    case Username => if |f.username| < 3 then [UsernameTooShort] else []
    case Password => if |f.password| < 6 then [PasswordTooShort] else []
    case Email => if isEmail(f.email) then [] else [EmailInvalid]
    case Name => if |f.name| == 0 then [NameRequired] else []
    case ConfirmPassword =>
      (if |f.confirmPassword| == 0 then [ConfirmRequired] else []) + (if f.password != f.confirmPassword then [Mismatch] else [])
  }

  /** Six rules whose messages are known add up to the expected messages of each field. */
  lemma RegisterRules(f: RegisterForm, isEmail: string -> bool, u: seq<Issue>, p: seq<Issue>, e: seq<Issue>,
                      n: seq<Issue>, c: seq<Issue>, m: seq<Issue>, g: Field)
    ensures
      && MessagesFor(u, g) == (if |f.username| < 3 && g == Username then [UsernameTooShort] else [])
      && MessagesFor(p, g) == (if |f.password| < 6 && g == Password then [PasswordTooShort] else [])
      && MessagesFor(e, g) == (if !isEmail(f.email) && g == Email then [EmailInvalid] else [])
      && MessagesFor(n, g) == (if |f.name| == 0 && g == Name then [NameRequired] else [])
      && MessagesFor(c, g) == (if |f.confirmPassword| == 0 && g == ConfirmPassword then [ConfirmRequired] else [])
      && MessagesFor(m, g) == (if f.password != f.confirmPassword && g == ConfirmPassword then [Mismatch] else [])
      ==> MessagesFor(u + p + e + n + c + m, g) == Expected(f, isEmail, g)
  {
    MessagesForSix(u, p, e, n, c, m, g);
    var all := MessagesFor(u, g) + MessagesFor(p, g) + MessagesFor(e, g) + MessagesFor(n, g) + MessagesFor(c, g) + MessagesFor(m, g);
    assert MessagesFor(u + p + e + n + c + m, g) == all;
  }

  /**
   * `registerSchema`: the field rules in the schema's key order, then the equality of the two
   * passwords, reported under the confirmation. The equality check runs even when field rules
   * failed, since a too-short string does not stop the validation of the object. Whether an
   * address is a valid e-mail is the `isEmail` parameter.
   */
  function RegisterIssues(f: RegisterForm, isEmail: string -> bool): (issues: seq<Issue>)
    ensures forall g: Field :: MessagesFor(issues, g) == Expected(f, isEmail, g)
  {
    RegisterRulesInOrder(f, isEmail);
    RegisterRuleList(f, isEmail)
  }

  /** The six rules of `registerSchema`, in order. */
  function RegisterRuleList(f: RegisterForm, isEmail: string -> bool): seq<Issue>
  {
    Rule(Username, |f.username| < 3, UsernameTooShort) + Rule(Password, |f.password| < 6, PasswordTooShort) +
    Rule(Email, !isEmail(f.email), EmailInvalid) + Rule(Name, |f.name| == 0, NameRequired) +
    Rule(ConfirmPassword, |f.confirmPassword| == 0, ConfirmRequired) +
    Rule(ConfirmPassword, f.password != f.confirmPassword, Mismatch)
  }

  lemma RegisterRulesInOrder(f: RegisterForm, isEmail: string -> bool)
    ensures forall g: Field :: MessagesFor(RegisterRuleList(f, isEmail), g) == Expected(f, isEmail, g)
  {
    var u := Rule(Username, |f.username| < 3, UsernameTooShort);
    var p := Rule(Password, |f.password| < 6, PasswordTooShort);
    var e := Rule(Email, !isEmail(f.email), EmailInvalid);
    var n := Rule(Name, |f.name| == 0, NameRequired);
    var c := Rule(ConfirmPassword, |f.confirmPassword| == 0, ConfirmRequired);
    var m := Rule(ConfirmPassword, f.password != f.confirmPassword, Mismatch);
    forall g: Field
      ensures MessagesFor(u + p + e + n + c + m, g) == Expected(f, isEmail, g)
    {
      RegisterRules(f, isEmail, u, p, e, n, c, m, g);
    }
  }

  /** The message shown under a field: the first one reported for it. */
  function Shown(issues: seq<Issue>, field: Field): (m: Option<Message>)
    ensures m.None? <==> MessagesFor(issues, field) == []
    ensures m.Some? ==> m.value == MessagesFor(issues, field)[0]
  {
    var ms := MessagesFor(issues, field);
    if |ms| == 0 then None else Some(ms[0])
  }

  /** An empty confirmation shows "required"; the mismatch message shows only under a filled-in confirmation. */
  lemma ConfirmationMessage(f: RegisterForm, isEmail: string -> bool)
    ensures Shown(RegisterIssues(f, isEmail), ConfirmPassword) ==
      if |f.confirmPassword| == 0 then Some(ConfirmRequired)
      else if f.password != f.confirmPassword then Some(Mismatch)
      else None
  {
  }

  /** What submitting a form does: show the issues, or send the payload. */
  datatype Submission<T> = Rejected(issues: seq<Issue>) | Sent(payload: T)

  /** `onLoginSubmit`: the credentials are sent as typed once both are non-empty. */
  function SubmitLogin(f: LoginForm): (s: Submission<LoginForm>)
    ensures s.Sent? <==> |f.username| > 0 && |f.password| > 0
    ensures s.Sent? ==> s.payload == f
  {
    var issues := LoginIssues(f);
    if |issues| == 0 then Sent(f) else Rejected(issues)
  }

  /** The registration payload: the form without `confirmPassword`, every other field as typed. */
  function Payload(f: RegisterForm): (u: InsertUser)
    ensures u.username == f.username && u.password == f.password && u.email == f.email && u.name == f.name
  {
    InsertUser(f.username, f.password, f.email, f.name)
  }

  /** A form filled in from a payload, with the password typed twice. */
  function FormOf(u: InsertUser): RegisterForm
  {
    RegisterForm(u.name, u.email, u.username, u.password, u.password)
  }

  /** `onRegisterSubmit`: a form that passes every rule sends its payload. */
  function SubmitRegister(f: RegisterForm, isEmail: string -> bool): (s: Submission<InsertUser>)
    ensures s.Sent? <==> |f.name| > 0 && isEmail(f.email) && |f.username| >= 3 && |f.password| >= 6
                         && f.password == f.confirmPassword
    ensures s.Sent? ==> s.payload == Payload(f)
    ensures s.Rejected? ==> s.issues == RegisterIssues(f, isEmail) && |s.issues| > 0
  {
    var issues := RegisterIssues(f, isEmail);
    NoMessagesNoIssues(issues);
    assert |issues| == 0 ==> MessagesFor(issues, ConfirmPassword) == [];
    assert f.password != f.confirmPassword ==> MessagesFor(issues, ConfirmPassword) != [];
    if |issues| == 0 then Sent(Payload(f)) else Rejected(issues)
  }

  /** Stripping the confirmation loses nothing from a form that was accepted: refilling it gives the same form. */
  lemma PayloadRoundTrip(f: RegisterForm, isEmail: string -> bool)
    requires SubmitRegister(f, isEmail).Sent?
    ensures FormOf(SubmitRegister(f, isEmail).payload) == f
  {
  }

  /** Every payload meeting the rules can be registered, and is sent unchanged. */
  lemma EveryValidPayloadIsSent(u: InsertUser, isEmail: string -> bool)
    requires |u.name| > 0 && isEmail(u.email) && |u.username| >= 3 && |u.password| >= 6
    ensures SubmitRegister(FormOf(u), isEmail) == Sent(u)
  {
  }
}

=== FILE: crossword.dfy ===
/**
 * The literary crossword: a fixed list of words placed across or down on a
 * grid, a per-cell record of what the player typed, the check of each word,
 * and the cursor movement between cells.
 */
module Crossword {
  import opened Wrappers
  import Text
  import Numbers

  // ---------------------------------------------------------------- words and the grid

  datatype Orientation = Across | Down

  datatype Word = Word(text: string, clue: string, startRow: nat, startCol: nat, orientation: Orientation, number: int)

  /** Where letter `i` of `w` sits. */
  function Position(w: Word, i: nat): (p: (nat, nat))
  {
    if w.orientation == Across then (w.startRow, w.startCol + i) else (w.startRow + i, w.startCol)
  }

  /** Which letter of `w` sits at (`r`, `c`), if any. */
  function IndexAt(w: Word, r: int, c: int): (k: Option<nat>)
    ensures k.Some? ==> k.value < |w.text| && Position(w, k.value) == (r, c)
    ensures k.None? ==> forall i :: 0 <= i < |w.text| ==> Position(w, i) != (r, c)
  {
    if w.orientation == Across then
      if r == w.startRow && w.startCol <= c < w.startCol + |w.text| then Some(c - w.startCol) else None
    else
      if c == w.startCol && w.startRow <= r < w.startRow + |w.text| then Some(r - w.startRow) else None
  }

  /** The row of the last letter, and its column. */
  function LastRow(w: Word): int
  {
    if w.orientation == Across then w.startRow else w.startRow + |w.text| - 1
  }

  function LastCol(w: Word): int
  {
    if w.orientation == Across then w.startCol + |w.text| - 1 else w.startCol
  }

  /** The crossword needs at least one word, and every word at least one letter. */
  predicate WellFormed(words: seq<Word>)
  {
    |words| > 0 && forall a :: 0 <= a < |words| ==> |words[a].text| > 0
  }

  /** `Math.max(...)` of the last rows. */
  function MaxRow(words: seq<Word>): (m: int)
    requires |words| > 0
    ensures forall a :: 0 <= a < |words| ==> LastRow(words[a]) <= m
    ensures exists a :: 0 <= a < |words| && LastRow(words[a]) == m
  {
    if |words| == 1 then LastRow(words[0])
    else
      var rest := MaxRow(words[1..]);
      assert forall a :: 1 <= a < |words| ==> words[a] == words[1..][a - 1];
      Numbers.Max(LastRow(words[0]), rest)
  }

  function MaxCol(words: seq<Word>): (m: int)
    requires |words| > 0
    ensures forall a :: 0 <= a < |words| ==> LastCol(words[a]) <= m
    ensures exists a :: 0 <= a < |words| && LastCol(words[a]) == m
  {
    if |words| == 1 then LastCol(words[0])
    else
      var rest := MaxCol(words[1..]);
      assert forall a :: 1 <= a < |words| ==> words[a] == words[1..][a - 1];
      Numbers.Max(LastCol(words[0]), rest)
  }

  /** One square of the grid; positions of blank squares are set when they are revealed. */
  datatype Cell = Cell(letter: Option<char>, revealed: bool, row: int, col: int, start: bool,
                       clueNumber: Option<int>, orientation: Option<Orientation>)

  type Grid = seq<seq<Cell>>

  const Blank := Cell(None, false, 0, 0, false, None, None)

  predicate Shaped(g: Grid, rows: nat, cols: nat)
  {
    |g| == rows && forall r :: 0 <= r < rows ==> |g[r]| == cols
  }

  function BlankRow(cols: nat): (row: seq<Cell>)
    ensures |row| == cols && forall c :: 0 <= c < cols ==> row[c] == Blank
  {
    if cols == 0 then [] else BlankRow(cols - 1) + [Blank]
  }

  /** `Array(rows).fill(null).map(() => Array(cols)...)`: every square blank. */
  function Empty(rows: nat, cols: nat): (g: Grid)
    ensures Shaped(g, rows, cols)
    ensures forall r, c :: 0 <= r < rows && 0 <= c < cols ==> g[r][c] == Blank
  {
    if rows == 0 then [] else Empty(rows - 1, cols) + [BlankRow(cols)]
  }

  /** What letter `i` of `w` writes into its square. */
  function WordCell(w: Word, i: nat): Cell
    requires i < |w.text|
  {
    Cell(Some(w.text[i]), false, Position(w, i).0, Position(w, i).1, i == 0,
         if i == 0 then Some(w.number) else None, if i == 0 then Some(w.orientation) else None)
  }

  /** Writing one square, when it lies inside the grid. */
  function Put(g: Grid, r: int, c: int, cell: Cell): Grid
  {
    if 0 <= r < |g| && 0 <= c < |g[r]| then g[r := g[r][c := cell]] else g
  }

  /** Writing letters `i`.. of `w` in order. */
  function PaintFrom(g: Grid, w: Word, i: nat): Grid
    requires i <= |w.text|
    decreases |w.text| - i
  {
    if i == |w.text| then g
    else PaintFrom(Put(g, Position(w, i).0, Position(w, i).1, WordCell(w, i)), w, i + 1)
  }

  /** Painting a word rewrites exactly its own squares inside the grid. */
  lemma {:induction false} PaintFromCell(g: Grid, w: Word, i: nat, rows: nat, cols: nat, r: nat, c: nat)
    requires i <= |w.text| && Shaped(g, rows, cols) && r < rows && c < cols
    ensures Shaped(PaintFrom(g, w, i), rows, cols)
    ensures PaintFrom(g, w, i)[r][c] ==
      (match IndexAt(w, r, c) case Some(k) => if k >= i then WordCell(w, k) else g[r][c] case None => g[r][c])
    decreases |w.text| - i
  {
    if i < |w.text| {
      var g' := Put(g, Position(w, i).0, Position(w, i).1, WordCell(w, i));
      assert Shaped(g', rows, cols);
      PaintFromCell(g', w, i + 1, rows, cols, r, c);
      if Position(w, i) == (r, c) {
        assert IndexAt(w, r, c) == Some(i);
      }
    }
  }

  /** `crosswordData.forEach(...)`: the words written in list order, later ones over earlier ones. */
  function FillAll(g: Grid, words: seq<Word>): Grid
  {
    if |words| == 0 then g else PaintFrom(FillAll(g, words[..|words| - 1]), words[|words| - 1], 0)
  }

  /** The square written last at (`r`, `c`): by the last word in the list that passes through it. */
  function LastWriter(words: seq<Word>, r: int, c: int): (w: Option<Cell>)
    ensures w.Some? ==> w.value.letter.Some? && !w.value.revealed
    ensures w.Some? <==> exists a :: 0 <= a < |words| && IndexAt(words[a], r, c).Some?
  {
    if |words| == 0 then None
    else
      match IndexAt(words[|words| - 1], r, c)
      case Some(k) => Some(WordCell(words[|words| - 1], k))
      case None => LastWriter(words[..|words| - 1], r, c)
  }

  lemma {:induction false} FillAllCell(g: Grid, words: seq<Word>, rows: nat, cols: nat, r: nat, c: nat)
    requires Shaped(g, rows, cols) && r < rows && c < cols
    ensures Shaped(FillAll(g, words), rows, cols)
    ensures LastWriter(words, r, c).Some? ==> FillAll(g, words)[r][c] == LastWriter(words, r, c).value
    ensures LastWriter(words, r, c).None? ==> FillAll(g, words)[r][c] == g[r][c]
  {
    if |words| > 0 {
      var init := words[..|words| - 1];
      FillAllCell(g, init, rows, cols, r, c);
      PaintFromCell(FillAll(g, init), words[|words| - 1], 0, rows, cols, r, c);
    }
  }

  /** A square no word wrote is revealed (shown blank and closed to input) at its own position. */
  function RevealSquare(cell: Cell, r: int, c: int): Cell
  {
    if cell.letter.None? then Cell(None, true, r, c, false, None, None) else cell
  }

  function RevealRow(row: seq<Cell>, r: int): (row': seq<Cell>)
    ensures |row'| == |row| && forall c :: 0 <= c < |row| ==> row'[c] == RevealSquare(row[c], r, c)
  {
    if |row| == 0 then [] else RevealRow(row[..|row| - 1], r) + [RevealSquare(row[|row| - 1], r, |row| - 1)]
  }

  function Reveal(g: Grid): (g': Grid)
    ensures |g'| == |g| && forall r :: 0 <= r < |g| ==> g'[r] == RevealRow(g[r], r)
  {
    if |g| == 0 then [] else Reveal(g[..|g| - 1]) + [RevealRow(g[|g| - 1], |g| - 1)]
  }

  /** The grid built when the page loads: (last row + 1) × (last column + 1) squares. */
  function BuildGrid(words: seq<Word>): Grid
    requires WellFormed(words)
  {
    var rows, cols := MaxRow(words) + 1, MaxCol(words) + 1;
    assert LastRow(words[0]) >= 0 && LastCol(words[0]) >= 0;
    Reveal(FillAll(Empty(rows, cols), words))
  }

  /** Every letter of every word lies inside the grid. */
  lemma GridCoversWords(words: seq<Word>, a: nat, i: nat)
    requires WellFormed(words) && a < |words| && i < |words[a].text|
    ensures Shaped(BuildGrid(words), MaxRow(words) + 1, MaxCol(words) + 1)
    ensures Position(words[a], i).0 <= MaxRow(words) && Position(words[a], i).1 <= MaxCol(words)
  {
    var rows, cols := MaxRow(words) + 1, MaxCol(words) + 1;
    assert LastRow(words[0]) >= 0 && LastCol(words[0]) >= 0;
    assert LastRow(words[a]) <= MaxRow(words) && LastCol(words[a]) <= MaxCol(words);
    assert Shaped(FillAll(Empty(rows, cols), words), rows, cols) by {
      if rows > 0 && cols > 0 {
        FillAllCell(Empty(rows, cols), words, rows, cols, 0, 0);
      }
    }
  }

  /** The painted grid before blank squares are revealed, cell by cell. */
  lemma FilledCell(words: seq<Word>, rows: nat, cols: nat, r: nat, c: nat)
    requires r < rows && c < cols
    ensures Shaped(FillAll(Empty(rows, cols), words), rows, cols)
    ensures LastWriter(words, r, c).Some? ==> FillAll(Empty(rows, cols), words)[r][c] == LastWriter(words, r, c).value
    ensures LastWriter(words, r, c).None? ==> FillAll(Empty(rows, cols), words)[r][c] == Blank
  {
    FillAllCell(Empty(rows, cols), words, rows, cols, r, c);
  }

  /** The built grid is the revealed painted grid of (last row + 1) × (last column + 1) squares. */
  lemma BuildGridIs(words: seq<Word>)
    requires WellFormed(words)
    ensures MaxRow(words) >= 0 && MaxCol(words) >= 0
    ensures BuildGrid(words) == Reveal(FillAll(Empty(MaxRow(words) + 1, MaxCol(words) + 1), words))
  {
    assert LastRow(words[0]) >= 0 && LastCol(words[0]) >= 0;
  }

  /**
   * Each square shows the letter of the last word through it, as a word square
   * (not revealed); a square no word passes through is blank and revealed.
   */
  lemma GridCell(words: seq<Word>, r: nat, c: nat)
    requires WellFormed(words) && r <= MaxRow(words) && c <= MaxCol(words)
    ensures Shaped(BuildGrid(words), MaxRow(words) + 1, MaxCol(words) + 1)
    ensures LastWriter(words, r, c).Some? ==> BuildGrid(words)[r][c] == LastWriter(words, r, c).value
    ensures LastWriter(words, r, c).None? ==> BuildGrid(words)[r][c] == Cell(None, true, r, c, false, None, None)
  {
    BuildGridIs(words);
    var rows: nat, cols: nat := MaxRow(words) + 1, MaxCol(words) + 1;
    var filled := FillAll(Empty(rows, cols), words);
    FilledCell(words, rows, cols, r, c);
    assert BuildGrid(words)[r] == RevealRow(filled[r], r);
  }

  /** The source of a written square: the word and letter that wrote it last. */
  lemma {:induction false} LastWriterSource(words: seq<Word>, r: int, c: int) returns (b: nat, j: nat)
    requires LastWriter(words, r, c).Some?
    ensures b < |words| && j < |words[b].text| && Position(words[b], j) == (r, c)
    ensures LastWriter(words, r, c).value == WordCell(words[b], j)
  {
    var n := |words| - 1;
    match IndexAt(words[n], r, c)
    case Some(k) =>
      b, j := n, k;
    case None =>
      b, j := LastWriterSource(words[..n], r, c);
  }

  /** A square is revealed exactly when no word passes through it; otherwise it holds a letter. */
  lemma GridRevealed(words: seq<Word>, r: nat, c: nat)
    requires WellFormed(words) && r <= MaxRow(words) && c <= MaxCol(words)
    ensures Shaped(BuildGrid(words), MaxRow(words) + 1, MaxCol(words) + 1)
    ensures BuildGrid(words)[r][c].revealed <==> forall a :: 0 <= a < |words| ==> IndexAt(words[a], r, c).None?
    ensures BuildGrid(words)[r][c].letter.Some? <==> !BuildGrid(words)[r][c].revealed
  {
    GridCell(words, r, c);
  }

  // ---------------------------------------------------------------- consistency of crossings

  /** Letter `i` of word `a` and letter `j` of word `b` share a square but differ. */
  predicate Clash(words: seq<Word>, a: nat, i: nat, b: nat, j: nat)
  {
    a < |words| && b < |words| && i < |words[a].text| && j < |words[b].text|
    && Position(words[a], i) == Position(words[b], j) && words[a].text[i] != words[b].text[j]
  }

  /** Every crossing agrees: no square is asked to hold two different letters. */
  ghost predicate Consistent(words: seq<Word>)
  {
    forall a: nat, i: nat, b: nat, j: nat :: !Clash(words, a, i, b, j)
  }

  /** With agreeing crossings, every word can be read off the grid letter by letter. */
  lemma GridShowsWords(words: seq<Word>, a: nat, i: nat)
    requires WellFormed(words) && Consistent(words) && a < |words| && i < |words[a].text|
    ensures Position(words[a], i).0 <= MaxRow(words) && Position(words[a], i).1 <= MaxCol(words)
    ensures Shaped(BuildGrid(words), MaxRow(words) + 1, MaxCol(words) + 1)
    ensures BuildGrid(words)[Position(words[a], i).0][Position(words[a], i).1].letter == Some(words[a].text[i])
  {
    GridCoversWords(words, a, i);
    var (r, c) := Position(words[a], i);
    assert IndexAt(words[a], r, c).Some?;
    GridCell(words, r, c);
    var b, j := LastWriterSource(words, r, c);
    assert !Clash(words, a, i, b, j);
  }

  // ---------------------------------------------------------------- player input

  /** What the player typed into one square. */
  datatype Input = Input(row: int, col: int, value: string)

  predicate At(x: Input, r: int, c: int)
  {
    x.row == r && x.col == c
  }

  /** A typed value as kept: its last character only, upper-cased. */
  function Normalize(value: string): (v: string)
    ensures |value| == 0 ==> v == ""
    ensures |value| > 0 ==> v == [Text.UpperChar(value[|value| - 1])]
  {
    Text.Upper(if |value| > 1 then value[|value| - 1..] else value)
  }

  /** Normalizing a kept value changes nothing. */
  lemma NormalizeIdempotent(value: string)
    ensures Normalize(Normalize(value)) == Normalize(value)
  {
    if |value| > 0 {
      var ch := value[|value| - 1];
      assert Text.UpperChar(Text.UpperChar(ch)) == Text.UpperChar(ch);
    }
  }

  /** `findIndex` of the entry for (`r`, `c`): the first one in the list. */
  function CellIndex(inputs: seq<Input>, r: int, c: int): (k: Option<nat>)
    ensures k.Some? ==> k.value < |inputs| && At(inputs[k.value], r, c)
    ensures k.Some? ==> forall j :: 0 <= j < k.value ==> !At(inputs[j], r, c)
    ensures k.None? ==> forall j :: 0 <= j < |inputs| ==> !At(inputs[j], r, c)
  {
    if |inputs| == 0 then None
    else if At(inputs[0], r, c) then Some(0)
    else
      match CellIndex(inputs[1..], r, c)
      case Some(k) => Some(k + 1)
      case None => None
  }

  /** `find` of the entry for (`r`, `c`): the value the square shows, if it has one. */
  function ValueAt(inputs: seq<Input>, r: int, c: int): Option<string>
  {
    match CellIndex(inputs, r, c)
    case Some(k) => Some(inputs[k].value)
    case None => None
  }

  /** At most one entry per square. */
  predicate UniqueCells(inputs: seq<Input>)
  {
    forall i, j :: 0 <= i < j < |inputs| ==> !At(inputs[j], inputs[i].row, inputs[i].col)
  }

  /** The entry found for a square is the first one at that square. */
  lemma {:induction false} FirstAt(inputs: seq<Input>, r: int, c: int, k: nat)
    requires k < |inputs| && At(inputs[k], r, c)
    requires forall j :: 0 <= j < k ==> !At(inputs[j], r, c)
    ensures CellIndex(inputs, r, c) == Some(k)
  {
    if k > 0 {
      FirstAt(inputs[1..], r, c, k - 1);
    }
  }

  /** In a list without repeated squares, the entry at `k` is the one found for its square. */
  lemma UniqueValueAt(inputs: seq<Input>, k: nat)
    requires UniqueCells(inputs) && k < |inputs|
    ensures ValueAt(inputs, inputs[k].row, inputs[k].col) == Some(inputs[k].value)
  {
    FirstAt(inputs, inputs[k].row, inputs[k].col, k);
  }

  /** The update `setUserInputs` makes: overwrite the square's entry, or append one. */
  function Upsert(inputs: seq<Input>, r: int, c: int, v: string): (updated: seq<Input>)
    ensures ValueAt(updated, r, c) == Some(v)
    ensures |updated| == |inputs| + (if ValueAt(inputs, r, c).Some? then 0 else 1)
    ensures UniqueCells(inputs) ==> UniqueCells(updated)
  {
    match CellIndex(inputs, r, c)
    case Some(k) =>
      var updated := inputs[k := Input(r, c, v)];
      FirstAt(updated, r, c, k);
      updated
    case None =>
      var updated := inputs + [Input(r, c, v)];
      FirstAt(updated, r, c, |inputs|);
      updated
  }

  /** The first entry for a square depends only on which entries are at that square. */
  lemma SameCellIndex(a: seq<Input>, b: seq<Input>, r: int, c: int)
    requires |a| == |b| && forall j :: 0 <= j < |a| ==> (At(a[j], r, c) <==> At(b[j], r, c))
    ensures CellIndex(a, r, c) == CellIndex(b, r, c)
  {
    match CellIndex(a, r, c) {
      case Some(k) => FirstAt(b, r, c, k);
      case None =>
    }
  }

  /** An update touches no other square. */
  lemma UpsertElsewhere(inputs: seq<Input>, r: int, c: int, v: string, r2: int, c2: int)
    requires (r2, c2) != (r, c)
    ensures ValueAt(Upsert(inputs, r, c, v), r2, c2) == ValueAt(inputs, r2, c2)
  {
    var updated := Upsert(inputs, r, c, v);
    match CellIndex(inputs, r, c) {
      case Some(k) =>
        assert forall j :: 0 <= j < |inputs| ==> (At(updated[j], r2, c2) <==> At(inputs[j], r2, c2));
        SameCellIndex(inputs, updated, r2, c2);
      case None =>
        match CellIndex(inputs, r2, c2) {
          case Some(m) => FirstAt(updated, r2, c2, m);
          case None =>
        }
    }
  }

  // ---------------------------------------------------------------- checking words

  /** Square `i` of `w` holds exactly the letter `w` needs there. */
  predicate Entered(inputs: seq<Input>, w: Word, i: nat)
    requires i < |w.text|
  {
    ValueAt(inputs, Position(w, i).0, Position(w, i).1) == Some([w.text[i]])
  }

  /** The letter-by-letter check of `w` from letter `i`, stopping at the first square missing or wrong. */
  function CheckFrom(inputs: seq<Input>, w: Word, i: nat): (ok: bool)
    requires i <= |w.text|
    ensures ok <==> forall k :: i <= k < |w.text| ==> Entered(inputs, w, k)
    decreases |w.text| - i
  {
    if i == |w.text| then true
    else
      match ValueAt(inputs, Position(w, i).0, Position(w, i).1)
      case None => assert !Entered(inputs, w, i); false
      case Some(v) => if v != [w.text[i]] then assert !Entered(inputs, w, i); false else CheckFrom(inputs, w, i + 1)
  }

  /** A word is correct exactly when every one of its squares holds its letter. */
  predicate WordCorrect(inputs: seq<Input>, w: Word)
  {
    CheckFrom(inputs, w, 0)
  }

  /** Every word is correct: the `allCorrect` of the completion check. */
  predicate Solved(words: seq<Word>, inputs: seq<Input>)
  {
    forall a :: 0 <= a < |words| ==> WordCorrect(inputs, words[a])
  }

  /** Some word of the list carries number `n` and is correct. */
  predicate CorrectNumber(words: seq<Word>, inputs: seq<Input>, n: int)
  {
    exists a :: 0 <= a < |words| && words[a].number == n && WordCorrect(inputs, words[a])
  }

  /** A list is solved exactly when all but its last word are and the last word is too. */
  lemma SolvedSnoc(words: seq<Word>, inputs: seq<Input>)
    requires |words| > 0
    ensures forall a :: 0 <= a < |words| - 1 ==> words[..|words| - 1][a] == words[a]
    ensures Solved(words, inputs) <==> Solved(words[..|words| - 1], inputs) && WordCorrect(inputs, words[|words| - 1])
  {
  }

  /** The numbers pushed to `correctWords`: those of the correct words, in list order. */
  function CorrectNumbers(words: seq<Word>, inputs: seq<Input>): (ns: seq<int>)
    ensures |ns| <= |words|
    ensures |ns| == |words| <==> Solved(words, inputs)
    ensures Solved(words, inputs) ==> forall a :: 0 <= a < |words| ==> ns[a] == words[a].number
    ensures forall k :: 0 <= k < |ns| ==> CorrectNumber(words, inputs, ns[k])
  {
    if |words| == 0 then []
    else
      var init, w := words[..|words| - 1], words[|words| - 1];
      var ns := CorrectNumbers(init, inputs);
      SolvedSnoc(words, inputs);
      assert forall n :: CorrectNumber(init, inputs, n) ==> CorrectNumber(words, inputs, n);
      if WordCorrect(inputs, w) then
        assert CorrectNumber(words, inputs, w.number);
        ns + [w.number]
      else ns
  }

  /** When every word is correct, no two crossing letters can differ. */
  lemma SolvedIsConsistent(words: seq<Word>, inputs: seq<Input>)
    requires Solved(words, inputs)
    ensures Consistent(words)
  {
    forall a: nat, i: nat, b: nat, j: nat
      ensures !Clash(words, a, i, b, j)
    {
      if a < |words| && b < |words| && i < |words[a].text| && j < |words[b].text| {
        assert WordCorrect(inputs, words[a]) && WordCorrect(inputs, words[b]);
        assert Entered(inputs, words[a], i) && Entered(inputs, words[b], j);
      }
    }
  }

  /** The entry for letter `i` of `w`: its square and its letter. */
  function LetterEntry(w: Word, i: nat): Input
    requires i < |w.text|
  {
    Input(Position(w, i).0, Position(w, i).1, [w.text[i]])
  }

  /** The entries for the letters of `w` from `i` on. */
  function Entries(w: Word, i: nat): (xs: seq<Input>)
    requires i <= |w.text|
    ensures |xs| == |w.text| - i
    ensures forall k :: 0 <= k < |xs| ==> xs[k] == LetterEntry(w, i + k)
    decreases |w.text| - i
  {
    if i == |w.text| then [] else [LetterEntry(w, i)] + Entries(w, i + 1)
  }

  /** A full answer sheet: the entries of every word, in list order. */
  function Solution(words: seq<Word>): seq<Input>
  {
    if |words| == 0 then [] else Solution(words[..|words| - 1]) + Entries(words[|words| - 1], 0)
  }

  predicate IsLetterEntry(words: seq<Word>, x: Input)
  {
    exists b, j :: 0 <= b < |words| && 0 <= j < |words[b].text| && x == LetterEntry(words[b], j)
  }

  /** The answer sheet holds the entry of every letter, and nothing else. */
  lemma SolutionEntries(words: seq<Word>)
    ensures forall k :: 0 <= k < |Solution(words)| ==> IsLetterEntry(words, Solution(words)[k])
    ensures forall b, j :: 0 <= b < |words| && 0 <= j < |words[b].text| ==> LetterEntry(words[b], j) in Solution(words)
  {
    SolutionSound(words);
    SolutionComplete(words);
  }

  /** Every entry of the answer sheet is the entry of some letter. */
  lemma {:induction false} SolutionSound(words: seq<Word>)
    ensures forall k :: 0 <= k < |Solution(words)| ==> IsLetterEntry(words, Solution(words)[k])
  {
    if |words| > 0 {
      var n := |words| - 1;
      var init := words[..n];
      SolutionSound(init);
      var sol := Solution(words);
      var es := Entries(words[n], 0);
      assert sol == Solution(init) + es;
      forall k | 0 <= k < |sol|
        ensures IsLetterEntry(words, sol[k])
      {
        if k < |Solution(init)| {
          assert sol[k] == Solution(init)[k];
          var b, j :| 0 <= b < |init| && 0 <= j < |init[b].text| && sol[k] == LetterEntry(init[b], j);
          assert init[b] == words[b];
        } else {
          assert sol[k] == es[k - |Solution(init)|];
        }
      }
    }
  }

  /** The entry of every letter is on the answer sheet. */
  lemma {:induction false} SolutionComplete(words: seq<Word>)
    ensures forall b, j :: 0 <= b < |words| && 0 <= j < |words[b].text| ==> LetterEntry(words[b], j) in Solution(words)
  {
    if |words| > 0 {
      var n := |words| - 1;
      var init := words[..n];
      SolutionComplete(init);
      var sol := Solution(words);
      var es := Entries(words[n], 0);
      assert sol == Solution(init) + es;
      forall b, j | 0 <= b < |words| && 0 <= j < |words[b].text|
        ensures LetterEntry(words[b], j) in sol
      {
        if b < n {
          assert init[b] == words[b];
          assert LetterEntry(init[b], j) in Solution(init);
        } else {
          assert es[j] == LetterEntry(words[b], j);
        }
      }
    }
  }

  /** When the crossings agree, the full answer sheet solves the puzzle. */
  lemma ConsistentIsSolvable(words: seq<Word>)
    requires Consistent(words)
    ensures Solved(words, Solution(words))
  {
    var sol := Solution(words);
    SolutionEntries(words);
    forall a, i | 0 <= a < |words| && 0 <= i < |words[a].text|
      ensures Entered(sol, words[a], i)
    {
      var (r, c) := Position(words[a], i);
      var m :| 0 <= m < |sol| && sol[m] == LetterEntry(words[a], i);
      match CellIndex(sol, r, c) {
        case Some(k) =>
          var b, j :| 0 <= b < |words| && 0 <= j < |words[b].text| && sol[k] == LetterEntry(words[b], j);
          assert !Clash(words, a, i, b, j);
        case None =>
          assert At(sol[m], r, c);
      }
    }
    forall a | 0 <= a < |words|
      ensures WordCorrect(sol, words[a])
    {
      assert forall i :: 0 <= i < |words[a].text| ==> Entered(sol, words[a], i);
    }
  }

  /** Some answer sheet completes the puzzle exactly when its crossings agree. */
  lemma SolvableIffConsistent(words: seq<Word>)
    ensures (exists inputs :: Solved(words, inputs)) <==> Consistent(words)
  {
    if Consistent(words) {
      ConsistentIsSolvable(words);
    } else if exists inputs :: Solved(words, inputs) {
      var inputs :| Solved(words, inputs);
      SolvedIsConsistent(words, inputs);
    }
  }

  // ---------------------------------------------------------------- the shipped puzzle

  /** The eight words the page loads, with their clues, starting squares and numbers. */
  const Data: seq<Word> := [
    Word("БАЛАДА", "Ліро-епічний твір, часто фантастичного змісту", 0, 0, Across, 1),
    Word("БАЙКА", "Алегоричний твір повчального характеру", 0, 0, Down, 1),
    Word("АВТОР", "Творець художнього твору", 2, 2, Across, 2),
    Word("ДРАМА", "Літературний твір, призначений для театру", 4, 0, Across, 3),
    Word("ОБРАЗ", "Художнє відображення людини в літературі", 2, 2, Down, 2),
    Word("РОМАН", "Великий епічний твір", 0, 4, Down, 4),
    Word("КАЗКА", "Розповідний народнопоетичний твір", 6, 0, Across, 5),
    Word("ПОЕМА", "Великий віршований твір", 4, 2, Down, 6)
  ]

  /** Square (0, 4) is asked to hold the fifth letter of БАЛАДА and the first of РОМАН. */
  lemma DataClash()
    ensures Clash(Data, 0, 4, 5, 0)
  {
  }

  /** No input ever completes the shipped puzzle. */
  lemma DataNeverSolved(inputs: seq<Input>)
    ensures !Solved(Data, inputs)
  {
    DataClash();
    if Solved(Data, inputs) {
      SolvedIsConsistent(Data, inputs);
    }
  }

  /** The same words and clue numbers placed so that every crossing agrees. */
  const CorrectedData: seq<Word> := [
    Word("БАЛАДА", "Ліро-епічний твір, часто фантастичного змісту", 0, 4, Across, 1),
    Word("БАЙКА", "Алегоричний твір повчального характеру", 0, 4, Down, 1),
    Word("АВТОР", "Творець художнього твору", 4, 4, Across, 2),
    Word("ДРАМА", "Літературний твір, призначений для театру", 1, 0, Across, 3),
    Word("ОБРАЗ", "Художнє відображення людини в літературі", 2, 8, Down, 2),
    Word("РОМАН", "Великий епічний твір", 1, 1, Down, 4),
    Word("КАЗКА", "Розповідний народнопоетичний твір", 6, 6, Across, 5),
    Word("ПОЕМА", "Великий віршований твір", 2, 10, Down, 6)
  ]

  /** Word `w` runs across and `v` down, and the one square they could share holds the same letter in both. */
  predicate CrossingAgrees(w: Word, v: Word)
  {
    w.orientation == Across && v.orientation == Down &&
    (v.startCol < w.startCol || w.startRow < v.startRow ||
     v.startCol - w.startCol >= |w.text| || w.startRow - v.startRow >= |v.text| ||
     w.text[v.startCol - w.startCol] == v.text[w.startRow - v.startRow])
  }

  /** A word across and a word down share at most one square, so agreeing there is agreeing everywhere. */
  lemma CrossingSuffices(w: Word, v: Word, i: nat, j: nat)
    requires CrossingAgrees(w, v) && i < |w.text| && j < |v.text| && Position(w, i) == Position(v, j)
    ensures w.text[i] == v.text[j]
  {
    assert i == v.startCol - w.startCol && j == w.startRow - v.startRow;
  }

  /** Two words in the same direction share no square unless they lie on the same line. */
  lemma ParallelApart(w: Word, v: Word, i: nat, j: nat)
    requires w.orientation == v.orientation
    requires w.orientation == Across ==> w.startRow != v.startRow
    requires w.orientation == Down ==> w.startCol != v.startCol
    ensures Position(w, i) != Position(v, j)
  {
  }

  /** Words across lie on distinct rows and words down on distinct columns. */
  ghost predicate OnDistinctLines(words: seq<Word>)
  {
    forall a, b :: 0 <= a < b < |words| && words[a].orientation == words[b].orientation ==>
      if words[a].orientation == Across then words[a].startRow != words[b].startRow
      else words[a].startCol != words[b].startCol
  }

  /** Every word across agrees with every word down where they cross. */
  ghost predicate CrossingsAgree(words: seq<Word>)
  {
    forall a, b :: 0 <= a < |words| && 0 <= b < |words| && words[a].orientation == Across && words[b].orientation == Down ==>
      CrossingAgrees(words[a], words[b])
  }

  /** Words on distinct lines whose crossings agree never clash. */
  lemma NoClashWith(words: seq<Word>, a: nat, i: nat, b: nat, j: nat)
    requires OnDistinctLines(words) && CrossingsAgree(words)
    ensures !Clash(words, a, i, b, j)
  {
    if a < |words| && b < |words| && i < |words[a].text| && j < |words[b].text| && Position(words[a], i) == Position(words[b], j) {
      var w, v := words[a], words[b];
      if a == b {
        assert i == j;
      } else if w.orientation == v.orientation {
        if a < b {
          ParallelApart(w, v, i, j);
        } else {
          ParallelApart(v, w, j, i);
        }
      } else if w.orientation == Across {
        CrossingSuffices(w, v, i, j);
      } else {
        CrossingSuffices(v, w, j, i);
      }
    }
  }

  /** The corrected puzzle's words across lie on rows 0, 4, 1 and 6, its words down on columns 4, 8, 1 and 10. */
  lemma CorrectedLines()
    ensures OnDistinctLines(CorrectedData)
  {
  }

  /** Every crossing of a word across with a word down in the corrected puzzle agrees. */
  lemma CorrectedCrossings()
    ensures CrossingsAgree(CorrectedData)
  {
  }

  /** Every crossing of the corrected puzzle agrees. */
  lemma CorrectedDataConsistent()
    ensures Consistent(CorrectedData)
  {
    CorrectedLines();
    CorrectedCrossings();
    forall a: nat, i: nat, b: nat, j: nat
      ensures !Clash(CorrectedData, a, i, b, j)
    {
      NoClashWith(CorrectedData, a, i, b, j);
    }
  }

  /** The corrected puzzle can be completed, by the full answer sheet. */
  lemma CorrectedDataSolvable()
    ensures exists inputs :: Solved(CorrectedData, inputs)
  {
    CorrectedDataConsistent();
    ConsistentIsSolvable(CorrectedData);
  }

  // ---------------------------------------------------------------- the cursor

  /** A square that takes input: inside the grid, holding a letter, not revealed. */
  predicate Open(grid: Grid, r: int, c: int)
  {
    0 <= r < |grid| && 0 <= c < |grid[r]| && grid[r][c].letter.Some? && !grid[r][c].revealed
  }

  /** The square `d` steps after `p` in direction `o`. */
  function Ahead(p: (nat, nat), o: Orientation, d: nat): (nat, nat)
  {
    if o == Across then (p.0, p.1 + d) else (p.0 + d, p.1)
  }

  /** `q` is the first open square strictly after `p` in direction `o`. */
  ghost predicate FirstOpenAfter(grid: Grid, p: (nat, nat), o: Orientation, q: (nat, nat))
  {
    exists d: nat :: d > 0 && q == Ahead(p, o, d) && Open(grid, q.0, q.1)
      && forall e: nat :: 0 < e < d ==> !Open(grid, Ahead(p, o, e).0, Ahead(p, o, e).1)
  }

  /** No open square lies strictly after `p` in direction `o`. */
  ghost predicate NoneOpenAfter(grid: Grid, p: (nat, nat), o: Orientation)
  {
    forall e: nat :: 0 < e ==> !Open(grid, Ahead(p, o, e).0, Ahead(p, o, e).1)
  }

  /** The first open square in row `r` at column `c` or later. */
  function NextAcross(grid: Grid, r: nat, c: nat): (k: Option<nat>)
    ensures k.Some? ==> c <= k.value && Open(grid, r, k.value)
    ensures forall j: nat :: c <= j && (k.None? || j < k.value) ==> !Open(grid, r, j)
    decreases if r < |grid| && c < |grid[r]| then |grid[r]| - c else 0
  {
    if r >= |grid| || c >= |grid[r]| then None
    else if Open(grid, r, c) then Some(c)
    else NextAcross(grid, r, c + 1)
  }

  /** The first open square in column `c` at row `r` or later. */
  function NextDown(grid: Grid, r: nat, c: nat): (k: Option<nat>)
    ensures k.Some? ==> r <= k.value && Open(grid, k.value, c)
    ensures forall i: nat :: r <= i && (k.None? || i < k.value) ==> !Open(grid, i, c)
    decreases |grid| - r
  {
    if r >= |grid| then None
    else if Open(grid, r, c) then Some(r)
    else NextDown(grid, r + 1, c)
  }

  /**
   * `moveToNextCell`: from the selected square, the first open square to the right
   * (across) or below (down); the selection stays put when there is none.
   */
  function MoveToNext(grid: Grid, selected: Option<(nat, nat)>, o: Orientation): (moved: Option<(nat, nat)>)
    ensures selected.None? ==> moved.None?
    ensures moved.Some? && moved != selected ==> Open(grid, moved.value.0, moved.value.1)
    ensures selected.Some? && moved == selected ==> NoneOpenAfter(grid, selected.value, o)
    ensures selected.Some? && moved != selected ==> moved.Some? && FirstOpenAfter(grid, selected.value, o, moved.value)
  {
    match selected
    case None => None
    case Some(p) =>
      if o == Across then
        match NextAcross(grid, p.0, p.1 + 1)
        case Some(k) =>
          assert Ahead(p, o, k - p.1) == (p.0, k);
          Some((p.0, k))
        case None => selected
      else
        match NextDown(grid, p.0 + 1, p.1)
        case Some(k) =>
          assert Ahead(p, o, k - p.0) == (k, p.1);
          Some((k, p.1))
        case None => selected
  }

  // ---------------------------------------------------------------- the page

  /** The page state: grid, words, entries, selected square and direction, completion, correct word numbers. */
  datatype Crossword = Crossword(grid: Grid, words: seq<Word>, inputs: seq<Input>,
                                 selected: Option<(nat, nat)>, orientation: Orientation,
                                 completed: bool, correct: seq<int>)

  predicate InGrid(grid: Grid, r: int, c: int)
  {
    0 <= r < |grid| && 0 <= c < |grid[r]|
  }

  /** Every row has as many squares as the first. */
  predicate Rectangular(grid: Grid)
  {
    |grid| > 0 && forall r :: 0 <= r < |grid| ==> |grid[r]| == |grid[0]|
  }

  /**
   * What holds between events: the grid is the one built from the words, no square
   * has two entries, the selection is a square of the grid, and the success screen
   * shows only when every word is correct.
   */
  predicate Valid(s: Crossword)
  {
    WellFormed(s.words) && s.grid == BuildGrid(s.words) && UniqueCells(s.inputs)
    && (s.selected.Some? ==> InGrid(s.grid, s.selected.value.0, s.selected.value.1))
    && (s.completed ==> Solved(s.words, s.inputs))
  }

  lemma ValidGrid(s: Crossword)
    requires Valid(s)
    ensures Rectangular(s.grid)
  {
    GridCoversWords(s.words, 0, 0);
  }

  /** The page once the words are loaded: nothing entered, nothing selected, across. */
  function Initial(words: seq<Word>): (s: Crossword)
    requires WellFormed(words)
    ensures Valid(s) && s.inputs == [] && s.selected.None? && !s.completed && s.correct == []
  {
    Crossword(BuildGrid(words), words, [], None, Across, false, [])
  }

  // ---------------------------------------------------------------- typing

  /**
   * `handleCellChange` as intended: record the entry, select the square, and for a
   * non-blank entry move on and check the puzzle against the entries as they now are.
   */
  function Typed(s: Crossword, r: nat, c: nat, value: string): (s': Crossword)
    ensures s'.grid == s.grid && s'.words == s.words && s'.orientation == s.orientation
    ensures ValueAt(s'.inputs, r, c) == Some(Normalize(value))
    ensures UniqueCells(s.inputs) ==> UniqueCells(s'.inputs)
    ensures Text.Trim(Normalize(value)) == "" ==>
              s'.selected == Some((r, c)) && s'.completed == s.completed && s'.correct == s.correct
    ensures Text.Trim(Normalize(value)) != "" ==>
              s'.selected == MoveToNext(s.grid, Some((r, c)), s.orientation)
              && (s'.completed <==> s.completed || Solved(s.words, s'.inputs))
              && s'.correct == CorrectNumbers(s.words, s'.inputs)
  {
    var v := Normalize(value);
    var inputs := Upsert(s.inputs, r, c, v);
    if Text.Trim(v) == "" then
      s.(inputs := inputs, selected := Some((r, c)))
    else
      s.(inputs := inputs, selected := MoveToNext(s.grid, Some((r, c)), s.orientation),
         completed := s.completed || Solved(s.words, inputs), correct := CorrectNumbers(s.words, inputs))
  }

  /**
   * The entries the delayed check sees: the list from before the change, in which an
   * existing entry for the square was overwritten in place and a new one is missing.
   */
  function StaleView(inputs: seq<Input>, r: int, c: int, v: string): (seen: seq<Input>)
    ensures ValueAt(inputs, r, c).Some? ==> ValueAt(seen, r, c) == Some(v)
    ensures ValueAt(inputs, r, c).None? ==> seen == inputs
  {
    if ValueAt(inputs, r, c).Some? then Upsert(inputs, r, c, v) else inputs
  }

  /**
   * `handleCellChange` as written: the move and the check run later from the closure of
   * the render that received the keystroke, so they see the old selection and
   * `StaleView` of the entries.
   */
  function TypedAsWritten(s: Crossword, r: nat, c: nat, value: string): (s': Crossword)
    ensures s'.grid == s.grid && s'.words == s.words && s'.orientation == s.orientation
    ensures s'.inputs == Typed(s, r, c, value).inputs
    ensures Text.Trim(Normalize(value)) == "" ==> s'.selected == Some((r, c)) && s'.completed == s.completed
    ensures Text.Trim(Normalize(value)) != "" ==>
              (s'.completed <==> s.completed || Solved(s.words, StaleView(s.inputs, r, c, Normalize(value))))
  {
    var v := Normalize(value);
    var inputs := Upsert(s.inputs, r, c, v);
    if Text.Trim(v) == "" then
      s.(inputs := inputs, selected := Some((r, c)))
    else
      var seen := StaleView(s.inputs, r, c, v);
      var moved := MoveToNext(s.grid, s.selected, s.orientation);
      s.(inputs := inputs, selected := if moved.Some? && moved != s.selected then moved else Some((r, c)),
         completed := s.completed || Solved(s.words, seen), correct := CorrectNumbers(s.words, seen))
  }

  /** The two handlers differ in completion only when the keystroke fills a square that had no entry. */
  lemma StaleCheckAgreesOnEnteredSquares(s: Crossword, r: nat, c: nat, value: string)
    requires ValueAt(s.inputs, r, c).Some?
    ensures TypedAsWritten(s, r, c, value).completed == Typed(s, r, c, value).completed
  {
  }

  /** A one-letter puzzle: typing its only letter should complete it. */
  const OneLetter: seq<Word> := [Word("Я", "", 0, 0, Across, 1)]

  /** As written, the keystroke that fills the last empty square does not complete the puzzle. */
  lemma StaleCheckMissesLastLetter()
    ensures WellFormed(OneLetter)
    ensures Solved(OneLetter, TypedAsWritten(Initial(OneLetter), 0, 0, "я").inputs)
    ensures !TypedAsWritten(Initial(OneLetter), 0, 0, "я").completed
  {
    var s := Initial(OneLetter);
    var s' := TypedAsWritten(s, 0, 0, "я");
    assert Normalize("я") == "Я";
    assert Entered(s'.inputs, OneLetter[0], 0);
    assert WordCorrect(s'.inputs, OneLetter[0]);
    assert StaleView(s.inputs, 0, 0, "Я") == [];
    assert !WordCorrect([], OneLetter[0]) by {
      assert !Entered([], OneLetter[0], 0);
    }
  }

  /** Checked against the entries as they now are, the same keystroke completes it. */
  lemma FreshCheckSeesLastLetter()
    ensures WellFormed(OneLetter)
    ensures Typed(Initial(OneLetter), 0, 0, "я").completed
  {
    var s' := Typed(Initial(OneLetter), 0, 0, "я");
    assert Normalize("я") == "Я";
    assert Entered(s'.inputs, OneLetter[0], 0);
  }

  // ---------------------------------------------------------------- clicks, keys and clearing

  function Flip(o: Orientation): Orientation
  {
    if o == Across then Down else Across
  }

  /** A letter square directly left or right of (`r`, `c`). */
  predicate LetterBesideAcross(grid: Grid, r: nat, c: nat)
    requires InGrid(grid, r, c)
  {
    (c > 0 && grid[r][c - 1].letter.Some?) || (c + 1 < |grid[r]| && grid[r][c + 1].letter.Some?)
  }

  /** A letter square directly above or below (`r`, `c`). */
  predicate LetterBesideDown(grid: Grid, r: nat, c: nat)
    requires InGrid(grid, r, c) && Rectangular(grid)
  {
    (r > 0 && grid[r - 1][c].letter.Some?) || (r + 1 < |grid| && grid[r + 1][c].letter.Some?)
  }

  /**
   * `handleCellClick`: revealed squares ignore clicks; clicking the selected square
   * turns the direction; any other square becomes selected, taking the direction its
   * neighbours allow and keeping the current one when both or neither do.
   */
  function Clicked(s: Crossword, r: nat, c: nat): (s': Crossword)
    requires InGrid(s.grid, r, c) && Rectangular(s.grid)
    ensures s.grid[r][c].revealed ==> s' == s
    ensures !s.grid[r][c].revealed ==>
              s' == s.(selected := Some((r, c)), orientation := s'.orientation)
    ensures !s.grid[r][c].revealed && s.selected == Some((r, c)) ==> s'.orientation == Flip(s.orientation)
    ensures !s.grid[r][c].revealed && s.selected != Some((r, c)) ==>
              (s'.orientation == Across <==>
                 (LetterBesideAcross(s.grid, r, c) && !LetterBesideDown(s.grid, r, c))
                 || (s.orientation == Across && (LetterBesideAcross(s.grid, r, c) == LetterBesideDown(s.grid, r, c))))
  {
    if s.grid[r][c].revealed then s
    else if s.selected == Some((r, c)) then s.(orientation := Flip(s.orientation))
    else
      var across, down := LetterBesideAcross(s.grid, r, c), LetterBesideDown(s.grid, r, c);
      var o := if across && down then s.orientation else if across then Across else if down then Down else s.orientation;
      s.(selected := Some((r, c)), orientation := o)
  }

  /** Clicking the selected square twice leaves the direction as it was. */
  lemma ClickTwice(s: Crossword, r: nat, c: nat)
    requires InGrid(s.grid, r, c) && Rectangular(s.grid) && s.selected == Some((r, c))
    ensures Clicked(Clicked(s, r, c), r, c) == s
  {
  }

  datatype Key = Tab | ArrowRight | ArrowLeft | ArrowDown | ArrowUp | OtherKey

  /** The square one step from (`r`, `c`) in the arrow's direction, when that is inside the grid. */
  function ArrowTarget(grid: Grid, key: Key, r: nat, c: nat): (t: Option<(nat, nat)>)
    requires InGrid(grid, r, c) && Rectangular(grid)
    ensures t.Some? ==> InGrid(grid, t.value.0, t.value.1) && (t.value.0 - r) * (t.value.0 - r) + (t.value.1 - c) * (t.value.1 - c) == 1
    ensures key == ArrowRight || key == ArrowLeft ==> (t.Some? ==> t.value.0 == r) && (t.None? <==> (if key == ArrowRight then c + 1 == |grid[r]| else c == 0))
    ensures key == ArrowDown || key == ArrowUp ==> (t.Some? ==> t.value.1 == c) && (t.None? <==> (if key == ArrowDown then r + 1 == |grid| else r == 0))
    ensures key == Tab || key == OtherKey ==> t.None?
  {
    match key
    case ArrowRight => if c < |grid[r]| - 1 then Some((r, c + 1)) else None
    case ArrowLeft => if c > 0 then Some((r, c - 1)) else None
    case ArrowDown => if r < |grid| - 1 then Some((r + 1, c)) else None
    case ArrowUp => if r > 0 then Some((r - 1, c)) else None
    case Tab => None
    case OtherKey => None
  }

  /**
   * `handleKeyDown` on the square (`r`, `c`): Tab moves to the next open square; an
   * arrow sets the direction along it and steps one square while that stays in the grid.
   */
  function Pressed(s: Crossword, key: Key, r: nat, c: nat): (s': Crossword)
    requires InGrid(s.grid, r, c) && Rectangular(s.grid)
    ensures key == Tab ==> s' == s.(selected := MoveToNext(s.grid, s.selected, s.orientation))
    ensures key == OtherKey ==> s' == s
    ensures key != Tab && key != OtherKey ==>
              s'.orientation == (if key == ArrowRight || key == ArrowLeft then Across else Down)
              && s'.selected == (match ArrowTarget(s.grid, key, r, c) case Some(t) => Some(t) case None => s.selected)
    ensures s'.inputs == s.inputs && s'.completed == s.completed && s'.grid == s.grid && s'.words == s.words
  {
    match key
    case Tab => s.(selected := MoveToNext(s.grid, s.selected, s.orientation))
    case OtherKey => s
    case _ =>
      var o := if key == ArrowRight || key == ArrowLeft then Across else Down;
      match ArrowTarget(s.grid, key, r, c)
      case Some(t) => s.(orientation := o, selected := Some(t))
      case None => s.(orientation := o)
  }

  /** `handleClearCrossword`: entries, completion and correct words reset; the selection stays. */
  function Cleared(s: Crossword): (s': Crossword)
    ensures s'.inputs == [] && !s'.completed && s'.correct == []
    ensures s'.grid == s.grid && s'.words == s.words && s'.selected == s.selected && s'.orientation == s.orientation
  {
    s.(inputs := [], completed := false, correct := [])
  }

  datatype Event =
    | Type(row: nat, col: nat, value: string)
    | Click(row: nat, col: nat)
    | Press(key: Key, row: nat, col: nat)
    | Clear

  /** Typing, clicking and keys come from a square of the grid. */
  predicate FromGrid(grid: Grid, e: Event)
  {
    match e
    case Type(r, c, _) => InGrid(grid, r, c)
    case Click(r, c) => InGrid(grid, r, c)
    case Press(_, r, c) => InGrid(grid, r, c)
    case Clear => true
  }

  lemma TypedValid(s: Crossword, r: nat, c: nat, value: string)
    requires Valid(s) && !s.completed && InGrid(s.grid, r, c)
    ensures Valid(Typed(s, r, c, value))
  {
  }

  /** Entering a square that had no entry cannot spoil a solved puzzle: the square lies on no word. */
  lemma SolvedKeepsNewSquare(words: seq<Word>, inputs: seq<Input>, r: nat, c: nat, v: string)
    requires Solved(words, inputs) && ValueAt(inputs, r, c).None?
    ensures Solved(words, Upsert(inputs, r, c, v))
  {
    var updated := Upsert(inputs, r, c, v);
    forall a | 0 <= a < |words|
      ensures WordCorrect(updated, words[a])
    {
      var w := words[a];
      forall k | 0 <= k < |w.text|
        ensures Entered(updated, w, k)
      {
        assert Entered(inputs, w, k);
        UpsertElsewhere(inputs, r, c, v, Position(w, k).0, Position(w, k).1);
      }
    }
  }

  /**
   * The page as written stays valid too: its stale check can only judge solved a list
   * that the keystroke leaves solved.
   */
  lemma TypedAsWrittenValid(s: Crossword, r: nat, c: nat, value: string)
    requires Valid(s) && !s.completed && InGrid(s.grid, r, c)
    ensures Valid(TypedAsWritten(s, r, c, value))
  {
    var v := Normalize(value);
    var s' := TypedAsWritten(s, r, c, value);
    assert s'.inputs == Upsert(s.inputs, r, c, v);
    if Text.Trim(v) != "" {
      var moved := MoveToNext(s.grid, s.selected, s.orientation);
      assert s'.selected == if moved.Some? && moved != s.selected then moved else Some((r, c));
      if s'.completed && ValueAt(s.inputs, r, c).None? {
        assert Solved(s.words, s.inputs);
        SolvedKeepsNewSquare(s.words, s.inputs, r, c, v);
      }
    }
  }

  lemma ClickedValid(s: Crossword, r: nat, c: nat)
    requires Valid(s) && InGrid(s.grid, r, c) && Rectangular(s.grid)
    ensures Valid(Clicked(s, r, c))
  {
  }

  lemma PressedValid(s: Crossword, key: Key, r: nat, c: nat)
    requires Valid(s) && InGrid(s.grid, r, c) && Rectangular(s.grid)
    ensures Valid(Pressed(s, key, r, c))
  {
  }

  /**
   * One event on the page as written: typing goes through `TypedAsWritten`. Once the puzzle is completed the page shows only the
   * success screen, whose one control clears the puzzle.
   */
  function Step(s: Crossword, e: Event): (s': Crossword)
    requires Valid(s) && FromGrid(s.grid, e)
    ensures Valid(s')
    ensures s'.grid == s.grid && s'.words == s.words
    ensures s.completed && !e.Clear? ==> s' == s
    ensures !e.Type? && !e.Clear? ==> s'.inputs == s.inputs && s'.completed == s.completed
  {
    ValidGrid(s);
    if s.completed && !e.Clear? then s
    else
      match e
      case Type(r, c, value) => TypedAsWrittenValid(s, r, c, value); TypedAsWritten(s, r, c, value)
      case Click(r, c) => ClickedValid(s, r, c); Clicked(s, r, c)
      case Press(key, r, c) => PressedValid(s, key, r, c); Pressed(s, key, r, c)
      case Clear => Cleared(s)
  }

  /** The states after each event in turn. */
  function Run(s: Crossword, events: seq<Event>): (s': Crossword)
    requires Valid(s)
    ensures Valid(s') && s'.grid == s.grid && s'.words == s.words
    decreases |events|
  {
    if |events| == 0 then s
    else
      var e := events[0];
      if FromGrid(s.grid, e) then Run(Step(s, e), events[1..]) else Run(s, events[1..])
  }

  /** The shipped puzzle never reaches its success screen, whatever the player does. */
  lemma DataNeverCompletes(events: seq<Event>)
    ensures WellFormed(Data)
    ensures !Run(Initial(Data), events).completed
  {
    var s := Run(Initial(Data), events);
    DataNeverSolved(s.inputs);
  }
}

=== FILE: grouping.dfy ===
/**
 * Grouping a list by a key with `reduce` into an object of arrays, as the theory
 * page does with books per author and the profile page does with test results per
 * test type: the first element with a new key opens a group at the end, every
 * later element with that key is pushed onto it.
 */
module Grouping {
  import opened Wrappers
  import Seqs

  datatype Group<K, T> = Group(key: K, members: seq<T>)

  /** The filter "has key `k`". */
  function HasKey<K(==), T>(key: T -> K, k: K): T -> bool
  {
    x => key(x) == k
  }

  /** The elements of `xs` whose key is `k`, in order: the reference definition of one group. */
  function Members<K(==), T>(xs: seq<T>, key: T -> K, k: K): (r: seq<T>)
    ensures forall i :: 0 <= i < |r| ==> key(r[i]) == k
    ensures forall i :: 0 <= i < |xs| && key(xs[i]) == k ==> xs[i] in r
  {
    Seqs.Filter(xs, HasKey(key, k))
  }

  /** Where the group with key `k` sits, if there is one. */
  function KeyIndex<K(==), T>(groups: seq<Group<K, T>>, k: K): (r: Option<nat>)
    ensures r.Some? ==> r.value < |groups| && groups[r.value].key == k
    ensures r.None? <==> forall i :: 0 <= i < |groups| ==> groups[i].key != k
  {
    Seqs.FindIndex(groups, (g: Group<K, T>) => g.key == k)
  }

  /** One step of the `reduce`: push `x` onto its key's group, or open that group. */
  function Add<K(==), T>(groups: seq<Group<K, T>>, x: T, key: T -> K): (r: seq<Group<K, T>>)
  {
    match KeyIndex(groups, key(x))
    case Some(i) => groups[i := Group(groups[i].key, groups[i].members + [x])]
    case None => groups + [Group(key(x), [x])]
  }

  /** The whole `reduce` over `xs`, from the first element to the last. */
  function GroupBy<K(==), T>(xs: seq<T>, key: T -> K): seq<Group<K, T>>
  {
    if |xs| == 0 then [] else Add(GroupBy(xs[..|xs| - 1], key), xs[|xs| - 1], key)
  }

  ghost predicate DistinctKeys<K, T>(groups: seq<Group<K, T>>)
  {
    forall i, j :: 0 <= i < j < |groups| ==> groups[i].key != groups[j].key
  }

  /** `groups` is a grouping of `xs`: one non-empty group per key, holding exactly that key's elements. */
  ghost predicate GroupsOf<K, T>(groups: seq<Group<K, T>>, xs: seq<T>, key: T -> K)
  {
    && DistinctKeys(groups)
    && (forall i :: 0 <= i < |groups| ==> groups[i].members == Members(xs, key, groups[i].key))
    && (forall i :: 0 <= i < |groups| ==> |groups[i].members| > 0)
    && (forall j :: 0 <= j < |xs| ==> KeyIndex(groups, key(xs[j])).Some?)
  }

  /** How many elements the groups hold together. */
  function Count<K, T>(groups: seq<Group<K, T>>): nat
  {
    if |groups| == 0 then 0 else Count(groups[..|groups| - 1]) + |groups[|groups| - 1].members|
  }

  lemma {:induction false} CountUpdate<K, T>(groups: seq<Group<K, T>>, i: nat, g: Group<K, T>)
    requires i < |groups|
    ensures Count(groups[i := g]) == Count(groups) - |groups[i].members| + |g.members|
    decreases |groups|
  {
    var n := |groups| - 1;
    if i < n {
      assert groups[i := g][..n] == groups[..n][i := g];
      CountUpdate(groups[..n], i, g);
    } else {
      assert groups[i := g][..n] == groups[..n];
    }
  }

  lemma MembersAppend<K, T>(ys: seq<T>, x: T, key: T -> K, k: K)
    ensures Members(ys + [x], key, k) == Members(ys, key, k) + (if key(x) == k then [x] else [])
  {
    Seqs.FilterAppend(ys, [x], HasKey(key, k));
    assert Seqs.Filter([x], HasKey(key, k)) == (if key(x) == k then [x] else []) + Seqs.Filter([], HasKey(key, k));
  }

  /** No element has key `k` exactly when the key's reference group is empty. */
  lemma MembersEmpty<K, T>(xs: seq<T>, key: T -> K, k: K)
    ensures |Members(xs, key, k)| == 0 <==> forall j :: 0 <= j < |xs| ==> key(xs[j]) != k
  {
    var r := Members(xs, key, k);
    if |r| > 0 {
      assert r[0] in Seqs.Filter(xs, HasKey(key, k));
    }
  }

  /** After adding `x`, every element still finds a group when the old groups keep their keys and one has `x`'s key. */
  lemma IndexedAfterAdd<K, T>(g: seq<Group<K, T>>, r: seq<Group<K, T>>, ys: seq<T>, x: T, key: T -> K, t: nat)
    requires forall j :: 0 <= j < |ys| ==> KeyIndex(g, key(ys[j])).Some?
    requires |g| <= |r| && forall m :: 0 <= m < |g| ==> r[m].key == g[m].key
    requires t < |r| && r[t].key == key(x)
    ensures forall j :: 0 <= j < |ys + [x]| ==> KeyIndex(r, key((ys + [x])[j])).Some?
  {
    var xs := ys + [x];
    forall j | 0 <= j < |xs|
      ensures KeyIndex(r, key(xs[j])).Some?
    {
      if j < |ys| {
        assert xs[j] == ys[j];
        var m := KeyIndex(g, key(ys[j])).value;
        assert r[m].key == key(xs[j]);
      } else {
        assert r[t].key == key(xs[j]);
      }
    }
  }

  /** Pushing `x` onto its key's group keeps every group equal to its reference definition. */
  lemma MembersAfterPush<K, T>(g: seq<Group<K, T>>, ys: seq<T>, x: T, key: T -> K, i: nat)
    requires forall m :: 0 <= m < |g| ==> g[m].members == Members(ys, key, g[m].key)
    requires DistinctKeys(g) && i < |g| && g[i].key == key(x)
    ensures var r := g[i := Group(g[i].key, g[i].members + [x])];
      forall m :: 0 <= m < |r| ==> r[m].members == Members(ys + [x], key, r[m].key)
  {
    var r := g[i := Group(g[i].key, g[i].members + [x])];
    forall m | 0 <= m < |r|
      ensures r[m].members == Members(ys + [x], key, r[m].key)
    {
      MembersAppend(ys, x, key, r[m].key);
      if m != i {
        assert r[m] == g[m] && g[m].key != key(x);
      }
    }
  }

  /** Pushing onto a group keeps every key in place, so distinct keys stay distinct and groups non-empty. */
  lemma PushKeepsShape<K, T>(g: seq<Group<K, T>>, i: nat, x: T)
    requires i < |g|
    ensures var r := g[i := Group(g[i].key, g[i].members + [x])];
      |r| == |g| && forall m :: 0 <= m < |r| ==> r[m].key == g[m].key
    ensures DistinctKeys(g) ==> DistinctKeys(g[i := Group(g[i].key, g[i].members + [x])])
    ensures (forall m :: 0 <= m < |g| ==> |g[m].members| > 0) ==>
      var r := g[i := Group(g[i].key, g[i].members + [x])];
      forall m :: 0 <= m < |r| ==> |r[m].members| > 0
  {
  }

  /** Pushing onto an existing group keeps a grouping a grouping. */
  lemma AddToExisting<K, T>(g: seq<Group<K, T>>, ys: seq<T>, x: T, key: T -> K, i: nat)
    requires i < |g| && g[i].key == key(x)
    ensures GroupsOf(g, ys, key) && Count(g) == |ys| ==>
      && GroupsOf(g[i := Group(g[i].key, g[i].members + [x])], ys + [x], key)
      && Count(g[i := Group(g[i].key, g[i].members + [x])]) == |ys| + 1
  {
    if GroupsOf(g, ys, key) && Count(g) == |ys| {
      var r := g[i := Group(g[i].key, g[i].members + [x])];
      CountUpdate(g, i, r[i]);
      MembersAfterPush(g, ys, x, key, i);
      PushKeepsShape(g, i, x);
      IndexedAfterAdd(g, r, ys, x, key, i);
      GroupsOfIntro(r, ys + [x], key);
    }
  }

  /** Before `x` is added, no element of `ys` has a key no group has. */
  lemma FreshKeyAbsent<K, T>(g: seq<Group<K, T>>, ys: seq<T>, x: T, key: T -> K)
    requires forall j :: 0 <= j < |ys| ==> KeyIndex(g, key(ys[j])).Some?
    requires forall i :: 0 <= i < |g| ==> g[i].key != key(x)
    ensures Members(ys, key, key(x)) == []
  {
    forall j | 0 <= j < |ys|
      ensures key(ys[j]) != key(x)
    {
      var m := KeyIndex(g, key(ys[j])).value;
      assert g[m].key == key(ys[j]);
    }
    MembersEmpty(ys, key, key(x));
  }

  /** Opening a group for a fresh key keeps every group equal to its reference definition. */
  lemma MembersAfterOpen<K, T>(g: seq<Group<K, T>>, ys: seq<T>, x: T, key: T -> K)
    requires forall m :: 0 <= m < |g| ==> g[m].members == Members(ys, key, g[m].key)
    requires forall i :: 0 <= i < |g| ==> g[i].key != key(x)
    requires Members(ys, key, key(x)) == []
    ensures var r := g + [Group(key(x), [x])];
      forall m :: 0 <= m < |r| ==> r[m].members == Members(ys + [x], key, r[m].key)
  {
    var r := g + [Group(key(x), [x])];
    forall m | 0 <= m < |r|
      ensures r[m].members == Members(ys + [x], key, r[m].key)
    {
      MembersAppend(ys, x, key, r[m].key);
      if m < |g| {
        assert r[m] == g[m];
      } else {
        assert r[m] == Group(key(x), [x]);
      }
    }
  }

  /** Appending a group with a key no group has keeps keys distinct. */
  lemma DistinctAfterOpen<K, T>(g: seq<Group<K, T>>, n: Group<K, T>)
    requires DistinctKeys(g)
    requires forall i :: 0 <= i < |g| ==> g[i].key != n.key
    ensures DistinctKeys(g + [n])
  {
    var r := g + [n];
    forall a, b | 0 <= a < b < |r|
      ensures r[a].key != r[b].key
    {
      assert r[a] == g[a];
      if b < |g| {
        assert r[b] == g[b];
      }
    }
  }

  /** Appending a non-empty group keeps every group non-empty. */
  lemma NonEmptyAfterOpen<K, T>(g: seq<Group<K, T>>, n: Group<K, T>)
    requires forall i :: 0 <= i < |g| ==> |g[i].members| > 0
    requires |n.members| > 0
    ensures forall i :: 0 <= i < |g + [n]| ==> |(g + [n])[i].members| > 0
  {
  }

  /** Opening a group for a key nobody had keeps a grouping a grouping. */
  lemma AddFresh<K, T>(g: seq<Group<K, T>>, ys: seq<T>, x: T, key: T -> K)
    requires forall i :: 0 <= i < |g| ==> g[i].key != key(x)
    ensures GroupsOf(g, ys, key) && Count(g) == |ys| ==>
      && GroupsOf(g + [Group(key(x), [x])], ys + [x], key)
      && Count(g + [Group(key(x), [x])]) == |ys| + 1
  {
    if GroupsOf(g, ys, key) && Count(g) == |ys| {
      var r := g + [Group(key(x), [x])];
      assert r[..|r| - 1] == g;
      FreshKeyAbsent(g, ys, x, key);
      DistinctAfterOpen(g, Group(key(x), [x]));
      MembersAfterOpen(g, ys, x, key);
      IndexedAfterAdd(g, r, ys, x, key, |g|);
      NonEmptyAfterOpen(g, Group(key(x), [x]));
      GroupsOfIntro(r, ys + [x], key);
    }
  }

  /** The four parts of a grouping, put together. */
  lemma GroupsOfIntro<K, T>(groups: seq<Group<K, T>>, xs: seq<T>, key: T -> K)
    requires DistinctKeys(groups)
    requires forall i :: 0 <= i < |groups| ==> groups[i].members == Members(xs, key, groups[i].key)
    requires forall i :: 0 <= i < |groups| ==> |groups[i].members| > 0
    requires forall j :: 0 <= j < |xs| ==> KeyIndex(groups, key(xs[j])).Some?
    ensures GroupsOf(groups, xs, key)
  {
  }

  /**
   * The `reduce` computes a grouping: each key gets one group, each group holds exactly the
   * elements with its key in their order, and no element is lost or counted twice.
   */
  lemma {:induction false} GroupBySpec<K, T>(xs: seq<T>, key: T -> K)
    ensures GroupsOf(GroupBy(xs, key), xs, key)
    ensures Count(GroupBy(xs, key)) == |xs|
    decreases |xs|
  {
    if |xs| > 0 {
      var n := |xs| - 1;
      GroupBySpec(xs[..n], key);
      AddSpec(GroupBy(xs[..n], key), xs, key);
    }
  }

  /** One step of the `reduce` extends a grouping of all but the last element to a grouping of all. */
  lemma AddSpec<K, T>(g: seq<Group<K, T>>, xs: seq<T>, key: T -> K)
    requires |xs| > 0
    requires GroupsOf(g, xs[..|xs| - 1], key) && Count(g) == |xs| - 1
    ensures GroupsOf(Add(g, xs[|xs| - 1], key), xs, key)
    ensures Count(Add(g, xs[|xs| - 1], key)) == |xs|
  {
    var ys, x := xs[..|xs| - 1], xs[|xs| - 1];
    assert xs == ys + [x];
    AddStep(g, ys, x, key);
  }

  /** `Add` extends a grouping of `ys` to a grouping of `ys + [x]`. */
  lemma AddStep<K, T>(g: seq<Group<K, T>>, ys: seq<T>, x: T, key: T -> K)
    ensures GroupsOf(g, ys, key) && Count(g) == |ys| ==>
      GroupsOf(Add(g, x, key), ys + [x], key) && Count(Add(g, x, key)) == |ys| + 1
  {
    match KeyIndex(g, key(x)) {
      case Some(i) => AddToExisting(g, ys, x, key, i);
      case None => AddFresh(g, ys, x, key);
    }
  }

  /** Every element lands in the group of its own key. */
  lemma FoundInItsGroup<K, T>(xs: seq<T>, key: T -> K, j: nat)
    requires j < |xs|
    ensures var groups := GroupBy(xs, key);
      exists i :: 0 <= i < |groups| && groups[i].key == key(xs[j]) && xs[j] in groups[i].members
  {
    GroupBySpec(xs, key);
    var groups := GroupBy(xs, key);
    var i := KeyIndex(groups, key(xs[j])).value;
    assert xs[j] in groups[i].members;
  }

  /** A group lists its elements in the order they come in `xs`. */
  lemma GroupKeepsOrder<K, T>(xs: seq<T>, key: T -> K, i: nat)
    requires i < |GroupBy(xs, key)|
    ensures Seqs.Subsequence(GroupBy(xs, key)[i].members, xs)
  {
    GroupBySpec(xs, key);
    Seqs.FilterIsSubsequence(xs, HasKey(key, GroupBy(xs, key)[i].key));
  }
}

=== FILE: guess_author.dfy ===
/**
 * The "guess the author" game: every quote of the catalogue becomes a question
 * whose options are its author and up to three other authors; ten questions
 * are drawn, each answered within thirty seconds, and the share of right
 * answers is saved as a game result.
 */
module GuessAuthor {
  import opened Wrappers
  import opened Schema
  import Seqs
  import Numbers
  import Recency
  import Routes

  /** Questions per game. */
  const QuestionCount := 10
  /** Wrong options offered next to the right one. */
  const OtherOptions := 3
  /** Seconds to answer one question. */
  const AnswerSeconds := 30

  // ---------------------------------------------------------------- questions

  /** An answer option: an author's id and name. */
  datatype Choice = Choice(id: int, name: string)

  datatype Question = Question(quote: string, authorId: int, authorName: string, options: seq<Choice>)

  function ChoiceId(c: Choice): int { c.id }

  /** The game reads `book.author.id` of every book, so every book must carry its author. */
  predicate Authored(books: seq<BookWithAuthor>)
  {
    forall i :: 0 <= i < |books| ==> books[i].author.Some?
  }

  function AuthorChoice(b: BookWithAuthor): Choice
    requires b.author.Some?
  {
    Choice(b.author.value.id, b.author.value.name)
  }

  function AuthorChoices(books: seq<BookWithAuthor>): (r: seq<Choice>)
    requires Authored(books)
    ensures |r| == |books| && forall i :: 0 <= i < |books| ==> r[i] == AuthorChoice(books[i])
  {
    seq(|books|, i requires 0 <= i < |books| => AuthorChoice(books[i]))
  }

  /** Every author of the catalogue once, at the first book that names them. */
  function AllAuthors(books: seq<BookWithAuthor>): seq<Choice>
    requires Authored(books)
  {
    Recency.FirstPerId(AuthorChoices(books), ChoiceId, {})
  }

  /** The option list holds each author once, as first listed, and misses none. */
  lemma AllAuthorsSpec(books: seq<BookWithAuthor>)
    requires Authored(books)
    ensures Seqs.DistinctBy(AllAuthors(books), ChoiceId)
    ensures forall k :: 0 <= k < |AllAuthors(books)| ==>
      Recency.FirstOfItsId(AuthorChoices(books), ChoiceId, AllAuthors(books)[k])
    ensures forall i :: 0 <= i < |books| ==> Recency.HasId(AllAuthors(books), ChoiceId, books[i].author.value.id)
  {
    var s := AuthorChoices(books);
    Recency.FirstPerIdDistinct(s, ChoiceId, {});
    Recency.FirstPerIdKeepsFirst(s, ChoiceId, {});
    Recency.FirstPerIdCovers(s, ChoiceId, {});
    assert forall i :: 0 <= i < |books| ==> ChoiceId(s[i]) == books[i].author.value.id;
  }

  function NotBy(authorId: int): Choice -> bool
  {
    (c: Choice) => c.id != authorId
  }

  /** `all.filter(a => a.id !== authorId)`. */
  function Without(all: seq<Choice>, authorId: int): seq<Choice>
  {
    if |all| == 0 then []
    else (if all[0].id != authorId then [all[0]] else []) + Without(all[1..], authorId)
  }

  lemma {:induction false} WithoutIsFilter(all: seq<Choice>, authorId: int)
    ensures Without(all, authorId) == Seqs.Filter(all, NotBy(authorId))
  {
    if |all| > 0 {
      WithoutIsFilter(all[1..], authorId);
    }
  }

  /** The random draws behind one question: the order of the other authors and of the options. */
  datatype Draw = Draw(others: seq<Choice>, order: seq<Choice>)

  /** The other authors offered: three, or all there are, from a shuffled list of everyone else. */
  function Others(author: Choice, all: seq<Choice>, d: Draw): seq<Choice>
  {
    Seqs.Take(Seqs.Shuffled(Without(all, author.id), d.others), OtherOptions)
  }

  /** A question on `quote`: its author and the other authors, shuffled together. */
  function MakeQuestion(quote: string, author: Choice, all: seq<Choice>, d: Draw): (q: Question)
    ensures q.quote == quote && q.authorId == author.id && q.authorName == author.name
  {
    Question(quote, author.id, author.name, Seqs.Shuffled([author] + Others(author, all, d), d.order))
  }

  /** The other authors are distinct from the right one and from each other, and at most three. */
  lemma OthersSpec(author: Choice, all: seq<Choice>, d: Draw)
    ensures |Others(author, all, d)| == Numbers.Min(OtherOptions, |Seqs.Filter(all, NotBy(author.id))|)
    ensures forall c :: c in Others(author, all, d) ==> c in all && c.id != author.id
    ensures Seqs.DistinctBy(all, ChoiceId) ==> Seqs.DistinctBy(Others(author, all, d), ChoiceId)
  {
    var filtered := Seqs.Filter(all, NotBy(author.id));
    WithoutIsFilter(all, author.id);
    var shuffled := Seqs.Shuffled(filtered, d.others);
    var others := Others(author, all, d);
    assert others <= shuffled;
    forall c | c in others
      ensures c in all && c.id != author.id
    {
      assert c in multiset(shuffled);
      assert c in filtered;
    }
    if Seqs.DistinctBy(all, ChoiceId) {
      Seqs.FilterKeepsDistinctBy(all, NotBy(author.id), ChoiceId);
      Seqs.PermutationKeepsDistinctBy(filtered, shuffled, ChoiceId);
    }
  }

  /** The right author is among the options, with at most three others, each some other author. */
  lemma OptionsSpec(quote: string, author: Choice, all: seq<Choice>, d: Draw)
    ensures author in MakeQuestion(quote, author, all, d).options
    ensures |MakeQuestion(quote, author, all, d).options| == 1 + Numbers.Min(OtherOptions, |Seqs.Filter(all, NotBy(author.id))|)
    ensures forall c :: c in MakeQuestion(quote, author, all, d).options ==> c == author || (c in all && c.id != author.id)
  {
    var others := Others(author, all, d);
    OthersSpec(author, all, d);
    var listed := [author] + others;
    var options := Seqs.Shuffled(listed, d.order);
    assert MakeQuestion(quote, author, all, d).options == options;
    assert author in multiset(options);
    forall c | c in options
      ensures c == author || (c in all && c.id != author.id)
    {
      assert c in multiset(listed);
    }
  }

  /** With distinct authors to draw from, no author is offered twice, so exactly one option is right. */
  lemma OptionsDistinct(quote: string, author: Choice, all: seq<Choice>, d: Draw)
    requires Seqs.DistinctBy(all, ChoiceId)
    ensures Seqs.DistinctBy(MakeQuestion(quote, author, all, d).options, ChoiceId)
  {
    var others := Others(author, all, d);
    OthersSpec(author, all, d);
    ConsDistinct(author, others);
    Seqs.PermutationKeepsDistinctBy([author] + others, Seqs.Shuffled([author] + others, d.order), ChoiceId);
  }

  /** An author whose id none of a distinct list carries can be put in front of it. */
  lemma ConsDistinct(author: Choice, others: seq<Choice>)
    requires Seqs.DistinctBy(others, ChoiceId)
    requires forall c :: c in others ==> c.id != author.id
    ensures Seqs.DistinctBy([author] + others, ChoiceId)
  {
    var listed := [author] + others;
    forall i, j | 0 <= i < j < |listed|
      ensures ChoiceId(listed[i]) != ChoiceId(listed[j])
    {
      assert listed[j] == others[j - 1];
      if i == 0 {
        assert listed[j] in others;
      } else {
        assert listed[i] == others[i - 1];
      }
    }
  }

  /** A question is fair: the right author is offered once, with at most three distinct wrong authors. */
  ghost predicate Fair(q: Question, all: seq<Choice>)
  {
    Choice(q.authorId, q.authorName) in q.options
    && 1 <= |q.options| <= 1 + OtherOptions
    && Seqs.DistinctBy(q.options, ChoiceId)
    && forall c :: c in q.options ==> c == Choice(q.authorId, q.authorName) || (c in all && c.id != q.authorId)
  }

  function QuotesOf(b: BookWithAuthor): seq<string>
  {
    if b.book.quotes.Some? then b.book.quotes.value else []
  }

  predicate HasQuotes(b: BookWithAuthor)
  {
    |QuotesOf(b)| > 0
  }

  /** What a question asks before its options are drawn: a quote and its author. */
  datatype Prompt = Prompt(quote: string, author: Choice)

  function BookPrompts(b: BookWithAuthor): (r: seq<Prompt>)
    requires b.author.Some?
    ensures |r| == |QuotesOf(b)|
    ensures forall k :: 0 <= k < |r| ==> r[k] == Prompt(QuotesOf(b)[k], AuthorChoice(b))
  {
    seq(|QuotesOf(b)|, k requires 0 <= k < |QuotesOf(b)| => Prompt(QuotesOf(b)[k], AuthorChoice(b)))
  }

  function QuoteCount(books: seq<BookWithAuthor>): nat
  {
    if |books| == 0 then 0 else |QuotesOf(books[0])| + QuoteCount(books[1..])
  }

  /** Every quote of every book in turn, with the book's author. */
  function Prompts(books: seq<BookWithAuthor>): (r: seq<Prompt>)
    requires Authored(books)
    ensures |r| == QuoteCount(books)
  {
    if |books| == 0 then [] else BookPrompts(books[0]) + Prompts(books[1..])
  }

  /** Book `i` has a quote `k`. */
  predicate IsQuote(books: seq<BookWithAuthor>, i: int, k: int)
  {
    0 <= i < |books| && 0 <= k < |QuotesOf(books[i])|
  }

  /** `p` is quote `k` of book `i`, with that book's author. */
  ghost predicate Asks(p: Prompt, books: seq<BookWithAuthor>, i: int, k: int)
    requires Authored(books)
  {
    IsQuote(books, i, k) && p == Prompt(QuotesOf(books[i])[k], AuthorChoice(books[i]))
  }

  /** `p` is some quote of `books`, with its true author. */
  ghost predicate FromCatalogue(p: Prompt, books: seq<BookWithAuthor>)
    requires Authored(books)
  {
    exists i, k :: Asks(p, books, i, k)
  }

  /** Some prompt of `ps` is quote `k` of book `i`. */
  ghost predicate Asked(ps: seq<Prompt>, books: seq<BookWithAuthor>, i: int, k: int)
    requires Authored(books)
  {
    exists n :: 0 <= n < |ps| && Asks(ps[n], books, i, k)
  }

  /** Every prompt is a quote with its true author, and every quote is prompted. */
  lemma {:induction false} PromptsSpec(books: seq<BookWithAuthor>)
    requires Authored(books)
    ensures forall n :: 0 <= n < |Prompts(books)| ==> FromCatalogue(Prompts(books)[n], books)
    ensures forall i, k :: IsQuote(books, i, k) ==> Asked(Prompts(books), books, i, k)
  {
    if |books| > 0 {
      var head := BookPrompts(books[0]);
      var tail := Prompts(books[1..]);
      var r := Prompts(books);
      PromptsSpec(books[1..]);
      assert r == head + tail;
      forall n | 0 <= n < |r|
        ensures FromCatalogue(r[n], books)
      {
        if n < |head| {
          assert Asks(r[n], books, 0, n);
        } else {
          assert FromCatalogue(tail[n - |head|], books[1..]);
          var i, k :| Asks(tail[n - |head|], books[1..], i, k);
          assert Asks(r[n], books, i + 1, k);
        }
      }
      forall i, k | IsQuote(books, i, k)
        ensures Asked(r, books, i, k)
      {
        if i == 0 {
          assert Asks(r[k], books, 0, k);
        } else {
          assert IsQuote(books[1..], i - 1, k);
          assert Asked(tail, books[1..], i - 1, k);
          var n :| 0 <= n < |tail| && Asks(tail[n], books[1..], i - 1, k);
          assert Asks(r[|head| + n], books, i, k);
        }
      }
    }
  }

  /** A question per prompt, in order; question `start + n` uses the `start + n`-th draw. */
  function Questions(ps: seq<Prompt>, all: seq<Choice>, draw: nat -> Draw, start: nat): (r: seq<Question>)
    ensures |r| == |ps|
    ensures forall n :: 0 <= n < |r| ==>
      r[n].quote == ps[n].quote && r[n].authorId == ps[n].author.id && r[n].authorName == ps[n].author.name
    decreases |ps|
  {
    if |ps| == 0 then []
    else [MakeQuestion(ps[0].quote, ps[0].author, all, draw(start))] + Questions(ps[1..], all, draw, start + 1)
  }

  /** Drawn against a list of distinct authors, every question is fair. */
  lemma {:induction false} QuestionsFair(ps: seq<Prompt>, all: seq<Choice>, draw: nat -> Draw, start: nat)
    requires Seqs.DistinctBy(all, ChoiceId)
    ensures forall n :: 0 <= n < |ps| ==> Fair(Questions(ps, all, draw, start)[n], all)
    decreases |ps|
  {
    if |ps| > 0 {
      QuestionsFair(ps[1..], all, draw, start + 1);
      OptionsSpec(ps[0].quote, ps[0].author, all, draw(start));
      OptionsDistinct(ps[0].quote, ps[0].author, all, draw(start));
    }
  }

  // ---------------------------------------------------------------- the game

  /** The state of one game; `selected` is the id of the chosen option. */
  datatype Game = Game(questions: seq<Question>, index: nat, selected: Option<int>, score: nat,
                       answered: bool, completed: bool, timeLeft: int, timerActive: bool, resultSaved: bool)

  /** What a game keeps true between events. */
  ghost predicate Consistent(g: Game)
  {
    1 <= |g.questions| && g.index < |g.questions|
    && g.score <= g.index + (if g.answered then 1 else 0)
    && 0 <= g.timeLeft <= AnswerSeconds
    && (g.completed ==> g.answered && g.index == |g.questions| - 1)
    && (g.resultSaved ==> g.completed)
  }

  function Fresh(questions: seq<Question>): Game
  {
    Game(questions, 0, None, 0, false, false, AnswerSeconds, true, false)
  }

  lemma FilterAuthored(books: seq<BookWithAuthor>)
    requires Authored(books)
    ensures Authored(Seqs.Filter(books, HasQuotes))
  {
    var r := Seqs.Filter(books, HasQuotes);
    forall n | 0 <= n < |r|
      ensures r[n].author.Some?
    {
      assert r[n] in books;
    }
  }

  /** Every quote of the books that have some, each with options drawn from all authors. */
  function Pool(books: seq<BookWithAuthor>, draw: nat -> Draw): (r: seq<Question>)
    requires Authored(books)
    ensures |r| == QuoteCount(Seqs.Filter(books, HasQuotes))
  {
    FilterAuthored(books);
    Questions(Prompts(Seqs.Filter(books, HasQuotes)), AllAuthors(books), draw, 0)
  }

  /**
   * How loading ends: no quote at all (the page leaves for the games list), the
   * `TypeError` the author list raises on a book without an author, or a game.
   */
  datatype Loaded = NoQuotes | AuthorMissing | Ready(game: Game)

  /**
   * Loading: ten questions drawn at random from the pool. The quotes are checked
   * first, so a catalogue without quotes leaves the page even when an author is missing.
   */
  function Setup(books: seq<BookWithAuthor>, draw: nat -> Draw, pick: seq<Question>): (r: Loaded)
    ensures r.NoQuotes? <==> forall i :: 0 <= i < |books| ==> !HasQuotes(books[i])
    ensures r.AuthorMissing? <==>
      (exists i :: 0 <= i < |books| && HasQuotes(books[i])) && exists i :: 0 <= i < |books| && books[i].author.None?
    ensures r.Ready? ==> Consistent(r.game) && |r.game.questions| <= QuestionCount
    ensures r.Ready? ==> r.game == Fresh(r.game.questions)
  {
    var withQuotes := Seqs.Filter(books, HasQuotes);
    if |withQuotes| == 0 then NoQuotes
    else if !Authored(books) then
      assert withQuotes[0] in books;
      AuthorMissing
    else
      var pool := Pool(books, draw);
      assert |pool| >= 1 by {
        assert QuoteCount(withQuotes) >= |QuotesOf(withQuotes[0])| > 0;
      }
      Ready(Fresh(Seqs.Take(Seqs.Shuffled(pool, pick), QuestionCount)))
  }

  /** A fair question on some quote of the catalogue, naming that quote's true author. */
  ghost predicate Genuine(q: Question, books: seq<BookWithAuthor>)
    requires Authored(books)
  {
    && Fair(q, AllAuthors(books))
    && exists i, k :: IsQuote(books, i, k) && q.quote == QuotesOf(books[i])[k] && q.authorId == books[i].author.value.id
  }

  /** Every question of a new game is a fair question on some quote of the catalogue, with its true author. */
  lemma SetupSpec(books: seq<BookWithAuthor>, draw: nat -> Draw, pick: seq<Question>, n: nat)
    ensures Setup(books, draw, pick).Ready? ==> Authored(books)
    ensures Setup(books, draw, pick).Ready? && n < |Setup(books, draw, pick).game.questions| ==>
      Genuine(Setup(books, draw, pick).game.questions[n], books)
  {
    if Setup(books, draw, pick).Ready? && n < |Setup(books, draw, pick).game.questions| {
      var pool := Pool(books, draw);
      var q := Setup(books, draw, pick).game.questions[n];
      assert q in multiset(pool);
      var m :| 0 <= m < |pool| && pool[m] == q;
      PoolQuestion(books, draw, m);
    }
  }

  /** Every question of the pool is fair and asks a quote of the catalogue with its true author. */
  lemma PoolQuestion(books: seq<BookWithAuthor>, draw: nat -> Draw, m: nat)
    requires Authored(books)
    ensures m < |Pool(books, draw)| ==> Genuine(Pool(books, draw)[m], books)
  {
    if m < |Pool(books, draw)| {
      var withQuotes := Seqs.Filter(books, HasQuotes);
      FilterAuthored(books);
      var ps := Prompts(withQuotes);
      var all := AllAuthors(books);
      var q := Pool(books, draw)[m];
      AllAuthorsSpec(books);
      QuestionsFair(ps, all, draw, 0);
      PromptsSpec(withQuotes);
      assert FromCatalogue(ps[m], withQuotes);
      var i, k :| Asks(ps[m], withQuotes, i, k);
      assert withQuotes[i] in books;
      var j :| 0 <= j < |books| && books[j] == withQuotes[i];
      assert IsQuote(books, j, k) && q.quote == QuotesOf(books[j])[k] && q.authorId == books[j].author.value.id;
    }
  }

  /** Scoring the current question: one point when the chosen option is its author. */
  function Answer(g: Game): (r: Game)
    requires g.index < |g.questions|
    ensures r.answered && !r.timerActive
    ensures r.score == g.score + 1 <==> g.selected == Some(g.questions[g.index].authorId)
    ensures r.score == g.score || r.score == g.score + 1
    ensures r.(answered := g.answered, timerActive := g.timerActive, score := g.score) == g
  {
    var right := g.selected == Some(g.questions[g.index].authorId);
    g.(answered := true, timerActive := false, score := if right then g.score + 1 else g.score)
  }

  /** What the player can do; `Next(accepted)` says whether the server took the result. */
  datatype Move = Choose(id: int) | Submit | Tick | Next(accepted: bool) | Restart(order: seq<Question>)

  function Submission(g: Game, userId: int): Routes.GameSubmission
    requires |g.questions| > 0
  {
    Routes.GameSubmission(userId, Routes.GuessAuthorType, Numbers.Percent(g.score, |g.questions|), Some(true), None)
  }

  /**
   * One move, and the result it posts if any. Once the game is complete only
   * the results screen is shown, whose one control starts again; the timer
   * still ticks but has nothing left to answer.
   */
  function Step(g: Game, m: Move, user: Option<int>): (r: (Game, Option<Routes.GameSubmission>))
    requires Consistent(g)
    ensures Consistent(r.0)
    ensures r.1.Some? ==> user.Some? && !g.completed && r.0.completed && r.1 == Some(Submission(g, user.value))
    ensures r.1.Some? ==> 0 <= r.1.value.score <= 100
    ensures !m.Restart? && g.completed ==> r == (g, None)
    ensures m.Restart? && g.completed ==> r.0 == Fresh(r.0.questions) && multiset(r.0.questions) == multiset(g.questions)
    ensures r.0.score > g.score ==> r.0.score == g.score + 1 && g.selected == Some(g.questions[g.index].authorId)
  {
    match m
    case Restart(order) =>
      if g.completed then (Fresh(Seqs.Shuffled(g.questions, order)), None) else (g, None)
    case Choose(id) => (if g.completed || g.answered then g else g.(selected := Some(id)), None)
    case Submit => (if g.completed || g.answered || g.selected.None? then g else Answer(g), None)
    case Tick =>
      if g.timerActive && g.timeLeft > 0 && !g.answered then (g.(timeLeft := g.timeLeft - 1), None)
      else if g.timeLeft == 0 && !g.answered then (Answer(g), None)
      else (g, None)
    case Next(accepted) =>
      if g.completed || !g.answered then (g, None)
      else if g.index < |g.questions| - 1 then
        (g.(index := g.index + 1, selected := None, answered := false, timeLeft := AnswerSeconds, timerActive := true), None)
      else if user.Some? && !g.resultSaved then
        (g.(completed := true, resultSaved := accepted), Some(Submission(g, user.value)))
      else (g.(completed := true), None)
  }

  /** The moves in turn, with every result posted on the way. */
  function Run(g: Game, moves: seq<Move>, user: Option<int>): (r: (Game, seq<Routes.GameSubmission>))
    requires Consistent(g)
    ensures Consistent(r.0)
    decreases |moves|
  {
    if |moves| == 0 then (g, [])
    else
      var (g', sent) := Step(g, moves[0], user);
      var rest := Run(g', moves[1..], user);
      (rest.0, (if sent.Some? then [sent.value] else []) + rest.1)
  }

  predicate NoRestart(moves: seq<Move>)
  {
    forall i :: 0 <= i < |moves| ==> !moves[i].Restart?
  }

  /** A finished game posts nothing more until it is started again. */
  lemma {:induction false} CompletedPostsNothing(g: Game, moves: seq<Move>, user: Option<int>)
    requires Consistent(g) && g.completed && NoRestart(moves)
    ensures Run(g, moves, user) == (g, [])
    decreases |moves|
  {
    if |moves| > 0 {
      assert Step(g, moves[0], user) == (g, None);
      CompletedPostsNothing(g, moves[1..], user);
      assert Run(g, moves, user) == (Run(g, moves[1..], user).0, [] + Run(g, moves[1..], user).1);
      assert Run(g, moves, user).1 == [];
      assert Run(g, moves, user).0 == g;
      assert Run(g, moves, user) == (g, []);
    }
  }

  /** Between two restarts a game posts its result at most once. */
  lemma {:induction false} PostsAtMostOnce(g: Game, moves: seq<Move>, user: Option<int>)
    requires Consistent(g) && NoRestart(moves)
    ensures |Run(g, moves, user).1| <= 1
    ensures g.completed ==> |Run(g, moves, user).1| == 0
    decreases |moves|
  {
    if |moves| > 0 {
      var (g', sent) := Step(g, moves[0], user);
      if sent.Some? {
        CompletedPostsNothing(g', moves[1..], user);
      } else {
        PostsAtMostOnce(g', moves[1..], user);
      }
    }
  }

  /** Answering every question right scores 100; answering none scores 0. */
  lemma SubmissionEnds(g: Game, userId: int)
    requires Consistent(g)
    ensures g.score == |g.questions| ==> Submission(g, userId).score == 100
    ensures g.score == 0 ==> Submission(g, userId).score == 0
  {
    Numbers.PercentEnds(|g.questions|);
  }

  // ---------------------------------------------------------------- verdict

  datatype Verdict = Expert | VeryGood | NotBad | ReadMore

  /** The message on the results screen, chosen on the unrounded share of right answers. */
  function VerdictOf(score: int, count: int): Verdict
    requires count > 0
  {
    if 100 * score >= 90 * count then Expert
    else if 100 * score >= 70 * count then VeryGood
    else if 100 * score >= 50 * count then NotBad
    else ReadMore
  }

  function Rank(v: Verdict): nat
  {
    match v
    case ReadMore => 0
    case NotBad => 1
    case VeryGood => 2
    case Expert => 3
  }

  /** More right answers never earn a lesser verdict. */
  lemma VerdictMonotone(score: int, score': int, count: int)
    requires count > 0 && score <= score'
    ensures Rank(VerdictOf(score, count)) <= Rank(VerdictOf(score', count))
  {
  }

  /** The rounded percentage is at least `lo` when the exact one is. */
  lemma PercentAtLeast(score: int, count: int, lo: int)
    requires count > 0 && lo * count <= 100 * score
    ensures Numbers.Percent(score, count) >= lo
  {
    Numbers.RoundedAtLeast(100 * score, count, Numbers.Percent(score, count), lo);
  }

  /** The rounded percentage is at most `hi` when the exact one is below it. */
  lemma PercentAtMost(score: int, count: int, hi: int)
    requires count > 0 && 100 * score < hi * count
    ensures Numbers.Percent(score, count) <= hi
  {
    Numbers.RoundedAtMost(100 * score, count, Numbers.Percent(score, count), hi);
  }

  /** The verdict agrees with the saved (rounded) percentage. */
  lemma VerdictAgreesWithSaved(score: int, count: int)
    requires count > 0
    ensures VerdictOf(score, count) == Expert ==> Numbers.Percent(score, count) >= 90
    ensures VerdictOf(score, count) == VeryGood ==> 70 <= Numbers.Percent(score, count) <= 90
    ensures VerdictOf(score, count) == NotBad ==> 50 <= Numbers.Percent(score, count) <= 70
    ensures VerdictOf(score, count) == ReadMore ==> Numbers.Percent(score, count) <= 50
  {
    match VerdictOf(score, count)
    case Expert => PercentAtLeast(score, count, 90);
    case VeryGood => PercentAtLeast(score, count, 70); PercentAtMost(score, count, 90);
    case NotBad => PercentAtLeast(score, count, 50); PercentAtMost(score, count, 70);
    case ReadMore => PercentAtMost(score, count, 50);
  }
}

=== FILE: library.dfy ===
/**
 * The library page (client/src/pages/library.tsx): the case-insensitive search over
 * titles and author names, and picking a book named by the literary assistant.
 */
module Library {
  import opened Wrappers
  import opened Schema
  import Seqs
  import Text

  predicate TitleMatches(b: BookWithAuthor, query: string)
  {
    Text.Contains(Text.Lower(b.book.title), Text.Lower(query))
  }

  predicate AuthorMatches(b: BookWithAuthor, query: string)
  {
    b.author.Some? && Text.Contains(Text.Lower(b.author.value.name), Text.Lower(query))
  }

  /** The search keeps a book whose title or author name contains the query, ignoring case. */
  predicate Matches(b: BookWithAuthor, query: string)
  {
    TitleMatches(b, query) || AuthorMatches(b, query)
  }

  /**
   * The author test reads `book.author.name`, which throws for a book without an author;
   * it runs only when the title test has failed.
   */
  predicate Throws(b: BookWithAuthor, query: string)
  {
    !TitleMatches(b, query) && b.author.None?
  }

  function Keep(query: string): BookWithAuthor -> bool
  {
    b => Matches(b, query)
  }

  function Fails(query: string): BookWithAuthor -> bool
  {
    b => Throws(b, query)
  }

  /**
   * `filterBooks`: no data gives an empty list, a blank query the list itself, any other
   * query the matching books in their order; `None` is the `TypeError` a book without an
   * author raises. Only the blankness test trims the query: matching uses it as typed.
   */
  function FilterBooks(books: Option<seq<BookWithAuthor>>, query: string): (r: Option<seq<BookWithAuthor>>)
    ensures books.None? ==> r == Some([])
    ensures books.Some? && Text.AllWhitespace(query) ==> r == books
    ensures r.None? <==> books.Some? && !Text.AllWhitespace(query) &&
                         exists i :: 0 <= i < |books.value| && Throws(books.value[i], query)
    ensures r.Some? && books.Some? ==> Seqs.Subsequence(r.value, books.value)
    ensures r.Some? && books.Some? && !Text.AllWhitespace(query) ==>
      && (forall i :: 0 <= i < |r.value| ==> Matches(r.value[i], query))
      && (forall i :: 0 <= i < |books.value| && Matches(books.value[i], query) ==> books.value[i] in r.value)
  {
    match books
    case None => Some([])
    case Some(bs) =>
      if |Text.Trim(query)| == 0 then
        assert Seqs.Embeds(bs, bs, seq(|bs|, k => k));
        books
      else if Seqs.FindIndex(bs, Fails(query)).Some? then
        None
      else
        Seqs.FilterIsSubsequence(bs, Keep(query));
        Some(Seqs.Filter(bs, Keep(query)))
  }

  /** Searching the search result again with the same query changes nothing. */
  lemma FilterBooksIdempotent(books: Option<seq<BookWithAuthor>>, query: string)
    requires FilterBooks(books, query).Some?
    ensures FilterBooks(FilterBooks(books, query), query) == FilterBooks(books, query)
  {
    var r := FilterBooks(books, query).value;
    if books.Some? && !Text.AllWhitespace(query) {
      assert r == Seqs.Filter(books.value, Keep(query));
      assert forall i :: 0 <= i < |r| ==> !Throws(r[i], query);
      Seqs.FilterAll(r, Keep(query));
    }
  }

  // ---------------------------------------------------------------- assistant picks

  const Separator: string := " - "

  /** The title part of an assistant suggestion "Title - Author": the text before the first " - ", trimmed. */
  function SuggestedTitle(bookName: string): (t: string)
    ensures |t| > 0 ==> !Text.IsWhitespace(t[0]) && !Text.IsWhitespace(t[|t| - 1])
    ensures (forall i: nat :: !Text.OccursAt(bookName, Separator, i)) ==> t == Text.Trim(bookName)
  {
    Text.Trim(Text.BeforeFirst(bookName, Separator))
  }

  /** What picking a suggestion does: open a book's page, or search for the suggested title. */
  datatype Selection = OpenBook(id: nat) | SearchFor(query: string)

  function TitleFilter(title: string): BookWithAuthor -> bool
  {
    b => TitleMatches(b, title)
  }

  /**
   * `handleBookSelection`: the first book whose title contains the suggested title opens;
   * when no title contains it, the suggested title becomes the search query.
   */
  function SelectBook(allBooks: seq<BookWithAuthor>, bookName: string): (s: Selection)
    ensures s.SearchFor? <==> forall i :: 0 <= i < |allBooks| ==> !TitleMatches(allBooks[i], SuggestedTitle(bookName))
    ensures s.SearchFor? ==> s.query == SuggestedTitle(bookName)
    ensures s.OpenBook? ==> exists i :: (0 <= i < |allBooks| && allBooks[i].book.id == s.id &&
      TitleMatches(allBooks[i], SuggestedTitle(bookName)) &&
      forall j :: 0 <= j < i ==> !TitleMatches(allBooks[j], SuggestedTitle(bookName)))
  {
    var title := SuggestedTitle(bookName);
    match Seqs.FindIndex(allBooks, TitleFilter(title))
    case Some(i) => OpenBook(allBooks[i].book.id)
    case None => SearchFor(title)
  }

  /**
   * When a pick falls back to searching, no title matches the query, so the search can only
   * list books by authors whose name contains it.
   */
  lemma FallbackSearchFindsAuthorsOnly(allBooks: seq<BookWithAuthor>, bookName: string)
    requires SelectBook(allBooks, bookName).SearchFor?
    requires FilterBooks(Some(allBooks), SelectBook(allBooks, bookName).query).Some?
    ensures var q := SelectBook(allBooks, bookName).query;
      !Text.AllWhitespace(q) ==>
        forall i :: 0 <= i < |FilterBooks(Some(allBooks), q).value| ==>
          AuthorMatches(FilterBooks(Some(allBooks), q).value[i], q)
  {
    var q := SelectBook(allBooks, bookName).query;
    if !Text.AllWhitespace(q) {
      var r := FilterBooks(Some(allBooks), q).value;
      forall i | 0 <= i < |r|
        ensures AuthorMatches(r[i], q)
      {
        assert r[i] in Seqs.Filter(allBooks, Keep(q));
      }
    }
  }

  /** A suggestion with a blank title part opens the first book of a non-empty catalogue. */
  lemma BlankTitleOpensFirstBook(allBooks: seq<BookWithAuthor>, bookName: string)
    requires |allBooks| > 0 && SuggestedTitle(bookName) == ""
    ensures SelectBook(allBooks, bookName) == OpenBook(allBooks[0].book.id)
  {
    Text.ContainsEmpty(Text.Lower(allBooks[0].book.title));
    assert Text.Lower("") == "";
  }
}

=== FILE: numbers.dfy ===
/** Integer arithmetic standing in for the source's floating-point expressions. */
module Numbers {

  function Max(a: int, b: int): int { if a >= b then a else b }

  function Min(a: int, b: int): int { if a <= b then a else b }

  /** Division rounding toward negative infinity, for a divisor of either sign. */
  function FloorDiv(p: int, q: int): (r: int)
    requires q != 0
    ensures q > 0 ==> r * q <= p < r * q + q
    ensures q < 0 ==> r * q >= p > r * q + q
  {
    if q > 0 then p / q else (-p) / (-q)
  }

  /**
   * `Math.round(p / q)` computed exactly: JavaScript rounds half-way cases up,
   * so the result is floor(p/q + 1/2) = floor((2p + q) / 2q).
   */
  function RoundQuotient(p: int, q: int): (r: int)
    requires q != 0
    ensures q > 0 ==> 2 * p - q < 2 * r * q <= 2 * p + q
    ensures q < 0 ==> 2 * p - q > 2 * r * q >= 2 * p + q
  {
    FloorDiv(2 * p + q, 2 * q)
  }

  /** A positive factor can be cancelled from both sides of a strict inequality. */
  lemma CancelPositive(a: int, b: int, q: int)
    requires q > 0 && a * q < b * q
    ensures a < b
  {
    assert (b - a) * q > 0;
  }

  /** A half-up rounding of `x / q` is at most `hi` when `x / q` itself is below `hi`. */
  lemma RoundedAtMost(x: int, q: int, r: int, hi: int)
    requires q > 0 && 2 * r * q <= 2 * x + q && x < hi * q
    ensures r <= hi
  {
    assert (2 * r) * q < (2 * hi + 1) * q;
    CancelPositive(2 * r, 2 * hi + 1, q);
  }

  /** A half-up rounding of `x / q` is at least `lo` when `x / q` itself is. */
  lemma RoundedAtLeast(x: int, q: int, r: int, lo: int)
    requires q > 0 && 2 * x - q < 2 * r * q && lo * q <= x
    ensures r >= lo
  {
    assert (2 * lo - 1) * q < (2 * r) * q;
    CancelPositive(2 * lo - 1, 2 * r, q);
  }

  /** Rounding never moves a quotient of non-negative numbers out of [0, bound]. */
  lemma RoundQuotientBounds(p: int, q: int, bound: int)
    requires q > 0 && 0 <= p <= bound * q
    ensures 0 <= RoundQuotient(p, q) <= bound
  {
    var r := RoundQuotient(p, q);
    assert r * (2 * q) < (bound + 1) * (2 * q);
    CancelPositive(r, bound + 1, 2 * q);
    assert (-1) * (2 * q) < r * (2 * q);
    CancelPositive(-1, r, 2 * q);
  }

  /** Rounding is monotone in the numerator. */
  lemma RoundQuotientMonotone(p: int, p': int, q: int)
    requires q > 0 && p <= p'
    ensures RoundQuotient(p, q) <= RoundQuotient(p', q)
  {
    var r, r' := RoundQuotient(p, q), RoundQuotient(p', q);
    assert r * (2 * q) < (r' + 1) * (2 * q);
    CancelPositive(r, r' + 1, 2 * q);
  }

  /** `Math.round(a / b * 100)`: a ratio as a whole percentage. */
  function Percent(a: int, b: int): (r: int)
    requires b != 0
    ensures b > 0 && 0 <= a <= b ==> 0 <= r <= 100
  {
    if b > 0 && 0 <= a <= b then
      RoundQuotientBounds(100 * a, b, 100);
      RoundQuotient(100 * a, b)
    else
      RoundQuotient(100 * a, b)
  }

  /** A full ratio is 100 percent and an empty one 0 percent. */
  lemma PercentEnds(b: int)
    requires b > 0
    ensures Percent(b, b) == 100
    ensures Percent(0, b) == 0
  {
    var r := Percent(b, b);
    assert r * (2 * b) <= 201 * b < 202 * b == 101 * (2 * b);
    CancelPositive(r, 101, 2 * b);
    assert 99 * (2 * b) < 199 * b < r * (2 * b);
    CancelPositive(99, r, 2 * b);
    var z := Percent(0, b);
    assert z * (2 * b) <= b < 1 * (2 * b);
    CancelPositive(z, 1, 2 * b);
    assert (-1) * (2 * b) < z * (2 * b);
    CancelPositive(-1, z, 2 * b);
  }
}

=== FILE: pagination.dfy ===
/**
 * How the reader cuts a book's text into pages: the text is split into
 * non-blank lines (paragraphs); a long text (more than five paragraphs) is
 * packed greedily into pages of at most three paragraphs whose heights fit the
 * container, a short one gets one paragraph per page.
 *
 * Heights are measured in fifths of a pixel so that the source's fallback
 * height, a fifth of the container, stays an integer: a paragraph of
 * measured height h counts 5h (or the container height C when h is 0) against
 * a page budget of 5C.
 */
module Pagination {
  import opened Wrappers
  import Seqs
  import Text
  import Numbers

  /** The most paragraphs a packed page holds. */
  const PageCapacity := 3

  /** Texts with more paragraphs than this are packed by height. */
  const ShortTextLimit := 5

  predicate HasText(line: string)
  {
    !Text.AllWhitespace(line)
  }

  /** `text.split("\n").filter(p => p.trim().length > 0)`. */
  function Paragraphs(text: string): (r: seq<string>)
    ensures forall i :: 0 <= i < |r| ==> HasText(r[i]) && '\n' !in r[i]
    ensures |r| <= |Text.Split(text, '\n')|
  {
    Seqs.Filter(Text.Split(text, '\n'), HasText)
  }

  /** Lines with text joined by newlines come back as the same paragraphs. */
  lemma ParagraphsOfJoin(lines: seq<string>)
    requires |lines| > 0
    requires forall i :: 0 <= i < |lines| ==> HasText(lines[i]) && '\n' !in lines[i]
    ensures Paragraphs(Text.Join(lines, "\n")) == lines
  {
    Text.SplitJoin(lines, '\n');
    Seqs.FilterAll(lines, HasText);
  }

  /** A blank line between paragraphs is dropped. */
  lemma ParagraphsSkipBlankLine(a: string, b: string)
    requires HasText(a) && HasText(b) && '\n' !in a && '\n' !in b
    ensures Paragraphs(a + "\n\n" + b) == [a, b]
  {
    var lines := [a, "", b];
    Text.SplitJoin(lines, '\n');
    JoinAroundBlank(a, b);
    FilterDropsBlank(a, b);
  }

  lemma JoinAroundBlank(a: string, b: string)
    ensures Text.Join([a, "", b], "\n") == a + "\n\n" + b
  {
    var lines := [a, "", b];
    assert lines[1..][1..] == [b];
    assert Text.Join(lines[1..], "\n") == "" + "\n" + b;
  }

  lemma FilterDropsBlank(a: string, b: string)
    requires HasText(a) && HasText(b)
    ensures Seqs.Filter([a, "", b], HasText) == [a, b]
  {
    var lines := [a, "", b];
    assert !HasText("");
    assert lines[1..][1..] == [b];
    assert Seqs.Filter([b], HasText) == [b] by {
      assert [b][1..] == [];
    }
    assert Seqs.Filter(lines[1..], HasText) == [b];
  }

  /** `offsetHeight || containerHeight * 0.2`, in fifths of a pixel. */
  function ScaledHeight(offset: nat, container: nat): (h: nat)
    ensures offset > 0 ==> h == 5 * offset
    ensures offset == 0 ==> h == container
  {
    if offset == 0 then container else 5 * offset
  }

  function Heights(offset: string -> nat, container: nat): string -> nat
  {
    p => ScaledHeight(offset(p), container)
  }

  /** The summed height of a page's paragraphs. */
  function PageHeight<T>(page: seq<T>, height: T -> nat): nat
  {
    if |page| == 0 then 0 else PageHeight(page[..|page| - 1], height) + height(page[|page| - 1])
  }

  /** Pages under construction and the height used on the last one. */
  datatype Layout<T> = Layout(pages: seq<seq<T>>, used: nat)

  predicate WithinCapacity<T>(pages: seq<seq<T>>)
  {
    forall i :: 0 <= i < |pages| ==> |pages[i]| <= PageCapacity
  }

  /** Only the first page may be empty. */
  predicate NoEmptyLaterPage<T>(pages: seq<seq<T>>)
  {
    forall i :: 0 < i < |pages| ==> |pages[i]| >= 1
  }

  /** A page of two or more paragraphs fits the budget; a lone paragraph may overflow. */
  predicate SharedPagesFit<T>(pages: seq<seq<T>>, height: T -> nat, budget: nat)
  {
    forall i :: 0 <= i < |pages| && |pages[i]| >= 2 ==> PageHeight(pages[i], height) <= budget
  }

  /** A page was closed only because it was full or the next page's first paragraph would not fit on it. */
  predicate ClosedWhenNeeded<T>(pages: seq<seq<T>>, height: T -> nat, budget: nat)
    requires NoEmptyLaterPage(pages)
  {
    forall i :: 0 <= i < |pages| - 1 ==>
      |pages[i]| == PageCapacity || PageHeight(pages[i], height) + height(pages[i + 1][0]) > budget
  }

  /** The shape greedy packing maintains, with `used` the height of the last page. */
  predicate WellPacked<T>(l: Layout<T>, height: T -> nat, budget: nat)
  {
    && |l.pages| >= 1
    && l.used == PageHeight(l.pages[|l.pages| - 1], height)
    && WithinCapacity(l.pages)
    && NoEmptyLaterPage(l.pages)
    && SharedPagesFit(l.pages, height, budget)
    && ClosedWhenNeeded(l.pages, height, budget)
  }

  /** One step of the packing loop: open a new page when the paragraph does not fit or the page is full. */
  function Place<T>(l: Layout<T>, x: T, height: T -> nat, budget: nat): (r: Layout<T>)
    requires |l.pages| >= 1
    ensures Seqs.Flatten(r.pages) == Seqs.Flatten(l.pages) + [x]
    ensures |r.pages| >= |l.pages|
    ensures r.pages[..|l.pages| - 1] == l.pages[..|l.pages| - 1]
    ensures l.pages[|l.pages| - 1] <= r.pages[|l.pages| - 1]
    ensures Opens(l, x, height, budget) ==> r == Layout(l.pages + [[x]], height(x))
    ensures !Opens(l, x, height, budget) ==>
      r == Layout(l.pages[..|l.pages| - 1] + [l.pages[|l.pages| - 1] + [x]], l.used + height(x))
  {
    var n := |l.pages|;
    var last := l.pages[n - 1];
    if Opens(l, x, height, budget) then
      Seqs.FlattenAppend(l.pages, [[x]]);
      assert (l.pages + [[x]])[..n - 1] == l.pages[..n - 1];
      Layout(l.pages + [[x]], height(x))
    else
      var pages := l.pages[..n - 1] + [last + [x]];
      assert l.pages == l.pages[..n - 1] + [last];
      Seqs.FlattenAppend(l.pages[..n - 1], [last]);
      Seqs.FlattenAppend(l.pages[..n - 1], [last + [x]]);
      assert pages[..n - 1] == l.pages[..n - 1];
      Layout(pages, l.used + height(x))
  }

  /** `currentPageHeight + paragraphHeight > containerHeight || pages[currentPageIndex].length >= 3`. */
  predicate Opens<T>(l: Layout<T>, x: T, height: T -> nat, budget: nat)
    requires |l.pages| >= 1
  {
    l.used + height(x) > budget || |l.pages[|l.pages| - 1]| >= PageCapacity
  }

  lemma PageHeightSingle<T>(x: T, height: T -> nat)
    ensures PageHeight([x], height) == height(x)
  {
    assert [x][..0] == [];
  }

  lemma PageHeightSnoc<T>(page: seq<T>, x: T, height: T -> nat)
    ensures PageHeight(page + [x], height) == PageHeight(page, height) + height(x)
  {
    assert (page + [x])[..|page|] == page;
  }

  /** Opening a new page keeps a layout well packed. */
  lemma OpenKeepsShape<T>(l: Layout<T>, x: T, height: T -> nat, budget: nat)
    requires WellPacked(l, height, budget) && Opens(l, x, height, budget)
    ensures WellPacked(Layout(l.pages + [[x]], height(x)), height, budget)
  {
    var pages := l.pages + [[x]];
    PageHeightSingle(x, height);
    assert forall i :: 0 <= i < |l.pages| ==> pages[i] == l.pages[i];
    assert WithinCapacity(pages);
    assert NoEmptyLaterPage(pages);
    assert SharedPagesFit(pages, height, budget);
    assert ClosedWhenNeeded(pages, height, budget);
  }

  /** Adding to the last page keeps a layout well packed. */
  lemma ExtendKeepsShape<T>(l: Layout<T>, x: T, height: T -> nat, budget: nat)
    requires WellPacked(l, height, budget) && !Opens(l, x, height, budget)
    ensures WellPacked(Layout(l.pages[..|l.pages| - 1] + [l.pages[|l.pages| - 1] + [x]], l.used + height(x)), height, budget)
  {
    var n := |l.pages|;
    var last := l.pages[n - 1];
    var pages := l.pages[..n - 1] + [last + [x]];
    PageHeightSnoc(last, x, height);
    ExtendKeepsCounts(l.pages, x);
    ExtendKeepsFit(l.pages, x, height, budget);
  }

  /** Adding to a last page below capacity keeps page sizes within bounds. */
  lemma ExtendKeepsCounts<T>(ps: seq<seq<T>>, x: T)
    requires |ps| >= 1 && WithinCapacity(ps) && NoEmptyLaterPage(ps) && |ps[|ps| - 1]| < PageCapacity
    ensures WithinCapacity(ps[..|ps| - 1] + [ps[|ps| - 1] + [x]])
    ensures NoEmptyLaterPage(ps[..|ps| - 1] + [ps[|ps| - 1] + [x]])
  {
    var n := |ps|;
    var pages := ps[..n - 1] + [ps[n - 1] + [x]];
    assert forall i :: 0 <= i < n - 1 ==> pages[i] == ps[i];
    assert |pages[n - 1]| == |ps[n - 1]| + 1;
  }

  /** Adding a paragraph that fits to the last page keeps every shared page within the budget. */
  lemma ExtendKeepsFit<T>(ps: seq<seq<T>>, x: T, height: T -> nat, budget: nat)
    requires |ps| >= 1 && NoEmptyLaterPage(ps) && SharedPagesFit(ps, height, budget)
    requires ClosedWhenNeeded(ps, height, budget)
    requires PageHeight(ps[|ps| - 1] + [x], height) <= budget
    ensures NoEmptyLaterPage(ps[..|ps| - 1] + [ps[|ps| - 1] + [x]])
    ensures SharedPagesFit(ps[..|ps| - 1] + [ps[|ps| - 1] + [x]], height, budget)
    ensures ClosedWhenNeeded(ps[..|ps| - 1] + [ps[|ps| - 1] + [x]], height, budget)
  {
    var n := |ps|;
    var pages := ps[..n - 1] + [ps[n - 1] + [x]];
    assert forall i :: 0 <= i < n - 1 ==> pages[i] == ps[i];
    assert pages[n - 1] == ps[n - 1] + [x];
    assert n >= 2 ==> pages[n - 1][0] == ps[n - 1][0];
  }

  /** Placing a paragraph keeps a layout well packed. */
  lemma PlaceKeepsShape<T>(l: Layout<T>, x: T, height: T -> nat, budget: nat)
    requires WellPacked(l, height, budget)
    ensures WellPacked(Place(l, x, height, budget), height, budget)
  {
    var r := Place(l, x, height, budget);
    if Opens(l, x, height, budget) {
      OpenKeepsShape(l, x, height, budget);
      assert r == Layout(l.pages + [[x]], height(x));
    } else {
      ExtendKeepsShape(l, x, height, budget);
      assert r == Layout(l.pages[..|l.pages| - 1] + [l.pages[|l.pages| - 1] + [x]], l.used + height(x));
    }
  }

  /** The packing loop over the remaining paragraphs. */
  function PackFrom<T>(l: Layout<T>, items: seq<T>, height: T -> nat, budget: nat): (r: Layout<T>)
    requires |l.pages| >= 1
    ensures Seqs.Flatten(r.pages) == Seqs.Flatten(l.pages) + items
    ensures |r.pages| >= |l.pages|
    decreases |items|
  {
    if |items| == 0 then l
    else
      var r := PackFrom(Place(l, items[0], height, budget), items[1..], height, budget);
      assert items == [items[0]] + items[1..];
      r
  }

  /** The loop only ever extends the last page or opens new ones: closed pages stay as they were. */
  lemma {:induction false} PackFromKeepsClosedPages<T>(l: Layout<T>, items: seq<T>, height: T -> nat, budget: nat)
    requires |l.pages| >= 1
    ensures var r := PackFrom(l, items, height, budget);
      r.pages[..|l.pages| - 1] == l.pages[..|l.pages| - 1] && l.pages[|l.pages| - 1] <= r.pages[|l.pages| - 1]
    decreases |items|
  {
    if |items| > 0 {
      var next := Place(l, items[0], height, budget);
      var r := PackFrom(next, items[1..], height, budget);
      PackFromKeepsClosedPages(next, items[1..], height, budget);
      var n := |l.pages|;
      assert r.pages[..n - 1] == r.pages[..|next.pages| - 1][..n - 1];
      assert next.pages[..|next.pages| - 1][..n - 1] == next.pages[..n - 1];
      if |next.pages| != n {
        assert r.pages[n - 1] == r.pages[..|next.pages| - 1][n - 1];
        assert next.pages[n - 1] == next.pages[..|next.pages| - 1][n - 1];
      }
    }
  }

  lemma {:induction false} PackFromKeepsShape<T>(l: Layout<T>, items: seq<T>, height: T -> nat, budget: nat)
    requires WellPacked(l, height, budget)
    ensures WellPacked(PackFrom(l, items, height, budget), height, budget)
    decreases |items|
  {
    if |items| > 0 {
      PlaceKeepsShape(l, items[0], height, budget);
      PackFromKeepsShape(Place(l, items[0], height, budget), items[1..], height, budget);
    }
  }

  /** The greedy packing of a long text, starting from one empty page. */
  function Pack<T>(items: seq<T>, height: T -> nat, budget: nat): (pages: seq<seq<T>>)
    ensures |pages| >= 1
    ensures Seqs.Flatten(pages) == items
  {
    var start: seq<seq<T>> := [[]];
    assert start[..0] == [];
    PackFrom(Layout(start, 0), items, height, budget).pages
  }

  /**
   * Every packed page holds at most three paragraphs, every page after the
   * first holds at least one, pages of two or more fit the budget, and each
   * page was closed only when full or when the next paragraph would overflow it.
   */
  lemma PackShape<T>(items: seq<T>, height: T -> nat, budget: nat)
    ensures WithinCapacity(Pack(items, height, budget))
    ensures NoEmptyLaterPage(Pack(items, height, budget))
    ensures SharedPagesFit(Pack(items, height, budget), height, budget)
    ensures ClosedWhenNeeded(Pack(items, height, budget), height, budget)
  {
    var start: seq<seq<T>> := [[]];
    assert start[..0] == [];
    assert WellPacked(Layout(start, 0), height, budget);
    PackFromKeepsShape(Layout([[]], 0), items, height, budget);
  }

  /** The first paragraph goes on the first page when it fits, and onto a second page otherwise. */
  lemma PlaceFirst<T>(x: T, height: T -> nat, budget: nat)
    ensures height(x) > budget ==> Place(Layout([[]], 0), x, height, budget) == Layout([[], [x]], height(x))
    ensures height(x) <= budget ==> Place(Layout([[]], 0), x, height, budget) == Layout([[x]], height(x))
  {
    var empty: seq<seq<T>> := [[]];
    assert empty[..0] == [] && empty[0] == [];
    assert empty[0] + [x] == [x];
    assert empty[..0] + [empty[0] + [x]] == [[x]];
    assert (empty + [[x]])[0] == [] && (empty + [[x]])[1] == [x];
    assert empty + [[x]] == [[], [x]];
  }

  /** The loop leaves a closed first page as it was and only extends an open one. */
  lemma FirstPageKept<T>(l: Layout<T>, items: seq<T>, height: T -> nat, budget: nat)
    requires |l.pages| >= 1
    ensures var r := PackFrom(l, items, height, budget);
      && (|l.pages| >= 2 ==> r.pages[0] == l.pages[0])
      && (|l.pages| == 1 ==> l.pages[0] <= r.pages[0])
  {
    var r := PackFrom(l, items, height, budget);
    PackFromKeepsClosedPages(l, items, height, budget);
    if |l.pages| >= 2 {
      assert r.pages[0] == r.pages[..|l.pages| - 1][0];
      assert l.pages[0] == l.pages[..|l.pages| - 1][0];
    }
  }

  /** The first page stays empty exactly when the first paragraph alone is taller than the page. */
  lemma PackFirstPage<T>(items: seq<T>, height: T -> nat, budget: nat)
    requires |items| > 0
    ensures Pack(items, height, budget)[0] == [] <==> height(items[0]) > budget
  {
    var x := items[0];
    var first := Place(Layout([[]], 0), x, height, budget);
    assert Pack(items, height, budget) == PackFrom(first, items[1..], height, budget).pages;
    PlaceFirst(x, height, budget);
    FirstPageKept(first, items[1..], height, budget);
    if height(x) <= budget {
      assert |first.pages[0]| == 1;
    }
  }

  /** Pages of at most three paragraphs hold at most three paragraphs each in total. */
  lemma {:induction false} FlattenAtMostThree<T>(pages: seq<seq<T>>)
    requires forall i :: 0 <= i < |pages| ==> |pages[i]| <= PageCapacity
    ensures |Seqs.Flatten(pages)| <= PageCapacity * |pages|
  {
    if |pages| > 0 {
      FlattenAtMostThree(pages[..|pages| - 1]);
    }
  }

  /** A short text: one paragraph per page, or a single empty page when there are none. */
  function OnePerPage(paragraphs: seq<string>): (pages: seq<seq<string>>)
    ensures |pages| == Numbers.Max(|paragraphs|, 1)
    ensures forall i :: 0 <= i < |paragraphs| ==> pages[i] == [paragraphs[i]]
    ensures |paragraphs| == 0 ==> pages == [[]]
  {
    if |paragraphs| == 0 then [[]]
    else seq(|paragraphs|, i requires 0 <= i < |paragraphs| => [paragraphs[i]])
  }

  lemma {:induction false} OnePerPageFlatten(paragraphs: seq<string>)
    ensures Seqs.Flatten(OnePerPage(paragraphs)) == paragraphs
  {
    if |paragraphs| > 1 {
      var init := paragraphs[..|paragraphs| - 1];
      OnePerPageFlatten(init);
      assert OnePerPage(paragraphs)[..|paragraphs| - 1] == OnePerPage(init);
    } else if |paragraphs| == 0 {
      var empty: seq<seq<string>> := [[]];
      assert empty[..0] == [];
    } else {
      assert OnePerPage(paragraphs)[..0] == [];
    }
  }

  /** The pages `calculatePages` lays out for a text. */
  function LayOut(text: string, offset: string -> nat, container: nat): (pages: seq<seq<string>>)
    ensures |pages| >= 1
    ensures Seqs.Flatten(pages) == Paragraphs(text)
  {
    var paragraphs := Paragraphs(text);
    if |paragraphs| > ShortTextLimit then Pack(paragraphs, Heights(offset, container), 5 * container)
    else
      OnePerPageFlatten(paragraphs);
      OnePerPage(paragraphs)
  }

  /**
   * `Math.max(pages.length, paragraphs.length > 5 ? 2 : 1)`. The lower bound
   * never binds: packing more than five paragraphs, at most three a page,
   * already needs two pages.
   */
  function CalculatedTotal(text: string, offset: string -> nat, container: nat): (n: int)
    ensures n == |LayOut(text, offset, container)|
    ensures |Paragraphs(text)| > ShortTextLimit ==> n >= 2
  {
    var paragraphs := Paragraphs(text);
    if |paragraphs| > ShortTextLimit then
      LongTextNeedsTwoPages(paragraphs, Heights(offset, container), 5 * container);
      Numbers.Max(|LayOut(text, offset, container)|, 2)
    else
      Numbers.Max(|LayOut(text, offset, container)|, 1)
  }

  /** More than five paragraphs never fit on one packed page. */
  lemma LongTextNeedsTwoPages<T>(items: seq<T>, height: T -> nat, budget: nat)
    ensures |items| > ShortTextLimit ==> |Pack(items, height, budget)| >= 2
  {
    PackShape(items, height, budget);
    FlattenAtMostThree(Pack(items, height, budget));
  }

  /**
   * The page count the reader settles on: the stored count when it is set and
   * not smaller than the calculated one, else the calculated one.
   */
  function FinalTotal(calculated: int, stored: Option<int>): (n: int)
    ensures n >= calculated
    ensures n == calculated || (stored.Some? && n == stored.value)
    ensures stored.Some? && stored.value != 0 && stored.value >= calculated ==> n == stored.value
  {
    if stored.Some? && stored.value != 0 && stored.value >= calculated then stored.value else calculated
  }
}

=== FILE: profile.dfy ===
/**
 * The profile page (client/src/pages/profile.tsx): the average test score, the
 * per-type test statistics, the finished / unfinished / test-result lists with
 * their "and N more" lines, and the two kinds of progress bar it draws.
 */
module Profile {
  import opened Wrappers
  import opened Schema
  import opened Numbers
  import opened Grouping
  import Seqs
  import Text
  import ProgressHooks
  import Reader

  // ---------------------------------------------------------------- scores

  function ScoreSum(rs: seq<TestResult>): int
  {
    if |rs| == 0 then 0 else ScoreSum(rs[..|rs| - 1]) + rs[|rs| - 1].score
  }

  /**
   * `avgTestScore`: the mean score rounded half-up, 0 when there are no results.
   * The rounding bound says the result is the integer nearest the mean.
   */
  function AverageScore(rs: seq<TestResult>): (avg: int)
    ensures |rs| == 0 ==> avg == 0
    ensures |rs| > 0 ==> 2 * ScoreSum(rs) - |rs| < 2 * avg * |rs| <= 2 * ScoreSum(rs) + |rs|
  {
    if |rs| == 0 then 0 else RoundQuotient(ScoreSum(rs), |rs|)
  }

  lemma {:induction false} ScoreSumBounds(rs: seq<TestResult>, lo: int, hi: int)
    requires forall i :: 0 <= i < |rs| ==> lo <= rs[i].score <= hi
    ensures lo * |rs| <= ScoreSum(rs) <= hi * |rs|
    decreases |rs|
  {
    if |rs| > 0 {
      var init := rs[..|rs| - 1];
      assert forall i :: 0 <= i < |init| ==> init[i] == rs[i];
      ScoreSumBounds(init, lo, hi);
      BoundsStep(ScoreSum(init), rs[|rs| - 1].score, |init|, lo, hi);
    }
  }

  /** Adding a summand within the bounds keeps a sum of `n` summands within `n` times the bounds. */
  lemma BoundsStep(sum: int, x: int, n: nat, lo: int, hi: int)
    requires lo * n <= sum <= hi * n && lo <= x <= hi
    ensures lo * (n + 1) <= sum + x <= hi * (n + 1)
  {
    assert lo * (n + 1) == lo * n + lo;
    assert hi * (n + 1) == hi * n + hi;
  }

  /** The average lies between the lowest and the highest score; equal scores average to that score. */
  lemma AverageWithinScores(rs: seq<TestResult>, lo: int, hi: int)
    requires |rs| > 0
    requires forall i :: 0 <= i < |rs| ==> lo <= rs[i].score <= hi
    ensures lo <= AverageScore(rs) <= hi
  {
    ScoreSumBounds(rs, lo, hi);
    RoundedMeanBounds(ScoreSum(rs), |rs|, AverageScore(rs), lo, hi);
  }

  /** An integer within half of `sum / n` lies between bounds that bound every one of the `n` summands. */
  lemma RoundedMeanBounds(sum: int, n: int, avg: int, lo: int, hi: int)
    requires n > 0 && lo * n <= sum <= hi * n
    requires 2 * sum - n < 2 * avg * n <= 2 * sum + n
    ensures lo <= avg <= hi
  {
    assert avg * (2 * n) < (hi + 1) * (2 * n);
    CancelPositive(avg, hi + 1, 2 * n);
    assert (2 * lo - 1) * n < (2 * avg) * n;
    CancelPositive(2 * lo - 1, 2 * avg, n);
  }

  // ---------------------------------------------------------------- test types

  /** The three headings the results are grouped under. */
  datatype Category = Quotes | Characters | Works

  function CategoryName(c: Category): string
  {
    match c
    case Quotes => "Цитати"
    case Characters => "Персонажі"
    case Works => "Твори"
  }

  const QuoteMark: string := "цитат"
  const HeroesMark: string := "Літературні герої"
  const CharacterMark: string := "характер"

  /** The type of a test, read off its title; a missing title counts as a work test. */
  function TypeOf(title: Option<string>): (c: Category)
    ensures title.None? ==> c == Works
    ensures title.Some? && Text.Contains(title.value, QuoteMark) ==> c == Quotes
    ensures (title.Some? && !Text.Contains(title.value, QuoteMark) &&
             (Text.Contains(title.value, HeroesMark) || Text.Contains(title.value, CharacterMark))) ==> c == Characters
    ensures c == Works <==> title.None? || !(Text.Contains(title.value, QuoteMark) || Text.Contains(title.value, HeroesMark)
                                            || Text.Contains(title.value, CharacterMark))
  {
    match title
    case None => Works
    case Some(t) =>
      if Text.Contains(t, QuoteMark) then Quotes
      else if Text.Contains(t, HeroesMark) then Characters
      else if Text.Contains(t, CharacterMark) then Characters
      else Works
  }

  /** A title mentioning quotes is a quote test, whatever else it mentions. */
  lemma QuoteTitleIsQuotes(before: string, after: string)
    ensures TypeOf(Some(before + QuoteMark + after)) == Quotes
  {
    var t := before + QuoteMark + after;
    assert t[|before|..|before| + |QuoteMark|] == QuoteMark;
    Text.ContainsAt(t, QuoteMark, |before|);
  }

  function ResultType(r: TestResult): Category
  {
    TypeOf(r.testTitle)
  }

  /** One line of the per-type statistics. */
  datatype TypeStat = TypeStat(category: Category, count: nat, avgScore: int)

  function StatsOf(groups: seq<Group<Category, TestResult>>): (stats: seq<TypeStat>)
    ensures |stats| == |groups|
    ensures forall i :: 0 <= i < |groups| ==>
      stats[i] == TypeStat(groups[i].key, |groups[i].members|, AverageScore(groups[i].members))
  {
    if |groups| == 0 then []
    else
      var g := groups[|groups| - 1];
      StatsOf(groups[..|groups| - 1]) + [TypeStat(g.key, |g.members|, AverageScore(g.members))]
  }

  function StatCount(stats: seq<TypeStat>): nat
  {
    if |stats| == 0 then 0 else StatCount(stats[..|stats| - 1]) + stats[|stats| - 1].count
  }

  lemma {:induction false} StatCountIsCount(groups: seq<Group<Category, TestResult>>)
    ensures StatCount(StatsOf(groups)) == Count(groups)
    decreases |groups|
  {
    if |groups| > 0 {
      var n := |groups| - 1;
      assert StatsOf(groups)[..n] == StatsOf(groups[..n]);
      StatCountIsCount(groups[..n]);
    }
  }

  /** Four categories cannot all differ. */
  lemma Pigeonhole(a: Category, b: Category, c: Category, d: Category)
    ensures a == b || a == c || a == d || b == c || b == d || c == d
  {
  }

  /** Pairwise-distinct categories are at most three. */
  lemma AtMostThree(stats: seq<TypeStat>)
    requires forall i, j :: 0 <= i < j < |stats| ==> stats[i].category != stats[j].category
    ensures |stats| <= 3
  {
    if |stats| > 3 {
      Pigeonhole(stats[0].category, stats[1].category, stats[2].category, stats[3].category);
      assert false;
    }
  }

  /** The statistics lines of the grouping by type, one per group. */
  lemma StatsOfGrouping(rs: seq<TestResult>)
    ensures var stats := StatsOf(GroupBy(rs, ResultType));
      && StatCount(stats) == |rs|
      && |stats| <= 3
      && (forall i, j :: 0 <= i < j < |stats| ==> stats[i].category != stats[j].category)
      && (forall i :: 0 <= i < |stats| ==>
            var ms := Members(rs, ResultType, stats[i].category);
            stats[i].count == |ms| > 0 && stats[i].avgScore == AverageScore(ms))
      && (forall j :: 0 <= j < |rs| ==> exists i :: 0 <= i < |stats| && stats[i].category == ResultType(rs[j]))
  {
    var groups := GroupBy(rs, ResultType);
    GroupBySpec(rs, ResultType);
    StatCountIsCount(groups);
    AtMostThree(StatsOf(groups));
    forall j | 0 <= j < |rs| {
      StatsCoverResults(rs, j);
    }
  }

  /** Every result's type has a statistics line. */
  lemma StatsCoverResults(rs: seq<TestResult>, j: nat)
    requires j < |rs|
    ensures var stats := StatsOf(GroupBy(rs, ResultType));
      exists i :: 0 <= i < |stats| && stats[i].category == ResultType(rs[j])
  {
    var groups := GroupBy(rs, ResultType);
    GroupBySpec(rs, ResultType);
    var i := KeyIndex(groups, ResultType(rs[j])).value;
    assert StatsOf(groups)[i].category == ResultType(rs[j]);
  }

  /**
   * `testTypeStats`: one line per test type that occurs, in order of first occurrence,
   * counting exactly that type's results and averaging their scores; the counts add up
   * to the number of results.
   */
  function TestTypeStats(results: Option<seq<TestResult>>): (stats: seq<TypeStat>)
    ensures results.None? ==> stats == []
    ensures results.Some? ==> StatCount(stats) == |results.value|
    ensures |stats| <= 3
    ensures forall i, j :: 0 <= i < j < |stats| ==> stats[i].category != stats[j].category
    ensures results.Some? ==> forall i :: 0 <= i < |stats| ==>
      var ms := Members(results.value, ResultType, stats[i].category);
      stats[i].count == |ms| > 0 && stats[i].avgScore == AverageScore(ms)
    ensures results.Some? ==> forall j :: 0 <= j < |results.value| ==>
      exists i :: 0 <= i < |stats| && stats[i].category == ResultType(results.value[j])
  {
    match results
    case None => []
    case Some(rs) =>
      StatsOfGrouping(rs);
      StatsOf(GroupBy(rs, ResultType))
  }

  // ---------------------------------------------------------------- lists

  /** A list section: the message for an empty list, or the first three entries and how many more there are. */
  datatype Section<T> = NoneYet | Listed(shown: seq<T>, more: nat)

  /** The first three of `xs` and the count of the rest. */
  function ListOf<T>(xs: seq<T>): (s: Section<T>)
    ensures s.NoneYet? <==> |xs| == 0
    ensures s.Listed? ==> s.shown <= xs && |s.shown| == Min(3, |xs|) && |s.shown| + s.more == |xs|
  {
    if |xs| == 0 then NoneYet
    else Listed(Seqs.Take(xs, 3), if |xs| > 3 then |xs| - 3 else 0)
  }

  function IsFinished(finished: bool): ProgressHooks.ProgressView -> bool
  {
    (v: ProgressHooks.ProgressView) => v.row.completed == finished
  }

  /** The rows of one section, in the order of the progress list. */
  function Matching(rows: seq<ProgressHooks.ProgressView>, finished: bool): (r: seq<ProgressHooks.ProgressView>)
    ensures forall i :: 0 <= i < |r| ==> r[i].row.completed == finished
    ensures forall i :: 0 <= i < |rows| && rows[i].row.completed == finished ==> rows[i] in r
  {
    Seqs.Filter(rows, IsFinished(finished))
  }

  /** A section lists its rows in the order of the progress list. */
  lemma MatchingKeepsOrder(rows: seq<ProgressHooks.ProgressView>, finished: bool)
    ensures Seqs.Subsequence(Matching(rows, finished), rows)
  {
    Seqs.FilterIsSubsequence(rows, IsFinished(finished));
  }

  /** The "finished works" (`finished`) or "unfinished works" (`!finished`) section. */
  function ProgressSection(rows: Option<seq<ProgressHooks.ProgressView>>, finished: bool): (s: Section<ProgressHooks.ProgressView>)
    ensures s.NoneYet? <==> rows.None? || forall i :: 0 <= i < |rows.value| ==> rows.value[i].row.completed != finished
    ensures s.Listed? ==> forall i :: 0 <= i < |s.shown| ==> s.shown[i].row.completed == finished
    ensures s.Listed? ==> |s.shown| <= 3 && |s.shown| + s.more == |Matching(rows.value, finished)|
    ensures s.Listed? ==> s.shown <= Matching(rows.value, finished) && |s.shown| == Min(3, |Matching(rows.value, finished)|)
  {
    match rows
    case None => NoneYet
    case Some(rs) =>
      var m := Matching(rs, finished);
      assert |m| > 0 ==> m[0] in Seqs.Filter(rs, IsFinished(finished));
      ListOf(m)
  }

  /** Every progress row belongs to exactly one of the two sections. */
  lemma SectionsPartition(rows: seq<ProgressHooks.ProgressView>)
    ensures multiset(Matching(rows, true)) + multiset(Matching(rows, false)) == multiset(rows)
    ensures |Matching(rows, true)| + |Matching(rows, false)| == |rows|
  {
    MatchingSplit(rows);
    assert |multiset(Matching(rows, true)) + multiset(Matching(rows, false))| == |multiset(rows)|;
  }

  lemma {:induction false} MatchingSplit(rows: seq<ProgressHooks.ProgressView>)
    ensures multiset(Matching(rows, true)) + multiset(Matching(rows, false)) == multiset(rows)
    decreases |rows|
  {
    if |rows| > 0 {
      var x, rest := rows[0], rows[1..];
      MatchingSplit(rest);
      assert rows == [x] + rest;
      var done, open := Matching(rest, true), Matching(rest, false);
      if x.row.completed {
        assert Matching(rows, true) == [x] + done && Matching(rows, false) == open;
      } else {
        assert Matching(rows, true) == done && Matching(rows, false) == [x] + open;
      }
    }
  }

  /** The test-results section: the first three results and how many more. */
  function ResultsSection(results: Option<seq<TestResult>>): (s: Section<TestResult>)
    ensures s.NoneYet? <==> results.None? || |results.value| == 0
    ensures s.Listed? ==> s.shown <= results.value && |s.shown| == Min(3, |results.value|) && |s.shown| + s.more == |results.value|
  {
    match results
    case None => NoneYet
    case Some(rs) => ListOf(rs)
  }

  // ---------------------------------------------------------------- bars

  /** The page count an unfinished row is shown against: one page or fewer displays as 11. */
  function DisplayedTotal(totalPages: int): (t: int)
    ensures t >= 2
    ensures totalPages <= 1 ==> t == 11
    ensures totalPages >= 2 ==> t == totalPages
  {
    if totalPages <= 1 then 11 else totalPages
  }

  /** A rounded percentage of a non-negative part is never negative. */
  lemma PercentNonNegative(a: int, b: int)
    requires a >= 0 && b > 0
    ensures Percent(a, b) >= 0
  {
    var r := Percent(a, b);
    assert (-1) * b < (2 * r) * b;
    CancelPositive(-1, 2 * r, b);
  }

  /** The bar of an unfinished row: pages read of the displayed total, capped at 100, else the stored progress. */
  function UnfinishedBar(row: UserProgress): (b: int)
    ensures row.totalPages > 0 ==> b <= 100
    ensures row.totalPages > 0 && row.currentPage >= 0 ==> 0 <= b
    ensures row.totalPages <= 0 ==> b == row.progress
  {
    if row.totalPages > 0 then
      assert row.currentPage >= 0 ==> Percent(row.currentPage, DisplayedTotal(row.totalPages)) >= 0 by {
        if row.currentPage >= 0 {
          PercentNonNegative(row.currentPage, DisplayedTotal(row.totalPages));
        }
      }
      Min(Percent(row.currentPage, DisplayedTotal(row.totalPages)), 100)
    else row.progress
  }

  /**
   * For an unfinished row the reader wrote while on a page, the profile's bar shows the same
   * percentage the reader stored: such a row always has at least two pages.
   */
  lemma UnfinishedBarAgreesWithReader(row: UserProgress, userId: int, bookId: int, s: Reader.ReaderState, now: Timestamp)
    requires Reader.PagesKnown(s) && Reader.OnAPage(s)
    requires Reader.RecordsState(row, userId, bookId, s, now)
    requires !row.completed
    ensures UnfinishedBar(row) == row.progress
  {
    assert row.totalPages >= 2;
    assert row.progress == Percent(s.currentPage, s.totalPages);
  }

  /** `result.maxScore || 20`: a missing or zero maximum becomes 20. */
  function ShownMax(maxScore: Option<int>): (m: int)
    ensures m != 0
    ensures maxScore.Some? && maxScore.value != 0 ==> m == maxScore.value
  {
    if maxScore.Some? && maxScore.value != 0 then maxScore.value else 20
  }

  /** The width of a result's bar: its score as a percentage of the shown maximum, capped at 100. */
  function TestBar(r: TestResult): (b: int)
    ensures b <= 100
    ensures ShownMax(r.maxScore) > 0 && r.score >= 0 ==> 0 <= b
    ensures ShownMax(r.maxScore) > 0 && r.score >= ShownMax(r.maxScore) ==> b == 100
  {
    var m := ShownMax(r.maxScore);
    assert m > 0 && r.score >= 0 ==> Percent(r.score, m) >= 0 by {
      if m > 0 && r.score >= 0 {
        PercentNonNegative(r.score, m);
      }
    }
    assert m > 0 && r.score >= m ==> Percent(r.score, m) >= 100 by {
      if m > 0 && r.score >= m {
        PercentEnds(m);
        RoundQuotientMonotone(100 * m, 100 * r.score, m);
      }
    }
    Min(Percent(r.score, m), 100)
  }

  /** A higher score never draws a shorter bar. */
  lemma TestBarMonotone(r: TestResult, score: int)
    requires ShownMax(r.maxScore) > 0 && r.score <= score
    ensures TestBar(r) <= TestBar(r.(score := score))
  {
    RoundQuotientMonotone(100 * r.score, 100 * score, ShownMax(r.maxScore));
  }
}

=== FILE: progress_bar.dfy ===
/** The progress bar: the width it draws for a given percentage. */
module ProgressBar {
  /**
   * `normalizedProgress`: the percentage clamped to [0, 100]. The profile passes the
   * unrounded reading percentage, so the percentage is a real.
   */
  function Normalized(progress: real): (width: real)
    ensures 0.0 <= width <= 100.0
    ensures 0.0 <= progress <= 100.0 ==> width == progress
    ensures progress < 0.0 ==> width == 0.0
    ensures progress > 100.0 ==> width == 100.0
  {
    if progress < 0.0 then 0.0 else if progress > 100.0 then 100.0 else progress
  }

  /** Normalizing a normalized width changes nothing. */
  lemma NormalizedIdempotent(progress: real)
    ensures Normalized(Normalized(progress)) == Normalized(progress)
  {
  }

  /** A larger percentage never draws a shorter bar. */
  lemma NormalizedMonotone(p: real, q: real)
    requires p <= q
    ensures Normalized(p) <= Normalized(q)
  {
  }
}

=== FILE: progress_card.dfy ===
/** The reading-progress card: the percentage and the status line shown for one progress row. */
module ProgressCard {
  import opened Wrappers
  import opened Schema
  import Numbers
  import Text
  import Reader

  /** `progressPercentage`: pages read as a whole percentage, or 0 for a row without a page count. */
  function Percentage(row: UserProgress): (p: int)
    ensures row.totalPages <= 0 ==> p == 0
    ensures 0 <= row.currentPage <= row.totalPages ==> 0 <= p <= 100
    ensures 0 < row.totalPages == row.currentPage ==> p == 100
    ensures row.totalPages > 0 && row.currentPage == 0 ==> p == 0
  {
    if row.totalPages > 0 then
      Numbers.PercentEnds(row.totalPages);
      Numbers.Percent(row.currentPage, row.totalPages)
    else 0
  }

  datatype Status = Finished | OnPage(page: int, of: int) | NotStarted

  /** `getReadingStatus`: a completed row is finished whatever its page; else the page, once reading has begun. */
  function StatusOf(row: UserProgress): (s: Status)
    ensures s.Finished? <==> row.completed
    ensures s.OnPage? <==> !row.completed && row.currentPage > 0
    ensures s.OnPage? ==> s.page == row.currentPage && s.of == row.totalPages
  {
    if row.completed then Finished
    else if row.currentPage > 0 then OnPage(row.currentPage, row.totalPages)
    else NotStarted
  }

  const FinishedText := "Прочитано"
  const NotStartedText := "Не розпочато"
  const PageWord := "Сторінка"
  const OfWord := "з"

  /** The status line the card shows. */
  function StatusText(s: Status): string
  {
    match s
    case Finished => FinishedText
    case OnPage(p, t) => PageLine(p, t)
    case NotStarted => NotStartedText
  }

  /** Reading a status line back: the fixed texts, or the page line's four words with two numbers. */
  function ParseStatus(text: string): (s: Option<Status>)
  {
    if text == FinishedText then Some(Finished)
    else if text == NotStartedText then Some(NotStarted)
    else
      var words := Text.Split(text, ' ');
      if |words| == 4 && words[0] == PageWord && words[2] == OfWord
         && Text.IsIntText(words[1]) && Text.IsIntText(words[3])
      then Some(OnPage(Text.ParseInt(words[1]), Text.ParseInt(words[3])))
      else None
  }

  lemma NoSpaceInNumber(n: int)
    ensures ' ' !in Text.IntToDecimal(n)
  {
    Text.IntRoundTrip(n);
    var d := Text.IntToDecimal(n);
    assert forall i :: 0 <= i < |d| ==> d[i] != ' ';
  }

  function PageLine(p: int, t: int): string
  {
    PageWord + " " + Text.IntToDecimal(p) + " " + OfWord + " " + Text.IntToDecimal(t)
  }

  /** The page line is its four words joined by single spaces. */
  lemma PageLineIsJoin(p: int, t: int)
    ensures Text.Join([PageWord, Text.IntToDecimal(p), OfWord, Text.IntToDecimal(t)], [' ']) == PageLine(p, t)
  {
    var words := [PageWord, Text.IntToDecimal(p), OfWord, Text.IntToDecimal(t)];
    assert Text.Join(words[3..], [' ']) == words[3];
    assert words[2..][1..] == words[3..];
    assert Text.Join(words[2..], [' ']) == OfWord + " " + words[3];
    assert words[1..][1..] == words[2..];
    assert Text.Join(words[1..], [' ']) == words[1] + " " + OfWord + " " + words[3];
  }

  /** Splitting the page line on spaces gives back its four words. */
  lemma PageLineWords(p: int, t: int)
    ensures Text.Split(PageLine(p, t), ' ') == [PageWord, Text.IntToDecimal(p), OfWord, Text.IntToDecimal(t)]
  {
    var words := [PageWord, Text.IntToDecimal(p), OfWord, Text.IntToDecimal(t)];
    PageLineIsJoin(p, t);
    NoSpaceInNumber(p);
    NoSpaceInNumber(t);
    assert ' ' !in PageWord && ' ' !in OfWord;
    Text.SplitJoin(words, ' ');
  }

  /** A page line starts with the page word, so it is neither fixed text. */
  lemma PageLineNotFixed(p: int, t: int)
    ensures PageLine(p, t) != FinishedText && PageLine(p, t) != NotStartedText
  {
    var text := PageLine(p, t);
    assert text[0] == 'С';
    assert FinishedText[0] == 'П' && NotStartedText[0] == 'Н';
  }

  /** A page line reads back as the page and page count it shows. */
  lemma PageLineReadsBack(p: int, t: int)
    ensures ParseStatus(PageLine(p, t)) == Some(OnPage(p, t))
  {
    PageLineNotFixed(p, t);
    PageLineWords(p, t);
    Text.IntRoundTrip(p);
    Text.IntRoundTrip(t);
  }

  /** The status line names its status unambiguously: reading it back gives the status. */
  lemma StatusTextReadsBack(s: Status)
    ensures ParseStatus(StatusText(s)) == Some(s)
  {
    if s.OnPage? {
      PageLineReadsBack(s.page, s.of);
    }
  }

  /** Distinct statuses show distinct lines. */
  lemma StatusTextInjective(s: Status, t: Status)
    requires StatusText(s) == StatusText(t)
    ensures s == t
  {
    StatusTextReadsBack(s);
    StatusTextReadsBack(t);
  }

  /**
   * For the row the reader writes, the card agrees with the reader: it shows the
   * percentage the reader stored, and "finished" exactly on the last page.
   */
  lemma CardAgreesWithReader(row: UserProgress, userId: int, bookId: int, s: Reader.ReaderState, now: Timestamp)
    requires Reader.PagesKnown(s) && Reader.RecordsState(row, userId, bookId, s, now)
    ensures Percentage(row) == row.progress
    ensures StatusOf(row).Finished? <==> s.currentPage == s.totalPages
  {
  }
}

=== FILE: progress_hooks.dfy ===
/**
 * The client's data hooks over fetched rows: the per-user progress list (sorted
 * newest first and reduced to one row per book once the catalogue is loaded),
 * the latest row for one book, the reading statistics over the exam ("zno")
 * books, the recently-read list, the enrichment of test results with titles and
 * maximum scores, and the URL of the test listing. A fetch is an input:
 * its body, an HTTP error status, or a thrown error.
 */
module ProgressHooks {
  import opened Wrappers
  import opened Schema
  import opened Recency
  import Seqs
  import Text
  import Numbers

  /** The outcome of one `fetch` followed by `response.json()`. */
  datatype Fetch<T> = Loaded(body: T) | HttpError | NetworkError

  /** A progress row as the client lists it, with the title of its book when the catalogue is known. */
  datatype ProgressView = ProgressView(row: UserProgress, bookTitle: Option<string>)

  function BookIdOf(p: UserProgress): int
  {
    p.bookId
  }

  /** `new Map(books.map(b => [b.id, b])).get(id)`: the last listed book with that id. */
  function BookById(books: seq<BookWithAuthor>, id: int): (r: Option<BookWithAuthor>)
    ensures r.None? <==> forall i :: 0 <= i < |books| ==> books[i].book.id != id
    ensures r.Some? ==> r.value in books && r.value.book.id == id
  {
    if |books| == 0 then None
    else if books[|books| - 1].book.id == id then Some(books[|books| - 1])
    else
      var r := BookById(books[..|books| - 1], id);
      assert forall i :: 0 <= i < |books| - 1 ==> books[..|books| - 1][i] == books[i];
      r
  }

  /**
   * The progress rows sorted newest first with only the first row of each book
   * kept.
   */
  function Deduplicated(data: seq<UserProgress>): seq<UserProgress>
  {
    FirstPerId(SortNewest(data, ReadTime), BookIdOf, {})
  }

  /**
   * The reduced list has one row per book, covers every book of the input, keeps
   * for each book a most recently read row, and is itself newest first.
   */
  lemma DeduplicatedSpec(data: seq<UserProgress>)
    ensures forall i :: 0 <= i < |Deduplicated(data)| ==> Deduplicated(data)[i] in data
    ensures forall i, j :: 0 <= i < j < |Deduplicated(data)| ==> Deduplicated(data)[i].bookId != Deduplicated(data)[j].bookId
    ensures forall i :: 0 <= i < |data| ==> HasId(Deduplicated(data), BookIdOf, data[i].bookId)
    ensures forall j, i :: 0 <= j < |Deduplicated(data)| && 0 <= i < |data| && data[i].bookId == Deduplicated(data)[j].bookId ==>
      ReadTime(data[i]) <= ReadTime(Deduplicated(data)[j])
    ensures NewestFirst(Deduplicated(data), ReadTime)
  {
    var sorted := SortNewest(data, ReadTime);
    DeduplicatedFromData(data);
    FirstPerIdDistinct(sorted, BookIdOf, {});
    DeduplicatedCovers(data);
    DeduplicatedNewest(data);
    FirstPerIdKeepsOrder(sorted, BookIdOf, {}, ReadTime);
  }

  /** Sorting loses no row. */
  lemma SortedHoldsAll(data: seq<UserProgress>)
    ensures forall i :: 0 <= i < |data| ==> data[i] in SortNewest(data, ReadTime)
  {
    var sorted := SortNewest(data, ReadTime);
    forall i | 0 <= i < |data|
      ensures data[i] in sorted
    {
      assert data[i] in multiset(sorted);
    }
  }

  lemma DeduplicatedFromData(data: seq<UserProgress>)
    ensures forall i :: 0 <= i < |Deduplicated(data)| ==> Deduplicated(data)[i] in data
  {
    var sorted := SortNewest(data, ReadTime);
    var r := Deduplicated(data);
    FirstPerIdMembers(sorted, BookIdOf, {});
    forall i | 0 <= i < |r|
      ensures r[i] in data
    {
      assert r[i] in multiset(sorted);
    }
  }

  lemma DeduplicatedCovers(data: seq<UserProgress>)
    ensures forall i :: 0 <= i < |data| ==> HasId(Deduplicated(data), BookIdOf, data[i].bookId)
  {
    var sorted := SortNewest(data, ReadTime);
    SortedHoldsAll(data);
    FirstPerIdCovers(sorted, BookIdOf, {});
    forall i | 0 <= i < |data|
      ensures HasId(Deduplicated(data), BookIdOf, data[i].bookId)
    {
      var k :| 0 <= k < |sorted| && sorted[k] == data[i];
      assert BookIdOf(sorted[k]) == data[i].bookId;
    }
  }

  lemma DeduplicatedNewest(data: seq<UserProgress>)
    ensures forall j, i :: 0 <= j < |Deduplicated(data)| && 0 <= i < |data| && data[i].bookId == Deduplicated(data)[j].bookId ==>
      ReadTime(data[i]) <= ReadTime(Deduplicated(data)[j])
  {
    var sorted := SortNewest(data, ReadTime);
    var r := Deduplicated(data);
    SortedHoldsAll(data);
    FirstPerIdKeepsNewest(sorted, BookIdOf, {}, ReadTime);
    forall j, i | 0 <= j < |r| && 0 <= i < |data| && data[i].bookId == r[j].bookId
      ensures ReadTime(data[i]) <= ReadTime(r[j])
    {
      var k :| 0 <= k < |sorted| && sorted[k] == data[i];
      assert BookIdOf(sorted[k]) == BookIdOf(r[j]);
    }
  }

  /** `useUserProgress`: nothing without a user or on any fetch failure; deduplicated and titled once books are known. */
  function UserProgressView(userId: int, response: Fetch<seq<UserProgress>>, books: Option<seq<BookWithAuthor>>)
    : (r: seq<ProgressView>)
    ensures userId == 0 || !response.Loaded? ==> r == []
    ensures userId != 0 && response.Loaded? && books.None? ==>
      |r| == |response.body| && forall i :: 0 <= i < |r| ==> r[i] == ProgressView(response.body[i], None)
    ensures userId != 0 && response.Loaded? && books.Some? ==>
      |r| == |Deduplicated(response.body)| && forall i :: 0 <= i < |r| ==> r[i].row == Deduplicated(response.body)[i]
    ensures books.Some? ==> forall i :: 0 <= i < |r| ==>
      r[i].bookTitle == (match BookById(books.value, r[i].row.bookId) case None => None case Some(b) => Some(b.book.title))
  {
    if userId == 0 then []
    else match response
      case Loaded(data) =>
        if books.None? then Seqs.Map(data, (p: UserProgress) => ProgressView(p, None))
        else Seqs.Map(Deduplicated(data), (p: UserProgress) => ProgressView(p, TitleOf(books.value, p.bookId)))
      case _ => []
  }

  function TitleOf(books: seq<BookWithAuthor>, id: int): Option<string>
  {
    match BookById(books, id)
    case None => None
    case Some(b) => Some(b.book.title)
  }

  /** `useUserBookProgress`: the most recently read row for the book, if the user and book ids are set and the fetch succeeds. */
  function UserBookProgress(userId: int, bookId: int, response: Fetch<seq<UserProgress>>): (r: Option<UserProgress>)
    ensures userId == 0 || bookId == 0 || !response.Loaded? ==> r.None?
    ensures r.Some? ==> r.value in response.body && r.value.bookId == bookId
    ensures r.Some? ==> forall i :: 0 <= i < |response.body| && response.body[i].bookId == bookId ==>
      ReadTime(response.body[i]) <= ReadTime(r.value)
    ensures userId != 0 && bookId != 0 && response.Loaded? ==>
      (r.None? <==> forall i :: 0 <= i < |response.body| ==> response.body[i].bookId != bookId)
  {
    if userId == 0 || bookId == 0 || !response.Loaded? then None
    else Latest(response.body, bookId)
  }

  /** The row a listing shows for a book is the one the single-book hook returns, up to ties in read time. */
  lemma ViewAgreesWithBookProgress(userId: int, response: Fetch<seq<UserProgress>>, books: seq<BookWithAuthor>, j: nat)
    requires userId != 0 && response.Loaded?
    ensures var view := UserProgressView(userId, response, Some(books));
      j < |view| && view[j].row.bookId != 0 ==>
        && UserBookProgress(userId, view[j].row.bookId, response).Some?
        && ReadTime(UserBookProgress(userId, view[j].row.bookId, response).value) == ReadTime(view[j].row)
  {
    var view := UserProgressView(userId, response, Some(books));
    if j < |view| && view[j].row.bookId != 0 {
      DeduplicatedSpec(response.body);
      LatestOfNewest(response.body, Deduplicated(response.body)[j]);
    }
  }

  // ---------------------------------------------------------------- reading statistics

  /** Reading statistics over the exam-programme books; `percentage` is not rounded. */
  datatype ReadingStats = ReadingStats(percentage: real, read: nat, total: nat)

  /** The ids of a list of books. */
  function IdSet(books: seq<BookWithAuthor>): (r: set<int>)
    ensures |r| <= |books|
    ensures forall x :: x in r <==> exists i :: 0 <= i < |books| && books[i].book.id == x
  {
    if |books| == 0 then {}
    else
      var init := IdSet(books[..|books| - 1]);
      assert forall i :: 0 <= i < |books| - 1 ==> books[..|books| - 1][i] == books[i];
      init + {books[|books| - 1].book.id}
  }

  predicate IsExamBook(b: BookWithAuthor)
  {
    b.book.category == Some("zno")
  }

  /** Some listed exam-programme book has this id. */
  predicate HasExamBook(books: seq<BookWithAuthor>, id: int)
  {
    exists j :: 0 <= j < |books| && IsExamBook(books[j]) && books[j].book.id == id
  }

  /** A finished row for a book of the exam programme. */
  predicate CompletedExamRow(books: seq<BookWithAuthor>, v: ProgressView)
  {
    v.row.completed && HasExamBook(books, v.row.bookId)
  }

  /** The ids collected from the exam books are exactly the ids of listed exam books. */
  lemma ExamIds(books: seq<BookWithAuthor>)
    ensures forall id :: id in IdSet(Seqs.Filter(books, IsExamBook)) <==> HasExamBook(books, id)
  {
    var exam := Seqs.Filter(books, IsExamBook);
    forall id | id in IdSet(exam)
      ensures HasExamBook(books, id)
    {
      var i :| 0 <= i < |exam| && exam[i].book.id == id;
      assert exam[i] in books && IsExamBook(exam[i]);
      var j :| 0 <= j < |books| && books[j] == exam[i];
      assert IsExamBook(books[j]) && books[j].book.id == id;
    }
    forall id | HasExamBook(books, id)
      ensures id in IdSet(exam)
    {
      var j :| 0 <= j < |books| && IsExamBook(books[j]) && books[j].book.id == id;
      assert books[j] in exam;
      var i :| 0 <= i < |exam| && exam[i] == books[j];
      assert exam[i].book.id == id;
    }
  }

  /** `useReadingProgress`: zeros while either list is missing; otherwise completed exam books over all exam books. */
  function ReadingProgress(progress: Option<seq<ProgressView>>, books: Option<seq<BookWithAuthor>>): (r: ReadingStats)
    ensures progress.None? || books.None? ==> r == ReadingStats(0.0, 0, 0)
    ensures books.Some? ==> r.total == |Seqs.Filter(books.value, IsExamBook)| || progress.None?
    ensures progress.Some? && books.Some? ==>
      r.read == |Seqs.Filter(progress.value, (v: ProgressView) => CompletedExamRow(books.value, v))|
    ensures r.total == 0 ==> r.percentage == 0.0
    ensures r.total > 0 ==> r.percentage == (r.read as real / r.total as real) * 100.0
    ensures r.percentage >= 0.0
  {
    if progress.None? || books.None? then ReadingStats(0.0, 0, 0)
    else
      var exam := Seqs.Filter(books.value, IsExamBook);
      var ids := IdSet(exam);
      var p := (v: ProgressView) => v.row.bookId in ids && v.row.completed;
      var done := Seqs.Filter(progress.value, p);
      ExamIds(books.value);
      Seqs.FilterCongruent(progress.value, p, (v: ProgressView) => CompletedExamRow(books.value, v));
      ReadingStats(Percentage(|done|, |exam|), |done|, |exam|)
  }

  /** `total > 0 ? (read / total) * 100 : 0`, without rounding. */
  function Percentage(read: nat, total: nat): (r: real)
    ensures total == 0 ==> r == 0.0
    ensures total > 0 ==> r == (read as real / total as real) * 100.0
    ensures r >= 0.0
    ensures read <= total ==> r <= 100.0
  {
    if total > 0 then
      assert read as real / total as real >= 0.0;
      assert read <= total ==> read as real / total as real <= 1.0;
      (read as real / total as real) * 100.0
    else 0.0
  }

  /** Distinct values drawn from a set are no more than the set's size. */
  lemma {:induction false} DistinctWithinSet(xs: seq<int>, z: set<int>)
    requires forall i :: 0 <= i < |xs| ==> xs[i] in z
    requires forall i, j :: 0 <= i < j < |xs| ==> xs[i] != xs[j]
    ensures |xs| <= |z|
  {
    if |xs| > 0 {
      forall i | 0 <= i < |xs[1..]|
        ensures xs[1..][i] in z - {xs[0]}
      {
        assert xs[1..][i] == xs[i + 1];
      }
      DistinctWithinSet(xs[1..], z - {xs[0]});
    }
  }

  /** Counting only books the user has distinct rows for, the exam percentage never exceeds 100. */
  lemma ReadingProgressAtMost100(progress: seq<ProgressView>, books: seq<BookWithAuthor>)
    requires forall i, j :: 0 <= i < j < |progress| ==> progress[i].row.bookId != progress[j].row.bookId
    ensures ReadingProgress(Some(progress), Some(books)).read <= ReadingProgress(Some(progress), Some(books)).total
    ensures ReadingProgress(Some(progress), Some(books)).percentage <= 100.0
  {
    var exam := Seqs.Filter(books, IsExamBook);
    var ids := IdSet(exam);
    var p := (v: ProgressView) => v.row.bookId in ids && v.row.completed;
    var done := Seqs.Filter(progress, p);
    FilterDistinctBookIds(progress, p);
    var xs := seq(|done|, i requires 0 <= i < |done| => done[i].row.bookId);
    DistinctWithinSet(xs, ids);
    var r := ReadingProgress(Some(progress), Some(books));
    assert r == ReadingStats(Percentage(|done|, |exam|), |done|, |exam|);
    assert |xs| == |done|;
    assert |ids| <= |exam|;
  }

  /** Filtering keeps book ids distinct. */
  lemma {:induction false} FilterDistinctBookIds(s: seq<ProgressView>, p: ProgressView -> bool)
    requires forall i, j :: 0 <= i < j < |s| ==> s[i].row.bookId != s[j].row.bookId
    ensures forall i, j :: 0 <= i < j < |Seqs.Filter(s, p)| ==> Seqs.Filter(s, p)[i].row.bookId != Seqs.Filter(s, p)[j].row.bookId
  {
    if |s| > 0 {
      FilterDistinctBookIds(s[1..], p);
      var rest := Seqs.Filter(s[1..], p);
      forall i | 0 <= i < |rest|
        ensures rest[i].row.bookId != s[0].row.bookId
      {
        var k :| 0 <= k < |s[1..]| && s[1..][k] == rest[i];
        assert s[k + 1] == rest[i];
      }
    }
  }

  /** The listing the hooks produce once books are loaded has one row per book, so its percentage is at most 100. */
  lemma ReadingProgressOfViewAtMost100(userId: int, response: Fetch<seq<UserProgress>>, books: seq<BookWithAuthor>)
    ensures ReadingProgress(Some(UserProgressView(userId, response, Some(books))), Some(books)).percentage <= 100.0
  {
    var v := UserProgressView(userId, response, Some(books));
    if userId != 0 && response.Loaded? {
      DeduplicatedSpec(response.body);
      assert forall i :: 0 <= i < |v| ==> v[i].row == Deduplicated(response.body)[i];
    }
    ReadingProgressAtMost100(v, books);
  }

  // ---------------------------------------------------------------- recently read

  datatype RecentBook = RecentBook(book: BookWithAuthor, progress: ProgressView)

  function ViewTime(v: ProgressView): int
  {
    ReadTime(v.row)
  }

  function ViewBookId(v: ProgressView): int
  {
    v.row.bookId
  }

  /**
   * The loop of `useRecentlyReadBooks`: skip books already taken or not in the
   * catalogue, and stop right after the entry that brings the count to
   * `limit` (so even a non-positive limit yields one entry).
   */
  function Collect(s: seq<ProgressView>, books: seq<BookWithAuthor>, seen: set<int>, limit: int): (r: seq<RecentBook>)
    ensures |r| <= |s| && |r| <= Numbers.Max(limit, 1)
    ensures forall i :: 0 <= i < |r| ==> r[i].progress in s && r[i].progress.row.bookId !in seen
    ensures forall i :: 0 <= i < |r| ==> BookById(books, r[i].progress.row.bookId) == Some(r[i].book)
    ensures forall i, j :: 0 <= i < j < |r| ==> r[i].progress.row.bookId != r[j].progress.row.bookId
    decreases |s|
  {
    if |s| == 0 then []
    else
      var v := s[0];
      var id := v.row.bookId;
      if id in seen then
        var r := Collect(s[1..], books, seen, limit);
        assert forall i :: 0 <= i < |r| ==> r[i].progress in s by {
          forall i | 0 <= i < |r|
            ensures r[i].progress in s
          {
            var k :| 0 <= k < |s[1..]| && s[1..][k] == r[i].progress;
            assert s[k + 1] == r[i].progress;
          }
        }
        r
      else match BookById(books, id)
        case None =>
          var r := Collect(s[1..], books, seen, limit);
          assert forall i :: 0 <= i < |r| ==> r[i].progress in s by {
            forall i | 0 <= i < |r|
              ensures r[i].progress in s
            {
              var k :| 0 <= k < |s[1..]| && s[1..][k] == r[i].progress;
              assert s[k + 1] == r[i].progress;
            }
          }
          r
        case Some(b) =>
          if limit <= 1 then [RecentBook(b, v)]
          else
            var rest := Collect(s[1..], books, seen + {id}, limit - 1);
            assert forall i :: 0 <= i < |rest| ==> rest[i].progress in s by {
              forall i | 0 <= i < |rest|
                ensures rest[i].progress in s
              {
                var k :| 0 <= k < |s[1..]| && s[1..][k] == rest[i].progress;
                assert s[k + 1] == rest[i].progress;
              }
            }
            [RecentBook(b, v)] + rest
  }

  /** Collecting from a newest-first list keeps it newest first. */
  lemma {:induction false} CollectKeepsOrder(s: seq<ProgressView>, books: seq<BookWithAuthor>, seen: set<int>, limit: int)
    requires NewestFirst(s, ViewTime)
    ensures forall i, j :: 0 <= i < j < |Collect(s, books, seen, limit)| ==>
      ViewTime(Collect(s, books, seen, limit)[i].progress) >= ViewTime(Collect(s, books, seen, limit)[j].progress)
  {
    if |s| > 0 {
      var id, tail := s[0].row.bookId, s[1..];
      assert NewestFirst(tail, ViewTime);
      if id in seen || BookById(books, id).None? {
        CollectKeepsOrder(tail, books, seen, limit);
      } else if limit > 1 {
        CollectKeepsOrder(tail, books, seen + {id}, limit - 1);
        var rest := Collect(tail, books, seen + {id}, limit - 1);
        forall i | 0 <= i < |rest|
          ensures ViewTime(s[0]) >= ViewTime(rest[i].progress)
        {
          var k :| 0 <= k < |tail| && tail[k] == rest[i].progress;
          assert s[k + 1] == rest[i].progress;
        }
      }
    }
  }

  /** Some entry of the list is for book `id`. */
  predicate Lists(r: seq<RecentBook>, id: int)
  {
    exists i :: 0 <= i < |r| && r[i].progress.row.bookId == id
  }

  /** A row the loop would take: its book is not taken yet and is in the catalogue. */
  predicate Eligible(books: seq<BookWithAuthor>, seen: set<int>, v: ProgressView)
  {
    v.row.bookId !in seen && BookById(books, v.row.bookId).Some?
  }

  /** Every eligible row of `s` whose book `r` leaves out comes after a full list, and is no newer than any entry. */
  ghost predicate MissedOnlyWhenFull(s: seq<ProgressView>, books: seq<BookWithAuthor>, seen: set<int>, limit: int, r: seq<RecentBook>)
  {
    forall k :: 0 <= k < |s| && Eligible(books, seen, s[k]) && !Lists(r, s[k].row.bookId) ==>
      |r| == Numbers.Max(limit, 1) && forall i :: 0 <= i < |r| ==> ViewTime(s[k]) <= ViewTime(r[i].progress)
  }

  /**
   * On a newest-first list the loop misses an eligible book only when it
   * stopped at the limit, and then the missed row is no newer than any entry taken.
   */
  lemma {:induction false} CollectCovers(s: seq<ProgressView>, books: seq<BookWithAuthor>, seen: set<int>, limit: int)
    requires NewestFirst(s, ViewTime)
    ensures MissedOnlyWhenFull(s, books, seen, limit, Collect(s, books, seen, limit))
    decreases |s|
  {
    if |s| > 0 {
      var id := s[0].row.bookId;
      assert NewestFirst(s[1..], ViewTime);
      if !Eligible(books, seen, s[0]) {
        CollectCovers(s[1..], books, seen, limit);
        CoversSkip(s, books, seen, limit, Collect(s, books, seen, limit));
      } else if limit <= 1 {
        CoversLast(s, books, seen, limit, Collect(s, books, seen, limit)[0]);
      } else {
        var rest := Collect(s[1..], books, seen + {id}, limit - 1);
        CollectCovers(s[1..], books, seen + {id}, limit - 1);
        CoversTake(s, books, seen, limit, RecentBook(BookById(books, id).value, s[0]), rest);
      }
    }
  }

  /** A row the loop skips changes nothing about what it misses. */
  lemma CoversSkip(s: seq<ProgressView>, books: seq<BookWithAuthor>, seen: set<int>, limit: int, r: seq<RecentBook>)
    requires |s| > 0 && !Eligible(books, seen, s[0])
    requires MissedOnlyWhenFull(s[1..], books, seen, limit, r)
    ensures MissedOnlyWhenFull(s, books, seen, limit, r)
  {
    forall k | 0 <= k < |s| && Eligible(books, seen, s[k]) && !Lists(r, s[k].row.bookId)
      ensures |r| == Numbers.Max(limit, 1) && forall i :: 0 <= i < |r| ==> ViewTime(s[k]) <= ViewTime(r[i].progress)
    {
      assert s[1..][k - 1] == s[k];
    }
  }

  /** Taking the newest row as the last entry misses only rows that are no newer. */
  lemma CoversLast(s: seq<ProgressView>, books: seq<BookWithAuthor>, seen: set<int>, limit: int, e: RecentBook)
    requires |s| > 0 && NewestFirst(s, ViewTime) && e.progress == s[0] && limit <= 1
    ensures MissedOnlyWhenFull(s, books, seen, limit, [e])
  {
    forall k | 0 <= k < |s| && Eligible(books, seen, s[k]) && !Lists([e], s[k].row.bookId)
      ensures ViewTime(s[k]) <= ViewTime(e.progress)
    {
      assert [e][0] == e;
    }
  }

  /** Taking the newest row and then collecting the rest misses only what the rest misses. */
  lemma CoversTake(s: seq<ProgressView>, books: seq<BookWithAuthor>, seen: set<int>, limit: int, e: RecentBook, rest: seq<RecentBook>)
    requires |s| > 0 && NewestFirst(s, ViewTime) && e.progress == s[0] && limit > 1
    requires MissedOnlyWhenFull(s[1..], books, seen + {s[0].row.bookId}, limit - 1, rest)
    ensures MissedOnlyWhenFull(s, books, seen, limit, [e] + rest)
  {
    var r := [e] + rest;
    forall k | 0 <= k < |s| && Eligible(books, seen, s[k]) && !Lists(r, s[k].row.bookId)
      ensures |r| == Numbers.Max(limit, 1) && forall i :: 0 <= i < |r| ==> ViewTime(s[k]) <= ViewTime(r[i].progress)
    {
      assert r[0] == e;
      assert k > 0 && s[1..][k - 1] == s[k];
      assert !Lists(rest, s[k].row.bookId) by {
        forall i | 0 <= i < |rest|
          ensures rest[i].progress.row.bookId != s[k].row.bookId
        {
          assert r[i + 1] == rest[i];
        }
      }
      forall i | 0 <= i < |r|
        ensures ViewTime(s[k]) <= ViewTime(r[i].progress)
      {
        if i > 0 {
          assert r[i] == rest[i - 1];
        }
      }
    }
  }

  predicate Unfinished(v: ProgressView)
  {
    !v.row.completed
  }

  /** What the loop misses among the sorted unfinished rows it misses among the unfinished rows of the input. */
  lemma MissedAmongUnfinished(xs: seq<ProgressView>, sorted: seq<ProgressView>, books: seq<BookWithAuthor>, limit: int, r: seq<RecentBook>)
    requires multiset(sorted) == multiset(Seqs.Filter(xs, Unfinished))
    requires MissedOnlyWhenFull(sorted, books, {}, limit, r)
    ensures forall k :: 0 <= k < |xs| && Unfinished(xs[k]) && Eligible(books, {}, xs[k]) && !Lists(r, xs[k].row.bookId) ==>
      |r| == Numbers.Max(limit, 1) && forall i :: 0 <= i < |r| ==> ViewTime(xs[k]) <= ViewTime(r[i].progress)
  {
    forall k | 0 <= k < |xs| && Unfinished(xs[k]) && Eligible(books, {}, xs[k]) && !Lists(r, xs[k].row.bookId)
      ensures |r| == Numbers.Max(limit, 1) && forall i :: 0 <= i < |r| ==> ViewTime(xs[k]) <= ViewTime(r[i].progress)
    {
      assert xs[k] in Seqs.Filter(xs, Unfinished);
      assert xs[k] in multiset(sorted);
      var j :| 0 <= j < |sorted| && sorted[j] == xs[k];
    }
  }

  /** Entries taken from the sorted unfinished rows are unfinished rows of the input. */
  lemma TakenAreUnfinished(xs: seq<ProgressView>, sorted: seq<ProgressView>, r: seq<RecentBook>)
    requires multiset(sorted) == multiset(Seqs.Filter(xs, Unfinished))
    requires forall i :: 0 <= i < |r| ==> r[i].progress in sorted
    ensures forall i :: 0 <= i < |r| ==> !r[i].progress.row.completed && r[i].progress in xs
  {
    forall i | 0 <= i < |r|
      ensures !r[i].progress.row.completed && r[i].progress in xs
    {
      assert r[i].progress in multiset(Seqs.Filter(xs, Unfinished));
    }
  }

  /** `useRecentlyReadBooks`: unfinished books of the catalogue, newest first, one entry per book, at most `limit` (at least one when any qualifies). */
  function RecentlyRead(progress: Option<seq<ProgressView>>, books: Option<seq<BookWithAuthor>>, limit: int): (r: seq<RecentBook>)
    ensures progress.None? || books.None? ==> r == []
    ensures |r| <= Numbers.Max(limit, 1)
    ensures forall i :: 0 <= i < |r| ==> !r[i].progress.row.completed && r[i].progress in progress.value
    ensures forall i :: 0 <= i < |r| ==> BookById(books.value, r[i].progress.row.bookId) == Some(r[i].book)
    ensures forall i, j :: 0 <= i < j < |r| ==> r[i].progress.row.bookId != r[j].progress.row.bookId
    ensures forall i, j :: 0 <= i < j < |r| ==> ViewTime(r[i].progress) >= ViewTime(r[j].progress)
    ensures progress.Some? && books.Some? ==> forall k ::
      0 <= k < |progress.value| && Unfinished(progress.value[k]) && Eligible(books.value, {}, progress.value[k]) && !Lists(r, progress.value[k].row.bookId) ==>
        |r| == Numbers.Max(limit, 1) && forall i :: 0 <= i < |r| ==> ViewTime(progress.value[k]) <= ViewTime(r[i].progress)
  {
    if progress.None? || books.None? then []
    else
      var open := Seqs.Filter(progress.value, Unfinished);
      var sorted := SortNewest(open, ViewTime);
      CollectKeepsOrder(sorted, books.value, {}, limit);
      CollectCovers(sorted, books.value, {}, limit);
      var r := Collect(sorted, books.value, {}, limit);
      MissedAmongUnfinished(progress.value, sorted, books.value, limit, r);
      TakenAreUnfinished(progress.value, sorted, r);
      r
  }

  // ---------------------------------------------------------------- test results

  /** `new Map(tests.map(t => [t.id, t])).get(id)`: the last listed test with that id. */
  function TestById(tests: seq<TestWithBook>, id: int): (r: Option<TestWithBook>)
    ensures r.None? <==> forall i :: 0 <= i < |tests| ==> tests[i].test.id != id
    ensures r.Some? ==> r.value in tests && r.value.test.id == id
  {
    if |tests| == 0 then None
    else if tests[|tests| - 1].test.id == id then Some(tests[|tests| - 1])
    else
      var r := TestById(tests[..|tests| - 1], id);
      assert forall i :: 0 <= i < |tests| - 1 ==> tests[..|tests| - 1][i] == tests[i];
      r
  }

  predicate TextGiven(t: Option<string>)
  {
    t.Some? && |t.value| > 0
  }

  predicate NumberGiven(n: Option<int>)
  {
    n.Some? && n.value != 0
  }

  /** The maximum score a result is displayed against: the stored one, else the test's question count, else 20. */
  function DefaultMaxScore(test: Option<TestWithBook>): (m: int)
    ensures m != 0
    ensures test.Some? && test.value.test.questionCount != 0 ==> m == test.value.test.questionCount
    ensures test.None? || test.value.test.questionCount == 0 ==> m == 20
  {
    if test.Some? && test.value.test.questionCount != 0 then test.value.test.questionCount else 20
  }

  /** One result with its title and maximum score filled in. */
  function Enrich(r: TestResult, tests: seq<TestWithBook>): (e: TestResult)
    ensures r.testId == 0 && TextGiven(r.testTitle) && NumberGiven(r.maxScore) ==> e == r
    ensures e == r.(testTitle := e.testTitle, maxScore := e.maxScore)
    ensures NumberGiven(e.maxScore)
    ensures NumberGiven(r.maxScore) ==> e.maxScore == r.maxScore
    ensures !NumberGiven(r.maxScore) ==> e.maxScore == Some(DefaultMaxScore(TestById(tests, r.testId)))
    ensures TextGiven(r.testTitle) ==> e.testTitle == r.testTitle
    ensures !TextGiven(r.testTitle) ==>
      e.testTitle == (match TestById(tests, r.testId) case None => None case Some(t) => Some(t.test.title))
  {
    if r.testId == 0 && TextGiven(r.testTitle) && NumberGiven(r.maxScore) then r
    else
      var test := TestById(tests, r.testId);
      r.(testTitle := if TextGiven(r.testTitle) then r.testTitle
                      else match test case None => None case Some(t) => Some(t.test.title),
         maxScore := if NumberGiven(r.maxScore) then r.maxScore else Some(DefaultMaxScore(test)))
  }

  /** Enriching an enriched result changes nothing. */
  lemma EnrichIdempotent(r: TestResult, tests: seq<TestWithBook>)
    ensures Enrich(Enrich(r, tests), tests) == Enrich(r, tests)
  {
  }

  function Enricher(tests: seq<TestWithBook>): TestResult -> TestResult
  {
    x => Enrich(x, tests)
  }

  /** The results newest first by completion time, each enriched. */
  function EnrichedNewest(data: seq<TestResult>, tests: seq<TestWithBook>): (r: seq<TestResult>)
    ensures |r| == |data|
    ensures NewestFirst(r, CompletionTime)
    ensures forall i :: 0 <= i < |r| ==> NumberGiven(r[i].maxScore)
  {
    var sorted := SortNewest(data, CompletionTime);
    var out := Seqs.Map(sorted, Enricher(tests));
    assert forall i :: 0 <= i < |out| ==> CompletionTime(out[i]) == CompletionTime(sorted[i]);
    out
  }

  /** The enriched list holds exactly the enriched input results. */
  lemma EnrichedNewestIsPermutation(data: seq<TestResult>, tests: seq<TestWithBook>)
    ensures multiset(EnrichedNewest(data, tests)) == multiset(Seqs.Map(data, Enricher(tests)))
  {
    Seqs.MapMultiset(data, SortNewest(data, CompletionTime), Enricher(tests));
  }

  /** `useTestResults`: a failed fetch is an error; with tests loaded, newest first and enriched. */
  function TestResultsView(response: Fetch<seq<TestResult>>, tests: Option<seq<TestWithBook>>)
    : (r: Result<seq<TestResult>, string>)
    ensures r.Failure? <==> !response.Loaded?
    ensures r.Success? && tests.None? ==> r.value == response.body
    ensures r.Success? && tests.Some? ==> r.value == EnrichedNewest(response.body, tests.value)
  {
    match response
    case Loaded(data) =>
      if tests.None? then Success(data) else Success(EnrichedNewest(data, tests.value))
    case _ => Failure("Failed to fetch test results")
  }

  // ---------------------------------------------------------------- test listing URL

  const TestsPath := "/api/tests"

  /** `useTests`: the query names the type when one is given, else a non-zero book id, else nothing. */
  function TestsUrl(testType: Option<string>, bookId: Option<int>): (u: string)
    ensures TestsPath <= u
    ensures TextGiven(testType) ==> u == TestsPath + "?type=" + testType.value
    ensures !TextGiven(testType) && NumberGiven(bookId) ==> u == TestsPath + "?bookId=" + Text.IntToDecimal(bookId.value)
    ensures !TextGiven(testType) && !NumberGiven(bookId) ==> u == TestsPath
  {
    if TextGiven(testType) then TestsPath + "?type=" + testType.value
    else if NumberGiven(bookId) then TestsPath + "?bookId=" + Text.IntToDecimal(bookId.value)
    else TestsPath
  }

  /** The book id the server reads back from a `?bookId=` URL. */
  function QueryBookId(u: string): (r: Option<int>)
    ensures r.Some? ==> (TestsPath + "?bookId=") <= u
  {
    var prefix := TestsPath + "?bookId=";
    if prefix <= u && Text.IsIntText(u[|prefix|..]) then Some(Text.ParseInt(u[|prefix|..])) else None
  }

  /** The book id written into the test listing URL is the one the server parses out of it. */
  lemma TestsUrlBookIdRoundTrip(bookId: int)
    requires bookId != 0
    ensures QueryBookId(TestsUrl(None, Some(bookId))) == Some(bookId)
  {
    var prefix := TestsPath + "?bookId=";
    var u := TestsUrl(None, Some(bookId));
    assert u == prefix + Text.IntToDecimal(bookId);
    assert u[|prefix|..] == Text.IntToDecimal(bookId);
    Text.IntRoundTrip(bookId);
  }
}

=== FILE: quote_puzzle.dfy ===
/**
 * The quote puzzle: a quote is cut into fragments, shuffled, and put back in
 * order by swapping two fragments at a time or by taking hints. The score
 * falls by 5 per swap and 10 per hint, between 10 and 100.
 */
module QuotePuzzle {
  import opened Wrappers
  import Seqs
  import Text
  import Numbers
  import Routes

  // ---------------------------------------------------------------- cutting the quote

  /** The fewest fragments a phrase cut may give before the quote is cut by words instead. */
  const MinPhrases := 3
  /** The most word chunks a short quote is cut into. */
  const MaxChunks := 5
  /** A phrase shorter than this is merged with the next one, except near the end. */
  const ShortPhrase := 10

  predicate IsMark(c: char)
  {
    c in {',', ';', ':', '.', '!', '?'}
  }

  /** `/[,;:.!?] $/`: the part ends with a punctuation mark and a space. */
  predicate EndsWithMark(part: string)
  {
    |part| >= 2 && part[|part| - 1] == ' ' && IsMark(part[|part| - 2])
  }

  /**
   * The loop over the pieces of the punctuation split: accumulate parts,
   * and close a phrase at a part ending in a mark or at the last part, unless
   * it is shorter than ten characters and at least two parts remain after it.
   * Phrases are returned untrimmed.
   */
  function PhraseGroups(parts: seq<string>, i: nat, pending: string): (r: seq<string>)
    requires i <= |parts|
    ensures Seqs.Flatten(r) == pending + Seqs.Flatten(parts[i..])
    decreases |parts| - i
  {
    if i == |parts| then
      assert parts[i..] == [];
      if |pending| > 0 then FlattenOne(pending); [pending] else []
    else
      var t := pending + parts[i];
      assert parts[i..] == [parts[i]] + parts[i + 1..];
      Seqs.FlattenAppend([parts[i]], parts[i + 1..]);
      FlattenOne(parts[i]);
      if EndsWithMark(parts[i]) || i == |parts| - 1 then
        if |t| < ShortPhrase && i < |parts| - 2 then PhraseGroups(parts, i + 1, t)
        else
          var rest := PhraseGroups(parts, i + 1, "");
          Seqs.FlattenAppend([t], rest);
          FlattenOne(t);
          [t] + rest
      else PhraseGroups(parts, i + 1, t)
  }

  lemma FlattenOne<T>(x: seq<T>)
    ensures Seqs.Flatten([x]) == x
  {
    assert [x][..0] == [];
  }

  /** `Math.ceil(a / b)` for a positive divisor. */
  function CeilDiv(a: nat, b: nat): (q: nat)
    requires b > 0
    ensures q * b >= a && (q == 0 || (q - 1) * b < a)
  {
    (a + b - 1) / b
  }

  /** Groups of `size` consecutive words, each joined by spaces. */
  function Chunks(words: seq<string>, size: nat): (r: seq<string>)
    requires size >= 1
    ensures |words| > 0 ==> |r| > 0
    decreases |words|
  {
    if |words| == 0 then []
    else
      var k := Numbers.Min(size, |words|);
      [Text.Join(words[..k], " ")] + Chunks(words[k..], size)
  }

  /** Joining the chunks with spaces is joining the words with spaces. */
  lemma {:induction false} ChunksJoin(words: seq<string>, size: nat)
    requires size >= 1
    ensures Text.Join(Chunks(words, size), " ") == Text.Join(words, " ")
    decreases |words|
  {
    if |words| > 0 {
      var k := Numbers.Min(size, |words|);
      ChunksJoin(words[k..], size);
      if k < |words| {
        assert words == words[..k] + words[k..];
        Text.JoinAppend(words[..k], words[k..], " ");
        Text.JoinAppend([Text.Join(words[..k], " ")], Chunks(words[k..], size), " ");
      } else {
        assert words[..k] == words;
      }
    }
  }

  /** Chunks of `size` words number at most `bound` when `bound` chunks could hold them all. */
  lemma {:induction false} ChunksCount(words: seq<string>, size: nat, bound: nat)
    requires size >= 1 && |words| <= bound * size
    ensures |Chunks(words, size)| <= bound
    decreases |words|
  {
    if |words| > 0 {
      var k := Numbers.Min(size, |words|);
      assert bound >= 1;
      ChunksCount(words[k..], size, bound - 1);
    }
  }

  /** The chunk size for `n` words: `Math.max(1, Math.ceil(n / Math.min(n, 5)))`. */
  function ChunkSize(n: nat): (size: nat)
    ensures size >= 1
    ensures n > 0 ==> Numbers.Min(n, MaxChunks) * size >= n
  {
    if n == 0 then 1 else Numbers.Max(1, CeilDiv(n, Numbers.Min(n, MaxChunks)))
  }

  /** A short quote cut by words: at most five chunks that join back into the quote. */
  function WordChunks(text: string): (r: seq<string>)
    ensures 1 <= |r| <= MaxChunks
    ensures Text.Join(r, " ") == text
  {
    var words := Text.Split(text, ' ');
    var size := ChunkSize(|words|);
    ChunksJoin(words, size);
    Text.JoinSplit(text, ' ');
    ChunksCount(words, size, Numbers.Min(|words|, MaxChunks));
    Chunks(words, size)
  }

  /**
   * The fragments of a quote, given the pieces of its punctuation split
   * (the regular expression is an argument): trimmed phrases, or word chunks
   * when fewer than three phrases come out.
   */
  function Fragments(text: string, splitParts: string -> seq<string>): (r: seq<string>)
    ensures |r| >= 1
    ensures |r| < MinPhrases ==> Text.Join(r, " ") == text
  {
    var phrases := Seqs.Map(PhraseGroups(splitParts(text), 0, ""), Text.Trim);
    if |phrases| < MinPhrases then WordChunks(text) else phrases
  }

  /** When the split keeps every character, the untrimmed phrases concatenate back to the quote. */
  lemma PhrasesCoverQuote(text: string, splitParts: string -> seq<string>)
    requires Seqs.Flatten(splitParts(text)) == text
    ensures Seqs.Flatten(PhraseGroups(splitParts(text), 0, "")) == text
  {
    assert splitParts(text)[0..] == splitParts(text);
  }

  // ---------------------------------------------------------------- the puzzle

  datatype Piece = Piece(id: int, text: string, originalIndex: int, isCorrectPosition: bool)

  datatype Puzzle = Puzzle(quoteId: int, pieces: seq<Piece>, selected: Option<int>, completed: bool,
                           score: int, attempts: nat, hintsUsed: nat)

  /** What a piece is, apart from the flag the game recomputes. */
  function Identity(p: Piece): (int, string, int)
  {
    (p.id, p.text, p.originalIndex)
  }

  function OriginalIndexOf(p: Piece): int
  {
    p.originalIndex
  }

  /** The pieces are a rearrangement of the fragments: ids are original positions, and those are 0..n-1, each once. */
  ghost predicate Arranged(pieces: seq<Piece>)
  {
    && (forall i :: 0 <= i < |pieces| ==> pieces[i].id == pieces[i].originalIndex && 0 <= pieces[i].originalIndex < |pieces|)
    && multiset(Seqs.Map(pieces, OriginalIndexOf)) == multiset(Seqs.Range(0, |pieces|))
  }

  predicate InPlace(pieces: seq<Piece>)
  {
    forall i :: 0 <= i < |pieces| ==> pieces[i].originalIndex == i
  }

  /** The fragments in order, none marked as placed. */
  function InitialPieces(fragments: seq<string>): (r: seq<Piece>)
    ensures |r| == |fragments|
    ensures forall i :: 0 <= i < |r| ==> r[i] == Piece(i, fragments[i], i, false)
    ensures Arranged(r) && InPlace(r)
  {
    var r := seq(|fragments|, i requires 0 <= i < |fragments| => Piece(i, fragments[i], i, false));
    assert Seqs.Map(r, OriginalIndexOf) == Seqs.Range(0, |r|);
    r
  }

  /** A rearrangement of pieces satisfying `Arranged` still satisfies it. */
  lemma ArrangedByPermutation(a: seq<Piece>, b: seq<Piece>)
    requires Arranged(a) && multiset(a) == multiset(b)
    ensures Arranged(b)
  {
    assert |b| == |multiset(b)| == |multiset(a)| == |a|;
    forall i | 0 <= i < |b|
      ensures b[i].id == b[i].originalIndex && 0 <= b[i].originalIndex < |b|
    {
      assert b[i] in multiset(a);
    }
    Seqs.MapMultiset(a, b, OriginalIndexOf);
  }

  /**
   * The first deal of a quote, on a page where nothing is selected: its fragments in
   * the shuffled order the random source produced.
   */
  function Start(quoteId: int, fragments: seq<string>, shuffle: seq<Piece>): (p: Puzzle)
    ensures Arranged(p.pieces) && |p.pieces| == |fragments|
    ensures multiset(p.pieces) == multiset(InitialPieces(fragments))
    ensures p.selected.None? && !p.completed && p.score == 0 && p.attempts == 0 && p.hintsUsed == 0
    ensures forall i :: 0 <= i < |p.pieces| ==> !p.pieces[i].isCorrectPosition
  {
    var pieces := Seqs.Shuffled(InitialPieces(fragments), shuffle);
    ArrangedByPermutation(InitialPieces(fragments), pieces);
    assert forall i :: 0 <= i < |pieces| ==> pieces[i] in multiset(InitialPieces(fragments));
    Puzzle(quoteId, pieces, None, false, 0, 0, 0)
  }

  /**
   * `initQuotePuzzle` on a board in play (the "shuffle" and "try again" buttons): the
   * quote is dealt afresh and the counters reset, but a pending selection is kept.
   */
  function Reshuffle(p: Puzzle, fragments: seq<string>, shuffle: seq<Piece>): (r: Puzzle)
    ensures r.quoteId == p.quoteId && r.selected == p.selected
    ensures Arranged(r.pieces) && multiset(r.pieces) == multiset(InitialPieces(fragments))
    ensures !r.completed && r.score == 0 && r.attempts == 0 && r.hintsUsed == 0
    ensures forall i :: 0 <= i < |r.pieces| ==> !r.pieces[i].isCorrectPosition
    ensures SelectionOk(p) && |p.pieces| == |fragments| ==> SelectionOk(r)
    ensures p.selected.None? ==> r == Start(p.quoteId, fragments, shuffle)
  {
    var dealt := Start(p.quoteId, fragments, shuffle);
    Puzzle(p.quoteId, dealt.pieces, p.selected, false, 0, 0, 0)
  }

  /** The pieces with positions `i` and `j` exchanged. */
  function Swap<T>(s: seq<T>, i: nat, j: nat): (r: seq<T>)
    requires i < |s| && j < |s|
    ensures |r| == |s| && r[i] == s[j] && r[j] == s[i]
    ensures forall k :: 0 <= k < |s| && k != i && k != j ==> r[k] == s[k]
    ensures multiset(r) == multiset(s)
  {
    var r := s[i := s[j]][j := s[i]];
    assert multiset(r) == multiset(s) by {
      if i != j {
        assert multiset(s[i := s[j]]) == multiset(s) - multiset{s[i]} + multiset{s[j]};
      }
    }
    r
  }

  /** Every piece flagged exactly when it sits at its original position. */
  function Marked(pieces: seq<Piece>): (r: seq<Piece>)
    ensures |r| == |pieces|
    ensures forall i :: 0 <= i < |r| ==> Identity(r[i]) == Identity(pieces[i]) && (r[i].isCorrectPosition <==> pieces[i].originalIndex == i)
  {
    seq(|pieces|, i requires 0 <= i < |pieces| => pieces[i].(isCorrectPosition := pieces[i].originalIndex == i))
  }

  /** `pieces.every(p => p.isCorrectPosition)` after marking is "every piece in place". */
  predicate AllFlagged(pieces: seq<Piece>)
  {
    forall i :: 0 <= i < |pieces| ==> pieces[i].isCorrectPosition
  }

  /** After marking, every piece is flagged exactly when every piece is at its original position. */
  lemma MarkedFlags(pieces: seq<Piece>)
    ensures AllFlagged(Marked(pieces)) <==> InPlace(Marked(pieces))
  {
    var r := Marked(pieces);
    assert forall i :: 0 <= i < |r| ==> r[i].originalIndex == pieces[i].originalIndex;
  }

  /** `Math.min(100, Math.max(10, 100 - attempts * 5 - hints * 10))`. */
  function Score(attempts: nat, hints: nat): (s: int)
    ensures 10 <= s <= 100
    ensures s == Numbers.Max(10, 100 - 5 * attempts - 10 * hints)
  {
    Numbers.Min(100, Numbers.Max(10, 100 - 5 * attempts - 10 * hints))
  }

  /** More swaps or more hints never raise the score. */
  lemma ScoreMonotone(a: nat, h: nat, a': nat, h': nat)
    requires a <= a' && h <= h'
    ensures Score(a', h') <= Score(a, h)
  {
  }

  /** The metadata saved with a finished puzzle. */
  function ResultMetadata(p: Puzzle): Routes.Metadata
  {
    [("quoteId", p.quoteId), ("attempts", p.attempts as int), ("hintsUsed", p.hintsUsed as int)]
  }

  /**
   * `completeGame`, which reads the counters of the state it was created in:
   * the swap or hint that completes the puzzle is not yet counted.
   */
  function Complete(before: Puzzle, after: Puzzle, userId: Option<int>): (r: (Puzzle, Option<Routes.GameSubmission>))
    ensures r.0 == after.(completed := true, score := Score(before.attempts, before.hintsUsed))
    ensures r.1.Some? <==> userId.Some?
    ensures r.1.Some? ==> r.1.value == Routes.GameSubmission(userId.value, Routes.QuotePuzzleType, r.0.score, Some(true),
                                                             Some(ResultMetadata(before)))
  {
    var done := after.(completed := true, score := Score(before.attempts, before.hintsUsed));
    (done, if userId.Some? then Some(Routes.GameSubmission(userId.value, Routes.QuotePuzzleType, done.score, Some(true),
                                                            Some(ResultMetadata(before)))) else None)
  }

  /** The selection state is well formed: a selected index is a position of the board. */
  predicate SelectionOk(p: Puzzle)
  {
    p.selected.Some? ==> 0 <= p.selected.value < |p.pieces|
  }

  /**
   * `handlePieceSelection(index)`: select, deselect on a second click of the
   * same piece, or swap two pieces; nothing once the puzzle is complete.
   */
  function Select(p: Puzzle, index: nat, userId: Option<int>): (r: (Puzzle, Option<Routes.GameSubmission>))
    requires SelectionOk(p) && index < |p.pieces|
    ensures SelectionOk(r.0) && r.0.quoteId == p.quoteId && r.0.hintsUsed == p.hintsUsed
    ensures p.completed ==> r == (p, None)
    ensures !p.completed && p.selected.None? ==> r == (p.(selected := Some(index)), None)
    ensures !p.completed && p.selected == Some(index as int) ==> r == (p.(selected := None), None)
    ensures !p.completed && p.selected.Some? && p.selected.value != index ==>
      && r.0.pieces == Marked(Swap(p.pieces, p.selected.value, index))
      && r.0.attempts == p.attempts + 1 && r.0.selected.None?
      && (r.0.completed <==> InPlace(r.0.pieces))
      && (r.0.completed ==> r.0.score == Score(p.attempts, p.hintsUsed))
      && (r.1.Some? ==> r.0.completed)
  {
    if p.completed then (p, None)
    else if p.selected.None? then (p.(selected := Some(index)), None)
    else if p.selected.value == index then (p.(selected := None), None)
    else
      var pieces := Marked(Swap(p.pieces, p.selected.value, index));
      var after := p.(attempts := p.attempts + 1, pieces := pieces, selected := None);
      MarkedFlags(Swap(p.pieces, p.selected.value, index));
      if AllFlagged(pieces) then Complete(p, after, userId) else (after, None)
  }

  predicate Unflagged(q: Piece)
  {
    !q.isCorrectPosition
  }

  predicate HasId(q: Piece, id: int)
  {
    q.id == id
  }

  function PieceIndex(pieces: seq<Piece>, id: int): (r: Option<nat>)
    ensures r.Some? ==> r.value < |pieces| && pieces[r.value].id == id
    ensures r.None? <==> forall j :: 0 <= j < |pieces| ==> pieces[j].id != id
  {
    Seqs.FindIndex(pieces, q => HasId(q, id))
  }

  /** Some piece is not flagged as placed. */
  predicate SomeUnflagged(pieces: seq<Piece>)
  {
    exists i :: 0 <= i < |pieces| && Unflagged(pieces[i])
  }

  /** The piece a hint picks: the `pick`-th of those not flagged as placed (the random choice is an argument). */
  function HintChoice(pieces: seq<Piece>, pick: nat): (c: Piece)
    requires SomeUnflagged(pieces)
    ensures c in pieces && Unflagged(c)
  {
    var wrong := Seqs.Filter(pieces, Unflagged);
    var i :| 0 <= i < |pieces| && Unflagged(pieces[i]);
    assert pieces[i] in wrong;
    wrong[pick % |wrong|]
  }

  /** The hint's swap: the picked piece's position exchanged with the position it belongs at. */
  function HintSwap(pieces: seq<Piece>, pick: nat): (r: seq<Piece>)
    requires Arranged(pieces) && SomeUnflagged(pieces)
    ensures Arranged(r) && multiset(r) == multiset(pieces)
    ensures var c := HintChoice(pieces, pick);
      0 <= c.originalIndex < |r| && r[c.originalIndex].originalIndex == c.originalIndex
  {
    var chosen := HintChoice(pieces, pick);
    var at := PieceIndex(pieces, chosen.id);
    assert at.Some? by {
      var k :| 0 <= k < |pieces| && pieces[k] == chosen;
    }
    var target := chosen.originalIndex;
    var r := Swap(pieces, at.value, target as nat);
    ArrangedByPermutation(pieces, r);
    r
  }

  /**
   * `useHint`: count the hint, then, when some piece is not flagged as placed,
   * move the picked one to its original position.
   */
  function Hint(p: Puzzle, pick: nat, userId: Option<int>): (r: (Puzzle, Option<Routes.GameSubmission>))
    requires Arranged(p.pieces) && SelectionOk(p)
    ensures r.0.quoteId == p.quoteId && r.0.attempts == p.attempts
    ensures p.completed ==> r == (p, None)
    ensures !p.completed ==> r.0.hintsUsed == p.hintsUsed + 1
    ensures !p.completed && !SomeUnflagged(p.pieces) ==> r == (p.(hintsUsed := p.hintsUsed + 1), None)
    ensures !p.completed && SomeUnflagged(p.pieces) ==>
      && r.0.pieces == Marked(HintSwap(p.pieces, pick)) && r.0.selected.None?
      && (r.0.completed <==> InPlace(r.0.pieces))
      && (r.0.completed ==> r.0.score == Score(p.attempts, p.hintsUsed))
      && (r.1.Some? ==> r.0.completed)
  {
    if p.completed then (p, None)
    else
      var counted := p.(hintsUsed := p.hintsUsed + 1);
      if !SomeUnflagged(p.pieces) then (counted, None)
      else HintMove(p, pick, userId)
  }

  /** A counted hint that moves a piece; it completes the puzzle when every piece is then in place. */
  function HintMove(p: Puzzle, pick: nat, userId: Option<int>): (r: (Puzzle, Option<Routes.GameSubmission>))
    requires Arranged(p.pieces) && !p.completed && SomeUnflagged(p.pieces)
    ensures r.0.quoteId == p.quoteId && r.0.attempts == p.attempts && r.0.hintsUsed == p.hintsUsed + 1
    ensures r.0.pieces == Marked(HintSwap(p.pieces, pick)) && r.0.selected.None?
    ensures r.0.completed <==> InPlace(r.0.pieces)
    ensures r.0.completed ==> r.0.score == Score(p.attempts, p.hintsUsed)
    ensures r.1.Some? ==> r.0.completed
  {
    var pieces := Marked(HintSwap(p.pieces, pick));
    var after := p.(hintsUsed := p.hintsUsed + 1, pieces := pieces, selected := None);
    MarkedFlags(HintSwap(p.pieces, pick));
    if AllFlagged(pieces) then Complete(p, after, userId) else (after, None)
  }

  /** Swapping then re-marking keeps which pieces there are, and the arrangement. */
  lemma MarkedKeepsPieces(before: seq<Piece>, swapped: seq<Piece>)
    requires Arranged(swapped) && multiset(swapped) == multiset(before)
    ensures Arranged(Marked(swapped))
    ensures multiset(Seqs.Map(Marked(swapped), Identity)) == multiset(Seqs.Map(before, Identity))
  {
    var marked := Marked(swapped);
    Seqs.MapMultiset(swapped, before, Identity);
    assert Seqs.Map(marked, Identity) == Seqs.Map(swapped, Identity);
    assert Seqs.Map(marked, OriginalIndexOf) == Seqs.Map(swapped, OriginalIndexOf);
  }

  /**
   * A hint keeps the same pieces in a valid arrangement and puts the piece it
   * picks at its original position, flagged as placed.
   */
  lemma HintPlacesPiece(p: Puzzle, pick: nat, userId: Option<int>)
    requires Arranged(p.pieces) && SelectionOk(p) && !p.completed && SomeUnflagged(p.pieces)
    ensures var r := Hint(p, pick, userId).0;
      var c := HintChoice(p.pieces, pick);
      && Arranged(r.pieces)
      && multiset(Seqs.Map(r.pieces, Identity)) == multiset(Seqs.Map(p.pieces, Identity))
      && 0 <= c.originalIndex < |r.pieces|
      && r.pieces[c.originalIndex].originalIndex == c.originalIndex
      && r.pieces[c.originalIndex].isCorrectPosition
  {
    MarkedKeepsPieces(p.pieces, HintSwap(p.pieces, pick));
  }

  /** Once complete, every piece is at its original position, and neither swaps nor hints change the state again. */
  ghost predicate Consistent(p: Puzzle)
  {
    Arranged(p.pieces) && SelectionOk(p) && (p.completed ==> InPlace(p.pieces) && 10 <= p.score <= 100)
  }

  /** A swap keeps the same pieces in a valid arrangement, and a completed puzzle is solved. */
  lemma SelectKeepsConsistent(p: Puzzle, index: nat, userId: Option<int>)
    requires Consistent(p) && index < |p.pieces|
    ensures Consistent(Select(p, index, userId).0)
    ensures multiset(Seqs.Map(Select(p, index, userId).0.pieces, Identity)) == multiset(Seqs.Map(p.pieces, Identity))
  {
    if !p.completed && p.selected.Some? && p.selected.value != index {
      var swapped := Swap(p.pieces, p.selected.value, index);
      ArrangedByPermutation(p.pieces, swapped);
      MarkedKeepsPieces(p.pieces, swapped);
    }
  }

  lemma HintKeepsConsistent(p: Puzzle, pick: nat, userId: Option<int>)
    requires Consistent(p)
    ensures Consistent(Hint(p, pick, userId).0)
  {
    if !p.completed && SomeUnflagged(p.pieces) {
      HintPlacesPiece(p, pick, userId);
    }
  }

  /** `nextQuote`: the next quote in turn, with counters, score and selection reset; the board comes from `Start`. */
  function NextQuoteIndex(index: nat, count: nat): (r: nat)
    requires count > 0
    ensures r < count
    ensures index + 1 < count ==> r == index + 1
    ensures index + 1 == count ==> r == 0
  {
    (index + 1) % count
  }

  /**
   * `nextQuote` with the effect that follows it: the next quote in turn is dealt as a new board,
   * with the completion flag, the score, both counters and the selection reset.
   */
  function NextQuote(index: nat, count: nat, quoteId: int, fragments: seq<string>, shuffle: seq<Piece>): (r: (nat, Puzzle))
    requires count > 0
    ensures r.0 < count && (index < count ==> (r.0 == 0 <==> index + 1 == count))
    ensures r.1.quoteId == quoteId && !r.1.completed && r.1.selected.None?
    ensures r.1.score == 0 && r.1.attempts == 0 && r.1.hintsUsed == 0
    ensures Arranged(r.1.pieces) && multiset(r.1.pieces) == multiset(InitialPieces(fragments))
  {
    (NextQuoteIndex(index, count), Start(quoteId, fragments, shuffle))
  }

  /** Cycling through the quotes shows them in turn and returns to the first after the last. */
  lemma {:induction false} NextQuoteCycles(count: nat, k: nat)
    requires count > 0 && k <= count
    ensures k < count ==> Cycle(count, k) == k
    ensures k == count ==> Cycle(count, k) == 0
  {
    if k > 0 {
      NextQuoteCycles(count, k - 1);
    }
  }

  function Cycle(count: nat, k: nat): nat
    requires count > 0
  {
    if k == 0 then 0 else NextQuoteIndex(Cycle(count, k - 1), count)
  }
}

=== FILE: reader.dfy ===
/**
 * The book reader's state machine: loading the saved position, laying the
 * text out in pages, turning pages, changing the font and line spacing, and
 * the progress write that follows every change of page.
 */
module Reader {
  import opened Wrappers
  import opened Schema
  import opened Storage
  import opened Routes
  import opened Recency
  import opened ProgressHooks
  import Seqs
  import Numbers
  import Pagination

  const DefaultFontSize := 18
  const MinFontSize := 14
  const MaxFontSize := 26
  const FontStep := 2

  /** Line spacing in tenths: 1.6 by default, between 1.2 and 2.4 in steps of 0.2. */
  const DefaultLineHeight := 16
  const MinLineHeight := 12
  const MaxLineHeight := 24
  const LineStep := 2

  datatype ReaderState = ReaderState(fontSize: int, lineHeight: int, currentPage: int, totalPages: int,
                                     pages: seq<seq<string>>, progressLoaded: bool)

  const Initial := ReaderState(DefaultFontSize, DefaultLineHeight, 1, 1, [], false)

  /** The values the browser's local storage holds for the reader, already parsed. */
  datatype Saved = Saved(fontSize: Option<int>, lineHeight: Option<int>, page: Option<int>)

  /** The page count is positive in every state the reader reaches. */
  predicate PagesKnown(s: ReaderState)
  {
    s.totalPages >= 1
  }

  /** The current page lies within the book. */
  predicate OnAPage(s: ReaderState)
  {
    1 <= s.currentPage <= s.totalPages
  }

  predicate IsRowFor(v: ProgressView, bookId: int)
  {
    v.row.bookId == bookId
  }

  /** `userBookProgress.find(p => p.bookId === bookId)`: the first listed row for the book. */
  function ListedRow(listing: seq<ProgressView>, bookId: int): (r: Option<UserProgress>)
    ensures r.None? <==> forall j :: 0 <= j < |listing| ==> listing[j].row.bookId != bookId
    ensures r.Some? ==> r.value.bookId == bookId
    ensures r.Some? ==> (exists i :: 0 <= i < |listing| && listing[i].row == r.value &&
                          forall j :: 0 <= j < i ==> listing[j].row.bookId != bookId)
  {
    match Seqs.Find(listing, v => IsRowFor(v, bookId))
    case None => None
    case Some(v) => Some(v.row)
  }

  function WithSavedPage(s: ReaderState, saved: Saved): ReaderState
  {
    if saved.page.Some? then s.(currentPage := saved.page.value) else s
  }

  /**
   * The loading effect: saved font settings always apply; until a stored row
   * has been loaded, a listed row for the book with a positive page sets the
   * page (and a positive page count), otherwise the locally saved page does.
   */
  function Load(s: ReaderState, bookId: int, listing: Option<seq<ProgressView>>, saved: Saved): (r: ReaderState)
    ensures r.fontSize == saved.fontSize.GetOr(s.fontSize) && r.lineHeight == saved.lineHeight.GetOr(s.lineHeight)
    ensures r.pages == s.pages
    ensures s.progressLoaded ==> r == s.(fontSize := r.fontSize, lineHeight := r.lineHeight)
    ensures PagesKnown(s) ==> PagesKnown(r)
    ensures !s.progressLoaded && listing.Some? && ListedRow(listing.value, bookId).Some?
            && ListedRow(listing.value, bookId).value.currentPage > 0 ==>
      var row := ListedRow(listing.value, bookId).value;
      r.progressLoaded && r.currentPage == row.currentPage
      && r.totalPages == (if row.totalPages > 0 then row.totalPages else s.totalPages)
    ensures !s.progressLoaded && !(listing.Some? && ListedRow(listing.value, bookId).Some?
                                   && ListedRow(listing.value, bookId).value.currentPage > 0) ==>
      !r.progressLoaded && r.currentPage == saved.page.GetOr(s.currentPage) && r.totalPages == s.totalPages
    ensures r.currentPage != s.currentPage ==> !s.progressLoaded
    ensures r.progressLoaded != s.progressLoaded ==> listing.Some? && ListedRow(listing.value, bookId).Some?
  {
    var s1 := s.(fontSize := saved.fontSize.GetOr(s.fontSize), lineHeight := saved.lineHeight.GetOr(s.lineHeight));
    if s.progressLoaded then s1
    else if listing.Some? && |listing.value| > 0 then
      match ListedRow(listing.value, bookId)
      case Some(row) =>
        if row.currentPage > 0 then
          s1.(currentPage := row.currentPage,
              totalPages := if row.totalPages > 0 then row.totalPages else s1.totalPages,
              progressLoaded := true)
        else WithSavedPage(s1, saved)
      case None => WithSavedPage(s1, saved)
    else WithSavedPage(s1, saved)
  }

  /** Once a stored row has been loaded, later loads change only the font settings. */
  lemma LoadOnce(s: ReaderState, bookId: int, listing: Option<seq<ProgressView>>, saved: Saved,
                 listing': Option<seq<ProgressView>>, saved': Saved)
    requires Load(s, bookId, listing, saved).progressLoaded
    ensures var r := Load(s, bookId, listing, saved);
      Load(r, bookId, listing', saved') == r.(fontSize := saved'.fontSize.GetOr(r.fontSize),
                                              lineHeight := saved'.lineHeight.GetOr(r.lineHeight))
  {
  }

  /** The stored page count of the first listed row for the book, if any. */
  function StoredTotal(listing: Option<seq<ProgressView>>, bookId: int): Option<int>
  {
    if listing.None? then None
    else match ListedRow(listing.value, bookId)
      case None => None
      case Some(row) => Some(row.totalPages)
  }

  /**
   * The pagination effect: lay the text out, settle the page count, and go
   * back to page 1 when the current page lies beyond it.
   */
  function Paginate(s: ReaderState, text: string, offset: string -> nat, container: nat,
                    listing: Option<seq<ProgressView>>, bookId: int): (r: ReaderState)
    ensures r.pages == Pagination.LayOut(text, offset, container)
    ensures PagesKnown(r) && r.totalPages >= |r.pages|
    ensures var stored := StoredTotal(listing, bookId);
      if stored.Some? && stored.value != 0 && stored.value >= |r.pages| then r.totalPages == stored.value
      else r.totalPages == |r.pages|
    ensures r.currentPage <= r.totalPages
    ensures s.currentPage > r.totalPages ==> r.currentPage == 1
    ensures s.currentPage >= 1 ==> OnAPage(r)
    ensures r.currentPage == s.currentPage || r.currentPage == 1
    ensures s.currentPage <= r.totalPages ==> r.currentPage == s.currentPage
    ensures r.fontSize == s.fontSize && r.lineHeight == s.lineHeight && r.progressLoaded == s.progressLoaded
  {
    var pages := Pagination.LayOut(text, offset, container);
    var calculated := Pagination.CalculatedTotal(text, offset, container);
    var total := Pagination.FinalTotal(calculated, StoredTotal(listing, bookId));
    s.(totalPages := total, pages := pages, currentPage := if s.currentPage > total then 1 else s.currentPage)
  }

  /** The paragraphs shown: `pagesContent[currentPage - 1]`, nothing for a page past the laid-out ones. */
  function Shown(s: ReaderState): (r: seq<string>)
    ensures 1 <= s.currentPage <= |s.pages| ==> r == s.pages[s.currentPage - 1]
    ensures !(1 <= s.currentPage <= |s.pages|) ==> r == []
  {
    if 1 <= s.currentPage <= |s.pages| then s.pages[s.currentPage - 1] else []
  }

  /** Paging through the laid-out pages shows each paragraph of the text once, in order. */
  lemma ShownPagesCoverText(s: ReaderState, text: string, offset: string -> nat, container: nat,
                            listing: Option<seq<ProgressView>>, bookId: int)
    ensures var r := Paginate(s, text, offset, container, listing, bookId);
      && (forall i :: 0 <= i < |r.pages| ==> Shown(r.(currentPage := i + 1)) == r.pages[i])
      && Seqs.Flatten(r.pages) == Pagination.Paragraphs(text)
  {
  }

  function PreviousPage(s: ReaderState): (r: ReaderState)
    ensures s.currentPage > 1 ==> r == s.(currentPage := s.currentPage - 1)
    ensures s.currentPage <= 1 ==> r == s
  {
    if s.currentPage > 1 then s.(currentPage := s.currentPage - 1) else s
  }

  function NextPage(s: ReaderState): (r: ReaderState)
    ensures s.currentPage < s.totalPages ==> r == s.(currentPage := s.currentPage + 1)
    ensures s.currentPage >= s.totalPages ==> r == s
  {
    if s.currentPage < s.totalPages then s.(currentPage := s.currentPage + 1) else s
  }

  /** Turning pages keeps the reader on a page of the book, and a step back undoes a step forward. */
  lemma PageTurnsStayInBook(s: ReaderState)
    requires OnAPage(s)
    ensures OnAPage(PreviousPage(s)) && OnAPage(NextPage(s))
    ensures s.currentPage < s.totalPages ==> PreviousPage(NextPage(s)) == s
    ensures s.currentPage > 1 ==> NextPage(PreviousPage(s)) == s
  {
  }

  /** From the first page, `k` steps forward reach page `k + 1`, stopping at the last page. */
  lemma {:induction false} NextPageRepeated(s: ReaderState, k: nat)
    requires OnAPage(s)
    ensures Forward(s, k).currentPage == Numbers.Min(s.currentPage + k, s.totalPages)
    ensures OnAPage(Forward(s, k))
    decreases k
  {
    if k > 0 {
      NextPageRepeated(NextPage(s), k - 1);
    }
  }

  function Forward(s: ReaderState, k: nat): ReaderState
    decreases k
  {
    if k == 0 then s else Forward(NextPage(s), k - 1)
  }

  /** The A- button: two points smaller, not below 14, and disabled at 14 or less. */
  function FontDown(s: ReaderState): (r: ReaderState)
    ensures r == s.(fontSize := r.fontSize)
    ensures s.fontSize <= MinFontSize ==> r == s
    ensures s.fontSize > MinFontSize ==> MinFontSize <= r.fontSize < s.fontSize
    ensures s.fontSize >= MinFontSize + FontStep ==> r.fontSize == s.fontSize - FontStep
    ensures MinFontSize < s.fontSize < MinFontSize + FontStep ==> r.fontSize == MinFontSize
  {
    if s.fontSize <= MinFontSize then s else s.(fontSize := Numbers.Max(MinFontSize, s.fontSize - FontStep))
  }

  /** The A+ button: two points larger, not above 26, and disabled at 26 or more. */
  function FontUp(s: ReaderState): (r: ReaderState)
    ensures r == s.(fontSize := r.fontSize)
    ensures s.fontSize >= MaxFontSize ==> r == s
    ensures s.fontSize < MaxFontSize ==> s.fontSize < r.fontSize <= MaxFontSize
    ensures s.fontSize <= MaxFontSize - FontStep ==> r.fontSize == s.fontSize + FontStep
    ensures MaxFontSize - FontStep < s.fontSize < MaxFontSize ==> r.fontSize == MaxFontSize
  {
    if s.fontSize >= MaxFontSize then s else s.(fontSize := Numbers.Min(MaxFontSize, s.fontSize + FontStep))
  }

  /** The line-spacing minus button: 0.2 tighter, not below 1.2, and disabled at 1.2 or less. */
  function LineHeightDown(s: ReaderState): (r: ReaderState)
    ensures r == s.(lineHeight := r.lineHeight)
    ensures s.lineHeight <= MinLineHeight ==> r == s
    ensures s.lineHeight > MinLineHeight ==> MinLineHeight <= r.lineHeight < s.lineHeight
    ensures s.lineHeight >= MinLineHeight + LineStep ==> r.lineHeight == s.lineHeight - LineStep
    ensures MinLineHeight < s.lineHeight < MinLineHeight + LineStep ==> r.lineHeight == MinLineHeight
  {
    if s.lineHeight <= MinLineHeight then s else s.(lineHeight := Numbers.Max(MinLineHeight, s.lineHeight - LineStep))
  }

  /** The line-spacing plus button: 0.2 looser, not above 2.4, and disabled at 2.4 or more. */
  function LineHeightUp(s: ReaderState): (r: ReaderState)
    ensures r == s.(lineHeight := r.lineHeight)
    ensures s.lineHeight >= MaxLineHeight ==> r == s
    ensures s.lineHeight < MaxLineHeight ==> s.lineHeight < r.lineHeight <= MaxLineHeight
    ensures s.lineHeight <= MaxLineHeight - LineStep ==> r.lineHeight == s.lineHeight + LineStep
    ensures MaxLineHeight - LineStep < s.lineHeight < MaxLineHeight ==> r.lineHeight == MaxLineHeight
  {
    if s.lineHeight >= MaxLineHeight then s else s.(lineHeight := Numbers.Min(MaxLineHeight, s.lineHeight + LineStep))
  }

  /** Within the range, A+ then A- returns to the starting size when it is on the even grid from 14. */
  lemma FontButtonsInverse(s: ReaderState)
    requires MinFontSize <= s.fontSize < MaxFontSize && s.fontSize % 2 == 0
    ensures FontDown(FontUp(s)) == s
  {
  }

  /** Starting inside the allowed range, the buttons never leave it. */
  lemma FontStaysInRange(s: ReaderState)
    requires MinFontSize <= s.fontSize <= MaxFontSize
    ensures MinFontSize <= FontDown(s).fontSize <= MaxFontSize
    ensures MinFontSize <= FontUp(s).fontSize <= MaxFontSize
  {
  }

  /** `Math.round((currentPage / Math.max(1, totalPages)) * 100)`: the width of the page bar in percent. */
  function PageBarWidth(s: ReaderState): (w: int)
    ensures OnAPage(s) ==> 0 <= w <= 100
    ensures OnAPage(s) && s.currentPage == s.totalPages ==> w == 100
  {
    var total := Numbers.Max(1, s.totalPages);
    assert s.currentPage == s.totalPages >= 1 ==> Numbers.Percent(s.currentPage, total) == 100 by {
      if s.currentPage == s.totalPages >= 1 {
        Numbers.PercentEnds(total);
      }
    }
    Numbers.Percent(s.currentPage, total)
  }

  /** The things that change the reader's state. */
  datatype Event =
    | Restored(bookId: int, listing: Option<seq<ProgressView>>, saved: Saved)
    | Repaginated(text: string, offset: string -> nat, container: nat, listing: Option<seq<ProgressView>>, bookId: int)
    | Previous | Next | SmallerFont | LargerFont | TighterLines | LooserLines

  function Apply(s: ReaderState, e: Event): (r: ReaderState)
    ensures PagesKnown(s) ==> PagesKnown(r)
    ensures e.Repaginated? ==> r.currentPage <= r.totalPages && (s.currentPage >= 1 ==> OnAPage(r))
    ensures OnAPage(s) && !e.Restored? ==> OnAPage(r)
  {
    match e
    case Restored(bookId, listing, saved) => Load(s, bookId, listing, saved)
    case Repaginated(text, offset, container, listing, bookId) => Paginate(s, text, offset, container, listing, bookId)
    case Previous => PreviousPage(s)
    case Next => NextPage(s)
    case SmallerFont => FontDown(s)
    case LargerFont => FontUp(s)
    case TighterLines => LineHeightDown(s)
    case LooserLines => LineHeightUp(s)
  }

  function Run(s: ReaderState, events: seq<Event>): ReaderState
    decreases |events|
  {
    if |events| == 0 then s else Run(Apply(s, events[0]), events[1..])
  }

  /** Every state reached from the initial one has a positive page count, so the saving effect never divides by zero. */
  lemma {:induction false} RunKeepsPagesKnown(s: ReaderState, events: seq<Event>)
    requires PagesKnown(s)
    ensures PagesKnown(Run(s, events))
    decreases |events|
  {
    if |events| > 0 {
      RunKeepsPagesKnown(Apply(s, events[0]), events[1..]);
    }
  }

  /** Without loads, a reader on a page of the book stays on one. */
  lemma {:induction false} RunStaysOnAPage(s: ReaderState, events: seq<Event>)
    requires OnAPage(s)
    requires forall i :: 0 <= i < |events| ==> !events[i].Restored?
    ensures OnAPage(Run(s, events))
    decreases |events|
  {
    if |events| > 0 {
      RunStaysOnAPage(Apply(s, events[0]), events[1..]);
    }
  }

  // ---------------------------------------------------------------- saving progress

  /** The request the saving effect sends, if any. */
  datatype ProgressWrite = NoWrite | PatchRow(id: nat, body: ProgressPatchBody) | CreateRow(insert: RawProgressInsert)

  /** The fields the saving effect sends for the current state, stamped with `now`. */
  function WriteBody(s: ReaderState, now: Timestamp): (b: ProgressPatchBody)
    requires PagesKnown(s)
    ensures b.currentPage == Some(s.currentPage) && b.totalPages == Some(s.totalPages)
    ensures b.completed == Some(s.currentPage == s.totalPages)
    ensures b.progress.Some? && (OnAPage(s) ==> 0 <= b.progress.value <= 100)
    ensures OnAPage(s) && s.currentPage == s.totalPages ==> b.progress == Some(100)
    ensures b.lastReadAt == Some(DateValue(now))
  {
    assert s.currentPage == s.totalPages ==> Numbers.Percent(s.currentPage, s.totalPages) == 100 by {
      if s.currentPage == s.totalPages {
        Numbers.PercentEnds(s.totalPages);
      }
    }
    ProgressPatchBody(Some(Numbers.Percent(s.currentPage, s.totalPages)), Some(s.currentPage), Some(s.totalPages),
                      Some(DateValue(now)), Some(s.currentPage == s.totalPages))
  }

  /**
   * The saving effect: nothing without a loaded book and a signed-in user or
   * when the progress fetch fails; otherwise patch the most recently read row
   * for the book, or create one.
   */
  function WriteAction(bookLoaded: bool, userId: int, bookId: int, s: ReaderState,
                       response: Fetch<seq<UserProgress>>, now: Timestamp): (w: ProgressWrite)
    requires PagesKnown(s)
    ensures !bookLoaded || userId == 0 || !response.Loaded? ==> w.NoWrite?
    ensures w.PatchRow? ==> (Latest(response.body, bookId).Some? && w.id == Latest(response.body, bookId).value.id
                             && w.body == WriteBody(s, now))
    ensures w.CreateRow? ==> Latest(response.body, bookId).None? && w.insert.userId == userId && w.insert.bookId == bookId
    ensures bookLoaded && userId != 0 && response.Loaded? ==> (w.PatchRow? <==> Latest(response.body, bookId).Some?)
    ensures bookLoaded && userId != 0 && response.Loaded? ==> (w.CreateRow? <==> Latest(response.body, bookId).None?)
  {
    if !bookLoaded || userId == 0 then NoWrite
    else match response
      case Loaded(all) =>
        var body := WriteBody(s, now);
        (match Latest(all, bookId)
         case Some(row) => PatchRow(row.id, body)
         case None =>
           if s.totalPages > 0 then
             CreateRow(RawProgressInsert(userId, bookId, body.progress, body.currentPage, body.totalPages,
                                         body.lastReadAt, body.completed))
           else NoWrite)
      case _ => NoWrite
  }

  /** The row a write leaves on the server records the reader's page, page count, percentage and completion. */
  predicate RecordsState(row: UserProgress, userId: int, bookId: int, s: ReaderState, now: Timestamp)
    requires PagesKnown(s)
  {
    && row.userId == userId && row.bookId == bookId
    && row.currentPage == s.currentPage && row.totalPages == s.totalPages
    && row.completed == (s.currentPage == s.totalPages)
    && row.progress == WriteBody(s, now).progress.value
    && row.lastReadAt == Some(now)
  }

  /** Against the in-memory store the progress fetch read from, the reader always sends a write. */
  lemma WriteAlwaysSent(store: MemStorage, userId: int, bookId: int, s: ReaderState, now: Timestamp)
    requires PagesKnown(s) && userId != 0
    ensures !WriteAction(true, userId, bookId, s, Loaded(GetUserProgress(store, userId)), now).NoWrite?
  {
  }

  /** A patch goes to a row the store holds, and the patched row records the reader's state. */
  lemma PatchLands(store: MemStorage, userId: int, bookId: int, s: ReaderState, now: Timestamp,
                   parseDate: DateParser)
    requires Valid(store) && PagesKnown(s) && userId != 0
    ensures var w := WriteAction(true, userId, bookId, s, Loaded(GetUserProgress(store, userId)), now);
      w.PatchRow? ==>
        var r := PatchProgressRoute(store, Some(w.id), w.body, now, parseDate);
        r.Success? && RecordsState(r.value.1, userId, bookId, s, now)
  {
    var rows := GetUserProgress(store, userId);
    if WriteAction(true, userId, bookId, s, Loaded(rows), now).PatchRow? {
      var row := Latest(rows, bookId).value;
      var k :| k in store.progresses && store.progresses[k] == row;
      assert row.id == k;
      assert !UnparsableDate(WriteBody(s, now).lastReadAt, parseDate);
    }
  }

  /** A creation happens only when the store has no row for the user and book, and the new row records the reader's state. */
  lemma CreateLands(store: MemStorage, userId: int, bookId: int, s: ReaderState, now: Timestamp,
                    parseDate: DateParser)
    requires Valid(store) && PagesKnown(s) && userId != 0
    ensures var w := WriteAction(true, userId, bookId, s, Loaded(GetUserProgress(store, userId)), now);
      w.CreateRow? ==>
        && GetUserBookProgress(store, userId, bookId).None?
        && var r := PostProgressRoute(store, w.insert, now, parseDate);
           r.Success? && RecordsState(r.value.1, userId, bookId, s, now)
  {
    var rows := GetUserProgress(store, userId);
    if WriteAction(true, userId, bookId, s, Loaded(rows), now).CreateRow? {
      assert Latest(rows, bookId).None?;
      forall k | k in store.progresses && k < store.nextProgress
        ensures !IsProgressOf(store.progresses[k], userId, bookId)
      {
      }
    }
  }
}

=== FILE: recency.dfy ===
/**
 * Recency ordering shared by the client: the stable "newest first" sort by a
 * timestamp (rows without a timestamp count as time 0), the pick of the latest
 * row, and the "keep the first row per key" pass that follows the sort.
 */
module Recency {
  import opened Wrappers
  import opened Schema
  import Seqs

  /** When a progress row was last read; a row without a date counts as the epoch. */
  function ReadTime(p: UserProgress): int
  {
    p.lastReadAt.GetOr(0)
  }

  /** When a result was completed; a result without a date counts as the epoch. */
  function CompletionTime(r: TestResult): int
  {
    r.completedAt.GetOr(0)
  }

  /** Non-increasing in `key`. */
  ghost predicate NewestFirst<T>(s: seq<T>, key: T -> int)
  {
    forall i, j :: 0 <= i < j < |s| ==> key(s[i]) >= key(s[j])
  }

  /** Inserts `x` after every element whose key is at least its own (so equal keys keep arrival order). */
  function Insert<T>(x: T, s: seq<T>, key: T -> int): (r: seq<T>)
    ensures |r| == |s| + 1
    ensures multiset(r) == multiset(s) + multiset{x}
    ensures |s| == 0 ==> r[0] == x
    ensures |s| > 0 ==> r[0] == if key(s[0]) >= key(x) then s[0] else x
  {
    if |s| == 0 then [x]
    else if key(s[0]) >= key(x) then
      assert s == [s[0]] + s[1..];
      [s[0]] + Insert(x, s[1..], key)
    else
      [x] + s
  }

  /** Inserting into a newest-first sequence keeps it newest first. */
  lemma {:induction false} InsertKeepsOrder<T>(x: T, s: seq<T>, key: T -> int)
    requires NewestFirst(s, key)
    ensures NewestFirst(Insert(x, s, key), key)
  {
    if |s| > 0 && key(s[0]) >= key(x) {
      var rest := Insert(x, s[1..], key);
      InsertKeepsOrder(x, s[1..], key);
      forall i | 0 <= i < |rest|
        ensures key(s[0]) >= key(rest[i])
      {
        assert rest[i] in multiset(rest);
        if rest[i] != x {
          assert rest[i] in multiset(s[1..]);
          var j :| 0 <= j < |s[1..]| && s[1..][j] == rest[i];
          assert s[j + 1] == rest[i];
        }
      }
      assert Insert(x, s, key) == [s[0]] + rest;
    }
  }

  /** `[...s].sort((a, b) => key(b) - key(a))` with a stable sort. */
  function SortNewest<T>(s: seq<T>, key: T -> int): (r: seq<T>)
    ensures |r| == |s|
    ensures multiset(r) == multiset(s)
    ensures NewestFirst(r, key)
  {
    if |s| == 0 then []
    else
      assert s == s[..|s| - 1] + [s[|s| - 1]];
      InsertKeepsOrder(s[|s| - 1], SortNewest(s[..|s| - 1], key), key);
      Insert(s[|s| - 1], SortNewest(s[..|s| - 1], key), key)
  }

  /** The first element (in input order) among those with the greatest key. */
  function FirstMax<T>(s: seq<T>, key: T -> int): (r: T)
    requires |s| > 0
    ensures r in s
    ensures forall i :: 0 <= i < |s| ==> key(s[i]) <= key(r)
  {
    if |s| == 1 then s[0]
    else
      var m := FirstMax(s[..|s| - 1], key);
      assert forall i :: 0 <= i < |s| - 1 ==> s[..|s| - 1][i] == s[i];
      if key(s[|s| - 1]) > key(m) then s[|s| - 1] else m
  }

  /** The head of the stable newest-first sort is the first of the newest elements. */
  lemma {:induction false} SortHeadIsFirstMax<T>(s: seq<T>, key: T -> int)
    requires |s| > 0
    ensures SortNewest(s, key)[0] == FirstMax(s, key)
  {
    if |s| > 1 {
      SortHeadIsFirstMax(s[..|s| - 1], key);
    }
  }

  /** True of the rows for one book. */
  predicate ForBook(p: UserProgress, bookId: int)
  {
    p.bookId == bookId
  }

  /**
   * `rows.filter(p => p.bookId === bookId).sort(newest first)[0]`: the most
   * recently read row for a book, absent when the book has none.
   */
  function Latest(rows: seq<UserProgress>, bookId: int): (r: Option<UserProgress>)
    ensures r.None? <==> forall i :: 0 <= i < |rows| ==> rows[i].bookId != bookId
    ensures r.Some? ==> r.value in rows && r.value.bookId == bookId
    ensures r.Some? ==> forall i :: 0 <= i < |rows| && rows[i].bookId == bookId ==> ReadTime(rows[i]) <= ReadTime(r.value)
  {
    var mine := Seqs.Filter(rows, p => ForBook(p, bookId));
    if |mine| == 0 then None
    else
      var sorted := SortNewest(mine, ReadTime);
      SortHeadIsFirstMax(mine, ReadTime);
      assert sorted[0] in multiset(mine);
      Some(sorted[0])
  }

  /** A row read no earlier than any other row of its book is, up to ties in read time, the row `Latest` picks. */
  lemma LatestOfNewest(rows: seq<UserProgress>, row: UserProgress)
    requires row in rows
    requires forall i :: 0 <= i < |rows| && rows[i].bookId == row.bookId ==> ReadTime(rows[i]) <= ReadTime(row)
    ensures Latest(rows, row.bookId).Some?
    ensures ReadTime(Latest(rows, row.bookId).value) == ReadTime(row)
  {
    var k :| 0 <= k < |rows| && rows[k] == row;
    var latest := Latest(rows, row.bookId);
    assert latest.Some? by {
      assert rows[k].bookId == row.bookId;
    }
    assert ReadTime(rows[k]) <= ReadTime(latest.value);
    var m :| 0 <= m < |rows| && rows[m] == latest.value;
    assert ReadTime(rows[m]) <= ReadTime(row);
  }

  /**
   * `s.filter(x => seen.has(id(x)) ? false : (seen.add(id(x)), true))`: the
   * first element for each id not already in `seen`.
   */
  function FirstPerId<T>(s: seq<T>, id: T -> int, seen: set<int>): (r: seq<T>)
    ensures |r| <= |s|
  {
    if |s| == 0 then []
    else if id(s[0]) in seen then FirstPerId(s[1..], id, seen)
    else [s[0]] + FirstPerId(s[1..], id, seen + {id(s[0])})
  }

  /** What the pass keeps comes from its input and carries an id not seen before. */
  lemma {:induction false} FirstPerIdMembers<T>(s: seq<T>, id: T -> int, seen: set<int>)
    ensures forall i :: 0 <= i < |FirstPerId(s, id, seen)| ==>
      FirstPerId(s, id, seen)[i] in s && id(FirstPerId(s, id, seen)[i]) !in seen
  {
    if |s| > 0 {
      var seen' := if id(s[0]) in seen then seen else seen + {id(s[0])};
      FirstPerIdMembers(s[1..], id, seen');
      var rest := FirstPerId(s[1..], id, seen');
      forall i | 0 <= i < |rest|
        ensures rest[i] in s
      {
        var j :| 0 <= j < |s[1..]| && s[1..][j] == rest[i];
        assert s[j + 1] == rest[i];
      }
    }
  }

  /** No id is kept twice. */
  lemma {:induction false} FirstPerIdDistinct<T>(s: seq<T>, id: T -> int, seen: set<int>)
    ensures forall i, j :: 0 <= i < j < |FirstPerId(s, id, seen)| ==>
      id(FirstPerId(s, id, seen)[i]) != id(FirstPerId(s, id, seen)[j])
  {
    if |s| > 0 {
      var seen' := if id(s[0]) in seen then seen else seen + {id(s[0])};
      FirstPerIdDistinct(s[1..], id, seen');
      FirstPerIdMembers(s[1..], id, seen');
      var r := FirstPerId(s, id, seen);
      var rest := FirstPerId(s[1..], id, seen');
      if id(s[0]) !in seen {
        assert r == [s[0]] + rest;
        forall i, j | 0 <= i < j < |r|
          ensures id(r[i]) != id(r[j])
        {
          assert r[j] == rest[j - 1];
          if i > 0 {
            assert r[i] == rest[i - 1];
          }
        }
      }
    }
  }

  /** Some element of `r` has id `x`. */
  predicate HasId<T>(r: seq<T>, id: T -> int, x: int)
  {
    exists j :: 0 <= j < |r| && id(r[j]) == x
  }

  /** `x` occurs in `s` with no element before it carrying its id. */
  predicate FirstOfItsId<T(==)>(s: seq<T>, id: T -> int, x: T)
  {
    exists i :: 0 <= i < |s| && s[i] == x && forall j :: 0 <= j < i ==> id(s[j]) != id(x)
  }

  /** What the pass keeps is the first element of the input carrying its id. */
  lemma {:induction false} FirstPerIdKeepsFirst<T>(s: seq<T>, id: T -> int, seen: set<int>)
    ensures forall k :: 0 <= k < |FirstPerId(s, id, seen)| ==> FirstOfItsId(s, id, FirstPerId(s, id, seen)[k])
  {
    if |s| > 0 {
      var seen' := if id(s[0]) in seen then seen else seen + {id(s[0])};
      FirstPerIdKeepsFirst(s[1..], id, seen');
      FirstPerIdMembers(s[1..], id, seen');
      var r := FirstPerId(s, id, seen);
      var rest := FirstPerId(s[1..], id, seen');
      forall k | 0 <= k < |r|
        ensures FirstOfItsId(s, id, r[k])
      {
        if id(s[0]) !in seen && k == 0 {
          assert s[0] == r[0];
        } else {
          var k' := if id(s[0]) in seen then k else k - 1;
          assert r[k] == rest[k'];
          assert FirstOfItsId(s[1..], id, rest[k']);
          var i :| 0 <= i < |s[1..]| && s[1..][i] == rest[k'] && forall j :: 0 <= j < i ==> id(s[1..][j]) != id(rest[k']);
          assert id(s[0]) != id(r[k]);
          forall j | 1 <= j < i + 1
            ensures id(s[j]) != id(r[k])
          {
            assert s[j] == s[1..][j - 1];
          }
          assert s[i + 1] == r[k];
        }
      }
    }
  }

  /** Every id of the input that was not already seen is kept. */
  lemma {:induction false} FirstPerIdCovers<T>(s: seq<T>, id: T -> int, seen: set<int>)
    ensures forall i :: 0 <= i < |s| && id(s[i]) !in seen ==> HasId(FirstPerId(s, id, seen), id, id(s[i]))
  {
    if |s| > 0 {
      var seen' := if id(s[0]) in seen then seen else seen + {id(s[0])};
      FirstPerIdCovers(s[1..], id, seen');
      var r := FirstPerId(s, id, seen);
      var rest := FirstPerId(s[1..], id, seen');
      assert r == if id(s[0]) in seen then rest else [s[0]] + rest;
      forall i | 0 <= i < |s| && id(s[i]) !in seen
        ensures HasId(r, id, id(s[i]))
      {
        if id(s[i]) == id(s[0]) {
          assert id(r[0]) == id(s[i]);
        } else {
          assert s[1..][i - 1] == s[i];
          assert HasId(rest, id, id(s[1..][i - 1]));
          var j :| 0 <= j < |rest| && id(rest[j]) == id(s[i]);
          if id(s[0]) in seen {
            assert id(r[j]) == id(s[i]);
          } else {
            assert id(r[j + 1]) == id(s[i]);
          }
        }
      }
    }
  }

  /** On a newest-first input, the element kept for an id is a newest one for that id. */
  lemma {:induction false} FirstPerIdKeepsNewest<T>(s: seq<T>, id: T -> int, seen: set<int>, key: T -> int)
    requires NewestFirst(s, key)
    ensures forall j, i :: 0 <= j < |FirstPerId(s, id, seen)| && 0 <= i < |s| && id(s[i]) == id(FirstPerId(s, id, seen)[j]) ==>
      key(s[i]) <= key(FirstPerId(s, id, seen)[j])
  {
    if |s| > 0 {
      var seen' := if id(s[0]) in seen then seen else seen + {id(s[0])};
      FirstPerIdKeepsNewest(s[1..], id, seen', key);
      FirstPerIdMembers(s[1..], id, seen');
      var r := FirstPerId(s, id, seen);
      var rest := FirstPerId(s[1..], id, seen');
      forall j, i | 0 <= j < |r| && 0 <= i < |s| && id(s[i]) == id(r[j])
        ensures key(s[i]) <= key(r[j])
      {
        if id(s[0]) !in seen && j == 0 {
          assert r[0] == s[0];
        } else {
          var j' := if id(s[0]) in seen then j else j - 1;
          assert r[j] == rest[j'];
          assert id(rest[j']) !in seen';
          assert i > 0;
          assert s[1..][i - 1] == s[i];
        }
      }
    }
  }

  /** The pass keeps a newest-first input newest first. */
  lemma {:induction false} FirstPerIdKeepsOrder<T>(s: seq<T>, id: T -> int, seen: set<int>, key: T -> int)
    requires NewestFirst(s, key)
    ensures NewestFirst(FirstPerId(s, id, seen), key)
  {
    if |s| > 0 {
      var seen' := if id(s[0]) in seen then seen else seen + {id(s[0])};
      FirstPerIdKeepsOrder(s[1..], id, seen', key);
      FirstPerIdMembers(s[1..], id, seen');
      var rest := FirstPerId(s[1..], id, seen');
      if id(s[0]) !in seen {
        forall i | 0 <= i < |rest|
          ensures key(s[0]) >= key(rest[i])
        {
          var k :| 0 <= k < |s[1..]| && s[1..][k] == rest[i];
          assert s[k + 1] == rest[i];
        }
        assert FirstPerId(s, id, seen) == [s[0]] + rest;
      }
    }
  }
}

=== FILE: routes.dfy ===
/**
 * The server's request handlers over the in-memory store: book and test
 * listings with their query-parameter dispatch, single-row lookups that answer
 * 404 on a miss, the reading-progress upsert, the progress patch, and the
 * mapping of a finished game onto a test-result row with test id 0.
 * Numeric path and query parameters arrive already parsed; `None` stands for
 * an absent parameter or one that does not parse (NaN).
 */
module Routes {
  import opened Wrappers
  import opened Schema
  import opened Storage
  import Seqs

  /** The answer of a single-row lookup. */
  datatype Reply<T> = Http200(body: T) | Http404

  /** Truthiness of a query string: absent and "" are falsy. */
  predicate Given(q: Option<string>)
  {
    q.Some? && |q.value| > 0
  }

  /** Truthiness of a parsed number: absent/NaN and 0 are falsy. */
  predicate NonZero(n: Option<int>)
  {
    n.Some? && n.value != 0
  }

  /** GET /api/books: the category listing when a category is given, otherwise every book. */
  function ListBooks(s: MemStorage, category: Option<string>): (r: seq<BookWithAuthor>)
    ensures Given(category) ==> forall i :: 0 <= i < |r| ==> r[i].book.category == category
    ensures Given(category) ==> r == Seqs.Filter(GetBooks(s), (bw: BookWithAuthor) => bw.book.category == category)
    ensures !Given(category) ==> r == GetBooks(s)
  {
    if Given(category) then
      BooksByCategoryIsFilter(s, category.value);
      GetBooksByCategory(s, category.value)
    else
      GetBooks(s)
  }

  /** GET /api/books/:id: the book with its author, or 404 when either is missing. */
  function ShowBook(s: MemStorage, id: Option<int>): (r: Reply<BookWithAuthor>)
    ensures r.Http404? <==> id.None? || GetBook(s, id.value).None?
    ensures r.Http200? ==> r.body.book.id == id.value || !Valid(s)
    ensures r.Http200? ==> r.body.author.Some? && r.body.book in s.books.Values
  {
    if id.None? then Http404
    else match GetBook(s, id.value)
      case None => Http404
      case Some(bw) => Http200(bw)
  }

  /**
   * GET /api/tests: a non-empty type selects by type, otherwise a non-zero book
   * id selects by book, otherwise every test.
   */
  function ListTests(s: MemStorage, testType: Option<string>, bookId: Option<int>): (r: seq<TestWithBook>)
    ensures Given(testType) ==> r == GetTestsByType(s, testType.value)
    ensures !Given(testType) && NonZero(bookId) ==> r == GetTestsByBookId(s, bookId.value)
    ensures !Given(testType) && !NonZero(bookId) ==> r == GetTests(s)
  {
    if Given(testType) then GetTestsByType(s, testType.value)
    else if NonZero(bookId) then GetTestsByBookId(s, bookId.value)
    else GetTests(s)
  }

  /**
   * Whatever the dispatch picks, the answer is the full test listing restricted
   * to the requested type or book (in a valid store; a missing book gives none).
   */
  lemma ListTestsIsFilter(s: MemStorage, testType: Option<string>, bookId: Option<int>)
    requires Valid(s)
    ensures Given(testType) ==>
      ListTests(s, testType, bookId) == Seqs.Filter(GetTests(s), (tw: TestWithBook) => tw.test.testType == testType.value)
    ensures !Given(testType) && NonZero(bookId) && GetBook(s, bookId.value).Some? ==>
      ListTests(s, testType, bookId) == Seqs.Filter(GetTests(s), (tw: TestWithBook) => tw.test.bookId == bookId)
    ensures !Given(testType) && NonZero(bookId) && GetBook(s, bookId.value).None? ==> ListTests(s, testType, bookId) == []
  {
    if Given(testType) {
      TestsByTypeIsFilter(s, testType.value);
    } else if NonZero(bookId) && GetBook(s, bookId.value).Some? {
      TestsByBookIsFilter(s, bookId.value);
    }
  }

  /** GET /api/tests/:id: the test with its book, or 404. */
  function ShowTest(s: MemStorage, id: Option<int>): (r: Reply<TestWithBook>)
    ensures r.Http404? <==> id.None? || !(id.value >= 0 && id.value as nat in s.tests)
    ensures r.Http200? ==> r.body.test == s.tests[id.value as nat] && r.body.book == AttachBook(s, r.body.test)
  {
    if id.None? then Http404
    else match GetTest(s, id.value)
      case None => Http404
      case Some(tw) => Http200(tw)
  }

  /** The five columns the upsert copies onto an existing row; user and book stay as they are. */
  function UpsertPatch(ins: InsertUserProgress): (p: ProgressPatch)
    ensures p.userId.None? && p.bookId.None?
    ensures p.progress == ins.progress && p.currentPage == ins.currentPage && p.totalPages == ins.totalPages
    ensures p.lastReadAt == Some(ins.lastReadAt) && p.completed == ins.completed
  {
    ProgressPatch(None, None, ins.progress, ins.currentPage, ins.totalPages, Some(ins.lastReadAt), ins.completed)
  }

  /**
   * POST /api/user/progress after validation: update the user's existing row
   * for the book, or create one. A failure is the 500 the handler answers when
   * the update throws.
   */
  function UpsertProgress(s: MemStorage, ins: InsertUserProgress): (r: Result<(MemStorage, UserProgress), StoreError>)
    ensures Valid(s) ==> r.Success? && Valid(r.value.0)
    ensures Valid(s) ==> IsProgressOf(r.value.1, ins.userId, ins.bookId)
    ensures r.Success? ==> r.value.1.lastReadAt == Some(ins.lastReadAt)
    ensures Valid(s) && GetUserBookProgress(s, ins.userId, ins.bookId).Some? ==>
      r.value.1.id == GetUserBookProgress(s, ins.userId, ins.bookId).value.id
      && r.value.0.nextProgress == s.nextProgress && r.value.0.progresses.Keys == s.progresses.Keys
    ensures GetUserBookProgress(s, ins.userId, ins.bookId).None? ==>
      r == Success(CreateUserProgress(s, ins))
  {
    match GetUserBookProgress(s, ins.userId, ins.bookId)
    case Some(e) =>
      assert Valid(s) ==> e.id in s.progresses && s.progresses[e.id] == e by {
        if Valid(s) {
          var k :| k in s.progresses && s.progresses[k] == e;
        }
      }
      UpdateUserProgress(s, e.id, UpsertPatch(ins))
    case None => Success(CreateUserProgress(s, ins))
  }

  /** No user has two progress rows for the same book. */
  ghost predicate OneRowPerBook(s: MemStorage)
  {
    OnePerBook(s.progresses)
  }

  ghost predicate OnePerBook(m: map<nat, UserProgress>)
  {
    forall k1, k2 :: k1 in m && k2 in m && k1 != k2 ==> !IsProgressOf(m[k2], m[k1].userId, m[k1].bookId)
  }

  /** Sequential upserts never create a second row for the same user and book. */
  lemma UpsertKeepsOneRowPerBook(s: MemStorage, ins: InsertUserProgress)
    requires Valid(s) && OneRowPerBook(s)
    ensures OneRowPerBook(UpsertProgress(s, ins).value.0)
  {
    var found := GetUserBookProgress(s, ins.userId, ins.bookId);
    var s' := UpsertProgress(s, ins).value.0;
    if found.Some? {
      var k :| k in s.progresses && s.progresses[k] == found.value;
      OverwriteSameOwner(s.progresses, k, UpsertProgress(s, ins).value.1);
    } else {
      AddNewOwner(s.progresses, s.nextProgress, CreateUserProgress(s, ins).1);
    }
  }

  /** Replacing a row by one for the same user and book keeps the one-row-per-book property. */
  lemma OverwriteSameOwner(m: map<nat, UserProgress>, k: nat, u: UserProgress)
    requires k in m && IsProgressOf(u, m[k].userId, m[k].bookId)
    requires OnePerBook(m)
    ensures OnePerBook(m[k := u])
  {
  }

  /** Adding a row for a user and book no other row has keeps the one-row-per-book property. */
  lemma AddNewOwner(m: map<nat, UserProgress>, n: nat, u: UserProgress)
    requires n !in m && forall j :: j in m ==> !IsProgressOf(m[j], u.userId, u.bookId)
    requires OnePerBook(m)
    ensures OnePerBook(m[n := u])
  {
  }

  /** From a valid store with one row per user and book, any run of upserts keeps it that way. */
  lemma {:induction false} UpsertsKeepOneRowPerBook(s: MemStorage, inserts: seq<InsertUserProgress>)
    requires Valid(s) && OneRowPerBook(s)
    ensures Valid(UpsertAll(s, inserts)) && OneRowPerBook(UpsertAll(s, inserts))
    decreases |inserts|
  {
    if |inserts| > 0 {
      UpsertKeepsOneRowPerBook(s, inserts[0]);
      UpsertsKeepOneRowPerBook(UpsertProgress(s, inserts[0]).value.0, inserts[1..]);
    }
  }

  /** A run of upserts applied one after another (stopping at the first failure). */
  function UpsertAll(s: MemStorage, inserts: seq<InsertUserProgress>): MemStorage
    decreases |inserts|
  {
    if |inserts| == 0 then s
    else match UpsertProgress(s, inserts[0])
      case Failure(_) => s
      case Success(r) => UpsertAll(r.0, inserts[1..])
  }

  /** The body of PATCH /api/user/progress/:id before validation. */
  datatype ProgressPatchBody = ProgressPatchBody(progress: Option<int>, currentPage: Option<int>, totalPages: Option<int>,
                                                 lastReadAt: Option<DateInput>, completed: Option<bool>)

  /**
   * PATCH /api/user/progress/:id: the five columns; `lastReadAt` always ends up set, to `now` when
   * missing. The route turns a truthy date string into a `Date` before validating, so a string
   * that names no instant reaches the schema as an Invalid Date and is refused; a missing id is
   * the update's throw. Both are the handler's 500.
   */
  function PatchProgressRoute(s: MemStorage, id: Option<int>, body: ProgressPatchBody, now: Timestamp,
                              parseDate: DateParser): (r: Result<(MemStorage, UserProgress), StoreError>)
    ensures r.Failure? <==> UnparsableDate(body.lastReadAt, parseDate)
                            || id.None? || !(id.value >= 0 && id.value as nat in s.progresses)
    ensures UnparsableDate(body.lastReadAt, parseDate) ==> r == Failure(Rejected)
    ensures r.Success? ==> r.value.1.lastReadAt.Some?
    ensures r.Success? && !DateGiven(body.lastReadAt) ==> r.value.1.lastReadAt == Some(now)
    ensures r.Success? && DateGiven(body.lastReadAt) ==> r.value.1.lastReadAt == ResolveDate(body.lastReadAt.value, parseDate)
    ensures r.Success? ==> (r.value.1.userId == s.progresses[id.value as nat].userId
                            && r.value.1.bookId == s.progresses[id.value as nat].bookId)
  {
    if UnparsableDate(body.lastReadAt, parseDate) then Failure(Rejected)
    else if id.None? then Failure(NotFound(-1))
    else
      var at := if DateGiven(body.lastReadAt) then ResolveDate(body.lastReadAt.value, parseDate).value else now;
      UpdateUserProgress(s, id.value,
                         ProgressPatch(None, None, body.progress, body.currentPage, body.totalPages, Some(at), body.completed))
  }

  /**
   * POST /api/user/progress: validation, then the upsert. A body the validation refuses (a date
   * string naming no instant) is the handler's 500 and leaves the store alone.
   */
  function PostProgressRoute(s: MemStorage, raw: RawProgressInsert, now: Timestamp, parseDate: DateParser)
    : (r: Result<(MemStorage, UserProgress), StoreError>)
    ensures Valid(s) ==> (r.Failure? <==> UnparsableDate(raw.lastReadAt, parseDate))
    ensures UnparsableDate(raw.lastReadAt, parseDate) ==> r == Failure(Rejected)
    ensures Valid(s) && r.Success? ==> Valid(r.value.0) && IsProgressOf(r.value.1, raw.userId, raw.bookId)
    ensures r.Success? && !DateGiven(raw.lastReadAt) ==> r.value.1.lastReadAt == Some(now)
    ensures r.Success? && DateGiven(raw.lastReadAt) ==> r.value.1.lastReadAt == ResolveDate(raw.lastReadAt.value, parseDate)
  {
    match ParseProgressInsert(raw, now, parseDate)
    case None => Failure(Rejected)
    case Some(ins) => UpsertProgress(s, ins)
  }

  /** POST /api/user/test-results after validation. */
  function PostTestResult(s: MemStorage, raw: RawResultInsert, parseDate: DateParser): (r: (MemStorage, TestResult))
    ensures r.1.completedAt.None? <==> !DateGiven(raw.completedAt) || UnparsableDate(raw.completedAt, parseDate)
    ensures r.1.completed == raw.completed.GetOr(false) && r.1.id == s.nextResult
  {
    CreateTestResult(s, ParseResultInsert(raw, parseDate))
  }

  /** Extra game data: a flat record of numeric fields. */
  type Metadata = seq<(string, int)>

  /** The body of POST /api/user/game-results after validation. */
  datatype GameSubmission = GameSubmission(userId: int, gameType: string, score: int, completed: Option<bool>,
                                           metadata: Option<Metadata>)

  const QuotePuzzleType := "Пазл цитат"
  const GuessAuthorType := "guess-author-game"

  /** The stored title of a game result. */
  function GameTitle(gameType: string): (t: string)
    ensures "Гра: " <= t
    ensures gameType == GuessAuthorType ==> t == "Гра: Вгадай автора"
  {
    if gameType == QuotePuzzleType then "Гра: Пазл цитат"
    else if gameType == GuessAuthorType then "Гра: Вгадай автора"
    else "Гра: " + gameType
  }

  /** Only the author game gets a renamed title; every other type, the quote puzzle included, is prefixed as is. */
  lemma GameTitlePrefixed(gameType: string)
    ensures gameType != GuessAuthorType <==> GameTitle(gameType) == "Гра: " + gameType
  {
    if gameType == GuessAuthorType {
      assert ("Гра: " + gameType)[5] == 'g' != 'В' == GameTitle(gameType)[5];
    }
  }

  /** The result row a finished game becomes: test id 0, maximum 100, finished now, completed unless told otherwise. */
  function GameResultInsert(g: GameSubmission, now: Timestamp, stringify: Metadata -> string): (r: InsertTestResult)
    ensures r.testId == 0 && r.maxScore == Some(100) && r.completedAt == Some(now)
    ensures r.completed == Some(g.completed.GetOr(true))
    ensures r.metadata.None? <==> g.metadata.None?
    ensures g.metadata.Some? ==> r.metadata == Some(stringify(g.metadata.value))
    ensures r.userId == g.userId && r.score == g.score && r.testTitle == Some(GameTitle(g.gameType))
  {
    InsertTestResult(g.userId, 0, g.score, Some(g.completed.GetOr(true)), Some(now),
                     if g.metadata.Some? then Some(stringify(g.metadata.value)) else None,
                     Some(GameTitle(g.gameType)), Some(100))
  }

  /** POST /api/user/game-results: stores the mapped row. */
  function PostGameResult(s: MemStorage, g: GameSubmission, now: Timestamp, stringify: Metadata -> string)
    : (r: (MemStorage, TestResult))
    ensures r.1.testId == 0 && r.1.maxScore == Some(100) && r.1.completedAt == Some(now)
    ensures r.1.completed == g.completed.GetOr(true)
    ensures r.1 in r.0.results.Values && r.1.userId == g.userId
    ensures Valid(s) ==> Valid(r.0)
  {
    CreateTestResult(s, GameResultInsert(g, now, stringify))
  }
}

=== FILE: schema.dfy ===
/**
 * Record shapes of the application's tables (users, authors, books, tests,
 * reading progress, test results), the insert payloads accepted for them and
 * the insert-time transforms. Timestamps are milliseconds since the epoch;
 * columns that may be null or absent are `Option`s. Purely presentational
 * book and test columns (covers, genre, summary, icons, ...) are not modelled.
 */
module Schema {
  import opened Wrappers

  type Timestamp = nat

  datatype User = User(id: nat, username: string, password: string, email: string, name: string,
                       createdAt: Option<Timestamp>)

  datatype InsertUser = InsertUser(username: string, password: string, email: string, name: string)

  datatype Author = Author(id: nat, name: string)

  datatype InsertAuthor = InsertAuthor(name: string)

  datatype Book = Book(id: nat, title: string, authorId: int, category: Option<string>,
                       fullText: Option<string>, quotes: Option<seq<string>>)

  datatype InsertBook = InsertBook(title: string, authorId: int, category: Option<string>,
                                   fullText: Option<string>, quotes: Option<seq<string>>)

  datatype Test = Test(id: nat, title: string, bookId: Option<int>, questionCount: int,
                       difficulty: string, testType: string)

  datatype InsertTest = InsertTest(title: string, bookId: Option<int>, questionCount: int,
                                   difficulty: string, testType: string)

  /** One reading-progress row: a user's position in one book. */
  datatype UserProgress = UserProgress(id: nat, userId: int, bookId: int, progress: int,
                                       currentPage: int, totalPages: int,
                                       lastReadAt: Option<Timestamp>, completed: bool)

  /** A progress insert after validation: `lastReadAt` has already been resolved to a date. */
  datatype InsertUserProgress = InsertUserProgress(userId: int, bookId: int, progress: Option<int>,
                                                   currentPage: Option<int>, totalPages: Option<int>,
                                                   lastReadAt: Timestamp, completed: Option<bool>)

  /** One test or game result row; game results use the sentinel test id 0. */
  datatype TestResult = TestResult(id: nat, userId: int, testId: int, score: int, completed: bool,
                                   completedAt: Option<Timestamp>, metadata: Option<string>,
                                   testTitle: Option<string>, maxScore: Option<int>)

  datatype InsertTestResult = InsertTestResult(userId: int, testId: int, score: int,
                                               completed: Option<bool>, completedAt: Option<Timestamp>,
                                               metadata: Option<string>, testTitle: Option<string>,
                                               maxScore: Option<int>)

  /** A book joined with its author; the author is absent when the reference dangles. */
  datatype BookWithAuthor = BookWithAuthor(book: Book, author: Option<Author>)

  datatype TestWithBook = TestWithBook(test: Test, book: Option<BookWithAuthor>)

  /** A date field as it arrives in a request body: a date value or a date string. */
  datatype DateInput = DateValue(t: Timestamp) | DateText(text: string)

  /** A progress insert before the `lastReadAt` transform. */
  datatype RawProgressInsert = RawProgressInsert(userId: int, bookId: int, progress: Option<int>,
                                                 currentPage: Option<int>, totalPages: Option<int>,
                                                 lastReadAt: Option<DateInput>, completed: Option<bool>)

  /** A result insert before the `completedAt` transform. */
  datatype RawResultInsert = RawResultInsert(userId: int, testId: int, score: int,
                                             completed: Option<bool>, completedAt: Option<DateInput>,
                                             metadata: Option<string>, testTitle: Option<string>,
                                             maxScore: Option<int>)

  /** JavaScript truthiness of an optional date input: absent and "" are falsy. */
  predicate DateGiven(d: Option<DateInput>)
  {
    d.Some? && !(d.value.DateText? && |d.value.text| == 0)
  }

  /**
   * `new Date(text)`: the instant a date string names, or `None` for JavaScript's
   * Invalid Date (a date whose time is `NaN`).
   */
  type DateParser = string -> Option<Timestamp>

  /** Resolves a truthy date input; a date string goes through the parser and may name no instant. */
  function ResolveDate(d: DateInput, parseDate: DateParser): (r: Option<Timestamp>)
    ensures d.DateValue? ==> r == Some(d.t)
    ensures d.DateText? ==> r == parseDate(d.text)
  {
    match d
    case DateValue(t) => Some(t)
    case DateText(s) => parseDate(s)
  }

  /** A truthy date string that names no instant. */
  predicate UnparsableDate(d: Option<DateInput>, parseDate: DateParser)
  {
    DateGiven(d) && d.value.DateText? && parseDate(d.value.text).None?
  }

  /**
   * Validation of a progress insert as POST /api/user/progress runs it: the route
   * first turns a truthy date string into a `Date` (server/routes.ts:102-104); the
   * schema then accepts a valid date and refuses an Invalid Date, which is neither
   * a string nor a date `z.date()` takes. `None` is the refused body. A missing (or
   * empty) `lastReadAt` becomes `now`.
   */
  function ParseProgressInsert(raw: RawProgressInsert, now: Timestamp, parseDate: DateParser)
    : (r: Option<InsertUserProgress>)
    ensures r.None? <==> UnparsableDate(raw.lastReadAt, parseDate)
    ensures r.Some? && !DateGiven(raw.lastReadAt) ==> r.value.lastReadAt == now
    ensures r.Some? && raw.lastReadAt.Some? && raw.lastReadAt.value.DateValue? ==>
      r.value.lastReadAt == raw.lastReadAt.value.t
    ensures r.Some? ==> r.value.userId == raw.userId && r.value.bookId == raw.bookId && r.value.progress == raw.progress
    ensures r.Some? ==> r.value.currentPage == raw.currentPage && r.value.totalPages == raw.totalPages
                        && r.value.completed == raw.completed
  {
    if UnparsableDate(raw.lastReadAt, parseDate) then None
    else
      Some(InsertUserProgress(raw.userId, raw.bookId, raw.progress, raw.currentPage, raw.totalPages,
                              if DateGiven(raw.lastReadAt) then ResolveDate(raw.lastReadAt.value, parseDate).value else now,
                              raw.completed))
  }

  /**
   * The result insert transform: a missing (or empty) `completedAt` stays absent; a date is kept, a date string parsed.
   * The schema accepts any string, so an unparsable one becomes an Invalid Date, which JSON renders
   * as `null`; the model gives it as an absent time.
   */
  function ParseResultInsert(raw: RawResultInsert, parseDate: DateParser): (r: InsertTestResult)
    ensures !DateGiven(raw.completedAt) ==> r.completedAt.None?
    ensures raw.completedAt.Some? && raw.completedAt.value.DateValue? ==> r.completedAt == Some(raw.completedAt.value.t)
    ensures raw.completedAt.Some? && raw.completedAt.value.DateText? && |raw.completedAt.value.text| > 0 ==>
      r.completedAt == parseDate(raw.completedAt.value.text)
    ensures r.userId == raw.userId && r.testId == raw.testId && r.score == raw.score
    ensures r.completed == raw.completed && r.metadata == raw.metadata
    ensures r.testTitle == raw.testTitle && r.maxScore == raw.maxScore
  {
    InsertTestResult(raw.userId, raw.testId, raw.score, raw.completed,
                     if DateGiven(raw.completedAt) then ResolveDate(raw.completedAt.value, parseDate) else None,
                     raw.metadata, raw.testTitle, raw.maxScore)
  }

  /** The raw form of an already-validated progress insert (its date as a date value). */
  function ProgressInsertToRaw(x: InsertUserProgress): RawProgressInsert
  {
    RawProgressInsert(x.userId, x.bookId, x.progress, x.currentPage, x.totalPages,
                      Some(DateValue(x.lastReadAt)), x.completed)
  }

  /** Validating an already-validated progress insert again changes nothing, whatever the clock says. */
  lemma ProgressInsertReparse(x: InsertUserProgress, now: Timestamp, parseDate: DateParser)
    ensures ParseProgressInsert(ProgressInsertToRaw(x), now, parseDate) == Some(x)
  {
  }

  /** A non-empty date string resolves to what the parser gives for it, and one it cannot parse is refused. */
  lemma ProgressInsertText(raw: RawProgressInsert, now: Timestamp, parseDate: DateParser, s: string)
    requires raw.lastReadAt == Some(DateText(s)) && |s| > 0
    ensures ParseProgressInsert(raw, now, parseDate).None? <==> parseDate(s).None?
    ensures parseDate(s).Some? ==> ParseProgressInsert(raw, now, parseDate).value.lastReadAt == parseDate(s).value
  {
  }
}

=== FILE: seqs.dfy ===
/** Sequence helpers shared by the model: the source's `filter`, `slice`, `flat` and shuffles. */
module Seqs {
  import opened Wrappers

  /** `s.filter(p)`: the elements satisfying `p`, in their original order. */
  function Filter<T>(s: seq<T>, p: T -> bool): (r: seq<T>)
    ensures |r| <= |s|
    ensures forall i :: 0 <= i < |r| ==> r[i] in s && p(r[i])
    ensures forall i :: 0 <= i < |s| && p(s[i]) ==> s[i] in r
  {
    if |s| == 0 then [] else (if p(s[0]) then [s[0]] else []) + Filter(s[1..], p)
  }

  /** Filtering distributes over concatenation, so it keeps relative order. */
  lemma {:induction false} FilterAppend<T>(a: seq<T>, b: seq<T>, p: T -> bool)
    ensures Filter(a + b, p) == Filter(a, p) + Filter(b, p)
  {
    if |a| == 0 {
      assert a + b == b;
    } else {
      assert (a + b)[1..] == a[1..] + b;
      FilterAppend(a[1..], b, p);
    }
  }

  /** `idx` picks the elements of `a` out of `b` at strictly increasing positions. */
  ghost predicate Embeds<T>(a: seq<T>, b: seq<T>, idx: seq<nat>)
  {
    && |idx| == |a|
    && (forall i :: 0 <= i < |idx| ==> idx[i] < |b| && a[i] == b[idx[i]])
    && (forall i, j :: 0 <= i < j < |idx| ==> idx[i] < idx[j])
  }

  /** `a` is `b` with some elements left out and the rest in their order. */
  ghost predicate Subsequence<T>(a: seq<T>, b: seq<T>)
  {
    exists idx :: Embeds(a, b, idx)
  }

  /** Every position moved one further along. */
  function Shift(xs: seq<nat>): (r: seq<nat>)
    ensures |r| == |xs|
    ensures forall k :: 0 <= k < |xs| ==> r[k] == xs[k] + 1
  {
    if |xs| == 0 then [] else [xs[0] + 1] + Shift(xs[1..])
  }

  /** The positions of the elements `Filter` keeps. */
  function FilterPositions<T>(s: seq<T>, p: T -> bool): seq<nat>
  {
    if |s| == 0 then [] else (if p(s[0]) then [0] else []) + Shift(FilterPositions(s[1..], p))
  }

  /** An embedding into the tail of `s` shifts to an embedding into `s`. */
  lemma EmbedShift<T>(a: seq<T>, s: seq<T>, idx: seq<nat>)
    requires |s| > 0 && Embeds(a, s[1..], idx)
    ensures Embeds(a, s, Shift(idx))
    ensures forall k :: 0 <= k < |idx| ==> Shift(idx)[k] >= 1
  {
    var sh := Shift(idx);
    forall k | 0 <= k < |idx|
      ensures sh[k] < |s| && a[k] == s[sh[k]]
    {
      assert s[sh[k]] == s[1..][idx[k]];
    }
  }

  /** The first element of `s` can be put in front of an embedding that avoids position 0. */
  lemma EmbedCons<T>(a: seq<T>, s: seq<T>, idx: seq<nat>)
    requires |s| > 0 && Embeds(a, s, idx)
    requires forall k :: 0 <= k < |idx| ==> idx[k] >= 1
    ensures Embeds([s[0]] + a, s, [0] + idx)
  {
    var r, jdx := [s[0]] + a, [0] + idx;
    forall k | 0 <= k < |jdx|
      ensures jdx[k] < |s| && r[k] == s[jdx[k]]
    {
      if k > 0 {
        assert jdx[k] == idx[k - 1] && r[k] == a[k - 1];
      }
    }
    forall i, j | 0 <= i < j < |jdx|
      ensures jdx[i] < jdx[j]
    {
      assert jdx[j] == idx[j - 1];
      if i > 0 {
        assert jdx[i] == idx[i - 1];
      }
    }
  }

  lemma {:induction false} FilterPositionsEmbed<T>(s: seq<T>, p: T -> bool)
    ensures Embeds(Filter(s, p), s, FilterPositions(s, p))
  {
    if |s| > 0 {
      FilterPositionsEmbed(s[1..], p);
      var rest := FilterPositions(s[1..], p);
      var tail := Filter(s[1..], p);
      EmbedShift(tail, s, rest);
      if p(s[0]) {
        EmbedCons(tail, s, Shift(rest));
        assert Filter(s, p) == [s[0]] + tail;
        assert FilterPositions(s, p) == [0] + Shift(rest);
      } else {
        assert Filter(s, p) == tail;
        assert FilterPositions(s, p) == Shift(rest);
      }
    }
  }

  /** A filter result is a subsequence of its input: it keeps the input's order. */
  lemma FilterIsSubsequence<T>(s: seq<T>, p: T -> bool)
    ensures Subsequence(Filter(s, p), s)
  {
    FilterPositionsEmbed(s, p);
  }

  /** Filtering with a predicate that holds everywhere changes nothing. */
  lemma {:induction false} FilterAll<T>(s: seq<T>, p: T -> bool)
    requires forall i :: 0 <= i < |s| ==> p(s[i])
    ensures Filter(s, p) == s
  {
    if |s| > 0 {
      FilterAll(s[1..], p);
    }
  }

  /** Two predicates that agree on every element filter alike. */
  lemma {:induction false} FilterCongruent<T>(s: seq<T>, p: T -> bool, q: T -> bool)
    requires forall i :: 0 <= i < |s| ==> p(s[i]) == q(s[i])
    ensures Filter(s, p) == Filter(s, q)
  {
    if |s| > 0 {
      FilterCongruent(s[1..], p, q);
    }
  }

  /** `s.slice(0, n)` for a non-negative `n`. */
  function Take<T>(s: seq<T>, n: nat): (r: seq<T>)
    ensures |r| == if n <= |s| then n else |s|
    ensures r <= s
  {
    if n <= |s| then s[..n] else s
  }

  /** `pages.flat()`: the concatenation of all inner sequences. */
  function Flatten<T>(ss: seq<seq<T>>): seq<T>
  {
    if |ss| == 0 then [] else Flatten(ss[..|ss| - 1]) + ss[|ss| - 1]
  }

  lemma FlattenAppend<T>(ss: seq<seq<T>>, tt: seq<seq<T>>)
    ensures Flatten(ss + tt) == Flatten(ss) + Flatten(tt)
  {
    if |tt| == 0 {
      assert ss + tt == ss;
    } else {
      assert (ss + tt)[..|ss + tt| - 1] == ss + tt[..|tt| - 1];
      FlattenAppend(ss, tt[..|tt| - 1]);
    }
  }

  /** The integers lo, lo+1, ..., hi-1. */
  function Range(lo: int, hi: int): (r: seq<int>)
    ensures |r| == if lo <= hi then hi - lo else 0
    ensures forall i :: 0 <= i < |r| ==> r[i] == lo + i
    decreases hi - lo
  {
    if lo >= hi then [] else [lo] + Range(lo + 1, hi)
  }

  function Sum(s: seq<int>): int
  {
    if |s| == 0 then 0 else Sum(s[..|s| - 1]) + s[|s| - 1]
  }

  lemma SumAppend(a: seq<int>, b: seq<int>)
    ensures Sum(a + b) == Sum(a) + Sum(b)
  {
    if |b| == 0 {
      assert a + b == a;
    } else {
      assert (a + b)[..|a + b| - 1] == a + b[..|b| - 1];
      SumAppend(a, b[..|b| - 1]);
    }
  }

  /** No value occurs twice. */
  ghost predicate Distinct<T>(s: seq<T>)
  {
    forall i, j :: 0 <= i < j < |s| ==> s[i] != s[j]
  }

  /**
   * The result of a random shuffle. The randomness is an argument: `candidate`
   * is the arrangement the random source produced; anything that is not a
   * rearrangement of `s` is read as "no change", so every outcome of a real
   * shuffle is reachable and nothing else is.
   */
  function Shuffled<T(==)>(s: seq<T>, candidate: seq<T>): (r: seq<T>)
    ensures multiset(r) == multiset(s)
    ensures |r| == |s|
  {
    if multiset(candidate) == multiset(s) then
      assert |candidate| == |multiset(candidate)| == |multiset(s)| == |s|;
      candidate
    else
      s
  }

  /** `s.map(f)`. */
  function Map<T, U>(s: seq<T>, f: T -> U): (r: seq<U>)
    ensures |r| == |s|
    ensures forall i :: 0 <= i < |s| ==> r[i] == f(s[i])
  {
    seq(|s|, i requires 0 <= i < |s| => f(s[i]))
  }

  /** An element kept by a filter shows up, transformed, in the mapped result. */
  lemma FilterMapMember<T, U>(s: seq<T>, p: T -> bool, f: T -> U, x: T)
    requires x in s && p(x)
    ensures f(x) in Map(Filter(s, p), f)
  {
    var kept := Filter(s, p);
    var j :| 0 <= j < |s| && s[j] == x;
    assert x in kept;
    var q :| 0 <= q < |kept| && kept[q] == x;
    assert Map(kept, f)[q] == f(x);
  }

  lemma MapAppend<T, U>(a: seq<T>, b: seq<T>, f: T -> U)
    ensures Map(a + b, f) == Map(a, f) + Map(b, f)
  {
  }

  /** Taking one element out of a sequence takes it out of its multiset. */
  lemma RemoveAt<T>(b: seq<T>, k: nat)
    requires k < |b|
    ensures multiset(b) == multiset(b[..k] + b[k + 1..]) + multiset{b[k]}
  {
    assert b == b[..k] + [b[k]] + b[k + 1..];
  }

  /** Taking one element out of a sequence takes its image out of the image's multiset. */
  lemma MapRemoveAt<T, U>(b: seq<T>, k: nat, f: T -> U)
    requires k < |b|
    ensures multiset(Map(b, f)) == multiset(Map(b[..k] + b[k + 1..], f)) + multiset{f(b[k])}
  {
    var lo, hi := b[..k], b[k + 1..];
    assert b == lo + [b[k]] + hi;
    MapAppend(lo + [b[k]], hi, f);
    MapAppend(lo, [b[k]], f);
    MapAppend(lo, hi, f);
  }

  /** Mapping commutes with rearrangement. */
  lemma {:induction false} MapMultiset<T, U>(a: seq<T>, b: seq<T>, f: T -> U)
    requires multiset(a) == multiset(b)
    ensures multiset(Map(a, f)) == multiset(Map(b, f))
    decreases |a|
  {
    if |a| > 0 {
      var n := |a| - 1;
      var x := a[n];
      assert x in multiset(b);
      var k :| 0 <= k < |b| && b[k] == x;
      var a', rest := a[..n] + a[n + 1..], b[..k] + b[k + 1..];
      RemoveAt(a, n);
      RemoveAt(b, k);
      assert multiset(a') == multiset(a) - multiset{x};
      assert multiset(rest) == multiset(b) - multiset{x};
      MapMultiset(a', rest, f);
      MapRemoveAt(a, n, f);
      MapRemoveAt(b, k, f);
    }
  }

  /** Filtering a mapped sequence is mapping the elements whose image passes the filter. */
  lemma {:induction false} FilterMap<T, U>(s: seq<T>, f: T -> U, p: U -> bool, q: T -> bool)
    requires forall i :: 0 <= i < |s| ==> q(s[i]) == p(f(s[i]))
    ensures Filter(Map(s, f), p) == Map(Filter(s, q), f)
  {
    if |s| > 0 {
      assert Map(s, f)[1..] == Map(s[1..], f);
      FilterMap(s[1..], f, p, q);
    }
  }

  /** Filtering keeps a strictly increasing key order. */
  lemma {:induction false} FilterKeepsOrder<T>(s: seq<T>, p: T -> bool, key: T -> int)
    requires forall i, j :: 0 <= i < j < |s| ==> key(s[i]) < key(s[j])
    ensures forall i, j :: 0 <= i < j < |Filter(s, p)| ==> key(Filter(s, p)[i]) < key(Filter(s, p)[j])
  {
    if |s| > 0 {
      FilterKeepsOrder(s[1..], p, key);
      var rest := Filter(s[1..], p);
      forall i | 0 <= i < |rest|
        ensures key(s[0]) < key(rest[i])
      {
        var j :| 0 <= j < |s[1..]| && s[1..][j] == rest[i];
        assert s[j + 1] == rest[i];
      }
    }
  }

  /** No two elements share a key. */
  ghost predicate DistinctBy<T>(s: seq<T>, key: T -> int)
  {
    forall i, j :: 0 <= i < j < |s| ==> key(s[i]) != key(s[j])
  }

  /** Filtering keeps keys distinct. */
  lemma {:induction false} FilterKeepsDistinctBy<T>(s: seq<T>, p: T -> bool, key: T -> int)
    requires DistinctBy(s, key)
    ensures DistinctBy(Filter(s, p), key)
  {
    if |s| > 0 {
      FilterKeepsDistinctBy(s[1..], p, key);
      var rest := Filter(s[1..], p);
      forall i | 0 <= i < |rest|
        ensures key(rest[i]) != key(s[0])
      {
        var k :| 0 <= k < |s[1..]| && s[1..][k] == rest[i];
        assert s[k + 1] == rest[i];
      }
    }
  }

  /** A value of a sequence without repeats occurs in it at most once. */
  lemma {:induction false} DistinctCount<T>(s: seq<T>, x: T)
    requires Distinct(s)
    ensures multiset(s)[x] <= 1
  {
    if |s| > 0 {
      var init := s[..|s| - 1];
      assert s == init + [s[|s| - 1]];
      DistinctCount(init, x);
      if s[|s| - 1] == x {
        assert x !in init;
      }
    }
  }

  /** A value at two positions occurs at least twice. */
  lemma CountTwice<T>(s: seq<T>, i: nat, j: nat)
    requires i < j < |s| && s[i] == s[j]
    ensures multiset(s)[s[i]] >= 2
  {
    assert s == s[..i] + [s[i]] + s[i + 1..j] + [s[j]] + s[j + 1..];
  }

  /** A rearrangement of a sequence without repeats has none either. */
  lemma PermutationKeepsDistinct<T>(a: seq<T>, b: seq<T>)
    requires Distinct(a) && multiset(a) == multiset(b)
    ensures Distinct(b)
  {
    forall i, j | 0 <= i < j < |b|
      ensures b[i] != b[j]
    {
      if b[i] == b[j] {
        CountTwice(b, i, j);
        DistinctCount(a, b[i]);
      }
    }
  }

  /** A rearrangement keeps keys distinct. */
  lemma PermutationKeepsDistinctBy<T>(a: seq<T>, b: seq<T>, key: T -> int)
    requires DistinctBy(a, key) && multiset(a) == multiset(b)
    ensures DistinctBy(b, key)
  {
    MapMultiset(a, b, key);
    PermutationKeepsDistinct(Map(a, key), Map(b, key));
  }

  /** `s.findIndex(p)` as an option: the first index whose element satisfies `p`. */
  function FindIndex<T>(s: seq<T>, p: T -> bool): (r: Option<nat>)
    ensures r.Some? ==> r.value < |s| && p(s[r.value])
    ensures r.Some? ==> forall j :: 0 <= j < r.value ==> !p(s[j])
    ensures r.None? <==> forall j :: 0 <= j < |s| ==> !p(s[j])
  {
    if |s| == 0 then None
    else if p(s[0]) then Some(0)
    else
      match FindIndex(s[1..], p)
      case None => None
      case Some(k) => Some(k + 1)
  }

  /** `s.find(p)`: the first element satisfying `p`, if any. */
  function Find<T>(s: seq<T>, p: T -> bool): (r: Option<T>)
    ensures r.None? <==> forall j :: 0 <= j < |s| ==> !p(s[j])
    ensures r.Some? ==> exists i :: 0 <= i < |s| && s[i] == r.value && p(s[i]) && forall j :: 0 <= j < i ==> !p(s[j])
  {
    match FindIndex(s, p)
    case None => None
    case Some(i) => Some(s[i])
  }
}

=== FILE: storage.dfy ===
/**
 * The in-memory store behind the server: six id-keyed tables, one counter per
 * table that hands out ids starting at 1, read operations that list rows in
 * insertion order (which, with counter-assigned ids, is ascending id order),
 * joins of books with authors and of tests with books, and create/update
 * operations. Every write returns the new store together with the row.
 */
module Storage {
  import opened Wrappers
  import opened Schema
  import Seqs

  datatype MemStorage = MemStorage(
    users: map<nat, User>, authors: map<nat, Author>, books: map<nat, Book>,
    tests: map<nat, Test>, progresses: map<nat, UserProgress>, results: map<nat, TestResult>,
    nextUser: nat, nextAuthor: nat, nextBook: nat, nextTest: nat, nextProgress: nat, nextResult: nat)

  /** The store before any row is added: empty tables, every counter at 1. */
  const Empty := MemStorage(map[], map[], map[], map[], map[], map[], 1, 1, 1, 1, 1, 1)

  /**
   * Why a write fails: an update whose id is not in the table, or a request body the
   * validation schema refuses. The routes answer both with a 500.
   */
  datatype StoreError = NotFound(id: int) | Rejected

  /**
   * The store invariant: every key is an id the table's counter has already
   * handed out (so at least 1 and below the counter) and every row carries
   * its own key as its id.
   */
  ghost predicate Valid(s: MemStorage)
  {
    && UsersKeyed(s.users, s.nextUser) && AuthorsKeyed(s.authors, s.nextAuthor)
    && BooksKeyed(s.books, s.nextBook) && TestsKeyed(s.tests, s.nextTest)
    && ProgressesKeyed(s.progresses, s.nextProgress) && ResultsKeyed(s.results, s.nextResult)
  }

  ghost predicate UsersKeyed(m: map<nat, User>, n: nat)
  {
    1 <= n && forall k :: k in m ==> 1 <= k < n && m[k].id == k
  }

  ghost predicate AuthorsKeyed(m: map<nat, Author>, n: nat)
  {
    1 <= n && forall k :: k in m ==> 1 <= k < n && m[k].id == k
  }

  ghost predicate BooksKeyed(m: map<nat, Book>, n: nat)
  {
    1 <= n && forall k :: k in m ==> 1 <= k < n && m[k].id == k
  }

  ghost predicate TestsKeyed(m: map<nat, Test>, n: nat)
  {
    1 <= n && forall k :: k in m ==> 1 <= k < n && m[k].id == k
  }

  ghost predicate ProgressesKeyed(m: map<nat, UserProgress>, n: nat)
  {
    1 <= n && forall k :: k in m ==> 1 <= k < n && m[k].id == k
  }

  ghost predicate ResultsKeyed(m: map<nat, TestResult>, n: nat)
  {
    1 <= n && forall k :: k in m ==> 1 <= k < n && m[k].id == k
  }

  lemma EmptyValid()
    ensures Valid(Empty) && Empty.nextUser == 1 && Empty.nextProgress == 1
  {
  }

  /** `map.get(k)` with a JavaScript number key: absent unless `k` is a key. */
  function Lookup<V>(m: map<nat, V>, k: int): (r: Option<V>)
    ensures r.Some? <==> k >= 0 && k as nat in m
    ensures r.Some? ==> r.value == m[k as nat]
  {
    if k >= 0 && k as nat in m then Some(m[k as nat]) else None
  }

  /** The keys of `m` below `n`, ascending. */
  function KeysBelow<V>(m: map<nat, V>, n: nat): (ks: seq<nat>)
    ensures forall i :: 0 <= i < |ks| ==> ks[i] in m && ks[i] < n
    ensures forall i, j :: 0 <= i < j < |ks| ==> ks[i] < ks[j]
    ensures forall k :: k in m && k < n ==> k in ks
  {
    if n == 0 then [] else KeysBelow(m, n - 1) + (if n - 1 in m then [n - 1] else [])
  }

  /** `Array.from(table.values())`: the rows in insertion order, read from the keys below the counter. */
  function InOrder<V>(m: map<nat, V>, n: nat): (r: seq<V>)
    ensures |r| == |KeysBelow(m, n)|
    ensures forall i :: 0 <= i < |r| ==> r[i] == m[KeysBelow(m, n)[i]]
  {
    var ks := KeysBelow(m, n);
    seq(|ks|, i requires 0 <= i < |ks| => m[ks[i]])
  }

  /** Writing a key at or above `n` leaves the listing below `n` alone. */
  lemma {:induction false} KeysBelowAddAbove<V>(m: map<nat, V>, n: nat, k: nat, v: V)
    requires k >= n
    ensures KeysBelow(m[k := v], n) == KeysBelow(m, n)
  {
    if n > 0 {
      KeysBelowAddAbove(m, n - 1, k, v);
    }
  }

  /** Overwriting an existing key does not change which keys are listed. */
  lemma {:induction false} KeysBelowOverwrite<V>(m: map<nat, V>, n: nat, k: nat, v: V)
    requires k in m
    ensures KeysBelow(m[k := v], n) == KeysBelow(m, n)
  {
    if n > 0 {
      KeysBelowOverwrite(m, n - 1, k, v);
    }
  }

  /** A row added under the counter's key is listed last. */
  lemma AppendListsLast<V>(m: map<nat, V>, n: nat, v: V)
    ensures InOrder(m[n := v], n + 1) == InOrder(m, n) + [v]
  {
    KeysBelowAddAbove(m, n, n, v);
    assert KeysBelow(m[n := v], n + 1) == KeysBelow(m, n) + [n];
  }

  /** Overwriting a row keeps its place in the listing. */
  lemma OverwriteKeepsPlace<V>(m: map<nat, V>, n: nat, k: nat, v: V)
    requires k in m
    ensures |InOrder(m[k := v], n)| == |InOrder(m, n)|
    ensures forall i :: 0 <= i < |InOrder(m, n)| ==>
      InOrder(m[k := v], n)[i] == if KeysBelow(m, n)[i] == k then v else InOrder(m, n)[i]
  {
    KeysBelowOverwrite(m, n, k, v);
  }

  /** Every row keyed below the counter appears in the listing, at its key's position. */
  lemma InOrderMember<V>(m: map<nat, V>, n: nat, k: nat)
    requires k in m && k < n
    ensures exists j :: 0 <= j < |InOrder(m, n)| && KeysBelow(m, n)[j] == k && InOrder(m, n)[j] == m[k]
  {
    var ks := KeysBelow(m, n);
    var j :| 0 <= j < |ks| && ks[j] == k;
    assert InOrder(m, n)[j] == m[k];
  }

  /** Every row below the counter that passes `p` survives filtering the listing. */
  lemma FilterInOrderComplete<V>(m: map<nat, V>, n: nat, p: V -> bool)
    ensures forall k :: k in m && k < n && p(m[k]) ==> m[k] in Seqs.Filter(InOrder(m, n), p)
  {
    forall k | k in m && k < n && p(m[k])
      ensures m[k] in Seqs.Filter(InOrder(m, n), p)
    {
      InOrderMember(m, n, k);
    }
  }

  /** When rows carry their keys as ids, a filtered listing is in strictly ascending id order. */
  lemma FilterInOrderSorted<V>(m: map<nat, V>, n: nat, p: V -> bool, id: V -> int)
    requires forall k :: k in m ==> id(m[k]) == k
    ensures forall i, j :: 0 <= i < j < |Seqs.Filter(InOrder(m, n), p)| ==>
      id(Seqs.Filter(InOrder(m, n), p)[i]) < id(Seqs.Filter(InOrder(m, n), p)[j])
  {
    Seqs.FilterKeepsOrder(InOrder(m, n), p, id);
  }

  /** A search of the listing that finds nothing rules out every row below the counter. */
  lemma FindNoneInOrder<V>(m: map<nat, V>, n: nat, p: V -> bool)
    requires Seqs.FindIndex(InOrder(m, n), p).None?
    ensures forall k :: k in m && k < n ==> !p(m[k])
  {
    forall k | k in m && k < n
      ensures !p(m[k])
    {
      InOrderMember(m, n, k);
    }
  }

  /** The row a search of the listing finds has the least key among the matching rows below the counter. */
  lemma FindSomeInOrder<V>(m: map<nat, V>, n: nat, p: V -> bool, i: nat)
    ensures Seqs.FindIndex(InOrder(m, n), p) == Some(i) ==>
      && i < |KeysBelow(m, n)| && InOrder(m, n)[i] == m[KeysBelow(m, n)[i]]
      && forall k :: k in m && k < n && p(m[k]) ==> KeysBelow(m, n)[i] <= k
  {
    if Seqs.FindIndex(InOrder(m, n), p) == Some(i) {
      var ks := KeysBelow(m, n);
      var rows := InOrder(m, n);
      forall k | k in m && k < n && p(m[k])
        ensures ks[i] <= k
      {
        var j := PositionOf(m, n, k);
        assert p(rows[j]);
        assert i <= j;
        if i < j {
          assert ks[i] < ks[j];
        }
      }
    }
  }

  /** The position of a key below the counter in the listing. */
  lemma PositionOf<V>(m: map<nat, V>, n: nat, k: nat) returns (j: nat)
    requires k in m && k < n
    ensures j < |KeysBelow(m, n)| && KeysBelow(m, n)[j] == k && j < |InOrder(m, n)| && InOrder(m, n)[j] == m[k]
  {
    InOrderMember(m, n, k);
    j :| j < |KeysBelow(m, n)| && KeysBelow(m, n)[j] == k && InOrder(m, n)[j] == m[k];
  }

  // ---------------------------------------------------------------- users

  function GetUser(s: MemStorage, id: int): (r: Option<User>)
    ensures r.Some? <==> id >= 0 && id as nat in s.users
    ensures r.Some? ==> r.value == s.users[id as nat]
  {
    Lookup(s.users, id)
  }

  /** The position of the first listed user called `username`. */
  function IndexOfUsername(rows: seq<User>, username: string): (r: Option<nat>)
    ensures r.Some? ==> r.value < |rows| && rows[r.value].username == username
    ensures r.Some? ==> forall j :: 0 <= j < r.value ==> rows[j].username != username
    ensures r.None? <==> forall j :: 0 <= j < |rows| ==> rows[j].username != username
  {
    Seqs.FindIndex(rows, (u: User) => u.username == username)
  }

  /** The first user (by id) whose username is `username`. */
  function GetUserByUsername(s: MemStorage, username: string): (r: Option<User>)
    ensures r.Some? ==> r.value.username == username && r.value in s.users.Values
    ensures r.None? ==> forall k :: k in s.users && k < s.nextUser ==> s.users[k].username != username
  {
    var rows := InOrder(s.users, s.nextUser);
    match IndexOfUsername(rows, username)
    case None =>
      FindNoneInOrder(s.users, s.nextUser, (u: User) => u.username == username);
      None
    case Some(i) => Some(rows[i])
  }

  /** The first user (by id) whose email is `email`. */
  function GetUserByEmail(s: MemStorage, email: string): (r: Option<User>)
    ensures r.Some? ==> r.value.email == email && r.value in s.users.Values
    ensures r.None? ==> forall k :: k in s.users && k < s.nextUser ==> s.users[k].email != email
  {
    var rows := InOrder(s.users, s.nextUser);
    match Seqs.FindIndex(rows, (u: User) => u.email == email)
    case None =>
      FindNoneInOrder(s.users, s.nextUser, (u: User) => u.email == email);
      None
    case Some(i) => Some(rows[i])
  }

  /** Stores a new user under the next user id, stamped with `now`. The store does not check usernames. */
  function CreateUser(s: MemStorage, ins: InsertUser, now: Timestamp): (r: (MemStorage, User))
    ensures r.1.id == s.nextUser && r.0.nextUser == s.nextUser + 1
    ensures r.1.username == ins.username && r.1.password == ins.password
    ensures r.1.email == ins.email && r.1.name == ins.name && r.1.createdAt == Some(now)
    ensures r.0.users == s.users[s.nextUser := r.1]
    ensures r.0 == s.(users := r.0.users, nextUser := r.0.nextUser)
    ensures Valid(s) ==> Valid(r.0)
  {
    var u := User(s.nextUser, ins.username, ins.password, ins.email, ins.name, Some(now));
    (s.(users := s.users[s.nextUser := u], nextUser := s.nextUser + 1), u)
  }

  /** No two users share a username (the unique column constraint of the users table). */
  ghost predicate UniqueUsernames(s: MemStorage)
  {
    forall k1, k2 :: k1 in s.users && k2 in s.users && k1 != k2 ==> s.users[k1].username != s.users[k2].username
  }

  /** Creating a user whose name the lookup does not find keeps usernames unique. */
  lemma CreateUserKeepsUnique(s: MemStorage, ins: InsertUser, now: Timestamp)
    requires Valid(s) && UniqueUsernames(s)
    requires GetUserByUsername(s, ins.username).None?
    ensures UniqueUsernames(CreateUser(s, ins, now).0)
  {
  }

  /** After registration, the username lookup finds exactly the new user. */
  lemma CreatedUserFound(s: MemStorage, ins: InsertUser, now: Timestamp)
    requires Valid(s) && GetUserByUsername(s, ins.username).None?
    ensures GetUserByUsername(CreateUser(s, ins, now).0, ins.username) == Some(CreateUser(s, ins, now).1)
  {
    UsernameAbsent(s, ins.username);
    var r := CreateUser(s, ins, now);
    FoundAfterAppend(s.users, s.nextUser, r.1, r.0);
  }

  /** A user appended under the counter, whose username no listed user carries, is the one the lookup finds. */
  lemma FoundAfterAppend(m: map<nat, User>, n: nat, u: User, s: MemStorage)
    requires forall j :: 0 <= j < |InOrder(m, n)| ==> InOrder(m, n)[j].username != u.username
    requires s.users == m[n := u] && s.nextUser == n + 1
    ensures GetUserByUsername(s, u.username) == Some(u)
  {
    AppendListsLast(m, n, u);
    IndexAfterAppend(InOrder(m, n), u, u.username);
  }

  /** A username the lookup does not find is carried by no listed user. */
  lemma UsernameAbsent(s: MemStorage, username: string)
    requires GetUserByUsername(s, username).None?
    ensures forall j :: 0 <= j < |InOrder(s.users, s.nextUser)| ==> InOrder(s.users, s.nextUser)[j].username != username
  {
    var rows := InOrder(s.users, s.nextUser);
    forall j | 0 <= j < |rows|
      ensures rows[j].username != username
    {
      var k := KeysBelow(s.users, s.nextUser)[j];
      assert k in s.users && k < s.nextUser && rows[j] == s.users[k];
    }
  }

  /** A username no earlier row carries is found at the row appended for it. */
  lemma IndexAfterAppend(rows: seq<User>, u: User, username: string)
    requires forall j :: 0 <= j < |rows| ==> rows[j].username != username
    requires u.username == username
    ensures IndexOfUsername(rows + [u], username) == Some(|rows|)
  {
    var t := rows + [u];
    assert forall j :: 0 <= j < |rows| ==> t[j] == rows[j];
    assert t[|rows|] == u;
  }

  // ---------------------------------------------------------------- authors

  function GetAuthors(s: MemStorage): (r: seq<Author>)
    ensures forall i :: 0 <= i < |r| ==> r[i] in s.authors.Values
    ensures forall k :: k in s.authors && k < s.nextAuthor ==> s.authors[k] in r
    ensures Valid(s) ==> forall i, j :: 0 <= i < j < |r| ==> r[i].id < r[j].id
  {
    var r := InOrder(s.authors, s.nextAuthor);
    assert forall k :: k in s.authors && k < s.nextAuthor ==> s.authors[k] in r by {
      forall k | k in s.authors && k < s.nextAuthor
        ensures s.authors[k] in r
      {
        InOrderMember(s.authors, s.nextAuthor, k);
      }
    }
    r
  }

  function GetAuthor(s: MemStorage, id: int): (r: Option<Author>)
    ensures r.Some? <==> id >= 0 && id as nat in s.authors
    ensures r.Some? ==> r.value == s.authors[id as nat]
  {
    Lookup(s.authors, id)
  }

  function CreateAuthor(s: MemStorage, ins: InsertAuthor): (r: (MemStorage, Author))
    ensures r.1 == Author(s.nextAuthor, ins.name) && r.0.nextAuthor == s.nextAuthor + 1
    ensures r.0.authors == s.authors[s.nextAuthor := r.1]
    ensures r.0 == s.(authors := r.0.authors, nextAuthor := r.0.nextAuthor)
    ensures Valid(s) ==> Valid(r.0)
    ensures GetAuthors(r.0) == GetAuthors(s) + [r.1]
  {
    var a := Author(s.nextAuthor, ins.name);
    AppendListsLast(s.authors, s.nextAuthor, a);
    (s.(authors := s.authors[s.nextAuthor := a], nextAuthor := s.nextAuthor + 1), a)
  }

  // ---------------------------------------------------------------- books

  /** A book joined with whatever author its `authorId` names (possibly none). */
  function JoinAuthor(s: MemStorage, b: Book): (r: BookWithAuthor)
    ensures r.book == b && r.author == Lookup(s.authors, b.authorId)
  {
    BookWithAuthor(b, Lookup(s.authors, b.authorId))
  }

  /** All books in insertion order, each with its author; a dangling author reference gives no author. */
  function GetBooks(s: MemStorage): (r: seq<BookWithAuthor>)
    ensures |r| == |InOrder(s.books, s.nextBook)|
    ensures forall i :: 0 <= i < |r| ==> r[i] == JoinAuthor(s, InOrder(s.books, s.nextBook)[i])
    ensures forall i :: 0 <= i < |r| ==> r[i].book in s.books.Values
    ensures forall i :: 0 <= i < |r| ==> (r[i].author.Some? <==> r[i].book.authorId >= 0 && r[i].book.authorId as nat in s.authors)
    ensures Valid(s) ==> forall i :: 0 <= i < |r| && r[i].author.Some? ==> r[i].author.value.id == r[i].book.authorId
  {
    Seqs.Map(InOrder(s.books, s.nextBook), b => JoinAuthor(s, b))
  }

  function GetBooksByCategory(s: MemStorage, category: string): (r: seq<BookWithAuthor>)
    ensures forall i :: 0 <= i < |r| ==> r[i].book.category == Some(category) && r[i].book in s.books.Values
    ensures forall i :: 0 <= i < |r| ==> r[i] == JoinAuthor(s, r[i].book)
    ensures forall k :: k in s.books && k < s.nextBook && s.books[k].category == Some(category) ==>
      JoinAuthor(s, s.books[k]) in r
  {
    var rows := InOrder(s.books, s.nextBook);
    var keep := (b: Book) => b.category == Some(category);
    var join := (b: Book) => JoinAuthor(s, b);
    assert forall k :: k in s.books && k < s.nextBook && keep(s.books[k]) ==> join(s.books[k]) in Seqs.Map(Seqs.Filter(rows, keep), join) by {
      forall k | k in s.books && k < s.nextBook && keep(s.books[k])
        ensures join(s.books[k]) in Seqs.Map(Seqs.Filter(rows, keep), join)
      {
        InOrderMember(s.books, s.nextBook, k);
        Seqs.FilterMapMember(rows, keep, join, s.books[k]);
      }
    }
    Seqs.Map(Seqs.Filter(rows, keep), join)
  }

  /** The category listing is the full listing restricted to that category. */
  lemma BooksByCategoryIsFilter(s: MemStorage, category: string)
    ensures GetBooksByCategory(s, category) == Seqs.Filter(GetBooks(s), (bw: BookWithAuthor) => bw.book.category == Some(category))
  {
    var rows := InOrder(s.books, s.nextBook);
    Seqs.FilterMap(rows, b => JoinAuthor(s, b), (bw: BookWithAuthor) => bw.book.category == Some(category),
                   (b: Book) => b.category == Some(category));
  }

  /** A single book with its author; absent when the book or its author is missing. */
  function GetBook(s: MemStorage, id: int): (r: Option<BookWithAuthor>)
    ensures r.Some? <==> Lookup(s.books, id).Some? && Lookup(s.authors, Lookup(s.books, id).value.authorId).Some?
    ensures r.Some? ==> r.value.book == s.books[id as nat] && r.value == JoinAuthor(s, r.value.book)
  {
    match Lookup(s.books, id)
    case None => None
    case Some(b) =>
      match Lookup(s.authors, b.authorId)
      case None => None
      case Some(a) => Some(BookWithAuthor(b, Some(a)))
  }

  function CreateBook(s: MemStorage, ins: InsertBook): (r: (MemStorage, Book))
    ensures r.1 == Book(s.nextBook, ins.title, ins.authorId, ins.category, ins.fullText, ins.quotes)
    ensures r.0.books == s.books[s.nextBook := r.1] && r.0.nextBook == s.nextBook + 1
    ensures r.0 == s.(books := r.0.books, nextBook := r.0.nextBook)
    ensures Valid(s) ==> Valid(r.0)
    ensures InOrder(r.0.books, r.0.nextBook) == InOrder(s.books, s.nextBook) + [r.1]
  {
    var b := Book(s.nextBook, ins.title, ins.authorId, ins.category, ins.fullText, ins.quotes);
    AppendListsLast(s.books, s.nextBook, b);
    (s.(books := s.books[s.nextBook := b], nextBook := s.nextBook + 1), b)
  }

  // ---------------------------------------------------------------- tests

  /** The book attached to a test: only for a non-zero book id whose book and author both exist. */
  function AttachBook(s: MemStorage, t: Test): (r: Option<BookWithAuthor>)
    ensures r.Some? <==> t.bookId.Some? && t.bookId.value != 0 && GetBook(s, t.bookId.value).Some?
    ensures r.Some? ==> r == GetBook(s, t.bookId.value)
    ensures r.Some? && Valid(s) ==> r.value.book.id == t.bookId.value
  {
    if t.bookId.Some? && t.bookId.value != 0 then GetBook(s, t.bookId.value) else None
  }

  function JoinBook(s: MemStorage, t: Test): TestWithBook
  {
    TestWithBook(t, AttachBook(s, t))
  }

  function GetTests(s: MemStorage): (r: seq<TestWithBook>)
    ensures |r| == |InOrder(s.tests, s.nextTest)|
    ensures forall i :: 0 <= i < |r| ==> r[i].test == InOrder(s.tests, s.nextTest)[i] && r[i].book == AttachBook(s, r[i].test)
  {
    Seqs.Map(InOrder(s.tests, s.nextTest), t => JoinBook(s, t))
  }

  function GetTestsByType(s: MemStorage, testType: string): (r: seq<TestWithBook>)
    ensures forall i :: 0 <= i < |r| ==> r[i].test.testType == testType && r[i].test in s.tests.Values
    ensures forall i :: 0 <= i < |r| ==> r[i].book == AttachBook(s, r[i].test)
  {
    Seqs.Map(Seqs.Filter(InOrder(s.tests, s.nextTest), (t: Test) => t.testType == testType), t => JoinBook(s, t))
  }

  /** The per-type listing is the full listing restricted to that type. */
  lemma TestsByTypeIsFilter(s: MemStorage, testType: string)
    ensures GetTestsByType(s, testType) == Seqs.Filter(GetTests(s), (tw: TestWithBook) => tw.test.testType == testType)
  {
    Seqs.FilterMap(InOrder(s.tests, s.nextTest), t => JoinBook(s, t), (tw: TestWithBook) => tw.test.testType == testType,
                   (t: Test) => t.testType == testType);
  }

  /** The tests of one book, each joined with that book; nothing when the book or its author is missing. */
  function GetTestsByBookId(s: MemStorage, bookId: int): (r: seq<TestWithBook>)
    ensures GetBook(s, bookId).None? ==> r == []
    ensures forall i :: 0 <= i < |r| ==> r[i].test.bookId == Some(bookId) && r[i].test in s.tests.Values
    ensures forall i :: 0 <= i < |r| ==> r[i].book == GetBook(s, bookId)
  {
    match GetBook(s, bookId)
    case None => []
    case Some(bw) =>
      Seqs.Map(Seqs.Filter(InOrder(s.tests, s.nextTest), (t: Test) => t.bookId == Some(bookId)), t => TestWithBook(t, Some(bw)))
  }

  /**
   * In a valid store (where no book has id 0) the per-book listing is the full
   * listing restricted to that book.
   */
  lemma TestsByBookIsFilter(s: MemStorage, bookId: int)
    requires Valid(s) && GetBook(s, bookId).Some?
    ensures GetTestsByBookId(s, bookId) == Seqs.Filter(GetTests(s), (tw: TestWithBook) => tw.test.bookId == Some(bookId))
  {
    var bw := GetBook(s, bookId).value;
    var rows := InOrder(s.tests, s.nextTest);
    var keep := (t: Test) => t.bookId == Some(bookId);
    var sel := Seqs.Filter(rows, keep);
    assert bookId != 0;
    assert Seqs.Map(sel, t => TestWithBook(t, Some(bw))) == Seqs.Map(sel, t => JoinBook(s, t));
    Seqs.FilterMap(rows, t => JoinBook(s, t), (tw: TestWithBook) => tw.test.bookId == Some(bookId), keep);
  }

  function GetTest(s: MemStorage, id: int): (r: Option<TestWithBook>)
    ensures r.Some? <==> id >= 0 && id as nat in s.tests
    ensures r.Some? ==> r.value.test == s.tests[id as nat] && r.value.book == AttachBook(s, r.value.test)
  {
    match Lookup(s.tests, id)
    case None => None
    case Some(t) => Some(JoinBook(s, t))
  }

  function CreateTest(s: MemStorage, ins: InsertTest): (r: (MemStorage, Test))
    ensures r.1 == Test(s.nextTest, ins.title, ins.bookId, ins.questionCount, ins.difficulty, ins.testType)
    ensures r.0.tests == s.tests[s.nextTest := r.1] && r.0.nextTest == s.nextTest + 1
    ensures r.0 == s.(tests := r.0.tests, nextTest := r.0.nextTest)
    ensures Valid(s) ==> Valid(r.0)
    ensures InOrder(r.0.tests, r.0.nextTest) == InOrder(s.tests, s.nextTest) + [r.1]
  {
    var t := Test(s.nextTest, ins.title, ins.bookId, ins.questionCount, ins.difficulty, ins.testType);
    AppendListsLast(s.tests, s.nextTest, t);
    (s.(tests := s.tests[s.nextTest := t], nextTest := s.nextTest + 1), t)
  }

  // ---------------------------------------------------------------- reading progress

  /** Every progress row of one user, in insertion order. */
  function GetUserProgress(s: MemStorage, userId: int): (r: seq<UserProgress>)
    ensures forall i :: 0 <= i < |r| ==> r[i].userId == userId && r[i] in s.progresses.Values
    ensures forall k :: k in s.progresses && k < s.nextProgress && s.progresses[k].userId == userId ==> s.progresses[k] in r
    ensures Valid(s) ==> forall i, j :: 0 <= i < j < |r| ==> r[i].id < r[j].id
  {
    var rows := InOrder(s.progresses, s.nextProgress);
    var keep := (p: UserProgress) => p.userId == userId;
    FilterInOrderComplete(s.progresses, s.nextProgress, keep);
    assert Valid(s) ==> forall i, j :: 0 <= i < j < |Seqs.Filter(rows, keep)| ==>
      Seqs.Filter(rows, keep)[i].id < Seqs.Filter(rows, keep)[j].id by {
      if Valid(s) {
        ProgressesSorted(s.progresses, s.nextProgress, keep);
      }
    }
    Seqs.Filter(rows, keep)
  }

  /** A filtered listing of keyed progress rows is in ascending id order. */
  lemma ProgressesSorted(m: map<nat, UserProgress>, n: nat, keep: UserProgress -> bool)
    requires ProgressesKeyed(m, n)
    ensures forall i, j :: 0 <= i < j < |Seqs.Filter(InOrder(m, n), keep)| ==>
      Seqs.Filter(InOrder(m, n), keep)[i].id < Seqs.Filter(InOrder(m, n), keep)[j].id
  {
    FilterInOrderSorted(m, n, keep, (p: UserProgress) => p.id as int);
  }

  /** True of the progress rows of one user for one book. */
  predicate IsProgressOf(p: UserProgress, userId: int, bookId: int)
  {
    p.userId == userId && p.bookId == bookId
  }

  /** The oldest (lowest-id) progress row of one user for one book. */
  function GetUserBookProgress(s: MemStorage, userId: int, bookId: int): (r: Option<UserProgress>)
    ensures r.Some? ==> IsProgressOf(r.value, userId, bookId) && r.value in s.progresses.Values
    ensures r.None? <==> forall k :: k in s.progresses && k < s.nextProgress ==> !IsProgressOf(s.progresses[k], userId, bookId)
    ensures Valid(s) && r.Some? ==>
      forall k :: k in s.progresses && IsProgressOf(s.progresses[k], userId, bookId) ==> r.value.id <= k
  {
    var rows := InOrder(s.progresses, s.nextProgress);
    var p := (x: UserProgress) => IsProgressOf(x, userId, bookId);
    match Seqs.FindIndex(rows, p)
    case None =>
      FindNoneInOrder(s.progresses, s.nextProgress, p);
      None
    case Some(i) =>
      FindSomeInOrder(s.progresses, s.nextProgress, p, i);
      Some(rows[i])
  }

  /** Stores a new progress row; absent numbers default to 0 and absent completion to false. */
  function CreateUserProgress(s: MemStorage, ins: InsertUserProgress): (r: (MemStorage, UserProgress))
    ensures r.1.id == s.nextProgress && r.0.nextProgress == s.nextProgress + 1
    ensures r.1.userId == ins.userId && r.1.bookId == ins.bookId
    ensures r.1.progress == ins.progress.GetOr(0) && r.1.currentPage == ins.currentPage.GetOr(0)
    ensures r.1.totalPages == ins.totalPages.GetOr(0) && r.1.completed == ins.completed.GetOr(false)
    ensures r.1.lastReadAt == Some(ins.lastReadAt)
    ensures r.0.progresses == s.progresses[s.nextProgress := r.1]
    ensures r.0 == s.(progresses := r.0.progresses, nextProgress := r.0.nextProgress)
    ensures Valid(s) ==> Valid(r.0)
    ensures InOrder(r.0.progresses, r.0.nextProgress) == InOrder(s.progresses, s.nextProgress) + [r.1]
  {
    var p := UserProgress(s.nextProgress, ins.userId, ins.bookId, ins.progress.GetOr(0), ins.currentPage.GetOr(0),
                          ins.totalPages.GetOr(0), Some(ins.lastReadAt), ins.completed.GetOr(false));
    AppendListsLast(s.progresses, s.nextProgress, p);
    (s.(progresses := s.progresses[s.nextProgress := p], nextProgress := s.nextProgress + 1), p)
  }

  /** A partial progress row; a present field overwrites the stored one and `None` keeps it. */
  datatype ProgressPatch = ProgressPatch(userId: Option<int>, bookId: Option<int>, progress: Option<int>,
                                         currentPage: Option<int>, totalPages: Option<int>,
                                         lastReadAt: Option<Timestamp>, completed: Option<bool>)

  const NoProgressChange := ProgressPatch(None, None, None, None, None, None, None)

  /** `{ ...existing, ...patch }` for progress rows, a `None` standing for a key the patch does not carry. */
  function PatchProgress(e: UserProgress, p: ProgressPatch): (r: UserProgress)
    ensures r.id == e.id
  {
    UserProgress(e.id, p.userId.GetOr(e.userId), p.bookId.GetOr(e.bookId), p.progress.GetOr(e.progress),
                 p.currentPage.GetOr(e.currentPage), p.totalPages.GetOr(e.totalPages),
                 if p.lastReadAt.Some? then p.lastReadAt else e.lastReadAt, p.completed.GetOr(e.completed))
  }

  /** The empty patch changes nothing, and applying a patch twice is applying it once. */
  lemma PatchProgressLaws(e: UserProgress, p: ProgressPatch)
    ensures PatchProgress(e, NoProgressChange) == e
    ensures PatchProgress(PatchProgress(e, p), p) == PatchProgress(e, p)
  {
  }

  /** Merges a patch into the stored row with that id; an unknown id is an error. */
  function UpdateUserProgress(s: MemStorage, id: int, patch: ProgressPatch): (r: Result<(MemStorage, UserProgress), StoreError>)
    ensures r.Failure? <==> !(id >= 0 && id as nat in s.progresses)
    ensures r.Failure? ==> r.error == NotFound(id)
    ensures r.Success? ==> r.value.1 == PatchProgress(s.progresses[id as nat], patch)
    ensures r.Success? ==> r.value.0 == s.(progresses := s.progresses[id as nat := r.value.1])
    ensures r.Success? && Valid(s) ==> Valid(r.value.0)
    ensures r.Success? ==> |InOrder(r.value.0.progresses, s.nextProgress)| == |InOrder(s.progresses, s.nextProgress)|
  {
    match Lookup(s.progresses, id)
    case None => Failure(NotFound(id))
    case Some(e) =>
      var u := PatchProgress(e, patch);
      OverwriteKeepsPlace(s.progresses, s.nextProgress, id as nat, u);
      Success((s.(progresses := s.progresses[id as nat := u]), u))
  }

  // ---------------------------------------------------------------- test results

  /** Every result row of one user, in insertion order. */
  function GetUserTestResults(s: MemStorage, userId: int): (r: seq<TestResult>)
    ensures forall i :: 0 <= i < |r| ==> r[i].userId == userId && r[i] in s.results.Values
    ensures forall k :: k in s.results && k < s.nextResult && s.results[k].userId == userId ==> s.results[k] in r
    ensures Valid(s) ==> forall i, j :: 0 <= i < j < |r| ==> r[i].id < r[j].id
  {
    var rows := InOrder(s.results, s.nextResult);
    var keep := (x: TestResult) => x.userId == userId;
    FilterInOrderComplete(s.results, s.nextResult, keep);
    assert Valid(s) ==> forall i, j :: 0 <= i < j < |Seqs.Filter(rows, keep)| ==>
      Seqs.Filter(rows, keep)[i].id < Seqs.Filter(rows, keep)[j].id by {
      if Valid(s) {
        ResultsSorted(s.results, s.nextResult, keep);
      }
    }
    Seqs.Filter(rows, keep)
  }

  /** A filtered listing of keyed result rows is in ascending id order. */
  lemma ResultsSorted(m: map<nat, TestResult>, n: nat, keep: TestResult -> bool)
    requires ResultsKeyed(m, n)
    ensures forall i, j :: 0 <= i < j < |Seqs.Filter(InOrder(m, n), keep)| ==>
      Seqs.Filter(InOrder(m, n), keep)[i].id < Seqs.Filter(InOrder(m, n), keep)[j].id
  {
    FilterInOrderSorted(m, n, keep, (x: TestResult) => x.id as int);
  }

  /** The first result row of one user for one test. */
  function GetTestResult(s: MemStorage, userId: int, testId: int): (r: Option<TestResult>)
    ensures r.Some? ==> r.value.userId == userId && r.value.testId == testId && r.value in s.results.Values
    ensures r.None? <==> forall k :: k in s.results && k < s.nextResult ==> !(s.results[k].userId == userId && s.results[k].testId == testId)
    ensures Valid(s) && r.Some? ==>
      forall k :: k in s.results && s.results[k].userId == userId && s.results[k].testId == testId ==> r.value.id <= k
  {
    var rows := InOrder(s.results, s.nextResult);
    var p := (x: TestResult) => x.userId == userId && x.testId == testId;
    match Seqs.FindIndex(rows, p)
    case None =>
      FindNoneInOrder(s.results, s.nextResult, p);
      None
    case Some(i) =>
      FindSomeInOrder(s.results, s.nextResult, p, i);
      Some(rows[i])
  }

  /** The row a result insert becomes: absent completion is false, absent completion time stays absent. */
  function NewResult(id: nat, ins: InsertTestResult): (x: TestResult)
    ensures x.id == id && x.userId == ins.userId && x.testId == ins.testId && x.score == ins.score
    ensures x.completed == ins.completed.GetOr(false) && x.completedAt == ins.completedAt
    ensures x.metadata == ins.metadata && x.testTitle == ins.testTitle && x.maxScore == ins.maxScore
  {
    TestResult(id, ins.userId, ins.testId, ins.score, ins.completed.GetOr(false), ins.completedAt,
               ins.metadata, ins.testTitle, ins.maxScore)
  }

  /** Stores a new result under the next result id. */
  function CreateTestResult(s: MemStorage, ins: InsertTestResult): (r: (MemStorage, TestResult))
    ensures r.1 == NewResult(s.nextResult, ins) && r.0.nextResult == s.nextResult + 1
    ensures r.0.results == s.results[s.nextResult := r.1]
    ensures r.0 == s.(results := r.0.results, nextResult := r.0.nextResult)
    ensures Valid(s) ==> Valid(r.0)
    ensures InOrder(r.0.results, r.0.nextResult) == InOrder(s.results, s.nextResult) + [r.1]
  {
    var x := NewResult(s.nextResult, ins);
    AppendListsLast(s.results, s.nextResult, x);
    (s.(results := s.results[s.nextResult := x], nextResult := s.nextResult + 1), x)
  }

  /** A partial result row; a present field overwrites the stored one. */
  datatype ResultPatch = ResultPatch(userId: Option<int>, testId: Option<int>, score: Option<int>,
                                     completed: Option<bool>, completedAt: Option<Timestamp>,
                                     metadata: Option<string>, testTitle: Option<string>, maxScore: Option<int>)

  const NoResultChange := ResultPatch(None, None, None, None, None, None, None, None)

  /** `{ ...existing, ...patch }` for result rows. */
  function PatchResult(e: TestResult, p: ResultPatch): (r: TestResult)
    ensures r.id == e.id
  {
    TestResult(e.id, p.userId.GetOr(e.userId), p.testId.GetOr(e.testId), p.score.GetOr(e.score),
               p.completed.GetOr(e.completed), if p.completedAt.Some? then p.completedAt else e.completedAt,
               if p.metadata.Some? then p.metadata else e.metadata,
               if p.testTitle.Some? then p.testTitle else e.testTitle,
               if p.maxScore.Some? then p.maxScore else e.maxScore)
  }

  lemma PatchResultLaws(e: TestResult, p: ResultPatch)
    ensures PatchResult(e, NoResultChange) == e
    ensures PatchResult(PatchResult(e, p), p) == PatchResult(e, p)
  {
  }

  function UpdateTestResult(s: MemStorage, id: int, patch: ResultPatch): (r: Result<(MemStorage, TestResult), StoreError>)
    ensures r.Failure? <==> !(id >= 0 && id as nat in s.results)
    ensures r.Failure? ==> r.error == NotFound(id)
    ensures r.Success? ==> r.value.1 == PatchResult(s.results[id as nat], patch)
    ensures r.Success? ==> r.value.0 == s.(results := s.results[id as nat := r.value.1])
    ensures r.Success? && Valid(s) ==> Valid(r.value.0)
  {
    match Lookup(s.results, id)
    case None => Failure(NotFound(id))
    case Some(e) =>
      var u := PatchResult(e, patch);
      Success((s.(results := s.results[id as nat := u]), u))
  }
}

=== FILE: text.dfy ===
/**
 * The JavaScript string primitives the source relies on: `trim`, case
 * mapping, `split`/`join`, `includes`, `startsWith` and number rendering.
 */
module Text {

  /** The characters `String.prototype.trim` removes (white space and line terminators). */
  predicate IsWhitespace(c: char)
  {
    c == ' ' || c == '\t' || c == '\n' || c == '\r' || c == '\U{000B}' || c == '\U{000C}'
    || c == '\U{00A0}' || c == '\U{1680}' || ('\U{2000}' <= c <= '\U{200A}')
    || c == '\U{2028}' || c == '\U{2029}' || c == '\U{202F}' || c == '\U{205F}'
    || c == '\U{3000}' || c == '\U{FEFF}'
  }

  predicate AllWhitespace(s: string)
  {
    forall i :: 0 <= i < |s| ==> IsWhitespace(s[i])
  }

  /** Where the trimmed text starts and ends: all of `s` outside [lo, hi) is white space. */
  function TrimBounds(s: string): (b: (nat, nat))
    ensures b.0 <= b.1 <= |s|
    ensures AllWhitespace(s[..b.0]) && AllWhitespace(s[b.1..])
    ensures b.0 < b.1 ==> !IsWhitespace(s[b.0]) && !IsWhitespace(s[b.1 - 1])
  {
    var lo := LeadingWhitespace(s, 0);
    if lo == |s| then (lo, lo) else (lo, TrailingEnd(s, |s|, lo))
  }

  /** The first index at or after `i` that is not white space, or |s|. */
  function LeadingWhitespace(s: string, i: nat): (lo: nat)
    requires i <= |s| && AllWhitespace(s[..i])
    ensures i <= lo <= |s| && AllWhitespace(s[..lo])
    ensures lo < |s| ==> !IsWhitespace(s[lo])
    decreases |s| - i
  {
    if i < |s| && IsWhitespace(s[i]) then
      assert s[..i + 1] == s[..i] + [s[i]];
      LeadingWhitespace(s, i + 1)
    else i
  }

  /** The end of `s[..j]` with trailing white space removed, never below `lo`. */
  function TrailingEnd(s: string, j: nat, lo: nat): (hi: nat)
    requires lo < j <= |s| && AllWhitespace(s[j..]) && !IsWhitespace(s[lo])
    ensures lo < hi <= j && AllWhitespace(s[hi..]) && !IsWhitespace(s[hi - 1])
    decreases j
  {
    if IsWhitespace(s[j - 1]) then
      assert s[j - 1..] == [s[j - 1]] + s[j..];
      TrailingEnd(s, j - 1, lo)
    else j
  }

  /** `s.trim()`: the piece of `s` between its leading and trailing white space. */
  function Trim(s: string): (r: string)
    ensures |r| > 0 ==> !IsWhitespace(r[0]) && !IsWhitespace(r[|r| - 1])
    ensures |r| == 0 <==> AllWhitespace(s)
    ensures r == s[TrimBounds(s).0..TrimBounds(s).1]
  {
    var b := TrimBounds(s);
    assert b.0 == b.1 ==> s == s[..b.0] + s[b.1..];
    s[b.0..b.1]
  }

  /** Lower-casing of one character: Latin and Cyrillic capitals, other characters unchanged. */
  function LowerChar(c: char): char
  {
    if 'A' <= c <= 'Z' then (c as int + 32) as char
    else if 'А' <= c <= 'Я' then (c as int + 32) as char
    else if 'Ѐ' <= c <= 'Џ' then (c as int + 80) as char
    else if c == 'Ґ' then 'ґ'
    else c
  }

  /** Upper-casing of one character, the inverse mapping of `LowerChar`. */
  function UpperChar(c: char): char
  {
    if 'a' <= c <= 'z' then (c as int - 32) as char
    else if 'а' <= c <= 'я' then (c as int - 32) as char
    else if 'ѐ' <= c <= 'џ' then (c as int - 80) as char
    else if c == 'ґ' then 'Ґ'
    else c
  }

  function Lower(s: string): (r: string)
    ensures |r| == |s|
    ensures forall i :: 0 <= i < |s| ==> r[i] == LowerChar(s[i])
  {
    seq(|s|, i requires 0 <= i < |s| => LowerChar(s[i]))
  }

  function Upper(s: string): (r: string)
    ensures |r| == |s|
    ensures forall i :: 0 <= i < |s| ==> r[i] == UpperChar(s[i])
  {
    seq(|s|, i requires 0 <= i < |s| => UpperChar(s[i]))
  }

  /** Lower-casing twice is lower-casing once. */
  lemma LowerIdempotent(s: string)
    ensures Lower(Lower(s)) == Lower(s)
  {
  }

  /** Upper-casing twice is upper-casing once. */
  lemma UpperIdempotent(s: string)
    ensures Upper(Upper(s)) == Upper(s)
  {
  }

  /** `s.includes(sub)`: `sub` occurs in `s` at some position. */
  predicate Contains(s: string, sub: string)
  {
    sub <= s || (|s| > 0 && Contains(s[1..], sub))
  }

  /** An occurrence at a known position makes `Contains` true. */
  lemma {:induction false} ContainsAt(s: string, sub: string, i: nat)
    requires i + |sub| <= |s| && s[i..i + |sub|] == sub
    ensures Contains(s, sub)
  {
    if i == 0 {
      assert sub <= s;
    } else {
      assert s[1..][i - 1..i - 1 + |sub|] == sub;
      ContainsAt(s[1..], sub, i - 1);
    }
  }

  /** The empty string occurs in every string. */
  lemma ContainsEmpty(s: string)
    ensures Contains(s, "")
  {
  }

  /** `s.startsWith(prefix)`. */
  predicate StartsWith(s: string, prefix: string)
  {
    prefix <= s
  }

  /** `s.split(sep)` for a one-character separator: never empty, pieces free of `sep`. */
  function Split(s: string, sep: char): (r: seq<string>)
    ensures |r| >= 1
    ensures forall k :: 0 <= k < |r| ==> sep !in r[k]
  {
    if |s| == 0 then [""]
    else if s[0] == sep then [""] + Split(s[1..], sep)
    else
      var rest := Split(s[1..], sep);
      [[s[0]] + rest[0]] + rest[1..]
  }

  /** `parts.join(sep)`. */
  function Join(parts: seq<string>, sep: string): string
  {
    if |parts| == 0 then ""
    else if |parts| == 1 then parts[0]
    else parts[0] + sep + Join(parts[1..], sep)
  }

  lemma JoinAppend(a: seq<string>, b: seq<string>, sep: string)
    requires |a| > 0 && |b| > 0
    ensures Join(a + b, sep) == Join(a, sep) + sep + Join(b, sep)
  {
    if |a| == 1 {
      assert (a + b)[1..] == b;
    } else {
      assert (a + b)[1..] == a[1..] + b;
      JoinAppend(a[1..], b, sep);
    }
  }

  /** Joining the pieces of a split with the same separator restores the string. */
  lemma {:induction false} JoinSplit(s: string, sep: char)
    ensures Join(Split(s, sep), [sep]) == s
  {
    if |s| == 0 {
    } else if s[0] == sep {
      JoinSplit(s[1..], sep);
      assert Split(s, sep) == [""] + Split(s[1..], sep);
      assert |Split(s, sep)| >= 2;
      assert Split(s, sep)[1..] == Split(s[1..], sep);
      assert s == [sep] + s[1..];
    } else {
      var rest := Split(s[1..], sep);
      JoinSplit(s[1..], sep);
      if |rest| == 1 {
        assert s == [s[0]] + s[1..];
      } else {
        assert ([[s[0]] + rest[0]] + rest[1..])[1..] == rest[1..];
        assert Join(rest, [sep]) == rest[0] + [sep] + Join(rest[1..], [sep]);
        assert s == [s[0]] + s[1..];
      }
    }
  }

  /** A piece without the separator, followed by the separator, splits off as one piece. */
  lemma {:induction false} SplitAfterPiece(a: string, rest: string, sep: char)
    requires sep !in a
    ensures Split(a + [sep] + rest, sep) == [a] + Split(rest, sep)
  {
    if |a| == 0 {
      assert a + [sep] + rest == [sep] + rest;
      assert ([sep] + rest)[1..] == rest;
    } else {
      var s := a + [sep] + rest;
      assert s[1..] == a[1..] + [sep] + rest;
      SplitAfterPiece(a[1..], rest, sep);
      assert [a[0]] + a[1..] == a;
    }
  }

  /** A string without the separator is a single piece. */
  lemma {:induction false} SplitWithoutSeparator(a: string, sep: char)
    requires sep !in a
    ensures Split(a, sep) == [a]
  {
    if |a| > 0 {
      SplitWithoutSeparator(a[1..], sep);
      assert [a[0]] + a[1..] == a;
    }
  }

  /** Splitting a join of separator-free pieces gives the pieces back. */
  lemma {:induction false} SplitJoin(parts: seq<string>, sep: char)
    requires |parts| > 0
    requires forall k :: 0 <= k < |parts| ==> sep !in parts[k]
    ensures Split(Join(parts, [sep]), sep) == parts
  {
    if |parts| == 1 {
      SplitWithoutSeparator(parts[0], sep);
    } else {
      SplitJoin(parts[1..], sep);
      SplitAfterPiece(parts[0], Join(parts[1..], [sep]), sep);
      assert parts == [parts[0]] + parts[1..];
    }
  }

  /** `sub` occurs in `s` starting at index `i`. */
  predicate OccursAt(s: string, sub: string, i: nat)
  {
    i + |sub| <= |s| && s[i..i + |sub|] == sub
  }

  /** The text before the first occurrence of `sep` (`s.split(sep)[0]`), or all of `s`. */
  function BeforeFirst(s: string, sep: string): (r: string)
    requires |sep| > 0
    ensures r <= s
    ensures forall i: nat :: i + |sep| <= |r| ==> !OccursAt(s, sep, i)
    ensures r == s || OccursAt(s, sep, |r|)
    decreases |s|
  {
    if sep <= s then
      assert OccursAt(s, sep, 0);
      ""
    else if |s| == 0 then ""
    else
      var rest := BeforeFirst(s[1..], sep);
      assert forall i: nat :: 1 <= i ==> (OccursAt(s, sep, i) <==> OccursAt(s[1..], sep, i - 1));
      assert !OccursAt(s, sep, 0);
      [s[0]] + rest
  }

  function DigitChar(d: nat): char
    requires d < 10
  {
    ('0' as int + d) as char
  }

  /** Decimal digits of a natural number, most significant first, no leading zeros. */
  function NatToDecimal(n: nat): (r: string)
    ensures |r| >= 1
    ensures forall i :: 0 <= i < |r| ==> '0' <= r[i] <= '9'
  {
    if n < 10 then [DigitChar(n)] else NatToDecimal(n / 10) + [DigitChar(n % 10)]
  }

  /** `${n}` for an integer. */
  function IntToDecimal(n: int): string
  {
    if n < 0 then "-" + NatToDecimal(-n) else NatToDecimal(n)
  }

  /** The value of a string of decimal digits. */
  function DecimalValue(s: string): nat
    requires forall i :: 0 <= i < |s| ==> '0' <= s[i] <= '9'
  {
    if |s| == 0 then 0 else 10 * DecimalValue(s[..|s| - 1]) + (s[|s| - 1] as int - '0' as int)
  }

  /** A decimal rendering of an integer: an optional minus sign, then digits. */
  predicate IsIntText(s: string)
  {
    |s| > 0 && (forall i :: 1 <= i < |s| ==> '0' <= s[i] <= '9') && (s[0] == '-' || '0' <= s[0] <= '9')
  }

  /** `parseInt` on a decimal rendering: an optional minus sign, then digits. */
  function ParseInt(s: string): int
    requires IsIntText(s)
  {
    if s[0] == '-' then -(DecimalValue(s[1..]) as int) else DecimalValue(s)
  }

  lemma {:induction false} DecimalRoundTrip(n: nat)
    ensures DecimalValue(NatToDecimal(n)) == n
  {
    if n >= 10 {
      DecimalRoundTrip(n / 10);
      var r := NatToDecimal(n);
      assert r[..|r| - 1] == NatToDecimal(n / 10);
    }
  }

  /** Rendering an integer and parsing it back gives the integer. */
  lemma IntRoundTrip(n: int)
    ensures IsIntText(IntToDecimal(n)) && ParseInt(IntToDecimal(n)) == n
  {
    if n < 0 {
      DecimalRoundTrip(-n);
      assert IntToDecimal(n)[1..] == NatToDecimal(-n);
    } else {
      DecimalRoundTrip(n);
    }
  }
}

=== FILE: theory.dfy ===
/**
 * The theory page (client/src/pages/theory.tsx): the exam-list books grouped under
 * their authors' names, one heading per author in order of first appearance.
 */
module Theory {
  import opened Wrappers
  import opened Schema
  import opened Grouping
  import Seqs

  /** Every book carries its author, so `book.author.name` can be read for each. */
  predicate AllAuthored(books: seq<BookWithAuthor>)
  {
    forall i :: 0 <= i < |books| ==> books[i].author.Some?
  }

  /** The grouping key; a book without an author has no name to group under. */
  function AuthorName(b: BookWithAuthor): string
  {
    match b.author
    case Some(a) => a.name
    case None => ""
  }

  /**
   * `booksByAuthor`: `None` stands for the `TypeError` the reduce raises on the first book
   * whose author is missing; otherwise one group per author name.
   */
  function BooksByAuthor(books: seq<BookWithAuthor>): (r: Option<seq<Group<string, BookWithAuthor>>>)
    ensures r.None? <==> exists i :: 0 <= i < |books| && books[i].author.None?
    ensures r.Some? ==> GroupsOf(r.value, books, AuthorName) && Count(r.value) == |books|
    ensures r.Some? ==> forall i, j :: 0 <= i < |r.value| && 0 <= j < |r.value[i].members| ==>
      r.value[i].members[j].author.Some? && r.value[i].members[j].author.value.name == r.value[i].key
  {
    if AllAuthored(books) then
      GroupBySpec(books, AuthorName);
      Some(GroupBy(books, AuthorName))
    else
      None
  }

  /** What the page body shows. */
  datatype View =
    | Crashed
    | Loading
    | Authors(groups: seq<Group<string, BookWithAuthor>>)
    | NothingFound

  /**
   * The page body. The grouping runs on every render, before the loading check, so a
   * missing author breaks the page whatever the loading flag says; an empty list still
   * groups to an empty object, which is truthy, so it shows no headings rather than the
   * "nothing found" message, which appears only while there is no data at all.
   */
  function PageView(isLoading: bool, data: Option<seq<BookWithAuthor>>): (v: View)
    ensures v.Crashed? <==> data.Some? && !AllAuthored(data.value)
    ensures v.Loading? <==> isLoading && !v.Crashed?
    ensures v.NothingFound? <==> !isLoading && data.None?
    ensures v.Authors? ==> data.Some? && Count(v.groups) == |data.value|
    ensures !isLoading && data == Some([]) ==> v == Authors([])
  {
    match data
    case Some(books) =>
      (match BooksByAuthor(books)
       case None => Crashed
       case Some(groups) => if isLoading then Loading else Authors(groups))
    case None => if isLoading then Loading else NothingFound
  }

  /** The count badge: `books?.length || 0`. */
  function BadgeCount(data: Option<seq<BookWithAuthor>>): (n: nat)
    ensures data.Some? ==> n == |data.value|
    ensures data.None? ==> n == 0
  {
    match data
    case Some(books) => |books|
    case None => 0
  }

  /** Each book is listed under its own author's name, and under no other heading. */
  lemma ListedUnderItsAuthor(books: seq<BookWithAuthor>, j: nat)
    requires AllAuthored(books) && j < |books|
    ensures var groups := BooksByAuthor(books).value;
      exists i :: 0 <= i < |groups| && groups[i].key == books[j].author.value.name && books[j] in groups[i].members
    ensures var groups := BooksByAuthor(books).value;
      forall i :: 0 <= i < |groups| && books[j] in groups[i].members ==> groups[i].key == books[j].author.value.name
  {
    assert BooksByAuthor(books).value == GroupBy(books, AuthorName);
    assert AuthorName(books[j]) == books[j].author.value.name;
    FoundInItsGroup(books, AuthorName, j);
  }

  /** Under each heading the books keep the order the server listed them in. */
  lemma HeadingKeepsOrder(books: seq<BookWithAuthor>, i: nat)
    requires AllAuthored(books)
    ensures i < |BooksByAuthor(books).value| ==> Seqs.Subsequence(BooksByAuthor(books).value[i].members, books)
  {
    if i < |BooksByAuthor(books).value| {
      GroupKeepsOrder(books, AuthorName, i);
    }
  }
}

=== FILE: wrappers.dfy ===
/** Optional values: the model's rendering of `undefined`/`null` in the source. */
module Wrappers {

  datatype Option<+T> = None | Some(value: T) {

    /** The carried value, or `default` when there is none (the `??` operator). */
    function GetOr(default: T): T {
      match this
      case Some(v) => v
      case None => default
    }
  }

  /** A value or an error: the model's rendering of a thrown exception. */
  datatype Result<+T, +E> = Success(value: T) | Failure(error: E)
}
